=== FILE: README.md ===
# PetAdop core in Dafny

PetAdop is a pet-adoption site made of three parts, each modelled here as pure functions over immutable values:

- **The pets API** (`src/`): accounts with registration, login, token refresh and logout; the user schema and its JSON view; and the pet listings with filtering, paging, creation, update, status change, deletion and the route table guarding them.
- **The chat backend** (`backhend/src/`):
  - the REST chat routes and the chat store: conversations with per-participant unread counters and a last-message preview, and messages paged by a `before` cursor;
  - the socket server: handshake token choice, rooms, typing, live messages and read receipts;
  - the bearer-token middleware, the CORS policy and the password-reset token state machine.
- **The web front end** (`petadop-frontend/src/`): the axios client with its base URL, token header, URL normalisation and refresh-and-retry rule; the session store; and the pure logic of four pages (pet details, my listings, reset password, forgot password).

Each source file is one Dafny module. The store (MongoDB) is a sequence or map of records. Anything outside the program is a parameter:

- clocks: integer timestamps;
- randomness: the reset token;
- hashing, token signing and verification;
- the answers of the HTTP API as seen by the client.

JavaScript's dynamic values, truthiness, `String()`, `Number()`, `trim`, `toLowerCase` and `encodeURIComponent` are written out in the modules `Js`, `Strings` and `Uri`. The two server trees keep separate rules, as in the source.

In two places the chat backend does less than a reader of its route names might expect, and the model follows the code:

- Sending to, or reading the history of, a conversation that does not exist is not answered with 404.
- `markRead` writes the reader's counter without checking that the reader is a participant.

As written, the chat backend does not start. `backhend/src/server.js:8` imports the named export `SOCKET_CORS` from `app.js`, an ES module whose only export is its default (`backhend/src/app.js:87`), so loading it fails. `backhend/src/routes/chat.routes.js:4` and `backhend/src/controllers/chat.controller.js:2` import `../models/Message.js`, while the file is `models/message.js`, which a case-sensitive file system does not find. The chat modules describe each handler as it behaves once these imports resolve.

Beyond that, the imports of `createMessage`, `touchConversation` and `markRead` are commented out in `backhend/src/server.js`. The socket handlers therefore take the persistence outcome as a parameter. Lemmas state what happens with those imports as written: every live message fails, and read receipts are not persisted.

## Model

| member | source | states |
|---|---|---|
| Search.First | src/controllers/auth.controller.js:63 | `findOne` over a collection in insertion order: the position found passes the filter and none before it does; none is found only when no element passes |
| Search.FirstAt | src/controllers/auth.controller.js:63 | an element that passes, with none passing before it, is the one `findOne` returns |
| Search.FirstAppend | backhend/src/controllers/chat.controller.js:13-19 | a document inserted because no document matched is the one found by the same filter afterwards |
| Search.FirstSame | backhend/src/controllers/chat.controller.js:9 | two filters that agree on every stored document find the same document |
| Search.FirstAlike | backhend/src/controllers/chat.controller.js:43 | two collections whose documents the filters judge alike, position by position, yield the same position |
| ChatController.FindConversation | backhend/src/controllers/chat.controller.js:8-11 | finds the first conversation holding both users (either order) for the pet, and reports none only when no stored conversation matches |
| ChatController.CreateOrGet | backhend/src/controllers/chat.controller.js:7-21 | an existing match is returned and nothing is stored; otherwise one conversation `[a, b]` for the pet is appended with zero unread counts for both users and no last message; messages are untouched |
| ChatController.CreateOrGetSwapped | backhend/src/controllers/chat.controller.js:8-11 | once a conversation exists, asking with the two users swapped returns the same conversation and stores nothing |
| ChatController.FindSwapped | backhend/src/controllers/chat.controller.js:9 | `$all` ignores order: the lookup is the same for `(a, b)` and `(b, a)` |
| ChatController.CreateOrGetIdempotent | backhend/src/controllers/chat.controller.js:7-21 | a second call, in either user order and at any later time, returns the same conversation and changes nothing |
| ChatController.FindAppended | backhend/src/controllers/chat.controller.js:13-19 | a conversation created because none matched is the one found next time |
| ChatController.CreateOrGetNoDuplicates | backhend/src/controllers/chat.controller.js:7-21 | the store never gains two conversations for the same pair and pet |
| ChatController.CreateOrGetWellFormed | backhend/src/controllers/chat.controller.js:14-18 | conversation and message ids stay the texts of their positions, and so stay distinct |
| ChatController.CreateMessage | backhend/src/controllers/chat.controller.js:26-37 | appends exactly one message carrying the given conversation, sender, text, attachments and time, changes no conversation, and returns it with the sender populated: a user document exactly when the sender is a stored user, else null |
| ChatController.CreateMessageWellFormed | backhend/src/controllers/chat.controller.js:26-32 | storing a message keeps the store's invariants |
| ChatController.Bump | backhend/src/controllers/chat.controller.js:47-52 | every participant other than the sender gains one unread per time listed; the sender's and non-participants' counts are unchanged |
| ChatController.PreviewText | backhend/src/controllers/chat.controller.js:55 | the preview is never empty: the text itself, or a placeholder when the text is empty |
| ChatController.Touch | backhend/src/controllers/chat.controller.js:42-61 | as written, with the populated message: a missing conversation changes nothing; otherwise only that conversation changes, its last message records the preview, the time and the sender's id, and every participant that is an ObjectId text gains one unread per time listed, the sender included |
| ChatController.SenderText | backhend/src/controllers/chat.controller.js:48-49 | `String(msg.sender)` of a populated sender is "[object Object]" or "null", never an ObjectId text |
| ChatController.SenderIdOf | backhend/src/controllers/chat.controller.js:57 | `by` records the populated user's id, or null when the sender is not a stored user |
| ChatController.TouchWith | backhend/src/controllers/chat.controller.js:42-61 | for the text the participants are compared with: other conversations untouched, identity kept, the preview set, entries other than that text bumped once per listing, others' counters kept |
| ChatController.TouchBumpsSender | backhend/src/controllers/chat.controller.js:35-52 | as written, a touch with the populated message raises every listed participant's count by one, the sender's included |
| ChatController.TouchBySender | backhend/src/controllers/chat.controller.js:42-61 | corrected: compared with the sender's id, the sender's count stays and every other participant gains one per listing |
| ChatController.TouchCountsOnce | backhend/src/controllers/chat.controller.js:46-52 | corrected (compared with the sender's id): with distinct participants, each other participant's unread count rises by exactly one and the sender's and non-participants' stay |
| ChatController.DistinctOnce | backhend/src/models/conversation.js:5 | a user listed once among participants is counted once |
| ChatController.ReadTime | backhend/src/controllers/chat.controller.js:66 | the default parameter: an omitted `at` becomes the current time, a given one is kept |
| ChatController.MarkRead | backhend/src/controllers/chat.controller.js:66-72 | a missing conversation gives no answer and no change; otherwise that user's count is set to zero (added if absent), other counts and conversations are untouched, and `{ok: true, at}` is returned; no membership check is made |
| ChatController.MarkReadIdempotent | backhend/src/controllers/chat.controller.js:66-72 | marking read twice at the same time is the same as once |
| ChatController.IndexOfSameIds | backhend/src/controllers/chat.controller.js:43 | `findById` over two stores with the same ids at the same positions finds the same position: updates that keep ids do not move a lookup |
| ChatController.UpdatesKeepInvariants | backhend/src/controllers/chat.controller.js:42-72 | `touchConversation` and `markRead` keep conversation and message ids the texts of their positions, hence distinct, and pairs unduplicated |
| ChatController.SameShapeKeepsInvariants | backhend/src/models/conversation.js:3-16 | any update keeping ids, participants and pets keeps the invariants |
| ChatRoutes.Mine | backhend/src/routes/chat.routes.js:21 | `find({participants: me})`: exactly the conversations that include the caller, each as often as stored |
| ChatRoutes.ListConversations | backhend/src/routes/chat.routes.js:18-28 | exactly the smaller of 50 and the number of the caller's conversations, drawn from them without repetition, newest `updatedAt` first |
| ChatRoutes.ListConversationsNewest | backhend/src/routes/chat.routes.js:21-23 | the list is as long as the smaller of 50 and the caller's count; every conversation left out is no newer than every one listed, and with 50 or fewer all are listed |
| ChatRoutes.PetOf | backhend/src/routes/chat.routes.js:38-40 | a nullish `petId` means a conversation for no pet |
| ChatRoutes.Start | backhend/src/routes/chat.routes.js:35-45 | a falsy `partnerId` answers 400 "partnerId required" and stores nothing; otherwise the answer is the stored conversation between the caller and the partner for the pet |
| ChatRoutes.Matching | backhend/src/routes/chat.routes.js:55-56 | exactly the conversation's messages, and with a cursor only those created before it |
| ChatRoutes.NewestPage | backhend/src/routes/chat.routes.js:57-58 | exactly the smaller of 30 and the number of the conversation's messages before the cursor, drawn from them without repetition, oldest first |
| ChatRoutes.NewestPageIsNewest | backhend/src/routes/chat.routes.js:57 | the page keeps the newest matching messages, as many as the smaller of 30 and their count: any message left out is no newer than any kept, and 30 or fewer are all kept |
| ChatRoutes.ListMessages | backhend/src/routes/chat.routes.js:51-62 | without a truthy `before` the newest page; with one the page before that date; an unreadable date is a server error |
| ChatRoutes.LengthOf | backhend/src/routes/chat.routes.js:73 | `attachments?.length`: an array's length, undefined on a nullish value |
| ChatRoutes.TextOf | backhend/src/models/message.js:7 | the schema's String cast: a missing text is stored as the default "", null as null, a string, number or boolean as its text, an object with a string `_id` as that id; an array or any other object fails the cast |
| ChatRoutes.AttachmentsOf | backhend/src/models/message.js:8-15 | as written, the element's `type` key makes the path an array of strings: nothing for a missing value, the String cast of each element of an array, refused exactly when some element cannot be cast, and any other value wrapped as one element |
| ChatRoutes.TextsStored | backhend/src/models/message.js:8-15 | as written, an array of strings is stored as exactly those strings, in order |
| ChatRoutes.ObjectAttachmentRefused | backhend/src/models/message.js:8-15 | as written, an object without a string `_id`, alone or as any element of the array, makes the cast fail |
| ChatRoutes.StoredString | backhend/src/models/message.js:10-12 | a String field as stored: absent and null are kept, a string is kept, and the cast fails exactly when Mongoose's String cast does |
| ChatRoutes.DocumentOf | backhend/src/models/message.js:9-14 | corrected: one sub-document is stored exactly when the value is an object whose `url`, `name` and `type` cast to String and whose `size` casts to Number; string fields and a numeric size are kept as sent |
| ChatRoutes.DocumentRoundTrip | backhend/src/models/message.js:9-14 | corrected: an attachment sent with text fields and a numeric size is stored field for field |
| ChatRoutes.AttachmentDocuments | backhend/src/models/message.js:8-15 | corrected: nothing for a missing value, a single object wrapped into one sub-document, one sub-document per element of an array; refused exactly when some element is not an object whose fields cast |
| ChatRoutes.PhotoAttachmentRefused | backhend/src/models/message.js:8-15 | as written, a photo sent as `{url, name, type, size}` is answered with an error and nothing is stored, while the bare name `"a.png"` is stored |
| ChatRoutes.PhotoAttachmentStored | backhend/src/models/message.js:8-15 | corrected: the same photo is stored as one sub-document holding its four fields |
| ChatRoutes.Send | backhend/src/routes/chat.routes.js:69-87 | no text and no attachments answers 400 and stores nothing; a body the schema cannot cast, or a failed create, answers an error and stores nothing; a failed touch leaves the message stored but answers an error; otherwise the message, with its sender populated, is appended and the conversation touched with that populated message |
| ChatRoutes.SendStored | backhend/src/routes/chat.routes.js:76-82 | a stored send of a body that casts is `createMessage` followed by `touchConversation` with the populated message |
| ChatRoutes.SendBumpsSender | backhend/src/routes/chat.routes.js:76-82 | as written, a stored send raises every participant's unread count by one, the sender's included |
| ChatRoutes.SendIntended | backhend/src/routes/chat.routes.js:69-87 | corrected: no text and no attachments answers 400; a body that does not cast to the sub-document schema, or a failed create, answers an error and stores nothing; a stored send appends the message with its sub-documents and touches the conversation by the sender's id; a body without attachments gets the reply of the route as written |
| ChatRoutes.SendCountsOnce | backhend/src/routes/chat.routes.js:76-82 | corrected: a sent message raises each other participant's unread count by exactly one and leaves the sender's |
| ChatRoutes.Read | backhend/src/routes/chat.routes.js:93-102 | always answers success; for a stored conversation the caller's unread count becomes zero and the acknowledgement carries `at` or the current time; a missing one answers `data: undefined` |
| Sorting.SortDesc | backhend/src/routes/chat.routes.js:22-57 | `sort({key: -1})`: a descending rearrangement of exactly the same elements |
| Sorting.Take | backhend/src/routes/chat.routes.js:23-57 | `limit(n)`: a prefix of exactly `n` elements, or the whole sequence when it is shorter |
| Sorting.TopKeepsLargest | backhend/src/routes/chat.routes.js:21-23 | sorting newest first and keeping `n` keeps a sub-multiset of the smaller of `n` and the input's length, whose every left-out element is no newer than any kept one |
| Sorting.Reverse | backhend/src/routes/chat.routes.js:58 | `reverse()` puts element `i` at position `\|s\| - 1 - i` |
| Sorting.ReverseAscending | backhend/src/routes/chat.routes.js:57-58 | reversing a newest-first list gives an oldest-first list of the same elements |
| Sorting.OldestFirstPage | backhend/src/routes/chat.routes.js:57-58 | the message page is as long as the smaller of `n` and the input, oldest first, drawn from the stored messages, and leaves out only elements no newer than those kept |
| SocketEvents.RoomOf | backhend/src/server.js:87 | conversation rooms are named `conv:<id>` |
| SocketEvents.PersonalRoom | backhend/src/server.js:95 | personal rooms are named `user:<id>` |
| SocketEvents.RoomsSeparate | backhend/src/server.js:87-95 | a conversation room is never a personal room, and two string ids share a room only when equal |
| SocketEvents.Connect | backhend/src/server.js:90-95 | a socket with an empty user id is disconnected; any other joins exactly its personal room |
| SocketEvents.AdmittedConnects | backhend/src/server.js:75-92 | an admitted token whose `_id` does not print as "" keeps its socket connected |
| SocketEvents.OnJoin | backhend/src/server.js:97-106 | a null or missing payload cannot be destructured and ends the process; any other payload is handled by the join body |
| SocketEvents.JoinRoom | backhend/src/server.js:98-105 | a falsy conversation id changes nothing and emits nothing; otherwise the socket also joins the conversation's room, without membership check, and only the others there are told it is online |
| SocketEvents.LeaveRoom | backhend/src/server.js:108-110 | a truthy conversation id leaves exactly that room; nothing else is left |
| SocketEvents.OnLeave | backhend/src/server.js:108-110 | a null or missing payload ends the process; any other is handled by the leave body |
| SocketEvents.JoinThenLeave | backhend/src/server.js:97-110 | joining a room not yet joined and then leaving it restores the session |
| SocketEvents.JoinTwice | backhend/src/server.js:100 | joining twice is joining once |
| SocketEvents.PersonalRoomKept | backhend/src/server.js:95-110 | no leave removes the personal room |
| SocketEvents.OnTyping | backhend/src/server.js:112-119 | a null or missing payload ends the process; any other is handled by the typing body |
| SocketEvents.Typing | backhend/src/server.js:113-118 | exactly one typing notice, to the others in the room with `isTyping` made boolean, when the conversation id is truthy; otherwise none |
| SocketEvents.TypingReachesJoinedRoom | backhend/src/server.js:97-119 | a typing notice goes only to the room a join of the same conversation enters, and never to a personal room |
| SocketEvents.TrimmedText | backhend/src/server.js:129 | `text?.trim?.()`: a string is trimmed, a value without `trim` gives undefined, an object with a non-callable `trim` throws |
| SocketEvents.Failure | backhend/src/server.js:137-141 | a failed send acknowledges `{error: "send_failed"}` when an ack is given and always tells the sender "Failed to send message" |
| SocketEvents.Deliver | backhend/src/server.js:126-136 | with working persistence one message is appended (sender, conversation, trimmed text, attachments) and broadcast to the room, then acknowledged; a failure stores nothing new and emits the failure notices |
| SocketEvents.OnMessage | backhend/src/server.js:121-142 | a payload without a conversation id or without text and attachments is ignored; any other is delivered (as written: guard on the untrimmed text) |
| SocketEvents.Accepted | backhend/src/server.js:123-124 | the guard, reading a null or missing payload as an empty object, never accepts one |
| SocketEvents.DeliverStored | backhend/src/server.js:126-133 | a stored delivery of a string text is `createMessage` of the trimmed text followed by `touchConversation` |
| SocketEvents.MessageNeverStored | backhend/src/server.js:121-142 | with the persistence imports commented out, every accepted message ends in the failure notices and nothing is stored |
| SocketEvents.BlankMessageStored | backhend/src/server.js:124-129 | as written, a text of one space with no attachments passes the guard and is stored as an empty message with no attachments |
| SocketEvents.OnMessageTrimmed | backhend/src/server.js:124-129 | the guard on the trimmed text: a stored message always has non-empty text or attachments |
| SocketEvents.TrimmedGuardNarrows | backhend/src/server.js:124-129 | the corrected guard refuses exactly the payloads whose only text is whitespace |
| SocketEvents.SocketMatchesRoute | backhend/src/server.js:126-133 | for an already trimmed text, a socket message stores the same as `POST /chat/:id/send` |
| SocketEvents.OnRead | backhend/src/server.js:144-161 | a null or missing payload is destructured before the `try` and ends the process; any other is handled by the read body |
| SocketEvents.ReadReceipt | backhend/src/server.js:145-160 | a falsy conversation id does nothing; otherwise the others in the room are told the reader and the time read (given or now), unless the date cannot be read; the caller's count is reset only when `markRead` is bound |
| SocketEvents.EmptyEventCrashes | backhend/src/server.js:97-144 | as written, each of the four destructuring handlers ends the process on a null or missing payload |
| SocketEvents.GuardedIgnoresEmpty | backhend/src/server.js:123 | corrected with the fallback to an empty object that `chat:message` uses: the four handler bodies ignore an empty payload and change nothing |
| SocketEvents.ReadNeverPersisted | backhend/src/server.js:144-161 | with `markRead` not imported the store is unchanged and the same notices go out |
| SocketAuth.StripBearer | backhend/src/server.js:48-51 | a non-string is returned as is; a string keeps a suffix, unchanged without a leading `Bearer` and its spaces, otherwise at least seven characters shorter and starting with no space |
| SocketAuth.StripBearerOf | backhend/src/server.js:50 | `Bearer` in any letter case, then one or more spaces, then a token: exactly the token remains |
| SocketAuth.BearerSpace | backhend/src/server.js:50 | `"Bearer " + token` strips to the token |
| SocketAuth.ValueRun | backhend/src/server.js:55 | `[^;]+`: the run of non-`;` characters ends at a `;` or at the end |
| SocketAuth.SpaceRun | backhend/src/server.js:55 | `\s*`: the run of spaces ends at a non-space or at the end |
| SocketAuth.CaptureAt | backhend/src/server.js:55 | a capture is the non-empty, `;`-free text right after `accessToken=`, up to the next `;` or the end |
| SocketAuth.FirstMatchSpec | backhend/src/server.js:55 | the search finds a match exactly when some position at the start or after `;` and spaces holds `accessToken=` with a value, and then returns that value |
| SocketAuth.FirstMatchFrom | backhend/src/server.js:55 | the leftmost match is the match at some position |
| SocketAuth.FirstMatchReaches | backhend/src/server.js:55 | a match at any later position means the search succeeds |
| SocketAuth.MatchAtAnchored | backhend/src/server.js:55 | a match found by the scan is anchored at the start or after a `;` |
| SocketAuth.AnchoredMatchAt | backhend/src/server.js:55 | every anchored match is found by the scan |
| SocketAuth.CookieToken | backhend/src/server.js:55-61 | a token is read exactly when the pattern matches; an undecodable value is returned raw |
| SocketAuth.CookieRoundTrip | backhend/src/server.js:53-61 | a cookie `accessToken=<encodeURIComponent(token)>` reads back the token |
| SocketAuth.SoleCookie | backhend/src/server.js:55 | a lone `accessToken=` cookie captures its whole value |
| SocketAuth.ReadCookieToken | backhend/src/server.js:53-62 | no cookie gives null; a string cookie gives its token or null; a truthy non-string cookie throws |
| SocketAuth.NoCookie | backhend/src/server.js:54-56 | headers without a cookie give null |
| SocketAuth.CookieHeader | backhend/src/server.js:53-61 | a cookie header with an encoded token reads the token |
| SocketAuth.Candidates | backhend/src/server.js:67-69 | the three candidates (auth field, header, cookie) are read unless reading the cookie throws |
| SocketAuth.Presented | backhend/src/server.js:71 | `a \|\| b \|\| c`: the first truthy candidate, and falsy only when all three are |
| SocketAuth.PresentedOf | backhend/src/server.js:71 | the presented token is the `\|\|` chain of the candidates, in order |
| SocketAuth.Authenticate | backhend/src/server.js:65-84 | refused with "No token provided" exactly when no candidate is truthy, admitted exactly when the presented token verifies, with `_id` turned into a string; every other path is "Unauthorized" |
| SocketAuth.Verdict | backhend/src/server.js:74-82 | a verified payload admits the socket with `String(_id)`; a failed verification refuses it as "Unauthorized" |
| SocketAuth.AuthenticatePresented | backhend/src/server.js:71-80 | a presented non-empty token is admitted exactly as its verification says |
| SocketAuth.HeaderTokenVerified | backhend/src/server.js:68-80 | a `Bearer <token>` header alone authenticates by that token |
| SocketAuth.HeaderOnly | backhend/src/server.js:68-71 | a `Bearer <token>` header alone presents the token |
| SocketAuth.CookieTokenVerified | backhend/src/server.js:69-80 | an encoded `accessToken` cookie alone authenticates by the decoded token |
| SocketAuth.CookieOnly | backhend/src/server.js:69-71 | a cookie alone presents its token |
| SocketAuth.MissingIdAdmitted | backhend/src/server.js:74-76 | a verified payload without `_id` is admitted with the id "undefined" |
| AuthMiddleware.EnvValue | backhend/src/middleware/auth.js:7-9 | an environment variable is its text when set and undefined otherwise |
| AuthMiddleware.AccessSecret | backhend/src/middleware/auth.js:4-11 | the secret is truthy exactly when one of the three names is set non-empty, and is then the first such one in order |
| AuthMiddleware.BearerToken | backhend/src/middleware/auth.js:15-16 | a string header starting `Bearer ` gives the rest; another string gives null; a non-string header has no `startsWith` and throws |
| AuthMiddleware.UserId | backhend/src/middleware/auth.js:30-33 | the id is the string form of the first truthy of `_id`, `id`, `sub`, and undefined when none is truthy |
| AuthMiddleware.RequestUser | backhend/src/middleware/auth.js:31-35 | the request user copies every payload field and sets both `_id` and `id` to the normalised id |
| AuthMiddleware.PresentedToken | backhend/src/middleware/auth.js:15-18 | a token is presented exactly when the header is a string `Bearer ` followed by at least one character, and it is that rest |
| AuthMiddleware.Auth | backhend/src/middleware/auth.js:13-42 | no token: 401 "Missing Authorization header" (or "Invalid token" when the header is not text); no secret: 500; otherwise the verification decides: pass with the normalised user, 401 "Token expired", or 401 "Invalid token" |
| AuthMiddleware.BearerHeaderPresents | backhend/src/middleware/auth.js:15-16 | a `Bearer <t>` header presents `t` |
| AuthMiddleware.TokenCheckedFirst | backhend/src/middleware/auth.js:18-25 | a missing token is refused with 401 before the secret is looked at |
| AuthMiddleware.LowerCaseSchemeRefused | backhend/src/middleware/auth.js:16 | the scheme is case-sensitive: `bearer <t>` is refused as a missing header |
| AuthMiddleware.RequireSuperAdmin | backhend/src/middleware/auth.js:44-49 | passes exactly a user whose role is the string "superadmin", unchanged; anyone else gets 403 "Forbidden (superadmin only)" |
| AuthMiddleware.AuthThenSuperAdmin | backhend/src/middleware/auth.js:13-49 | a route guarded by `auth` then `requireSuperAdmin`: a rejection by `auth` stands, and the second guard sees the user `auth` attached |
| AuthMiddleware.SuperAdminOnlyWithVerifiedRole | backhend/src/middleware/auth.js:13-49 | the guarded route passes exactly a presented token that the configured secret verifies to a payload with role "superadmin", passing that payload's normalised user; any other verified token gets 403 |
| Cors.TrimEach | backhend/src/app.js:28 | `.map(s => s.trim())`: each part trimmed, in place |
| Cors.NonEmpty | backhend/src/app.js:29 | `.filter(Boolean)`: exactly the non-empty parts |
| Cors.NonEmptyAppend | backhend/src/app.js:29 | `.filter(Boolean)` keeps order: filtering a concatenation is filtering its parts one after the other |
| Cors.EnvList | backhend/src/app.js:26-29 | the configured origins are all non-empty |
| Cors.EnvListMembers | backhend/src/app.js:26-29 | an origin is configured exactly when it is the trimmed, non-empty form of some comma-separated part of `CORS_ORIGIN` |
| Cors.EnvListClean | backhend/src/app.js:26-29 | a configured origin has no surrounding spaces and no comma |
| Cors.CleanMembers | backhend/src/app.js:28-29 | trimming and then dropping empties keeps exactly the non-empty trimmed parts |
| Cors.EnvListSingle | backhend/src/app.js:26-29 | a single origin without commas is configured as its trimmed self |
| Cors.AllowList | backhend/src/app.js:25-30 | never empty: the configured origins when there are any, otherwise the two development origins |
| Cors.CheckOrigin | backhend/src/app.js:33-37 | allows exactly a missing or empty origin or one on the list; refuses others with "CORS: Origin <origin> not allowed" |
| Cors.Finish | backhend/src/app.js:75-85 | an unmatched request is 404 "Route not found"; an error whose message starts with "CORS:" is 403 with that message; other errors go to the default handler |
| Cors.CorsMessage | backhend/src/app.js:81 | only a message starting with "CORS:" is picked out |
| Cors.RefusedOriginIsForbidden | backhend/src/app.js:33-83 | an origin off the list is answered 403 with the refusal text naming it |
| PasswordReset.TtlMinutes | backhend/src/controllers/password.controller.js:7 | `Number(env \|\| 30)`: 30 when unset or empty, otherwise the number the text reads as, or NaN |
| Js.ToNumber | src/controllers/pets.controller.js:92-93 | `Number(v)` is a number or NaN, and an array or object reads as its `String()` text does |
| Js.ArrayNumber | src/controllers/pets.controller.js:92-93 | a repeated query parameter arrives as an array: one element reads as that element's text, `[]` as 0 |
| Js.ObjectNumberIsNaN | src/controllers/pets.controller.js:80-81 | a nested query parameter arrives as an object, which reads as NaN |
| Js.CastString | backhend/src/models/message.js:7 | Mongoose's String cast: nullish stays null, a string, number or boolean becomes its text, an object with a string `_id` becomes that id, and an array or any other object fails |
| Js.CastNumber | backhend/src/models/message.js:13 | Mongoose's Number cast: null and undefined stay, "" becomes null, a number is kept, a string is read as `Number` reads it and refused when that is NaN, NaN and arrays are refused, and a document is cast through its `_id` |
| PasswordReset.FindByEmail | backhend/src/controllers/password.controller.js:25 | `User.findOne({email})`: the first account with the e-mail, none only when no account has it |
| PasswordReset.ExpiryOf | backhend/src/controllers/password.controller.js:32 | a numeric lifetime expires `now + ttl * 60000` ms; a NaN lifetime gives no valid date |
| PasswordReset.DefaultLifetime | backhend/src/controllers/password.controller.js:7-32 | by default a token lives 1 800 000 ms (30 minutes) |
| PasswordReset.BuildResetUrl | backhend/src/controllers/password.controller.js:9-12 | the link is the app base (default `http://localhost:5173`), then `/reset-password?token=`, then the encoded token |
| PasswordReset.ResetUrlCarriesToken | backhend/src/controllers/password.controller.js:11 | the query part of the link is URI-safe and decodes back to the token |
| PasswordReset.FindAccount | backhend/src/controllers/password.controller.js:59 | `findById` finds an account exactly when one with the id exists, and the account found has that id |
| PasswordReset.FindLive | backhend/src/controllers/password.controller.js:53 | `findOne({token, used: false})` for a string token: an unused row with the token, or none when every such row is used |
| PasswordReset.EqualTo | backhend/src/controllers/password.controller.js:53 | a cast token matches exactly its own text; null matches no row; a failed cast is an error |
| PasswordReset.TokenQueryOf | backhend/src/controllers/password.controller.js:53 | the token as the query casts it: a string matches itself, a number or boolean its text, an array any element's cast, an operator object what the store makes of it, any other object its `_id` or a cast error |
| PasswordReset.FindMatching | backhend/src/controllers/password.controller.js:53 | the first unused row whose token the query accepts, and none only when no unused row is accepted |
| PasswordReset.StringTokenFindsLive | backhend/src/controllers/password.controller.js:53 | for a string token the query finds exactly the row the plain lookup finds |
| PasswordReset.Invalidate | backhend/src/controllers/password.controller.js:29 | every token row of the user is marked used; rows of other users are untouched |
| PasswordReset.ForgotPassword | backhend/src/controllers/password.controller.js:20-43 | accounts are never changed; the answer is success on every path except a failed save of a NaN expiry; a missing e-mail or unknown account changes nothing |
| PasswordReset.ForgotLeavesOneLiveToken | backhend/src/controllers/password.controller.js:28-37 | for a known account, all its earlier tokens become used, one fresh unused token with the computed expiry is appended, other users' rows are kept, and one mail with the reset link is sent to the stored address |
| PasswordReset.Issue | backhend/src/controllers/password.controller.js:29-37 | the user's earlier tokens are spent, the new one is appended live with its expiry, other rows are kept, and one mail with the link goes to the account's address |
| PasswordReset.ForgotIsUniform | backhend/src/controllers/password.controller.js:23-39 | with a numeric lifetime the answer is the same success whether or not the account exists |
| PasswordReset.ForgotKeepsTokensDistinct | backhend/src/controllers/password.controller.js:31-34 | a fresh token keeps token values distinct |
| PasswordReset.ResetPassword | backhend/src/controllers/password.controller.js:45-72 | missing token or password: 400 "token and password are required"; length outside 8..16: 400 with the length message; otherwise the token, of whatever type, goes into the query as it came and the row it finds is redeemed; every refusal changes nothing |
| PasswordReset.Redeem | backhend/src/controllers/password.controller.js:53-68 | a query the store cannot cast answers the error handler; success exactly for a row found unexpired whose account exists, then that account's password is replaced by its hash and that row alone is spent; every refusal changes nothing |
| PasswordReset.ResetBody | backhend/src/controllers/password.controller.js:47 | a body built from a token value and a password reads back as those fields |
| PasswordReset.OperatorTokenQueried | backhend/src/controllers/password.controller.js:46-53 | as written, an operator object such as `{"$ne": null}` as the token passes the checks and reaches the store as that query |
| PasswordReset.NotNullIsOperator | backhend/src/controllers/password.controller.js:53 | `{"$ne": null}` is read as a query operator |
| PasswordReset.OperatorTokenResets | backhend/src/controllers/password.controller.js:53-66 | as written, an operator token that accepts every token resets the first live row's account and, repeated, the next one |
| PasswordReset.ResetPasswordStrict | backhend/src/controllers/password.controller.js:45-72 | corrected: a string token is handled as before; only a string token can succeed, and nothing reaches the store as an operator |
| PasswordReset.ResetIsSingleUse | backhend/src/controllers/password.controller.js:53-66 | corrected (string tokens only): repeating a successful reset, at any later time, is refused as "Invalid or expired token" |
| PasswordReset.ForgotThenReset | backhend/src/controllers/password.controller.js:20-72 | the token issued to a known e-mail resets that account's password within its lifetime |
| PasswordReset.ForgotIssues | backhend/src/controllers/password.controller.js:29-34 | the issued token is the live row found for it, with the account's id and expiry |
| PasswordReset.ResetWithLiveToken | backhend/src/controllers/password.controller.js:53-68 | a live, unexpired token for an existing account always succeeds and sets the hashed password |
| PasswordReset.LiveAtEnd | backhend/src/controllers/password.controller.js:53 | a fresh unused token appended last is found there |
| PasswordReset.ExpiryBoundary | backhend/src/controllers/password.controller.js:55 | a token is still accepted at its expiry instant and refused one millisecond later |
| AuthController.UseCookie | src/controllers/auth.controller.js:5 | cookie mode is on exactly when `USE_REFRESH_COOKIE` lower-cases to "true" |
| AuthController.UseCookieIgnoresCaseOnly | src/controllers/auth.controller.js:5 | two settings equal up to case turn cookie mode on or off together; a setting of another length than "true", one with a leading space, or none turns it off |
| AuthController.TrimField | src/controllers/auth.controller.js:23-24 | `(x \|\| "").trim()`: a falsy value gives "", a string is trimmed, a truthy non-string has no `trim` and throws |
| AuthController.EmailField | src/controllers/auth.controller.js:25-61 | the e-mail is the trimmed text lower-cased, and fails exactly when trimming does |
| AuthController.PlainPatternIsExact | src/controllers/auth.controller.js:29 | a name with no pattern characters matches `^name$`/i exactly when equal ignoring case |
| AuthController.RegexQuery | src/controllers/auth.controller.js:29 | a pattern whose only special character is `.` is compiled to the dot matcher, which accepts exactly the names it matches; any other pattern goes to the regular-expression engine as is |
| AuthController.DotSkipsLineBreak | src/controllers/auth.controller.js:29 | a `.` does not match a line terminator, so such a name never matches |
| AuthController.Taken | src/controllers/auth.controller.js:28-33 | an e-mail that `findOne` finds makes the registration a clash |
| AuthController.FindByEmail | src/controllers/auth.controller.js:63 | the first user with exactly that e-mail, or none when no user has it |
| AuthController.FindById | src/controllers/auth.controller.js:105-106 | a user with the id, or none when no user has it |
| AuthController.PublicView | src/controllers/auth.controller.js:37-47 | the user sent back has no password field and carries its id as `id` |
| AuthController.ToJs | src/controllers/auth.controller.js:45-82 | every body carries `success`, and a session body's `data` is the public view |
| AuthController.SessionHidesPassword | src/controllers/auth.controller.js:37-47 | a session reply shows the e-mail but never the password |
| AuthController.SignedIn | src/controllers/auth.controller.js:41-82 | a signed-in reply has the given status and user and a fresh access token; the refresh token goes in a cookie in cookie mode and in the body otherwise, never both |
| AuthController.UniqueMeans | src/controllers/auth.controller.js:28-33 | a user is unique exactly when no stored user shares its username or e-mail |
| AuthController.ReadFields | src/controllers/auth.controller.js:20-25 | the body's fields are read when the body is an object and no field throws, and are the trimmed username and the normalised e-mail |
| AuthController.Insert | src/controllers/auth.controller.js:35-55 | an invalid draft goes to the error handler; a duplicate key answers 409 and stores nothing; otherwise one user is appended and answered 201 with a session |
| AuthController.RegisterWith | src/controllers/auth.controller.js:18-56 | unreadable fields go to the error handler; 201 only when the new user, with the given id, is unique and appended; any other answer is 409 "Email or username already in use" and stores nothing |
| AuthController.Register | src/controllers/auth.controller.js:18-56 | as written with the regular expression: unreadable fields go to the error handler; every answer is 201 or 409 "Email or username already in use"; only a 201 stores, appending one user and keeping the others; a 201 for a dot pattern means no stored e-mail is equal and no stored name matches |
| AuthController.TakenRefused | src/controllers/auth.controller.js:28-33 | a clash found by the lookup answers 409 and stores nothing |
| AuthController.Admit | src/controllers/auth.controller.js:28-35 | a hit of the e-mail-or-name lookup is answered 409 with the store unchanged; only a miss goes on to the insert |
| AuthController.WildcardNameRefused | src/controllers/auth.controller.js:29 | as written, a username made of letters and dots is refused whenever it matches any stored name, dot as wildcard |
| AuthController.LookalikeNameRefused | src/controllers/auth.controller.js:29 | as written, "a.c" is refused because "abc" exists, although no user has that name or e-mail |
| AuthController.LookalikeBody | src/controllers/auth.controller.js:20-25 | the fields of the counterexample body read as "a.c", "", "q@x.io" |
| AuthController.ExactStep | src/controllers/auth.controller.js:28-35 | the corrected registration refuses on a clash and otherwise inserts |
| AuthController.RegisterExact | src/controllers/auth.controller.js:18-56 | corrected: registration with the case-insensitive equality lookup in place of the regular expression |
| AuthController.ExactTaken | src/controllers/auth.controller.js:28-30 | the corrected lookup finds a taken name exactly on a case-insensitive equality or an equal e-mail |
| AuthController.CreatedKeys | src/controllers/auth.controller.js:35 | the created user keeps the checked username and e-mail |
| AuthController.ExactRefusesOnlyClashes | src/controllers/auth.controller.js:28-33 | the corrected registration answers 409 exactly when the e-mail is taken or the username equals a stored one ignoring case |
| AuthController.FieldsAreNormal | src/controllers/auth.controller.js:23-25 | the username read is trimmed and the e-mail read is already normalised |
| AuthController.Login | src/controllers/auth.controller.js:58-86 | every answer is 401 "Invalid credentials" or 200; 200 only when the normalised e-mail finds a user whose password the comparison accepts, with that user's session |
| AuthController.LoginIsUniform | src/controllers/auth.controller.js:64-71 | an unknown e-mail and a wrong password give the very same answer |
| AuthController.Registered | src/controllers/auth.controller.js:35 | a successful registration appends one user with the normalised e-mail, new to the store, and the hashed password |
| AuthController.RegisterThenLogin | src/controllers/auth.controller.js:18-86 | logging in with the registered e-mail and password signs in as the new user |
| AuthController.LoginFinds | src/controllers/auth.controller.js:63-82 | a found user with an accepted password is signed in with status 200 |
| AuthController.StoredEmailIsKey | src/controllers/auth.controller.js:25-61 | a normalised e-mail normalises to itself, so registration and login look up the same key |
| AuthController.FirstWithEmail | src/controllers/auth.controller.js:63 | a new e-mail appended last is found there |
| AuthController.Refresh | src/controllers/auth.controller.js:88-113 | always 200 or 401; the 401s are "Refresh token required", "Invalid refresh token" or "User not found"; a 200 carries a new access token for a stored user; cookies are not touched |
| AuthController.CookieModeIgnoresBody | src/controllers/auth.controller.js:92 | in cookie mode the body's token is ignored |
| AuthController.BodyTokenWins | src/controllers/auth.controller.js:92 | outside cookie mode a truthy body token is used, whatever the cookie |
| AuthController.RefreshForStoredUser | src/controllers/auth.controller.js:90-109 | a verified cookie token of a stored user answers 200 with that user's access token |
| AuthController.FirstById | src/controllers/auth.controller.js:105 | a user whose id no earlier user has is found by it |
| AuthController.Logout | src/controllers/auth.controller.js:115-124 | always 200 "Logged out"; the refresh cookie is cleared exactly in cookie mode and never set |
| AuthController.AfterReply | src/controllers/auth.controller.js:115-124 | the browser's cookie jar after a reply: other cookies are kept, the refresh cookie is present exactly when set or kept, and holds the token set |
| AuthController.LogoutEndsCookieRefresh | src/controllers/auth.controller.js:88-124 | in cookie mode a refresh after logout answers 401 "Refresh token required"; outside it logout does not change what a refresh answers |
| UserModel.ParseRole | src/models/User.js:34-39 | a missing role defaults to "user" and null is kept; any other value is cast to String first and accepted exactly when the cast gives "user" or "superadmin", which is the role stored, so a document with `_id` "user" is stored as "user" |
| UserModel.CastText | src/models/User.js:8-32 | Mongoose's String cast: a nullish field is absent, a string is kept, a document with a string `_id` gives that id, and only an array or another object is refused |
| UserModel.Normalise | src/models/User.js:8-28 | `trim` (and `lowercase` for the e-mail) applies to text and leaves other casts alone |
| UserModel.EmailValidMatches | src/models/User.js:22-28 | an e-mail passes exactly when it is text whose lower-cased, trimmed form matches `^\S+@\S+\.\S+$` |
| UserModel.BmpLength | src/models/User.js:31 | for text without surrogate pairs the length Mongoose counts is the number of characters |
| UserModel.PasswordBounds | src/models/User.js:31 | a password of such text passes exactly when it has 8 to 16 characters; any passing password has 4 to 16 characters |
| UserModel.ObjectIdPassword | src/models/User.js:29-32 | a password sent as `{"_id": "password12"}` casts to "password12" and passes the password validators |
| UserModel.RoleDocument | src/models/User.js:34-39 | the document `{_id: "user"}` is stored as the role "user" |
| UserModel.Create | src/models/User.js:6-50 | a user is created exactly when the draft validates; it gets the given id, the hashed password and the role parsed |
| UserModel.CreateNormalises | src/models/User.js:11-27 | the stored e-mail matches the pattern and is the trimmed lower-cased input; the stored username is the trimmed, non-empty input |
| UserModel.CreateKeepsName | src/models/User.js:11 | a name already trimmed is stored as given |
| UserModel.CreateKeepsEmail | src/models/User.js:25-26 | an e-mail already normalised is stored as given |
| UserModel.NormalText | src/models/User.js:10-11 | a required, trimmed text field stores a non-empty trimmed string |
| UserModel.NormalEmail | src/models/User.js:22-28 | the stored e-mail looks like an e-mail and is the trimmed lower-cased input |
| UserModel.Save | src/models/User.js:52-56 | the password is hashed on save exactly when it was modified |
| UserModel.SaveKeepsHash | src/models/User.js:52-56 | a modified password is hashed once and then kept through any number of saves that do not modify it; saving it as modified again hashes the hash |
| UserModel.SaveAll | src/models/User.js:52-56 | over any sequence of saves only the password changes, and it is hashed once for every save that marked it modified; with none modified the user is unchanged |
| UserModel.Document | src/models/User.js:32 | a loaded document has `_id`, and has the password exactly when it was selected |
| UserModel.ToJson | src/models/User.js:44-48 | serialising drops `_id` and the password and adds `id` with the former `_id`; no other key changes |
| UserModel.JsonHidesPassword | src/models/User.js:32-48 | the JSON of a user never holds the password, with or without `+password`, and is the same in both cases |
| UserModel.AccessPayload | src/models/User.js:62-68 | the access token signs exactly `_id`, `email`, `username`, `fullname` and `role` |
| UserModel.RefreshPayload | src/models/User.js:70-72 | the refresh token signs only `_id` |
| PetsController.AdminRoles | src/controllers/pets.controller.js:6-8 | an administrator is a user whose role is "superadmin" or "admin"; of the roles the user schema allows, only "superadmin" |
| PetsController.CallerId | src/controllers/pets.controller.js:9 | the caller is `_id` when truthy and `id` otherwise |
| PetsController.ParseBool | src/controllers/pets.controller.js:11-15 | booleans are kept; a string is true exactly when it reads "true" ignoring case and false otherwise; anything else gives undefined |
| PetsController.FlagValue | src/controllers/pets.controller.js:134-176 | a parsed flag is stored as a boolean and an unparsed one as undefined |
| PetsController.ParseBoolStable | src/controllers/pets.controller.js:11-15 | parsing a stored flag again changes nothing; "true"/"false" round-trip; "TRUE" is true and "yes" is false |
| PetsController.UploadedPaths | src/controllers/pets.controller.js:17-20 | one path per uploaded file, each under `/uploads/` |
| PetsController.UploadedPathsInverse | src/controllers/pets.controller.js:19 | dropping the `/uploads/` prefix gives back each file name, and the paths of two batches are the paths of each in order |
| PetsController.PathValues | src/controllers/pets.controller.js:145-187 | the stored photo values are the path strings, in order |
| PetsController.AllKeysComplete | src/controllers/pets.controller.js:61-87 | every filterable field is among the ones the listing considers |
| PetsController.Filter | src/controllers/pets.controller.js:61-87 | a field is filtered exactly when its query condition applies, and by that condition |
| PetsController.EmptyQueryFiltersNothing | src/controllers/pets.controller.js:61-87 | an empty query filters nothing |
| PetsController.FlagFilter | src/controllers/pets.controller.js:72-77 | a yes/no field is filtered exactly when its query value parses, by that boolean |
| PetsController.AgeFilter | src/controllers/pets.controller.js:79-82 | the age is filtered exactly when `minAge` or `maxAge` is given, with `$gte`/`$lte` set from whichever are given, as `Number()` reads them |
| PetsController.AgeFilterFromText | src/controllers/pets.controller.js:80-81 | numeric query text gives an age range with those numbers |
| PetsController.AgeFilterFromNumbers | src/controllers/pets.controller.js:80-81 | bounds that read as numbers give the range with those numbers |
| PetsController.MineFilter | src/controllers/pets.controller.js:84-87 | listings are limited to the caller exactly when `mine` is "1" and the caller has a truthy id |
| PetsController.OtherSpeciesFilter | src/controllers/pets.controller.js:64-65 | the legacy `speciesOther` is used when `otherSpecies` is missing, as a case-insensitive pattern of its trimmed text, and only when non-empty |
| PetsController.NumberOr | src/controllers/pets.controller.js:92-93 | `Number(v) \|\| fallback`: never zero with a non-zero fallback, and otherwise the number read |
| PetsController.NumberOrText | src/controllers/pets.controller.js:92-93 | a numeric text gives its number, or the fallback for zero |
| PetsController.NumberOrMissing | src/controllers/pets.controller.js:57-93 | a missing, empty or zero value gives the fallback |
| PetsController.ListPlan | src/controllers/pets.controller.js:39-98 | the query filters by the fields, adds the text search exactly when `q` is truthy, sorts by `-createdAt` unless told otherwise, pages from 1 by 12 by default, never with page or limit 0, and skips `(page - 1) * limit` |
| PetsController.ListPets | src/controllers/pets.controller.js:96-105 | the reply lists the items found with the total, page and limit, and `hasNext` exactly when skipped plus listed is below the total |
| PetsController.PageCount | src/controllers/pets.controller.js:97 | a page never holds more than the limit |
| PetsController.HasNextMeansMore | src/controllers/pets.controller.js:94-103 | for a full page, `hasNext` is set exactly when `page * limit` is below the total |
| PetsController.GetPet | src/controllers/pets.controller.js:112-121 | a stored pet is answered 200 with its document; any other id is 404 "Pet not found" |
| PetsController.Gate | src/controllers/pets.controller.js:162-167 | a missing pet is 404; a stored one lets through exactly its lister (as strings) or an administrator, and refuses others with 403 "Not allowed" |
| PetsController.UnownedMatchesAnonymous | src/controllers/pets.controller.js:166 | a pet without a lister counts as owned by a caller without an id, since both print as "undefined" |
| PetsController.Normalised | src/controllers/pets.controller.js:133-136 | given yes/no fields are parsed, a given age is read as a number, other fields are kept |
| PetsController.NormaliseBody | src/controllers/pets.controller.js:126-136 | the legacy key is dropped and `otherSpecies` is always present |
| PetsController.NormaliseFixpoint | src/controllers/pets.controller.js:126-136 | normalising leaves a body unchanged exactly when it is already normal |
| PetsController.NormaliseBodyIdempotent | src/controllers/pets.controller.js:126-136 | normalising twice is normalising once, unless `otherSpecies` ends up null |
| PetsController.JsonPhotos | src/controllers/pets.controller.js:144 | JSON photos are kept when an array and dropped otherwise |
| PetsController.SpeciesKept | src/controllers/pets.controller.js:126-136 | normalising never changes the species |
| PetsController.CreateCheckOnNormalised | src/controllers/pets.controller.js:138-140 | a create is refused when the normalised species is "other" and `otherSpecies` is falsy |
| PetsController.CreatePet | src/controllers/pets.controller.js:124-156 | refused with 400 exactly when "other" lacks `otherSpecies`, storing nothing; otherwise a body `_id` that is not an ObjectId, or a key already stored, goes to the error handler and stores nothing; otherwise one pet is added under its key (the body's `_id` or the generated one), answered 201, with JSON photos then uploaded paths, the caller as lister, that key as `_id`, and no legacy key |
| PetsController.NewKey | src/controllers/pets.controller.js:147-150 | the body's `_id` is kept when it is the text of an ObjectId, the generated id is used when the body has none, and every other `_id` fails the cast |
| PetsController.ClientIdTwice | src/controllers/pets.controller.js:147-150 | a pet created with its own ObjectId is stored under it, and the same body sent again goes to the error handler with nothing changed |
| PetsController.OwnerNotUpdatable | src/controllers/pets.controller.js:190-194 | neither the lister nor the id is updatable |
| PetsController.Updates | src/controllers/pets.controller.js:195-198 | exactly the allowed fields that are not undefined, with their values |
| PetsController.Prepared | src/controllers/pets.controller.js:169-188 | the normalised body, with photos replaced by the pet's photos plus the new uploads only when files came |
| PetsController.UpdateCheckOnNormalised | src/controllers/pets.controller.js:180-182 | an update is refused when the species is "other" and neither the body nor the pet has `otherSpecies` |
| PetsController.UpdatePet | src/controllers/pets.controller.js:159-205 | 404/403 as the gate says; 400 when "other" lacks `otherSpecies`; otherwise only that pet changes: allowed fields given in the body replace the stored ones and every other field stays |
| PetsController.UpdateKeepsOwner | src/controllers/pets.controller.js:190-200 | an update never changes the lister or the id |
| PetsController.EmptyUpdateChangesNothing | src/controllers/pets.controller.js:159-205 | an empty body without files changes nothing and answers the stored pet |
| PetsController.UpdateIdempotent | src/controllers/pets.controller.js:195-200 | applying the same update without files twice is applying it once |
| PetsController.OtherSpeciesAfterUpdate | src/controllers/pets.controller.js:180-200 | once an update passes the check, the updated pet passes it again |
| PetsController.EmptyOtherSpeciesDiffers | src/controllers/pets.controller.js:138-180 | an empty `otherSpecies` with species "other" is refused on create and accepted on update |
| PetsController.SetStatus | src/controllers/pets.controller.js:208-231 | 404/403 as the gate says; then a status among available, reserved and adopted is stored and echoed with the id; any other is 400 "Invalid status" and nothing changes |
| PetsController.StatusIdempotent | src/controllers/pets.controller.js:220-225 | setting a valid status stores it, and setting it again changes nothing |
| PetsController.DeletePet | src/controllers/pets.controller.js:234-249 | 404/403 as the gate says; otherwise the pet is removed and its id echoed |
| PetsController.DeleteThenGone | src/controllers/pets.controller.js:234-244 | after a delete the pet is not found, and deleting it again is 404 |
| PetsController.CreatorMayEdit | src/controllers/pets.controller.js:147-167 | the creator of a pet can read it under its key and passes the owner check |
| PetsController.WritesNeedOwnerOrAdmin | src/controllers/pets.controller.js:166-242 | a caller who is neither lister nor administrator changes nothing by update, status change or delete |
| PetsRoutes.FirstRoute | src/routes/pets.routes.js:36-45 | the first route registered from a position on with the verb and a matching path, none being skipped that would match |
| PetsRoutes.Dispatch | src/routes/pets.routes.js:36-45 | a route is picked exactly when some registered route has the verb and matches the path, fixed segments compared without regard to ASCII case, and the one picked does |
| PetsRoutes.Run | src/routes/pets.routes.js:22-45 | a controller is reached only when it is in the chain and every step before it lets the request through |
| PetsRoutes.Reach | src/routes/pets.routes.js:36-45 | a request reaches a controller only through a dispatched route |
| PetsRoutes.PublicReadsAuthenticatedWrites | src/routes/pets.routes.js:35-45 | the routes without authentication are exactly the two reads, and every other route begins with it |
| PetsRoutes.WritesNeedToken | src/routes/pets.routes.js:40-45 | without a valid token no create, update, delete or status change reaches its controller |
| PetsRoutes.StatusAnyCase | src/routes/pets.routes.js:41-45 | `PATCH /:id/status` reaches the status controller whatever the case of "status", so `/:id/STATUS` does too |
| PetsRoutes.StatusPathDispatch | src/routes/pets.routes.js:41-45 | `PATCH /:id/status` goes to the status controller and `PATCH /:id` to the update; there is no `GET /:id/status` |
| PetsRoutes.TooManyPhotos | src/routes/pets.routes.js:22-40 | more than five photos stop a create at the upload step |
| PetsRoutes.CreateReached | src/routes/pets.routes.js:22-40 | an authenticated, valid create with at most five photos reaches `createPet` |
| PetsRoutes.NormalizeOtherSpeciesBody | src/routes/pets.routes.js:23-31 | a non-object body or one whose condition fails is unchanged; otherwise `speciesOther` moves to `otherSpecies` and nothing else changes |
| PetsRoutes.NormalizeOtherSpeciesIdempotent | src/routes/pets.routes.js:23-31 | applying the middleware twice is applying it once |
| PetsRoutes.OtherSpeciesMiddlewareUnmounted | src/routes/pets.routes.js:23-45 | no route runs `normalizeOtherSpecies` |
| PetsRoutes.MiddlewareRedundant | src/routes/pets.routes.js:23-31 | had it been mounted, it would change nothing the controllers do when `otherSpecies` is nullish or truthy |
| PetsRoutes.MiddlewareMattersForEmpty | src/routes/pets.routes.js:25-27 | with an empty `otherSpecies` it would differ: it fills the field, while the controllers keep "" |
| ClientApi.Base | petadop-frontend/src/utils/api.js:12-18 | an unset or blank base is "/api"; otherwise the trimmed base without one trailing slash |
| ClientApi.BaseStripsOneSlash | petadop-frontend/src/utils/api.js:16-17 | a trimmed base is kept, and the same base with one trailing slash loses it |
| ClientApi.RefreshUrl | petadop-frontend/src/utils/api.js:80-82 | the refresh URL lies under the base |
| ClientApi.SetToken | petadop-frontend/src/utils/api.js:30-38 | a truthy token is stored and sent as `Bearer <token>`; a falsy one clears both; the refresh token is untouched |
| ClientApi.SetTokenConsistent | petadop-frontend/src/utils/api.js:30-38 | after setting a string or clearing, the stored token and the default header agree |
| ClientApi.Boot | petadop-frontend/src/utils/api.js:43-45 | the client starts with the stored tokens and a header that agrees with them |
| ClientApi.NormaliseUrl | petadop-frontend/src/utils/api.js:55-60 | a non-string or absolute URL is kept; a relative one gains a leading slash exactly when it lacks one |
| ClientApi.SlashNotAbsolute | petadop-frontend/src/utils/api.js:56 | a path starting with "/" is never taken for an absolute URL |
| ClientApi.NormaliseUrlIdempotent | petadop-frontend/src/utils/api.js:55-60 | normalising twice is normalising once |
| ClientApi.DropLeadingSlashes | petadop-frontend/src/utils/api.js:20-21 | the request path joined under the base loses its leading slashes and nothing else |
| ClientApi.DropTrailingSlashes | petadop-frontend/src/utils/api.js:20-21 | the base loses its trailing slashes, and is kept when it has none |
| ClientApi.FullUrl | petadop-frontend/src/utils/api.js:20-56 | an absolute URL by axios's rule, a scheme followed by `://` or a leading `//`, is requested as is; any other is requested under the base and one slash |
| ClientApi.AbsoluteForAxios | petadop-frontend/src/utils/api.js:56 | whatever the interceptor takes for absolute axios also does, while `//host/x` is absolute only for axios |
| ClientApi.SchemePrefix | petadop-frontend/src/utils/api.js:56 | a URL beginning `http://` or `https://` in any case is absolute for axios |
| ClientApi.PathNotAxiosAbsolute | petadop-frontend/src/utils/api.js:20-21 | a path starting with one slash and no second one is never absolute for axios |
| ClientApi.FullUrlAppends | petadop-frontend/src/utils/api.js:9-21 | a path with one leading slash is appended to a base without a trailing slash, so `/pets` under `/api` is `/api/pets` |
| ClientApi.Outgoing | petadop-frontend/src/utils/api.js:48-62 | every request carries the normalised URL and, when a token is stored, `Bearer <token>`; otherwise its own header |
| ClientApi.AuthPathsLower | petadop-frontend/src/utils/api.js:69-74 | the auth suffixes are lower case, so they match after lower-casing |
| ClientApi.AuthPathUnderAnyBase | petadop-frontend/src/utils/api.js:65-76 | any URL ending in one of the six auth paths, in any case and under any base, is an auth endpoint |
| ClientApi.RefreshUrlIsAuthEndpoint | petadop-frontend/src/utils/api.js:71-82 | the refresh URL itself is an auth endpoint, so a failed refresh is never refreshed |
| ClientApi.MeIsNotAuthEndpoint | petadop-frontend/src/utils/api.js:65-76 | `/auth/me` is not an auth endpoint |
| ClientApi.IsAuthEndpoint | petadop-frontend/src/utils/api.js:65-76 | a missing URL, read as "", and a null one are never auth endpoints |
| ClientApi.ShouldRefresh | petadop-frontend/src/utils/api.js:94 | for a request with no URL, a refresh is tried exactly on a 401 to a first try |
| ClientApi.RefreshNeverRefreshed | petadop-frontend/src/utils/api.js:65-96 | a 401 on the refresh call itself never triggers a refresh, while a first 401 on `/auth/me` does |
| ClientApi.RefreshBody | petadop-frontend/src/utils/api.js:103-104 | the refresh body carries `refreshToken` exactly when a non-empty one is stored |
| ClientApi.NewToken | petadop-frontend/src/utils/api.js:112-116 | the new token is the first truthy of `accessToken`, `token`, `tokens.accessToken`, and null when none is |
| ClientApi.ServerTokensAccepted | petadop-frontend/src/utils/api.js:112-116 | the access token of a `/auth/refresh` reply and of a login reply are both picked up |
| ClientApi.OnError | petadop-frontend/src/utils/api.js:87-145 | only a 401 on a first try of a non-auth URL triggers a refresh; a failed refresh clears the token and rejects; a good one stores the new token and retries the same URL once with it; the refresh token is never changed |
| ClientApi.RetryAtMostOnce | petadop-frontend/src/utils/api.js:94-134 | a retried request that fails again is rejected, never refreshed twice |
| ClientApi.AuthEndpointFailuresKeepSession | petadop-frontend/src/utils/api.js:94-96 | a failure that is not a 401, or on an auth endpoint, is rejected and the session is kept |
| Session.Initial | petadop-frontend/src/store/auth.js:22-25 | the store starts signed out: no user, not authenticated, not loading |
| Session.Send | petadop-frontend/src/utils/api.js:48-62 | each store call goes through the client, so it carries `Bearer <token>` when one is stored, and the body given |
| Session.ErrorText | petadop-frontend/src/store/auth.js:78-82 | the error shown is never empty: the server's `message`, else its `error`, else the error's own message, else the fallback |
| Session.ServerMessageShown | petadop-frontend/src/store/auth.js:78-79 | a refusal from the accounts API shows the server's own message |
| Session.Cleared | petadop-frontend/src/store/auth.js:140-145 | clearing drops the token and header, the user and the signed-in flag, and keeps the refresh token |
| Session.LoadMe | petadop-frontend/src/store/auth.js:31-47 | without a stored token nothing happens; otherwise the profile is fetched with `Bearer <token>`, loading ends, the store is signed in exactly when a user is held, the token is kept unless the response interceptor renewed it, in which case the renewed one is stored, and a rejection clears the session; the user held is the response's `user` unless that is null or undefined, then the whole response, then null |
| Session.MeRequest | petadop-frontend/src/store/auth.js:37 | the profile request has no body and carries `Bearer <token>` for the stored token |
| Session.LoadMeKeepsRenewedToken | petadop-frontend/src/utils/api.js:112-119 | when the interceptor renews the token while loading the profile, the store holds the renewed token and header, in agreement, and the refresh token is kept |
| Session.LoadMeIdempotent | petadop-frontend/src/store/auth.js:31-47 | without a silent refresh on the way, loading the profile twice is loading it once |
| Session.LoginBody | petadop-frontend/src/store/auth.js:55-57 | the login body has the password and `email` when the identifier contains "@", `username` otherwise |
| Session.LoginBodyTrims | petadop-frontend/src/store/auth.js:56-57 | the identifier is sent trimmed |
| Session.SignIn | petadop-frontend/src/store/auth.js:58-85 | a rejection keeps the state and reports the error text; an answer stores any new token, takes the reply's `user` when truthy and otherwise loads the profile, and reports success with `data.user ?? null` |
| Session.Login | petadop-frontend/src/store/auth.js:53-86 | a rejected login leaves the store as it was |
| Session.Register | petadop-frontend/src/store/auth.js:91-119 | a rejected registration leaves the store as it was |
| Session.RefreshSession | petadop-frontend/src/store/auth.js:125-146 | a rejection clears the session with "Refresh failed"; a reply with a token stores it and signs in, keeping the user; a reply without one changes nothing |
| Session.Logout | petadop-frontend/src/store/auth.js:151-161 | whatever the server answers, the session ends with no token, header or user |
| Session.LoadMeConsistent | petadop-frontend/src/store/auth.js:8-47 | loading the profile keeps token and header in agreement |
| Session.SignInConsistent | petadop-frontend/src/store/auth.js:8-75 | signing in keeps token and header in agreement when the server's tokens are strings |
| Session.RefreshSessionConsistent | petadop-frontend/src/store/auth.js:8-146 | refreshing keeps token and header in agreement |
| Session.NoPasswordActions | petadop-frontend/src/store/auth.js:22-162 | the store defines no `forgotPassword` and no `resetPassword` action |
| Session.FirstSegment | src/routes/index.js:13-16 | the first path segment is a prefix with no slash, ended by a slash or the end |
| Session.Router | src/routes/index.js:13-16 | a request is routed only under `/api/` followed by one of the mounted routers, both found without regard to ASCII case |
| Session.RouterIgnoresCase | src/routes/index.js:13-16 | `/API/AUTH/login` reaches the auth router |
| Session.AsWrittenPrefixed | petadop-frontend/src/store/auth.js:37-154 | each path the store calls is the documented path with `/api` in front |
| Session.DoubledPrefix | petadop-frontend/src/store/auth.js:59 | under the default base the login call goes to `/api/api/auth/login`, and none of the five store calls reaches a router |
| Session.ApiUnderDefault | src/app.js:35-41 | any `/api`-prefixed path under the default base is doubled and unrouted, so answered 404 |
| Session.FirstSegmentOf | src/routes/index.js:13-16 | the first segment of `w/...` is `w` |
| Session.IntendedPathsRouted | petadop-frontend/src/utils/api.js:9-10 | the documented paths are appended to any base without a trailing slash, and under the default base each reaches its router |
| Session.IntendedSplit | src/routes/index.js:13-15 | each documented path is a mounted router name and a sub-path |
| Session.RoutedUnderDefault | src/app.js:35 | a path under a mounted router is requested under `/api` and reaches that router |
| Session.UsernameLoginRefused | petadop-frontend/src/store/auth.js:55-57 | a login by username sends no e-mail, so the accounts API refuses it as "Invalid credentials" when every stored e-mail is non-empty |
| Session.ServerSignInLoadsMe | petadop-frontend/src/store/auth.js:62-75 | the server's sign-in reply has no `user`, so the store keeps its access token and loads the profile, and reports a null user |
| Session.RefreshWithoutCookieSignsOut | petadop-frontend/src/store/auth.js:127-145 | the store sends an empty body, so without a cookie the server answers "Refresh token required" and the store signs out |
| PetDetails.JsRem | petadop-frontend/src/pages/PetDetails.jsx:27 | JavaScript's `%`: the remainder takes the sign of the dividend and is smaller than the divisor |
| PetDetails.AgeParts | petadop-frontend/src/pages/PetDetails.jsx:26-28 | at most a years part and a months part, and none exactly for zero months |
| PetDetails.FormatAge | petadop-frontend/src/pages/PetDetails.jsx:24-29 | a missing age shows a dash; zero shows nothing; under a year shows only months; whole years show only years |
| PetDetails.TotalMonths | petadop-frontend/src/pages/PetDetails.jsx:28 | reading no parts gives zero months |
| PetDetails.ReadPart | petadop-frontend/src/pages/PetDetails.jsx:28 | a part `<n> yr` reads back as 12n months and `<n> mo` as n |
| PetDetails.AgeRecomposes | petadop-frontend/src/pages/PetDetails.jsx:24-29 | for a non-negative age the parts shown add back up to it, and no part is zero |
| PetDetails.NegativeAgeMisread | petadop-frontend/src/pages/PetDetails.jsx:26-27 | with floor for years and truncation for months, -5 shows as "-1 yr -5 mo", which reads as -17 months |
| PetDetails.DigitsOf | petadop-frontend/src/pages/PetDetails.jsx:45 | a nullish value gives ""; the result holds only digits |
| PetDetails.DigitsOfKeepsDigits | petadop-frontend/src/pages/PetDetails.jsx:45 | every digit of the text is kept, as often as it occurs, and the text is unchanged exactly when it is all digits |
| PetDetails.Placeholder | petadop-frontend/src/pages/PetDetails.jsx:34 | placeholders come from `https://picsum.photos/seed/` |
| PetDetails.SafePhoto | petadop-frontend/src/pages/PetDetails.jsx:31-35 | a source with non-blank text is kept and anything else becomes the placeholder, so the result is always truthy |
| PetDetails.Origin | petadop-frontend/src/pages/PetDetails.jsx:41 | a base ending in `/api` loses exactly that suffix; any other is kept |
| PetDetails.BuildPhotoUrl | petadop-frontend/src/pages/PetDetails.jsx:38-43 | as written: null for a falsy photo, otherwise the origin, `/uploads/` and the photo value |
| PetDetails.StoredPhotoMisplaced | petadop-frontend/src/pages/PetDetails.jsx:42 | a photo stored by the pets API as `/uploads/<file>` is requested at `/uploads//uploads/<file>`, not where it is served |
| PetDetails.PhotoUrl | petadop-frontend/src/pages/PetDetails.jsx:38-43 | null exactly for a falsy photo and never an empty URL |
| PetDetails.PhotoUrlServesStored | petadop-frontend/src/pages/PetDetails.jsx:38-43 | corrected: a stored `/uploads/<file>` is requested where it is served, an absolute URL is kept, and a bare file name is handled as before |
| PetDetails.Shown | petadop-frontend/src/pages/PetDetails.jsx:143 | as written: a truthy photo shows `buildPhotoUrl` of it, a missing one the placeholder; never empty |
| PetDetails.Photos | petadop-frontend/src/pages/PetDetails.jsx:141-143 | as written: one image per photo, shown through `buildPhotoUrl`, or the single placeholder seeded by the pet id when there are none, none of them empty; a missing entry shows the placeholder seeded by its position |
| PetDetails.ShownIntended | petadop-frontend/src/pages/PetDetails.jsx:143 | corrected: a truthy photo shows its served URL, a missing one the placeholder; never empty |
| PetDetails.PhotosIntended | petadop-frontend/src/pages/PetDetails.jsx:141-143 | corrected: one image per photo at its served URL, or the single placeholder; none empty; a missing entry shows the placeholder seeded by its position |
| PetDetails.StripOfUpload | petadop-frontend/src/pages/PetDetails.jsx:38-43 | for a photo the pets API stored, the page as written shows `/uploads//uploads/<file>` while the corrected strip shows where it is served |
| PetDetails.MainPhoto | petadop-frontend/src/pages/PetDetails.jsx:145 | the main photo is one of the strip, the selected one or the last when the selection is past the end |
| PetDetails.MainPhotoOfPage | petadop-frontend/src/pages/PetDetails.jsx:141-145 | the page's strip, as written and as corrected, is never empty, so the main photo is always the selected or last one |
| PetDetails.RawPhone | petadop-frontend/src/pages/PetDetails.jsx:93-97 | the phone is the first truthy of `contactPhone`, `listedBy.phone`, `ownerPhone`, else "" |
| PetDetails.MessageOwner | petadop-frontend/src/pages/PetDetails.jsx:91-108 | no pet does nothing; no digits in the phone means no link; otherwise the link is `https://wa.me/<digits>?text=<encoded greeting>` |
| PetDetails.MessageLinkReadsBack | petadop-frontend/src/pages/PetDetails.jsx:105-106 | the link's number part is all digits and its text decodes back to the greeting |
| PetDetails.LinkParts | petadop-frontend/src/pages/PetDetails.jsx:106 | a link built from digits and text splits back into them at `?text=` |
| PetDetails.CallLink | petadop-frontend/src/pages/PetDetails.jsx:324-338 | a call link is offered exactly when a shelter or owner name and a shelter phone are given, dialling the phone's digits |
| PetDetails.CallDialsDigits | petadop-frontend/src/pages/PetDetails.jsx:324-338 | the call link is `tel:` and the phone's digits, each digit as often as in the phone, and nothing else |
| PetDetails.Adopt | petadop-frontend/src/pages/PetDetails.jsx:75-88 | a signed-out visitor goes to the login with a redirect back; a signed-in one goes to `/owners/<ownerId>`, or stays when the pet has no `ownerId` |
| PetDetails.AdoptNeedsOwnerId | petadop-frontend/src/pages/PetDetails.jsx:81-85 | a pet as the pets API stores it, with `listedBy` and no `ownerId`, never leads anywhere |
| MyListings.LastPage | petadop-frontend/src/pages/MyListings.jsx:25 | with a positive limit, the fewest pages that hold every listing; with a zero limit, `Infinity` when there are listings and `NaN` when there are none |
| MyListings.Next | petadop-frontend/src/pages/MyListings.jsx:23-27 | Next asks for the following page, and does so exactly when that page is not past the last |
| MyListings.Prev | petadop-frontend/src/pages/MyListings.jsx:28-31 | Prev asks for the page before from page 2 on, never for a page below 1, and nothing on page 1 |
| MyListings.ShownPages | petadop-frontend/src/pages/MyListings.jsx:72 | with a positive limit the count shown is at least 1: the last page, or 1 when there are no listings |
| MyListings.ButtonsMatchClicks | petadop-frontend/src/pages/MyListings.jsx:23-77 | with a positive limit, each button is enabled exactly when clicking it asks for a page |
| MyListings.ZeroLimitNoListings | petadop-frontend/src/pages/MyListings.jsx:23-77 | with a zero limit and no listings, Next is enabled but asks for nothing and the count shown is `NaN` |
| MyListings.NextMatchesServer | petadop-frontend/src/pages/MyListings.jsx:23-27 | Next asks for a page exactly when some listing lies beyond the current page |
| MyListings.NextAgreesWithMeta | petadop-frontend/src/pages/MyListings.jsx:23-27 | for a page the pets API answered in full, Next is offered exactly when its `hasNext` is set |
| MyListings.NextThenPrev | petadop-frontend/src/pages/MyListings.jsx:23-31 | going forward and then back returns to the same page |
| ResetPasswordPage.Open | petadop-frontend/src/pages/ResetPassword.jsx:11-20 | the form opens with the link's `token` (or "" when absent), empty fields, no message and nothing in flight |
| ResetPasswordPage.Check | petadop-frontend/src/pages/ResetPassword.jsx:27-31 | a missing token, then a length outside 8 to 16 UTF-16 units, then a mismatch is reported, and nothing is reported exactly when all three checks pass |
| ResetPasswordPage.Submit | petadop-frontend/src/pages/ResetPassword.jsx:22-43 | a submit while one is in flight does nothing; a request `{token, password}` is sent exactly when the checks pass and the store has a reset action; a failed check shows its message; the fields never change |
| ResetPasswordPage.ReplyShown | petadop-frontend/src/pages/ResetPassword.jsx:33-42 | after a reply the form is no longer submitting; an `ok` reply marks success with no error, any other shows a non-empty error unless the error is an array |
| ResetPasswordPage.SentPassesServerChecks | petadop-frontend/src/pages/ResetPassword.jsx:27-35 | whatever the page sends is never refused by the reset endpoint for its shape or length: the answer is success or a token error |
| ResetPasswordPage.StuckWithoutAction | petadop-frontend/src/pages/ResetPassword.jsx:9 | as written the store has no `resetPassword`, so a valid submit sends nothing, leaves the form submitting, and every later submit is ignored |
| ResetPasswordPage.SubmitSendsValid | petadop-frontend/src/pages/ResetPassword.jsx:33-35 | corrected: with a reset action a valid submit sends the token and password and ends not submitting |
| ForgotPasswordPage.Normalised | petadop-frontend/src/pages/ForgotPassword.jsx:19 | trimming and lower-casing never lengthen the address |
| ForgotPasswordPage.Submit | petadop-frontend/src/pages/ForgotPassword.jsx:14-35 | a submit while one is in flight does nothing; the normalised address is sent exactly when it has the `x@y.z` shape and the store has an action; an invalid address shows "Enter a valid email" |
| ForgotPasswordPage.StatusUniform | petadop-frontend/src/pages/ForgotPassword.jsx:26-34 | the page ends the same whatever the server answers, so it never reveals whether the account exists |
| ForgotPasswordPage.SentIsKey | petadop-frontend/src/pages/ForgotPassword.jsx:19-23 | the address sent is trimmed, lower-case and of the `x@y.z` shape, and the reset endpoint looks it up unchanged |
| ForgotPasswordPage.CaseAndSpaceIgnored | petadop-frontend/src/pages/ForgotPassword.jsx:19 | two addresses differing only in case and surrounding space send the same request |
| ForgotPasswordPage.StuckWithoutAction | petadop-frontend/src/pages/ForgotPassword.jsx:8 | as written the store has no `forgotPassword`, so a valid submit sends nothing, leaves the form submitting with no status, and later submits are ignored |
| ForgotPasswordPage.SubmitSendsValid | petadop-frontend/src/pages/ForgotPassword.jsx:22-34 | corrected: with an action a valid submit sends the normalised address, shows the notice and ends not submitting |
| Email.LooksLikeEmailMatches | petadop-frontend/src/pages/ForgotPassword.jsx:20 | the left-to-right scan accepts exactly the text `^\S+@\S+\.\S+$` matches |
| Email.LowerKeepsShape | petadop-frontend/src/pages/ForgotPassword.jsx:19-20 | lower-casing an address never changes whether it has the shape |
| Uri.EncodeSafe | petadop-frontend/src/pages/PetDetails.jsx:106 | `encodeURIComponent` output holds only unreserved characters and `%` escapes |
| Uri.DecodeEncode | petadop-frontend/src/pages/PetDetails.jsx:106 | decoding the encoded text gives back the text |

## Left out

- I/O and the runtime are outside the model:
  - Socket.IO transport and room fan-out;
  - HTTP framing beyond status and body;
  - rendering, navigation and the 1.5 second redirect timer after a reset;
  - `window.open`, `localStorage` as a device (it is a value here), server startup and shutdown.
- Concurrency is left out. The single-flight `refreshInFlight` sharing in `petadop-frontend/src/utils/api.js:99-128` is not modelled, and each handler is one sequential step.
- JWT signing and verification, bcrypt and `crypto.randomBytes` are function parameters, because they are library calls.
- MongoDB query semantics are abstracted:
  - `$text` search, `populate` and casting of ids are replaced by the store as a value;
  - a `findById` on a malformed id (a `CastError` answered 500) is not distinguished from a missing one;
  - the database's answer to a filtered, paged listing is a parameter.
- Numbers are integers. A fractional `page`, `limit`, `minAge`, `maxAge` or age in months reads as `NaN`, and a negative page or limit is passed on to the store as written, with no model of what MongoDB does with it.
- Case folding is ASCII only (`Strings.ToLower`). There is no Unicode case mapping or normalisation.
- Regular expressions are modelled only where the source uses them on user input:
  - the e-mail shape;
  - `\D` and `\s`;
  - the registration username pattern: a pattern whose only metacharacter is `.` is matched by the model itself (a `.` matches any character but a line terminator). Any other pattern is handed to the regular-expression engine, which is a parameter.
- URL joining follows axios's rules (`isAbsoluteURL`, then `combineURLs`) in `ClientApi.FullUrl`, because the library is outside the program. The interceptor's own `^https?://` test, which decides only whether the leading slash is added, is modelled separately as `ClientApi.IsAbsolute`. The two differ on `//host/x`, as `ClientApi.AbsoluteForAxios` states.
- `JSON.stringify` dropping `undefined` properties is modelled only for the auth responses; other bodies are values as handed to the framework.
- The Socket.IO server's CORS option is not modelled. `backhend/src/server.js:8` reads it from a `SOCKET_CORS` export that `backhend/src/app.js` does not have, as said above. Its fallback at `backhend/src/server.js:18-30` builds the same list as `Cors.AllowList`.
- `petadop-frontend/src/store/pets.js`, `src/middleware/auth.js`, the upload and validator middleware, `src/routes/auth.routes.js` and `backhend/src/routes/auth.routes.js` are not part of this model. Their effects enter as parameters: the `listedBy` owner id, the authenticated user, and whether the request validators pass.
- `src/models/Pet.js` is not part of this model. Its schema validation on `Pet.create` and `save` has no outcome in `PetsController.CreatePet`, `PetsController.UpdatePet` or `PetsController.SetStatus`: a document the schema would refuse is stored as given.
- `backhend/src/models/User.js` is not part of this model. `PasswordReset.ResetPassword` takes it that the account stores the assigned hash unchanged. If that model, like `src/models/User.js`, re-hashes a modified password on save or checks the 8 to 16 length first, a reset would store a double hash or fail validation.
- ResetPasswordPage.ReplyShown: when the server's error is an array, the page shows its joined text, which may be empty; the contract promises a non-empty error only for other values.
- ForgotPasswordPage.Normalised: its own contract states only that the text does not grow; its meaning (trimmed, lower-case, case and space ignored) is stated by ForgotPasswordPage.SentIsKey and ForgotPasswordPage.CaseAndSpaceIgnored.
- Session.Login: the identifier is taken to be a string; a missing identifier, which makes the source throw before any request, is not modelled.
- PetDetails.Photos: the `photos` field is read as an array or as absent; a non-array `photos` value is treated as absent.
- Session.LoadMeIdempotent: holds only when the profile request is not answered after a silent token refresh; a renewed token makes the second load send a different header.
- Session.LoadMeConsistent: assumes the tokens the server and the interceptor hand back are strings or falsy.
- ChatRoutes.AttachmentsOf: an explicit `null` for `attachments` is stored as an empty list, like a missing one; Mongoose may keep the null itself.
- ChatRoutes.AttachmentDocuments: a null element of the array is refused with the other non-objects; Mongoose's document array may keep it.
- Js.ToNumber: reads integers in decimal only; exponent, hexadecimal and fractional forms such as "1e3", "0x10" or "1.5", and "Infinity" or "-Infinity" (infinite in JavaScript), read as NaN.
- Js.CastNumber: reads strings as `Js.ToNumber` does, so "1.5" and "Infinity" are refused; an object with its own `valueOf` is not modelled.
- PetsController.CreatePet: schema validation by `src/models/Pet.js` is not modelled (see above). A body `_id` is accepted only as 24 lower-case hexadecimal digits: the upper-case and 12-character forms, an ObjectId-bearing document and null, which the ObjectId cast or MongoDB may take, go to the error handler in the model. The answer of that handler (`src/middleware/error.js`) is not part of this model.

## Findings

| source | as written | input that shows it | evidently intended | confidence | as-written member | corrected member |
|---|---|---|---|---|---|---|
| backhend/src/server.js:124-129 | the guard tests the untrimmed text, and the stored text is then trimmed | text `" "` with no attachments | a live message is stored only when its trimmed text or its attachments are non-empty | high, not executed | SocketEvents.BlankMessageStored | SocketEvents.OnMessageTrimmed |
| src/controllers/auth.controller.js:29 | the username is placed unescaped in a case-insensitive regular expression | registering `a.c` when only `abc` exists | a clash only with a username equal ignoring case | high, not executed | AuthController.LookalikeNameRefused | AuthController.ExactRefusesOnlyClashes |
| petadop-frontend/src/store/auth.js:59 | store paths begin with `/api` under a base that already ends in `/api` | login under the default base requests `/api/api/auth/login`, answered 404 "Route not found" | the paths relative to the base, such as `/auth/login` | medium, not executed; a development proxy that rewrites the path would hide it | Session.DoubledPrefix | Session.IntendedPathsRouted |
| petadop-frontend/src/pages/PetDetails.jsx:38-43 | `/uploads/` is prefixed to a photo value the pets API already stores as `/uploads/<file>` | stored photo `/uploads/a.jpg` is requested at `/uploads//uploads/a.jpg` | the stored path appended to the server origin | high, not executed | PetDetails.StoredPhotoMisplaced | PetDetails.PhotoUrlServesStored |
| petadop-frontend/src/pages/ResetPassword.jsx:9 | the session store defines no `resetPassword`, so a valid submit calls `undefined` | a valid token with matching 8-character passwords | the request is sent and the page leaves its submitting state | high, not executed | ResetPasswordPage.StuckWithoutAction | ResetPasswordPage.SubmitSendsValid |
| petadop-frontend/src/pages/ForgotPassword.jsx:8 | the session store defines no `forgotPassword`, so a valid submit calls `undefined` | the address `a@b.co` | the request is sent and the privacy-safe notice is shown | high, not executed | ForgotPasswordPage.StuckWithoutAction | ForgotPasswordPage.SubmitSendsValid |
| backhend/src/controllers/chat.controller.js:35-49 | `createMessage` returns the message with its sender populated, and `touchConversation` compares each participant with `String(msg.sender)`, which is "[object Object]" | a conversation `[me, other]` and a message sent by `me` through `POST /chat/:id/send` | the sender's own unread count stays and only the others' rise | high, not executed | ChatRoutes.SendBumpsSender | ChatRoutes.SendCountsOnce |
| backhend/src/server.js:97-144 | the `chat:join`, `chat:leave`, `chat:typing` and `chat:read` handlers destructure their payload in the parameter list, outside any `try` | `socket.emit("chat:join")` with no payload | an empty payload is ignored, as the `chat:message` handler does by falling back to an empty object | high, not executed | SocketEvents.EmptyEventCrashes | SocketEvents.GuardedIgnoresEmpty |
| backhend/src/controllers/password.controller.js:53 | the body's `token` goes into `findOne` as it came, so an object is read as query operators | the body `{"token": {"$ne": null}, "password": "password1"}`, sent twice | only the holder of a token string can reset, and only once | high, not executed | PasswordReset.OperatorTokenResets | PasswordReset.ResetIsSingleUse |
| backhend/src/models/message.js:8-15 | the element `{ url: String, name: String, type: String, size: Number }` has a `type` key, which Mongoose takes as the element's own type, so `attachments` is an array of strings | `POST /chat/:id/send` with `{"attachments":[{"url":"u","name":"photo.jpg","type":"image/jpeg","size":1024}]}` fails the String cast, is answered 500 and stores nothing | an array of sub-documents with those four fields, written with `type: { type: String }` | high, not executed | ChatRoutes.PhotoAttachmentRefused | ChatRoutes.PhotoAttachmentStored |

=== FILE: auth_controller.dfy ===
/** The account endpoints of the pets API (`src/controllers/auth.controller.js`): register,
    login, refresh and logout, over a user collection held as a sequence. Hashing, password
    comparison, token signing and verification, and the regular-expression engine are
    parameters; `USE_REFRESH_COOKIE` is read once into `useCookie`. */
module AuthController {
  import opened Wrappers
  import Strings
  import Js
  import UserModel
  import Search

  /** `(process.env.USE_REFRESH_COOKIE || "false").toLowerCase() === "true"`. */
  function UseCookie(env: Option<string>): (r: bool)
    ensures r <==> env.Some? && Strings.ToLower(env.value) == "true"
  {
    var v := Js.Or(if env.Some? then Js.Str(env.value) else Js.Undefined, Js.Str("false"));
    Strings.ToLower(v.s) == "true"
  }

  /** The variable is case-insensitive but not trimmed: two settings equal up to case
      agree, and a setting with surrounding space or of another length is off. */
  lemma UseCookieIgnoresCaseOnly(a: string, b: string)
    requires Strings.EqualsIgnoreCase(a, b)
    ensures UseCookie(Some(a)) == UseCookie(Some(b))
    ensures |a| != 4 ==> !UseCookie(Some(a))
    ensures !UseCookie(Some(" " + a)) && !UseCookie(None)
  {
    assert Strings.ToLower(" " + a)[0] == ' ';
  }

  /** What the handler does to the refresh-token cookie. */
  datatype CookieOp = KeepCookie | SetRefresh(token: string) | ClearRefresh

  /** The JSON bodies the handlers send. */
  datatype Body =
    | Message(success: bool, message: string)
      /** `{ success: true, data: user, tokens: { accessToken, refreshToken } }`. */
    | Session(user: UserModel.User, accessToken: string, refreshToken: Option<string>)
      /** `{ success: true, accessToken }`. */
    | AccessOnly(accessToken: string)

  /** A response, or an exception handed to `next`. */
  datatype Reply = Reply(status: nat, body: Body, cookie: CookieOp) | Next

  /** `{ success: false, message }`. */
  function Failure(status: nat, message: string): Reply {
    Reply(status, Message(false, message), KeepCookie)
  }

  /** The token oracles: `sign` of an access and of a refresh payload, and `jwt.verify` of a
      refresh token, which gives the payload or fails. */
  datatype Tokens = Tokens(signAccess: Js.Value -> string, signRefresh: Js.Value -> string,
                           verifyRefresh: Js.Value -> Option<Js.Value>)

  /** `(x || "").trim()`; `None` when `x` is truthy but not a string, and `trim` throws. */
  function TrimField(x: Js.Value): (r: Option<string>)
    ensures !Js.Truthy(x) ==> r == Some("")
    ensures x.Str? ==> r == Some(Strings.Trim(x.s))
    ensures r.None? <==> Js.Truthy(x) && !x.Str?
  {
    var v := Js.Or(x, Js.Str(""));
    if v.Str? then Some(Strings.Trim(v.s)) else None
  }

  /** `(email || "").trim().toLowerCase()`. */
  function EmailField(x: Js.Value): (r: Option<string>)
    ensures r.None? <==> TrimField(x).None?
    ensures r.Some? ==> r.value == Strings.ToLower(TrimField(x).value)
  {
    match TrimField(x)
    case None => None
    case Some(t) => Some(Strings.ToLower(t))
  }

  /** The characters with a meaning in a regular expression. */
  predicate IsMeta(c: char) {
    c in "\\^$.|?*+()[]{}"
  }

  /** A pattern whose only special character is `.`. */
  predicate DotsOnly(p: string) {
    forall i :: 0 <= i < |p| ==> IsMeta(p[i]) ==> p[i] == '.'
  }

  /** The characters a `.` does not match without the `s` flag. */
  predicate IsLineTerminator(c: char) {
    c == '\n' || c == '\r' || c == '\U{2028}' || c == '\U{2029}'
  }

  /** `new RegExp("^" + p + "$", "i").test(s)` for a pattern whose only special character is
      `.`: same length, each `.` matches any character but a line terminator, and every other
      one itself, ignoring case. */
  predicate DotMatch(p: string, s: string) {
    && |p| == |s|
    && forall i :: 0 <= i < |p| ==>
         if p[i] == '.' then !IsLineTerminator(s[i]) else Strings.ToLowerChar(p[i]) == Strings.ToLowerChar(s[i])
  }

  /** A pattern without special characters matches exactly its case-insensitive equals. */
  lemma PlainPatternIsExact(p: string, s: string)
    requires forall i :: 0 <= i < |p| ==> !IsMeta(p[i])
    ensures DotMatch(p, s) <==> Strings.EqualsIgnoreCase(p, s)
  {
    if DotMatch(p, s) {
      assert Strings.ToLower(p) == Strings.ToLower(s);
    }
    if Strings.EqualsIgnoreCase(p, s) {
      forall i | 0 <= i < |p|
        ensures Strings.ToLowerChar(p[i]) == Strings.ToLowerChar(s[i])
      {
        assert Strings.ToLower(p)[i] == Strings.ToLower(s)[i];
      }
    }
  }

  /** How the duplicate lookup compares usernames: given the normalised new name, the test
      it applies to each stored name, or `None` when building that test throws. */
  type NameQuery = string -> Option<string -> bool>

  /** The lookup as written: the name is pasted unescaped into `^…$` with the `i` flag. A
      pattern with only `.` is decided here; any other special character is left to the
      regular-expression engine `compile`, which also reports a pattern that does not parse. */
  function RegexQuery(compile: string -> Option<string -> bool>): (r: NameQuery)
    ensures forall p :: !DotsOnly(p) ==> r(p) == compile(p)
    ensures forall p :: DotsOnly(p) ==> r(p).Some?
    ensures forall p, s :: DotsOnly(p) && r(p).Some? ==> (r(p).value(s) <==> DotMatch(p, s))
  {
    (p: string) => if DotsOnly(p) then Some((s: string) => DotMatch(p, s)) else compile(p)
  }

  /** The lookup the comment above it asks for: a case-insensitive equal name. */
  function ExactQuery(): NameQuery {
    (p: string) => Some((s: string) => Strings.EqualsIgnoreCase(p, s))
  }

  /** `User.findOne({ $or: [{ email }, { username: test }] })`. */
  function Taken(users: seq<UserModel.User>, email: string, test: string -> bool): (r: bool)
    ensures FindByEmail(users, email).Some? ==> r
  {
    exists k :: 0 <= k < |users| && (users[k].email == email || test(users[k].username))
  }

  /** The index of the first user with this e-mail. */
  function FindByEmail(users: seq<UserModel.User>, email: string): (r: Option<nat>)
    ensures r.Some? ==> r.value < |users| && users[r.value].email == email
    ensures r.Some? ==> forall k :: 0 <= k < r.value ==> users[k].email != email
    ensures r.None? ==> forall k :: 0 <= k < |users| ==> users[k].email != email
  {
    Search.First(users, EmailIs(email))
  }

  /** The `findOne({ email })` filter. */
  function EmailIs(email: string): UserModel.User -> bool {
    (u: UserModel.User) => u.email == email
  }

  /** `User.findById`. */
  function FindById(users: seq<UserModel.User>, id: string): (r: Option<nat>)
    ensures r.Some? ==> r.value < |users| && users[r.value].id == id
    ensures r.None? ==> forall k :: 0 <= k < |users| ==> users[k].id != id
  {
    Search.First(users, IdIs(id))
  }

  /** The `findById` filter. */
  function IdIs(id: string): UserModel.User -> bool {
    (u: UserModel.User) => u.id == id
  }

  /** The public view of a user, as `res.json` serialises it: no password, `id` for `_id`. */
  function PublicView(u: UserModel.User): (r: Js.Value)
    ensures r.Obj? && "password" !in r.fields && "_id" !in r.fields
    ensures "id" in r.fields && r.fields["id"] == Js.Str(u.id)
  {
    Js.Obj(UserModel.ToJson(UserModel.Document(u, false)))
  }

  /** The body as JSON text would carry it; an `undefined` property is left out. */
  function ToJs(b: Body): (r: Js.Value)
    ensures r.Obj? && "success" in r.fields && r.fields["success"] == Js.Bool(!b.Message? || b.success)
    ensures b.Session? ==> "data" in r.fields && r.fields["data"] == PublicView(b.user)
  {
    match b
    case Message(ok, m) => Js.Obj(map["success" := Js.Bool(ok), "message" := Js.Str(m)])
    case Session(u, access, refresh) =>
      var tokens := map["accessToken" := Js.Str(access)];
      Js.Obj(map["success" := Js.Bool(true), "data" := PublicView(u),
                 "tokens" := Js.Obj(if refresh.Some? then tokens["refreshToken" := Js.Str(refresh.value)] else tokens)])
    case AccessOnly(access) => Js.Obj(map["success" := Js.Bool(true), "accessToken" := Js.Str(access)])
  }

  /** A signed-in response never shows a password hash, whether the stored record has one
      selected or not. */
  lemma SessionHidesPassword(u: UserModel.User, access: string, refresh: Option<string>)
    ensures var data := ToJs(Session(u, access, refresh)).fields["data"];
      data.Obj? && "password" !in data.fields && data.fields["email"] == Js.Str(u.email)
  {
    UserModel.JsonHidesPassword(u, false);
  }

  /** `{ success: true, data, tokens: { accessToken, refreshToken } }`, the refresh token
      left out of the body when it travels in the cookie. */
  function SignedIn(status: nat, u: UserModel.User, t: Tokens, useCookie: bool): (r: Reply)
    ensures r.Reply? && r.status == status && r.body.Session? && r.body.user == u
    ensures useCookie <==> r.cookie.SetRefresh?
    ensures useCookie <==> r.body.refreshToken.None?
    ensures r.body.accessToken == t.signAccess(UserModel.AccessPayload(u))
    ensures var refresh := t.signRefresh(UserModel.RefreshPayload(u));
      (useCookie ==> r.cookie == SetRefresh(refresh)) && (!useCookie ==> r.body.refreshToken == Some(refresh))
  {
    var access := t.signAccess(UserModel.AccessPayload(u));
    var refresh := t.signRefresh(UserModel.RefreshPayload(u));
    Reply(status, Session(u, access, if useCookie then None else Some(refresh)),
          if useCookie then SetRefresh(refresh) else KeepCookie)
  }

  const InUse := "Email or username already in use"

  /** Whether a new user would pass the unique indexes on username and e-mail (a clash is
      error `E11000`). */
  predicate Unique(users: seq<UserModel.User>, u: UserModel.User)
    decreases |users|
  {
    |users| == 0
    || (users[0].username != u.username && users[0].email != u.email && Unique(users[1..], u))
  }

  lemma {:induction false} UniqueMeans(users: seq<UserModel.User>, u: UserModel.User)
    ensures Unique(users, u) <==>
      forall k :: 0 <= k < |users| ==> users[k].username != u.username && users[k].email != u.email
    decreases |users|
  {
    if |users| > 0 {
      UniqueMeans(users[1..], u);
      assert forall k :: 1 <= k < |users| ==> users[k] == users[1..][k - 1];
    }
  }

  /** The normalised text fields of a registration. */
  datatype Fields = Fields(username: string, fullname: string, email: string)

  /** Destructuring `req.body` and normalising: `None` when the body is nullish or a field is
      truthy but not a string, both of which throw. */
  function ReadFields(body: Js.Value): (r: Option<Fields>)
    ensures r.Some? <==> (!Js.IsNullish(body) && TrimField(Js.Get(body, "username")).Some?
      && TrimField(Js.Get(body, "fullname")).Some? && EmailField(Js.Get(body, "email")).Some?)
    ensures r.Some? ==> (r.value.username == TrimField(Js.Get(body, "username")).value
      && r.value.email == EmailField(Js.Get(body, "email")).value)
  {
    if Js.IsNullish(body) then None
    else
      var username := TrimField(Js.Get(body, "username"));
      var fullname := TrimField(Js.Get(body, "fullname"));
      var email := EmailField(Js.Get(body, "email"));
      if username.None? || fullname.None? || email.None? then None
      else Some(Fields(username.value, fullname.value, email.value))
  }

  /** The draft `register` hands to `User.create`: the normalised names and e-mail, the raw
      password and avatar, no role. */
  function Draft(body: Js.Value, f: Fields): UserModel.Draft {
    UserModel.Draft(Js.Str(f.username), Js.Str(f.fullname), Js.Get(body, "avatar"), Js.Str(f.email),
                    Js.Get(body, "password"), Js.Undefined)
  }

  /** `User.create` and the sign-in that follows: a draft the schema rejects goes to `next`, a
      unique-index clash is a 409, otherwise the user is appended and signed in with 201. */
  function Insert(users: seq<UserModel.User>, draft: UserModel.Draft, id: string,
                  hash: string -> string, t: Tokens, useCookie: bool)
    : (r: (seq<UserModel.User>, Reply))
    ensures r.1.Next? <==> !UserModel.Valid(draft)
    ensures r.1.Reply? ==> r.1.status == 201 || r.1 == Failure(409, InUse)
    ensures r.1.Reply? && r.1.status != 201 ==>
      r.0 == users && !Unique(users, UserModel.Create(draft, id, hash).value)
    ensures r.1.Next? ==> r.0 == users
    ensures r.1.Reply? && r.1.status == 201 ==>
      && UserModel.Create(draft, id, hash).Some?
      && r.0 == users + [UserModel.Create(draft, id, hash).value]
      && Unique(users, UserModel.Create(draft, id, hash).value)
      && r.1 == SignedIn(201, UserModel.Create(draft, id, hash).value, t, useCookie)
  {
    match UserModel.Create(draft, id, hash)
    case None => (users, Next)
    case Some(u) =>
      if !Unique(users, u) then (users, Failure(409, InUse))
      else (users + [u], SignedIn(201, u, t, useCookie))
  }

  /** `register` with a given username lookup. The fields are trimmed (the e-mail also
      lower-cased); a lookup hit, or a unique-index clash on insert, is a 409; a draft the
      schema rejects, and anything that throws, goes to `next`; otherwise the user is stored
      under `id` and signed in with status 201. */
  function RegisterWith(users: seq<UserModel.User>, body: Js.Value, query: NameQuery, id: string,
                        hash: string -> string, t: Tokens, useCookie: bool)
    : (r: (seq<UserModel.User>, Reply))
    ensures ReadFields(body).None? ==> r == (users, Next)
    ensures r.1.Reply? ==> r.1.status == 201 || r.1 == Failure(409, InUse)
    ensures r.1.Reply? && r.1.status == 201 ==>
      && ReadFields(body).Some?
      && var u := UserModel.Create(Draft(body, ReadFields(body).value), id, hash);
      && u.Some? && u.value.id == id
      && r.0 == users + [u.value]
      && Unique(users, u.value)
      && r.1 == SignedIn(201, u.value, t, useCookie)
    ensures !(r.1.Reply? && r.1.status == 201) ==> r.0 == users
  {
    match ReadFields(body)
    case None => (users, Next)
    case Some(f) =>
      match query(f.username)
      case None => (users, Next)
      case Some(test) => Admit(users, body, f, test, id, hash, t, useCookie)
  }

  /** After the lookup: a hit is a 409 before anything is written, a miss goes on to insert. */
  function Admit(users: seq<UserModel.User>, body: Js.Value, f: Fields, test: string -> bool,
                 id: string, hash: string -> string, t: Tokens, useCookie: bool)
    : (r: (seq<UserModel.User>, Reply))
    ensures Taken(users, f.email, test) ==> r == (users, Failure(409, InUse))
    ensures !Taken(users, f.email, test) ==> r == Insert(users, Draft(body, f), id, hash, t, useCookie)
  {
    if Taken(users, f.email, test) then (users, Failure(409, InUse))
    else Insert(users, Draft(body, f), id, hash, t, useCookie)
  }

  /** `register` as written: the username lookup is the unescaped regular expression. A
      registration is stored only when no stored user has its e-mail and, for a name whose
      only special character is `.`, no stored name matches it with each `.` as a wildcard. */
  function Register(users: seq<UserModel.User>, body: Js.Value, compile: string -> Option<string -> bool>,
                    id: string, hash: string -> string, t: Tokens, useCookie: bool)
    : (r: (seq<UserModel.User>, Reply))
    ensures ReadFields(body).None? ==> r == (users, Next)
    ensures r.1.Reply? ==> r.1.status == 201 || r.1 == Failure(409, InUse)
    ensures !(r.1.Reply? && r.1.status == 201) ==> r.0 == users
    ensures r.1.Reply? && r.1.status == 201 ==> |r.0| == |users| + 1 && r.0[..|users|] == users
    ensures r.1.Reply? && r.1.status == 201 && DotsOnly(ReadFields(body).value.username) ==>
      forall k :: 0 <= k < |users| ==>
        && users[k].email != ReadFields(body).value.email
        && !DotMatch(ReadFields(body).value.username, users[k].username)
  {
    RegexRegisteredIsNew(users, body, compile, id, hash, t, useCookie);
    RegisterWith(users, body, RegexQuery(compile), id, hash, t, useCookie)
  }

  lemma RegexRegisteredIsNew(users: seq<UserModel.User>, body: Js.Value, compile: string -> Option<string -> bool>,
                             id: string, hash: string -> string, t: Tokens, useCookie: bool)
    ensures var r := RegisterWith(users, body, RegexQuery(compile), id, hash, t, useCookie);
      r.1.Reply? && r.1.status == 201 ==>
        && |r.0| == |users| + 1 && r.0[..|users|] == users
        && (DotsOnly(ReadFields(body).value.username) ==>
              forall k :: 0 <= k < |users| ==>
                && users[k].email != ReadFields(body).value.email
                && !DotMatch(ReadFields(body).value.username, users[k].username))
  {
    var r := RegisterWith(users, body, RegexQuery(compile), id, hash, t, useCookie);
    if r.1.Reply? && r.1.status == 201 {
      var f := ReadFields(body).value;
      var u := UserModel.Create(Draft(body, f), id, hash).value;
      assert r.0 == users + [u];
      assert r.0[..|users|] == users;
      if DotsOnly(f.username) {
        var test := RegexQuery(compile)(f.username).value;
        assert r == Admit(users, body, f, test, id, hash, t, useCookie);
        assert !Taken(users, f.email, test);
        forall k | 0 <= k < |users|
          ensures users[k].email != f.email && !DotMatch(f.username, users[k].username)
        {
          assert !test(users[k].username);
        }
      }
    }
  }

  /** `register` with the case-insensitive equality its comment describes. */
  function RegisterExact(users: seq<UserModel.User>, body: Js.Value, id: string,
                         hash: string -> string, t: Tokens, useCookie: bool)
    : (r: (seq<UserModel.User>, Reply))
    ensures r == RegisterWith(users, body, ExactQuery(), id, hash, t, useCookie)
  {
    RegisterWith(users, body, ExactQuery(), id, hash, t, useCookie)
  }

  /** As written, a name without special characters other than `.` is refused whenever it
      matches a stored name with each `.` read as a wildcard. */
  lemma WildcardNameRefused(users: seq<UserModel.User>, body: Js.Value, compile: string -> Option<string -> bool>,
                            id: string, hash: string -> string, t: Tokens, useCookie: bool, k: nat)
    requires ReadFields(body).Some? && DotsOnly(ReadFields(body).value.username)
    requires k < |users| && DotMatch(ReadFields(body).value.username, users[k].username)
    ensures Register(users, body, compile, id, hash, t, useCookie) == (users, Failure(409, InUse))
  {
    var f := ReadFields(body).value;
    var test := RegexQuery(compile)(f.username).value;
    assert test(users[k].username);
    assert Taken(users, f.email, test);
    TakenRefused(users, body, RegexQuery(compile), id, hash, t, useCookie, f, test);
  }

  lemma TakenRefused(users: seq<UserModel.User>, body: Js.Value, query: NameQuery, id: string,
                     hash: string -> string, t: Tokens, useCookie: bool, f: Fields, test: string -> bool)
    requires ReadFields(body) == Some(f) && query(f.username) == Some(test)
    requires Taken(users, f.email, test)
    ensures RegisterWith(users, body, query, id, hash, t, useCookie) == (users, Failure(409, InUse))
  {
    assert RegisterWith(users, body, query, id, hash, t, useCookie)
        == Admit(users, body, f, test, id, hash, t, useCookie);
  }

  /** A user called "abc" blocks the registration of "a.c" under another e-mail: the dot is a
      wildcard in the lookup. */
  lemma LookalikeNameRefused(users: seq<UserModel.User>, body: Js.Value,
                             compile: string -> Option<string -> bool>, hash: string -> string,
                             t: Tokens, useCookie: bool)
    requires users == [UserModel.User("1", "abc", "Abc", "a.png", "abc@x.io", "h", UserModel.Member)]
    requires body == Js.Obj(map["username" := Js.Str("a.c"), "email" := Js.Str("q@x.io")])
    ensures Register(users, body, compile, "2", hash, t, useCookie) == (users, Failure(409, InUse))
  {
    LookalikeBody(body);
    DotsExample();
    LookalikeMatches(users[0].username);
    WildcardNameRefused(users, body, compile, "2", hash, t, useCookie, 0);
  }

  lemma LookalikeMatches(name: string)
    requires name == "abc"
    ensures DotMatch("a.c", name)
  {
    assert forall i :: 0 <= i < 3 ==> "a.c"[i] == '.' || "a.c"[i] == name[i];
  }

  /** A `.` in the name still does not stand for a line break. */
  lemma DotSkipsLineBreak(p: string, s: string, i: int)
    requires |p| == |s| && 0 <= i < |p| && p[i] == '.' && IsLineTerminator(s[i])
    ensures !DotMatch(p, s)
  {
  }

  lemma LookalikeBody(body: Js.Value)
    requires body == Js.Obj(map["username" := Js.Str("a.c"), "email" := Js.Str("q@x.io")])
    ensures ReadFields(body) == Some(Fields("a.c", "", "q@x.io"))
  {
    assert Js.Get(body, "username") == Js.Str("a.c");
    assert Js.Get(body, "fullname") == Js.Undefined;
    assert Js.Get(body, "email") == Js.Str("q@x.io");
    PlainName();
    PlainEmail();
    FieldsOf(body, "a.c", "q@x.io");
  }

  /** A body with a normalised name and e-mail and no full name. */
  lemma FieldsOf(body: Js.Value, name: string, email: string)
    requires Js.Get(body, "username") == Js.Str(name) && TrimField(Js.Str(name)) == Some(name)
    requires Js.Get(body, "email") == Js.Str(email) && EmailField(Js.Str(email)) == Some(email)
    requires Js.Get(body, "fullname") == Js.Undefined
    ensures ReadFields(body) == Some(Fields(name, "", email))
  {
  }

  /** Text with no white space at either end is its own normalised field. */
  lemma TrimFieldOfTrimmed(s: string)
    requires |s| > 0 ==> !Strings.IsSpace(s[0]) && !Strings.IsSpace(s[|s| - 1])
    ensures TrimField(Js.Str(s)) == Some(s)
  {
    Strings.TrimOfTrimmed(s);
  }

  /** ... and, without upper-case letters, its own normalised e-mail. */
  lemma EmailFieldOfNormal(s: string)
    requires TrimField(Js.Str(s)) == Some(s) && Strings.ToLower(s) == s
    ensures EmailField(Js.Str(s)) == Some(s)
  {
  }

  /** The two fields of the example are already in normal form. */
  lemma PlainName()
    ensures TrimField(Js.Str("a.c")) == Some("a.c")
  {
    TrimFieldOfTrimmed("a.c");
  }

  lemma PlainEmail()
    ensures EmailField(Js.Str("q@x.io")) == Some("q@x.io")
  {
    TrimFieldOfTrimmed("q@x.io");
    LowerExample();
    EmailFieldOfNormal("q@x.io");
  }

  lemma LowerExample()
    ensures Strings.ToLower("q@x.io") == "q@x.io"
  {
    Strings.ToLowerOfLower("q@x.io");
  }

  lemma DotsExample()
    ensures DotsOnly("a.c")
  {
  }

  /** A stored user clashing with the new fields: same e-mail or a case-insensitively
      equal name. */
  predicate Clash(users: seq<UserModel.User>, f: Fields) {
    exists k :: 0 <= k < |users| && (users[k].email == f.email || Strings.EqualsIgnoreCase(f.username, users[k].username))
  }

  /** With exact matching the lookup is `Clash`. */
  lemma ExactStep(users: seq<UserModel.User>, body: Js.Value, id: string,
                  hash: string -> string, t: Tokens, useCookie: bool)
    requires ReadFields(body).Some?
    ensures var f := ReadFields(body).value;
      RegisterExact(users, body, id, hash, t, useCookie)
        == if Clash(users, f) then (users, Failure(409, InUse)) else Insert(users, Draft(body, f), id, hash, t, useCookie)
  {
    var f := ReadFields(body).value;
    ExactTaken(users, f);
  }

  lemma ExactTaken(users: seq<UserModel.User>, f: Fields)
    ensures ExactQuery()(f.username).Some?
    ensures Taken(users, f.email, ExactQuery()(f.username).value) <==> Clash(users, f)
  {
    var test := ExactQuery()(f.username).value;
    if Clash(users, f) {
      var k :| 0 <= k < |users| && (users[k].email == f.email || Strings.EqualsIgnoreCase(f.username, users[k].username));
      assert users[k].email == f.email || test(users[k].username);
    }
  }

  /** The user `register` creates from well-formed fields carries exactly those fields'
      name and e-mail. */
  lemma CreatedKeys(body: Js.Value, id: string, hash: string -> string)
    requires ReadFields(body).Some? && UserModel.Valid(Draft(body, ReadFields(body).value))
    ensures var f := ReadFields(body).value;
      var u := UserModel.Create(Draft(body, f), id, hash).value;
      u.username == f.username && u.email == f.email
  {
    var f := ReadFields(body).value;
    FieldsAreNormal(body);
    UserModel.CreateKeepsName(Draft(body, f), id, hash, f.username);
    UserModel.CreateKeepsEmail(Draft(body, f), id, hash, f.email);
  }

  /** With exact matching, a well-formed registration is refused with 409 exactly when a
      stored user has the same e-mail or a case-insensitively equal name. */
  lemma ExactRefusesOnlyClashes(users: seq<UserModel.User>, body: Js.Value, id: string,
                                hash: string -> string, t: Tokens, useCookie: bool)
    requires ReadFields(body).Some?
    ensures RegisterExact(users, body, id, hash, t, useCookie).1 == Failure(409, InUse)
      <==> Clash(users, ReadFields(body).value)
  {
    var f := ReadFields(body).value;
    ExactStep(users, body, id, hash, t, useCookie);
    if !Clash(users, f) {
      var draft := Draft(body, f);
      var r := Insert(users, draft, id, hash, t, useCookie);
      if r.1 == Failure(409, InUse) {
        var u := UserModel.Create(draft, id, hash).value;
        CreatedKeys(body, id, hash);
        UniqueMeans(users, u);
      }
    }
  }

  /** The normalised fields are fixed points of the schema's own normalisation. */
  lemma FieldsAreNormal(body: Js.Value)
    requires ReadFields(body).Some?
    ensures var f := ReadFields(body).value;
      Strings.Trim(f.username) == f.username && Strings.ToLower(Strings.Trim(f.email)) == f.email
  {
    var x := Js.Get(body, "username");
    Strings.TrimIdempotent(if Js.Truthy(x) then x.s else "");
    StoredEmailIsKey(Js.Get(body, "email"));
  }

  const BadCredentials := "Invalid credentials"

  /** `login`: the e-mail is normalised as in `register`; an unknown e-mail and a wrong
      password give the same 401; a comparison that throws goes to `next`. `compare` is
      `bcrypt.compare` of the presented password with a stored hash. */
  function Login(users: seq<UserModel.User>, body: Js.Value, compare: (Js.Value, string) -> Option<bool>,
                 t: Tokens, useCookie: bool): (r: Reply)
    ensures r.Reply? ==> r == Failure(401, BadCredentials) || r.status == 200
    ensures r.Reply? && r.status == 200 ==>
      && !Js.IsNullish(body) && EmailField(Js.Get(body, "email")).Some?
      && var k := FindByEmail(users, EmailField(Js.Get(body, "email")).value);
      && k.Some?
      && compare(Js.Get(body, "password"), users[k.value].password) == Some(true)
      && r == SignedIn(200, users[k.value], t, useCookie)
  {
    if Js.IsNullish(body) then Next
    else match EmailField(Js.Get(body, "email"))
      case None => Next
      case Some(email) =>
        match FindByEmail(users, email)
        case None => Failure(401, BadCredentials)
        case Some(k) =>
          match compare(Js.Get(body, "password"), users[k].password)
          case None => Next
          case Some(ok) =>
            if !ok then Failure(401, BadCredentials) else SignedIn(200, users[k], t, useCookie)
  }

  /** Login does not reveal whether an account exists: an unknown e-mail and a known e-mail
      with a wrong password get the same response. */
  lemma LoginIsUniform(users: seq<UserModel.User>, body1: Js.Value, body2: Js.Value,
                       compare: (Js.Value, string) -> Option<bool>, t: Tokens, useCookie: bool)
    requires !Js.IsNullish(body1) && !Js.IsNullish(body2)
    requires EmailField(Js.Get(body1, "email")).Some? && EmailField(Js.Get(body2, "email")).Some?
    requires FindByEmail(users, EmailField(Js.Get(body1, "email")).value).None?
    requires var k := FindByEmail(users, EmailField(Js.Get(body2, "email")).value);
      k.Some? && compare(Js.Get(body2, "password"), users[k.value].password) == Some(false)
    ensures Login(users, body1, compare, t, useCookie) == Login(users, body2, compare, t, useCookie)
    ensures Login(users, body1, compare, t, useCookie) == Failure(401, BadCredentials)
  {
  }

  /** What a successful registration stores: the old users, then the new one, whose e-mail
      no old user has and whose password is the hash of the one given. */
  lemma Registered(users: seq<UserModel.User>, body: Js.Value, compile: string -> Option<string -> bool>,
                   id: string, hash: string -> string, t: Tokens, useCookie: bool)
    requires var r := Register(users, body, compile, id, hash, t, useCookie);
      r.1.Reply? && r.1.status == 201
    ensures var r := Register(users, body, compile, id, hash, t, useCookie);
      var f := ReadFields(body).value;
      && |r.0| == |users| + 1 && r.0[..|users|] == users
      && r.0[|users|].email == f.email
      && (forall k :: 0 <= k < |users| ==> users[k].email != f.email)
      && r.0[|users|].password == hash(UserModel.CastText(Js.Get(body, "password")).s)
  {
    var f := ReadFields(body).value;
    var u := UserModel.Create(Draft(body, f), id, hash).value;
    CreatedKeys(body, id, hash);
    UniqueMeans(users, u);
  }

  /** A user registered through `register` can log in with the same e-mail, spelt with any
      surrounding white space and case, and the same password, when that password was given
      as text. */
  lemma RegisterThenLogin(users: seq<UserModel.User>, body: Js.Value, compile: string -> Option<string -> bool>,
                          id: string, hash: string -> string, t: Tokens, useCookie: bool,
                          compare: (Js.Value, string) -> Option<bool>, login: Js.Value)
    requires var r := Register(users, body, compile, id, hash, t, useCookie);
      r.1.Reply? && r.1.status == 201
    requires Js.Get(body, "password").Str?
    requires !Js.IsNullish(login)
    requires EmailField(Js.Get(login, "email")) == EmailField(Js.Get(body, "email"))
    requires Js.Get(login, "password") == Js.Get(body, "password")
    requires forall p: string :: compare(Js.Str(p), hash(p)) == Some(true)
    ensures var r := Register(users, body, compile, id, hash, t, useCookie);
      Login(r.0, login, compare, t, useCookie) == SignedIn(200, r.0[|users|], t, useCookie)
  {
    var r := Register(users, body, compile, id, hash, t, useCookie);
    var f := ReadFields(body).value;
    Registered(users, body, compile, id, hash, t, useCookie);
    assert r.0 == users + [r.0[|users|]];
    FirstWithEmail(users, r.0[|users|], f.email);
    LoginFinds(r.0, login, compare, t, useCookie, |users|);
  }

  /** Login with the e-mail of the first user holding it, and that user's password, signs
      that user in. */
  lemma LoginFinds(users: seq<UserModel.User>, login: Js.Value, compare: (Js.Value, string) -> Option<bool>,
                   t: Tokens, useCookie: bool, k: nat)
    requires !Js.IsNullish(login) && EmailField(Js.Get(login, "email")).Some?
    requires FindByEmail(users, EmailField(Js.Get(login, "email")).value) == Some(k)
    requires compare(Js.Get(login, "password"), users[k].password) == Some(true)
    ensures Login(users, login, compare, t, useCookie) == SignedIn(200, users[k], t, useCookie)
  {
  }

  /** Normalising an already normalised e-mail changes nothing. */
  lemma StoredEmailIsKey(x: Js.Value)
    requires EmailField(x).Some?
    ensures var e := EmailField(x).value;
      Strings.ToLower(Strings.Trim(e)) == e
  {
    var t := TrimField(x).value;
    assert t == Strings.Trim(if Js.Truthy(x) then x.s else "");
    Strings.TrimIdempotent(if Js.Truthy(x) then x.s else "");
    Strings.ToLowerTrimCommute(t);
    Strings.ToLowerIdempotent(t);
  }

  /** Appending a user with an e-mail no stored user has makes it the one found. */
  lemma FirstWithEmail(users: seq<UserModel.User>, u: UserModel.User, email: string)
    requires u.email == email
    requires forall k :: 0 <= k < |users| ==> users[k].email != email
    ensures FindByEmail(users + [u], email) == Some(|users|)
  {
    Search.FirstAppend(users, u, EmailIs(email));
  }

  /** `refresh`: the token comes from the cookie only in cookie mode, else from the body or
      the cookie; a missing token, a token that does not verify and a vanished user are all
      401s with their own message; success issues a new access token and nothing else. */
  function Refresh(users: seq<UserModel.User>, cookies: Js.Value, body: Js.Value, t: Tokens,
                   useCookie: bool): (r: Reply)
    ensures r.Reply?
    ensures r.status == 200 || r.status == 401
    ensures r.status == 401 ==> (r.body in
      {Message(false, "Refresh token required"), Message(false, "Invalid refresh token"),
       Message(false, "User not found")})
    ensures r.status == 200 ==> exists k :: (0 <= k < |users| &&
      r.body == AccessOnly(t.signAccess(UserModel.AccessPayload(users[k]))))
    ensures r.cookie == KeepCookie
  {
    var fromCookie := Js.Get(cookies, "refreshToken");
    var fromBody := Js.Get(body, "refreshToken");
    var token := if useCookie then fromCookie else Js.Or(fromBody, fromCookie);
    if !Js.Truthy(token) then Failure(401, "Refresh token required")
    else match t.verifyRefresh(token)
      case None => Failure(401, "Invalid refresh token")
      case Some(payload) =>
        var id := Js.Get(payload, "_id");
        match (if Js.IsNullish(id) then None else FindById(users, Js.ToStr(id)))
        case None => Failure(401, "User not found")
        case Some(k) =>
          Reply(200, AccessOnly(t.signAccess(UserModel.AccessPayload(users[k]))), KeepCookie)
  }

  /** In cookie mode a refresh token in the body is ignored. */
  lemma CookieModeIgnoresBody(users: seq<UserModel.User>, cookies: Js.Value, body1: Js.Value, body2: Js.Value,
                              t: Tokens)
    ensures Refresh(users, cookies, body1, t, true) == Refresh(users, cookies, body2, t, true)
  {
  }

  /** Otherwise a refresh token in the body wins over the cookie. */
  lemma BodyTokenWins(users: seq<UserModel.User>, cookies: Js.Value, body: Js.Value, t: Tokens)
    requires Js.Truthy(Js.Get(body, "refreshToken"))
    ensures Refresh(users, cookies, body, t, false) == Refresh(users, Js.Obj(map[]), body, t, false)
  {
  }

  /** A refresh token for a stored user yields an access token with that user's claims. */
  lemma RefreshForStoredUser(users: seq<UserModel.User>, k: nat, token: string, t: Tokens, useCookie: bool)
    requires k < |users| && token != ""
    requires forall j :: 0 <= j < k ==> users[j].id != users[k].id
    requires t.verifyRefresh(Js.Str(token)) == Some(UserModel.RefreshPayload(users[k]))
    ensures var cookies := Js.Obj(map["refreshToken" := Js.Str(token)]);
      Refresh(users, cookies, Js.Obj(map[]), t, useCookie)
        == Reply(200, AccessOnly(t.signAccess(UserModel.AccessPayload(users[k]))), KeepCookie)
  {
    var cookies := Js.Obj(map["refreshToken" := Js.Str(token)]);
    var body := Js.Obj(map[]);
    assert Js.Get(cookies, "refreshToken") == Js.Str(token);
    assert Js.Get(body, "refreshToken") == Js.Undefined;
    var payload := UserModel.RefreshPayload(users[k]);
    assert Js.ToStr(Js.Get(payload, "_id")) == users[k].id;
    FirstById(users, k);
  }

  lemma FirstById(users: seq<UserModel.User>, k: nat)
    requires k < |users|
    requires forall j :: 0 <= j < k ==> users[j].id != users[k].id
    ensures FindById(users, users[k].id) == Some(k)
  {
    Search.FirstAt(users, IdIs(users[k].id), k);
  }

  /** `logout`: always succeeds, and clears the cookie exactly in cookie mode. */
  function Logout(useCookie: bool): (r: Reply)
    ensures r.Reply? && r.status == 200
    ensures r.cookie == ClearRefresh <==> useCookie
    ensures r.cookie.SetRefresh? == false
    ensures r.body == Message(true, "Logged out")
  {
    Reply(200, Message(true, "Logged out"), if useCookie then ClearRefresh else KeepCookie)
  }

  /** The browser's cookies after a reply: a set cookie replaces the refresh token, a cleared
      one removes it, and the other cookies stay as they were. */
  function AfterReply(jar: map<string, Js.Value>, op: CookieOp): (r: map<string, Js.Value>)
    ensures forall k :: k in jar && k != "refreshToken" ==> k in r && r[k] == jar[k]
    ensures forall k :: k in r && k != "refreshToken" ==> k in jar
    ensures "refreshToken" in r <==> op.SetRefresh? || (op.KeepCookie? && "refreshToken" in jar)
    ensures op.SetRefresh? ==> r["refreshToken"] == Js.Str(op.token)
  {
    match op
    case KeepCookie => jar
    case SetRefresh(token) => jar["refreshToken" := Js.Str(token)]
    case ClearRefresh => jar - {"refreshToken"}
  }

  /** After a cookie-mode logout the browser holds no refresh token, so the next refresh is a
      401 "Refresh token required" whatever the body carries; outside cookie mode logout
      changes nothing a later refresh depends on. */
  lemma LogoutEndsCookieRefresh(users: seq<UserModel.User>, jar: map<string, Js.Value>, body: Js.Value,
                                t: Tokens, useCookie: bool)
    ensures useCookie ==>
      Refresh(users, Js.Obj(AfterReply(jar, Logout(true).cookie)), body, t, true)
        == Failure(401, "Refresh token required")
    ensures !useCookie ==>
      Refresh(users, Js.Obj(AfterReply(jar, Logout(false).cookie)), body, t, false)
        == Refresh(users, Js.Obj(jar), body, t, false)
  {
    assert Js.Get(Js.Obj(AfterReply(jar, ClearRefresh)), "refreshToken") == Js.Undefined;
  }
}

=== FILE: auth_middleware.dfy ===
/** The request guards of the chat backend (`backhend/src/middleware/auth.js`): `auth` reads
    an exact `Bearer ` header, verifies the token with the first configured secret and
    normalises the user id; `requireSuperAdmin` admits one role. The environment is a map and
    the token verifier a parameter. */
module AuthMiddleware {
  import opened Wrappers
  import Strings
  import Js

  /** `process.env`: the variables that are set, with their text. */
  type Env = map<string, string>

  function EnvValue(env: Env, name: string): (r: Js.Value)
    ensures name in env ==> r == Js.Str(env[name])
    ensures name !in env ==> r == Js.Undefined
  {
    if name in env then Js.Str(env[name]) else Js.Undefined
  }

  const SecretNames: seq<string> := ["ACCESS_TOKEN_SECRET", "JWT_ACCESS_SECRET", "JWT_SECRET"]

  /** A variable that is set to non-empty text. */
  predicate Configured(env: Env, name: string) {
    name in env && env[name] != ""
  }

  /** `getAccessSecret`: the first of the three variables that is set to non-empty text. */
  function AccessSecret(env: Env): (r: Js.Value)
    ensures Js.Truthy(r) <==> exists i :: 0 <= i < 3 && Configured(env, SecretNames[i])
    ensures Js.Truthy(r) ==>
      exists i :: 0 <= i < 3 && Configured(env, SecretNames[i]) && r == Js.Str(env[SecretNames[i]])
                  && (forall j :: 0 <= j < i ==> !Configured(env, SecretNames[j]))
  {
    var r := Js.Or(Js.Or(EnvValue(env, SecretNames[0]), EnvValue(env, SecretNames[1])),
                   EnvValue(env, SecretNames[2]));
    assert forall i :: 0 <= i < 3 ==> (Js.Truthy(EnvValue(env, SecretNames[i])) <==> Configured(env, SecretNames[i]));
    r
  }

  /** What `jwt.verify` does with a token and a secret. */
  datatype Verification = Valid(payload: Js.Value) | Expired | Invalid

  datatype Outcome = Pass(user: Js.Value) | Reject(status: nat, message: string)

  /** The header `auth` reads: `authorization`, else `Authorization`, else empty text. */
  function AuthHeader(headers: Js.Value): Js.Value {
    Js.Or(Js.Or(Js.Get(headers, "authorization"), Js.Get(headers, "Authorization")), Js.Str(""))
  }

  /** `header.startsWith("Bearer ") ? header.slice(7) : null`, or `None` when the header is
      not a string and `startsWith` throws. */
  function BearerToken(header: Js.Value): (r: Option<Js.Value>)
    ensures r.None? <==> !header.Str?
    ensures r.Some? && Strings.StartsWith(header.s, "Bearer ") ==> r.value == Js.Str(header.s[7..])
    ensures r.Some? && !Strings.StartsWith(header.s, "Bearer ") ==> r.value == Js.Null
  {
    if !header.Str? then None
    else if Strings.StartsWith(header.s, "Bearer ") then Some(Js.Str(header.s[7..]))
    else Some(Js.Null)
  }

  /** The id `auth` settles on: the first truthy of `_id`, `id` and `sub`, as a string. */
  function UserId(payload: Js.Value): (r: Js.Value)
    ensures r.Undefined? || r.Str?
    ensures var candidates := [Js.Get(payload, "_id"), Js.Get(payload, "id"), Js.Get(payload, "sub")];
      && (r.Str? <==> exists i :: 0 <= i < 3 && Js.Truthy(candidates[i]))
      && (r.Str? ==>
            exists i :: 0 <= i < 3 && Js.Truthy(candidates[i]) && r.s == Js.ToStr(candidates[i])
                        && (forall j :: 0 <= j < i ==> !Js.Truthy(candidates[j])))
  {
    var c := [Js.Get(payload, "_id"), Js.Get(payload, "id"), Js.Get(payload, "sub")];
    var u := Js.Or(Js.Or(c[0], c[1]), c[2]);
    assert Js.Truthy(u) ==>
      || (Js.Truthy(c[0]) && u == c[0])
      || (!Js.Truthy(c[0]) && Js.Truthy(c[1]) && u == c[1])
      || (!Js.Truthy(c[0]) && !Js.Truthy(c[1]) && Js.Truthy(c[2]) && u == c[2]);
    if Js.Truthy(u) then Js.Str(Js.ToStr(u)) else Js.Undefined
  }

  /** `{ ...payload, _id: userId, id: userId }`: the payload's own fields with both ids set. */
  function RequestUser(payload: Js.Value): (r: Js.Value)
    ensures r.Obj? && "_id" in r.fields && "id" in r.fields
    ensures r.fields["_id"] == r.fields["id"] == UserId(payload)
    ensures forall k :: k != "_id" && k != "id" ==> Js.Get(r, k) == Js.Get(payload, k)
  {
    var own := if payload.Obj? then payload.fields else map[];
    Js.Obj(own["_id" := UserId(payload)]["id" := UserId(payload)])
  }

  /** The token `auth` goes on with: the non-empty text after an exact, case-sensitive
      `Bearer ` at the start of a string header. */
  function PresentedToken(headers: Js.Value): (r: Option<string>)
    ensures r.Some? <==> var h := AuthHeader(headers);
      h.Str? && Strings.StartsWith(h.s, "Bearer ") && |h.s| > 7
    ensures r.Some? ==> AuthHeader(headers).s == "Bearer " + r.value
  {
    match BearerToken(AuthHeader(headers))
    case Some(Str(t)) =>
      if t == "" then None
      else
        assert AuthHeader(headers).s == AuthHeader(headers).s[..7] + t;
        Some(t)
    case _ => None
  }

  /** `auth`: a missing or non-`Bearer ` header is refused before the secret is looked at;
      then a missing secret is a server error; then the verifier decides, an expired token
      and every other failure giving different messages. */
  function Auth(headers: Js.Value, env: Env, verify: (string, string) -> Verification): (r: Outcome)
    ensures r.Reject? ==> r.status == 401 || r.status == 500
    ensures PresentedToken(headers).None? ==>
      r == Reject(401, if AuthHeader(headers).Str? then "Missing Authorization header" else "Invalid token")
    ensures PresentedToken(headers).Some? && !Js.Truthy(AccessSecret(env)) ==>
      r == Reject(500, "Server misconfigured: missing ACCESS_TOKEN_SECRET")
    ensures PresentedToken(headers).Some? && Js.Truthy(AccessSecret(env)) ==>
      match verify(PresentedToken(headers).value, AccessSecret(env).s)
      case Valid(payload) => r == Pass(RequestUser(payload))
      case Expired => r == Reject(401, "Token expired")
      case Invalid => r == Reject(401, "Invalid token")
  {
    match BearerToken(AuthHeader(headers))
    case None => Reject(401, "Invalid token")
    case Some(token) =>
      if !Js.Truthy(token) then Reject(401, "Missing Authorization header")
      else
        var secret := AccessSecret(env);
        if !Js.Truthy(secret) then Reject(500, "Server misconfigured: missing ACCESS_TOKEN_SECRET")
        else match verify(token.s, secret.s)
          case Valid(payload) => Pass(RequestUser(payload))
          case Expired => Reject(401, "Token expired")
          case Invalid => Reject(401, "Invalid token")
  }

  /** `Authorization: Bearer <t>` presents exactly `t`, for any non-empty `t`. */
  lemma BearerHeaderPresents(t: string)
    requires t != ""
    ensures PresentedToken(Js.Obj(map["authorization" := Js.Str("Bearer " + t)])) == Some(t)
  {
    var h := Js.Obj(map["authorization" := Js.Str("Bearer " + t)]);
    assert AuthHeader(h) == Js.Str("Bearer " + t);
    assert ("Bearer " + t)[..7] == "Bearer ";
    assert ("Bearer " + t)[7..] == t;
  }

  /** Without a usable header the request is refused as unauthenticated whatever the
      configuration: the missing secret is only noticed for requests that carry a token. */
  lemma TokenCheckedFirst(headers: Js.Value, env: Env, verify: (string, string) -> Verification)
    requires PresentedToken(headers).None?
    ensures Auth(headers, env, verify).Reject? && Auth(headers, env, verify).status == 401
  {
  }

  /** Unlike the socket handshake, the scheme is matched case-sensitively: a lower-case
      `bearer` header is refused. */
  lemma LowerCaseSchemeRefused(t: string, env: Env, verify: (string, string) -> Verification)
    ensures Auth(Js.Obj(map["authorization" := Js.Str("bearer " + t)]), env, verify)
         == Reject(401, "Missing Authorization header")
  {
    var h := Js.Obj(map["authorization" := Js.Str("bearer " + t)]);
    assert AuthHeader(h) == Js.Str("bearer " + t);
    assert ("bearer " + t)[0] == 'b';
  }

  /** `requireSuperAdmin`: only a user whose role is exactly "superadmin" passes. */
  function RequireSuperAdmin(user: Js.Value): (r: Outcome)
    ensures r.Pass? <==> Js.Get(user, "role") == Js.Str("superadmin")
    ensures r.Pass? ==> r.user == user
    ensures r.Reject? ==> r == Reject(403, "Forbidden (superadmin only)")
  {
    if Js.Get(user, "role") == Js.Str("superadmin") then Pass(user)
    else Reject(403, "Forbidden (superadmin only)")
  }

  /** A route guarded by `auth` and then `requireSuperAdmin`: the second runs only on the
      user the first attached. */
  function AuthThenSuperAdmin(headers: Js.Value, env: Env, verify: (string, string) -> Verification): (r: Outcome)
    ensures Auth(headers, env, verify).Reject? ==> r == Auth(headers, env, verify)
    ensures Auth(headers, env, verify).Pass? ==> r == RequireSuperAdmin(Auth(headers, env, verify).user)
  {
    match Auth(headers, env, verify)
    case Reject(status, message) => Reject(status, message)
    case Pass(user) => RequireSuperAdmin(user)
  }

  /** The guarded route admits exactly a request presenting a token that the configured
      secret verifies to a payload whose role is "superadmin"; the user it passes on is that
      payload with the normalised ids. A verified token of any other role is refused with 403,
      and nothing else gets past `auth`. */
  lemma {:induction false} SuperAdminOnlyWithVerifiedRole(headers: Js.Value, env: Env, verify: (string, string) -> Verification)
    ensures var r := AuthThenSuperAdmin(headers, env, verify);
      r.Pass? <==>
        && PresentedToken(headers).Some? && Js.Truthy(AccessSecret(env))
        && verify(PresentedToken(headers).value, AccessSecret(env).s).Valid?
        && Js.Get(verify(PresentedToken(headers).value, AccessSecret(env).s).payload, "role") == Js.Str("superadmin")
    ensures var r := AuthThenSuperAdmin(headers, env, verify);
      r.Pass? ==> r.user == RequestUser(verify(PresentedToken(headers).value, AccessSecret(env).s).payload)
    ensures var r := AuthThenSuperAdmin(headers, env, verify);
      r == Reject(403, "Forbidden (superadmin only)") <==> Auth(headers, env, verify).Pass? && !r.Pass?
  {
    if PresentedToken(headers).Some? && Js.Truthy(AccessSecret(env)) {
      var v := verify(PresentedToken(headers).value, AccessSecret(env).s);
      if v.Valid? {
        assert Js.Get(RequestUser(v.payload), "role") == Js.Get(v.payload, "role");
      }
    }
  }
}

=== FILE: chat_controller.dfy ===
/** The chat store and its four operations: find-or-create a conversation for two users and a
    pet, persist a message, bump the unread counters and last-message preview, and mark a
    conversation read. The store is a pure value: conversations and messages in insertion
    order, each identified by the decimal text of its position, beside the set of user ids that
    have a document, which is what `populate` consults. Timestamps are integers supplied by the
    caller. */
module ChatController {
  import opened Wrappers
  import Strings
  import Js
  import Search

  type Id = string

  /** The `lastMessage` sub-document; `sentBy` is null when the sender had no user document. */
  datatype Preview = Preview(text: string, at: int, sentBy: Option<Id>)

  /** One stored attachment. The schema's element `{ url: String, name: String, type: String,
      size: Number }` has a `type` key, which Mongoose reads as the element's type, so as
      written the path is an array of strings and an attachment is a `Link`: the element's
      String cast, `None` for null. The sub-document the schema evidently means is a `Doc`,
      each field as stored: `Undefined` when absent, `Null`, or the cast value. */
  datatype Attachment =
    | Link(text: Option<string>)
    | Doc(url: Js.Value, name: Js.Value, mediaType: Js.Value, size: Js.Value)

  datatype Conversation = Conversation(
    id: Id,
    participants: seq<Id>,
    petId: Option<Id>,
    unread: map<Id, nat>,
    lastMessage: Option<Preview>,
    createdAt: int,
    updatedAt: int)

  /** A stored message; its `text` is `None` when null was stored. */
  datatype Message = Message(
    id: Id,
    conversation: Id,
    sender: Id,
    text: Option<string>,
    attachments: seq<Attachment>,
    createdAt: int)

  datatype Db = Db(conversations: seq<Conversation>, messages: seq<Message>, users: set<Id>)

  /** `msg.sender` after `populate("sender", ...)`: the user's document, or null when no user
      has the id. */
  datatype SenderField = SenderDoc(id: Id) | SenderNull

  /** What `createMessage` returns: the stored message with its sender populated. */
  datatype Populated = Populated(message: Message, sender: SenderField)

  /** The reply of `markRead` when the conversation exists. */
  datatype ReadAck = ReadAck(ok: bool, at: Js.Value)

  /** Every record carries the id of its position, so ids are unique. */
  ghost predicate WellFormed(db: Db) {
    && (forall i :: 0 <= i < |db.conversations| ==> db.conversations[i].id == Strings.NatToString(i))
    && (forall i :: 0 <= i < |db.messages| ==> db.messages[i].id == Strings.NatToString(i))
  }

  /** The `findOne` filter: both users among the participants (`$all`) and the same pet. */
  predicate Selects(c: Conversation, a: Id, b: Id, petId: Option<Id>) {
    a in c.participants && b in c.participants && c.petId == petId
  }

  /** No conversation repeats an earlier one: the pair a later two-party conversation was
      created for is not already covered, for the same pet, by an earlier conversation. */
  ghost predicate NoDuplicates(cs: seq<Conversation>) {
    forall i, j :: 0 <= i < j < |cs| && |cs[j].participants| == 2 ==>
      !Selects(cs[i], cs[j].participants[0], cs[j].participants[1], cs[j].petId)
  }

  /** An absent counter reads as 0 (`unread.get(key) || 0`). */
  function Unread(m: map<Id, nat>, k: Id): nat {
    if k in m then m[k] else 0
  }

  /** The filter as a test on one conversation. */
  function Selecting(a: Id, b: Id, petId: Option<Id>): Conversation -> bool {
    (c: Conversation) => Selects(c, a, b, petId)
  }

  /** The position of the first conversation the filter selects. */
  function FindConversation(cs: seq<Conversation>, a: Id, b: Id, petId: Option<Id>): (r: Option<nat>)
    ensures r.Some? ==> r.value < |cs| && Selects(cs[r.value], a, b, petId)
    ensures r.Some? ==> forall k :: 0 <= k < r.value ==> !Selects(cs[k], a, b, petId)
    ensures r.None? ==> forall k :: 0 <= k < |cs| ==> !Selects(cs[k], a, b, petId)
  {
    Search.First(cs, Selecting(a, b, petId))
  }

  /** The `findById` test. */
  function HasId(id: Id): Conversation -> bool {
    (c: Conversation) => c.id == id
  }

  /** `findById`: the position of the first conversation with that id. */
  function IndexOf(cs: seq<Conversation>, id: Id): Option<nat> {
    Search.First(cs, HasId(id))
  }

  /** `createOrGetConversation(userA, userB, petId)`. */
  function CreateOrGet(db: Db, a: Id, b: Id, petId: Option<Id>, now: int): (r: (Db, Conversation))
    ensures Selects(r.1, a, b, petId)
    ensures r.0.messages == db.messages && r.0.users == db.users
    ensures (exists k :: 0 <= k < |db.conversations| && Selects(db.conversations[k], a, b, petId))
        ==> r.0 == db && r.1 in db.conversations
    ensures (forall k :: 0 <= k < |db.conversations| ==> !Selects(db.conversations[k], a, b, petId))
        ==> && r.0.conversations == db.conversations + [r.1]
            && r.1.participants == [a, b]
            && r.1.petId == petId
            && (forall u :: u in r.1.unread <==> u == a || u == b)
            && Unread(r.1.unread, a) == 0 && Unread(r.1.unread, b) == 0
            && r.1.lastMessage.None?
  {
    match FindConversation(db.conversations, a, b, petId)
    case Some(k) => (db, db.conversations[k])
    case None =>
      var c := Conversation(Strings.NatToString(|db.conversations|), [a, b], petId,
                            map[a := 0, b := 0], None, now, now);
      (db.(conversations := db.conversations + [c]), c)
  }

  /** With an existing conversation for the pair, the argument order does not matter and the
      store is left as it is. */
  lemma CreateOrGetSwapped(db: Db, a: Id, b: Id, petId: Option<Id>, now: int)
    requires exists k :: 0 <= k < |db.conversations| && Selects(db.conversations[k], a, b, petId)
    ensures CreateOrGet(db, a, b, petId, now) == CreateOrGet(db, b, a, petId, now)
    ensures CreateOrGet(db, a, b, petId, now).0 == db
  {
    var k :| 0 <= k < |db.conversations| && Selects(db.conversations[k], a, b, petId);
    FindSwapped(db.conversations, a, b, petId);
  }

  lemma FindSwapped(cs: seq<Conversation>, a: Id, b: Id, petId: Option<Id>)
    ensures FindConversation(cs, a, b, petId) == FindConversation(cs, b, a, petId)
  {
    Search.FirstSame(cs, Selecting(a, b, petId), Selecting(b, a, petId));
  }

  /** A second call, in either argument order and at any later time, returns the same
      conversation and creates nothing. */
  lemma CreateOrGetIdempotent(db: Db, a: Id, b: Id, petId: Option<Id>, now: int, later: int)
    ensures var (db1, c1) := CreateOrGet(db, a, b, petId, now);
      && CreateOrGet(db1, a, b, petId, later) == (db1, c1)
      && CreateOrGet(db1, b, a, petId, later) == (db1, c1)
  {
    var (db1, c1) := CreateOrGet(db, a, b, petId, now);
    var cs := db.conversations;
    FindSwapped(db1.conversations, a, b, petId);
    match FindConversation(cs, a, b, petId)
    case Some(k) =>
    case None =>
      FindAppended(cs, c1, a, b, petId);
  }

  lemma FindAppended(cs: seq<Conversation>, c: Conversation, a: Id, b: Id, petId: Option<Id>)
    requires FindConversation(cs, a, b, petId).None? && Selects(c, a, b, petId)
    ensures FindConversation(cs + [c], a, b, petId) == Some(|cs|)
  {
    Search.FirstAppend(cs, c, Selecting(a, b, petId));
  }

  /** `createOrGetConversation` never introduces a duplicate conversation. */
  lemma CreateOrGetNoDuplicates(db: Db, a: Id, b: Id, petId: Option<Id>, now: int)
    requires NoDuplicates(db.conversations)
    ensures NoDuplicates(CreateOrGet(db, a, b, petId, now).0.conversations)
  {
    var (db1, c) := CreateOrGet(db, a, b, petId, now);
    var cs := db.conversations;
    if FindConversation(cs, a, b, petId).None? {
      var ds := db1.conversations;
      forall i, j | 0 <= i < j < |ds| && |ds[j].participants| == 2
        ensures !Selects(ds[i], ds[j].participants[0], ds[j].participants[1], ds[j].petId)
      {
        if j == |cs| {
          assert ds[j] == c && ds[i] == cs[i];
        } else {
          assert ds[i] == cs[i] && ds[j] == cs[j];
        }
      }
    }
  }

  /** Ids stay the positions' decimal text. */
  lemma CreateOrGetWellFormed(db: Db, a: Id, b: Id, petId: Option<Id>, now: int)
    requires WellFormed(db)
    ensures WellFormed(CreateOrGet(db, a, b, petId, now).0)
  {
    var db1 := CreateOrGet(db, a, b, petId, now).0;
    if db1 != db {
      var cs, ds := db.conversations, db1.conversations;
      assert |ds| == |cs| + 1 && ds[..|cs|] == cs;
      assert ds[|cs|].id == Strings.NatToString(|cs|);
      forall i | 0 <= i < |ds|
        ensures ds[i].id == Strings.NatToString(i)
      {
        if i < |cs| {
          assert ds[i] == cs[i];
        }
      }
    }
  }

  /** `createMessage`: the message is appended with the next id and the caller's clock, and
      returned with its sender populated from the users. */
  function CreateMessage(db: Db, conversationId: Id, sender: Id, text: Option<string>,
                         attachments: seq<Attachment>, now: int): (r: (Db, Populated))
    ensures r.0.conversations == db.conversations && r.0.users == db.users
    ensures r.0.messages == db.messages + [r.1.message]
    ensures r.1.message.conversation == conversationId && r.1.message.sender == sender
    ensures r.1.message.text == text && r.1.message.attachments == attachments
    ensures r.1.message.createdAt == now
    ensures r.1.sender.SenderDoc? <==> sender in db.users
    ensures r.1.sender.SenderDoc? ==> r.1.sender.id == sender
  {
    var m := Message(Strings.NatToString(|db.messages|), conversationId, sender, text, attachments, now);
    (db.(messages := db.messages + [m]),
     Populated(m, if sender in db.users then SenderDoc(sender) else SenderNull))
  }

  /** Message ids stay the positions' decimal text. */
  lemma CreateMessageWellFormed(db: Db, conversationId: Id, sender: Id, text: Option<string>,
                                attachments: seq<Attachment>, now: int)
    requires WellFormed(db)
    ensures WellFormed(CreateMessage(db, conversationId, sender, text, attachments, now).0)
  {
    var (db1, m) := CreateMessage(db, conversationId, sender, text, attachments, now);
    forall i | 0 <= i < |db1.messages|
      ensures db1.messages[i].id == Strings.NatToString(i)
    {
      if i < |db.messages| {
        assert db1.messages[i] == db.messages[i];
      }
    }
  }

  /** The participant loop of `touchConversation`: every entry whose text differs from the
      sender's gets one more unread message, an absent counter counting as 0. A participant
      listed twice is bumped twice. */
  function Bump(unread: map<Id, nat>, participants: seq<Id>, sender: Id): (r: map<Id, nat>)
    ensures forall k :: k != sender ==> Unread(r, k) == Unread(unread, k) + multiset(participants)[k]
    ensures forall k :: k == sender || k !in participants ==> (k in r <==> k in unread)
    ensures forall k :: k in unread && (k == sender || k !in participants) ==> r[k] == unread[k]
    decreases |participants|
  {
    if |participants| == 0 then unread
    else
      var key := participants[0];
      var next := if key != sender then unread[key := Unread(unread, key) + 1] else unread;
      assert participants == [key] + participants[1..];
      Bump(next, participants[1..], sender)
  }

  /** The preview text: `msg.text || "[attachment]"`, so a null or empty text shows the
      placeholder. */
  function PreviewText(text: Option<string>): (r: string)
    ensures r != ""
    ensures text.Some? && text.value != "" ==> r == text.value
  {
    if text.Some? && text.value != "" then text.value else "[attachment]"
  }

  /** `String(msg.sender)` for a populated sender: a document prints as "[object Object]" and
      null as "null", so the text is never that of an ObjectId. */
  function SenderText(f: SenderField): (r: string)
    ensures !Js.ObjectIdText(r)
    ensures r == "[object Object]" <==> f.SenderDoc?
  {
    if f.SenderDoc? then "[object Object]" else "null"
  }

  /** `by: msg.sender` cast to an ObjectId: the document's id, or null. */
  function SenderIdOf(f: SenderField): (r: Option<Id>)
    ensures r.Some? <==> f.SenderDoc?
    ensures r.Some? ==> r.value == f.id
  {
    if f.SenderDoc? then Some(f.id) else None
  }

  /** The body of `touchConversation` for a sender that prints as `key`: entries other than
      `key` are bumped, and the preview records the text, the time and `sentBy`. */
  function TouchWith(db: Db, conversationId: Id, key: Id, text: Option<string>, sentBy: Option<Id>, now: int): (r: Db)
    ensures r.messages == db.messages && r.users == db.users
    ensures |r.conversations| == |db.conversations|
    ensures IndexOf(db.conversations, conversationId).None? ==> r == db
    ensures IndexOf(db.conversations, conversationId).Some? ==>
      var k := IndexOf(db.conversations, conversationId).value;
      var (prior, next) := (db.conversations[k], r.conversations[k]);
      && (forall j :: 0 <= j < |db.conversations| && j != k ==> r.conversations[j] == db.conversations[j])
      && next.id == prior.id && next.participants == prior.participants && next.petId == prior.petId
      && next.createdAt == prior.createdAt && next.updatedAt == now
      && next.lastMessage == Some(Preview(PreviewText(text), now, sentBy))
      && (forall u :: u != key ==>
            Unread(next.unread, u) == Unread(prior.unread, u) + multiset(prior.participants)[u])
      && (forall u :: u == key || u !in prior.participants ==>
            (u in next.unread <==> u in prior.unread))
      && (forall u :: u in prior.unread && (u == key || u !in prior.participants) ==>
            next.unread[u] == prior.unread[u])
  {
    match IndexOf(db.conversations, conversationId)
    case None => db
    case Some(k) =>
      var c := db.conversations[k];
      var c' := c.(unread := Bump(c.unread, c.participants, key),
                   lastMessage := Some(Preview(PreviewText(text), now, sentBy)),
                   updatedAt := now);
      db.(conversations := db.conversations[k := c'])
  }

  /** `touchConversation(conversationId, msg)` as written, with the populated message that
      `createMessage` returns: the comparison is with `String(msg.sender)`, which no ObjectId
      text equals, so every participant is bumped, the sender included. */
  function Touch(db: Db, conversationId: Id, msg: Populated, now: int): (r: Db)
    ensures r.messages == db.messages && r.users == db.users
    ensures |r.conversations| == |db.conversations|
    ensures IndexOf(db.conversations, conversationId).None? ==> r == db
    ensures IndexOf(db.conversations, conversationId).Some? ==>
      var k := IndexOf(db.conversations, conversationId).value;
      var (prior, next) := (db.conversations[k], r.conversations[k]);
      && (forall j :: 0 <= j < |db.conversations| && j != k ==> r.conversations[j] == db.conversations[j])
      && next.id == prior.id && next.participants == prior.participants && next.petId == prior.petId
      && next.createdAt == prior.createdAt && next.updatedAt == now
      && next.lastMessage == Some(Preview(PreviewText(msg.message.text), now, SenderIdOf(msg.sender)))
      && (forall u :: Js.ObjectIdText(u) ==>
            Unread(next.unread, u) == Unread(prior.unread, u) + multiset(prior.participants)[u])
  {
    TouchWith(db, conversationId, SenderText(msg.sender), msg.message.text, SenderIdOf(msg.sender), now)
  }

  /** `touchConversation` as its comment intends: the comparison is with the sender's id, so
      the sender's own counter does not move. */
  function TouchBySender(db: Db, conversationId: Id, msg: Message, now: int): (r: Db)
    ensures r.messages == db.messages && r.users == db.users
    ensures |r.conversations| == |db.conversations|
    ensures IndexOf(db.conversations, conversationId).None? ==> r == db
    ensures IndexOf(db.conversations, conversationId).Some? ==>
      var k := IndexOf(db.conversations, conversationId).value;
      var (prior, next) := (db.conversations[k], r.conversations[k]);
      && next.lastMessage == Some(Preview(PreviewText(msg.text), now, Some(msg.sender)))
      && Unread(next.unread, msg.sender) == Unread(prior.unread, msg.sender)
      && (forall u :: u != msg.sender ==>
            Unread(next.unread, u) == Unread(prior.unread, u) + multiset(prior.participants)[u])
  {
    TouchWith(db, conversationId, msg.sender, msg.text, Some(msg.sender), now)
  }

  /** As written, with distinct participants whose ids are ObjectId texts, every participant,
      the sender included, has exactly one more unread message. */
  lemma TouchBumpsSender(db: Db, conversationId: Id, msg: Populated, now: int, u: Id)
    requires IndexOf(db.conversations, conversationId).Some?
    requires var c := db.conversations[IndexOf(db.conversations, conversationId).value];
      && (forall i, j :: 0 <= i < j < |c.participants| ==> c.participants[i] != c.participants[j])
      && (forall i :: 0 <= i < |c.participants| ==> Js.ObjectIdText(c.participants[i]))
    requires u in db.conversations[IndexOf(db.conversations, conversationId).value].participants
    ensures var k := IndexOf(db.conversations, conversationId).value;
      var (before, after) := (db.conversations[k], Touch(db, conversationId, msg, now).conversations[k]);
      Unread(after.unread, u) == Unread(before.unread, u) + 1
  {
    var k := IndexOf(db.conversations, conversationId).value;
    var ps := db.conversations[k].participants;
    DistinctOnce(ps, u);
  }

  /** As intended, with distinct participants, each one other than the sender has exactly one
      more unread message, the sender's counter does not move, and nobody else's counter
      appears. */
  lemma TouchCountsOnce(db: Db, conversationId: Id, msg: Message, now: int, u: Id)
    requires IndexOf(db.conversations, conversationId).Some?
    requires var c := db.conversations[IndexOf(db.conversations, conversationId).value];
      forall i, j :: 0 <= i < j < |c.participants| ==> c.participants[i] != c.participants[j]
    ensures var k := IndexOf(db.conversations, conversationId).value;
      var (before, after) := (db.conversations[k], TouchBySender(db, conversationId, msg, now).conversations[k]);
      && (u in before.participants && u != msg.sender ==>
            Unread(after.unread, u) == Unread(before.unread, u) + 1)
      && (u == msg.sender || u !in before.participants ==>
            Unread(after.unread, u) == Unread(before.unread, u))
  {
    var k := IndexOf(db.conversations, conversationId).value;
    var ps := db.conversations[k].participants;
    if u in ps {
      DistinctOnce(ps, u);
    }
  }

  lemma {:induction false} DistinctOnce(ps: seq<Id>, u: Id)
    requires forall i, j :: 0 <= i < j < |ps| ==> ps[i] != ps[j]
    requires u in ps
    ensures multiset(ps)[u] == 1
    decreases |ps|
  {
    assert ps == [ps[0]] + ps[1..];
    if ps[0] == u {
      assert u !in ps[1..] by {
        forall i | 0 <= i < |ps[1..]|
          ensures ps[1..][i] != u
        {
          assert ps[1..][i] == ps[i + 1];
        }
      }
    } else {
      DistinctOnce(ps[1..], u);
    }
  }

  /** The `at` parameter's default: the current time when the caller passes nothing. */
  function ReadTime(at: Js.Value, now: int): (r: Js.Value)
    ensures at.Undefined? ==> r == Js.Num(now)
    ensures !at.Undefined? ==> r == at
  {
    if at.Undefined? then Js.Num(now) else at
  }

  /** `markRead(conversationId, userId, at)`: the user's counter becomes 0 whether or not the
      user takes part in the conversation; a missing conversation yields nothing. */
  function MarkRead(db: Db, conversationId: Id, userId: Id, at: Js.Value, now: int): (r: (Db, Option<ReadAck>))
    ensures r.0.messages == db.messages && r.0.users == db.users
    ensures |r.0.conversations| == |db.conversations|
    ensures IndexOf(db.conversations, conversationId).None? ==> r == (db, None)
    ensures IndexOf(db.conversations, conversationId).Some? ==>
      var k := IndexOf(db.conversations, conversationId).value;
      var (prior, next) := (db.conversations[k], r.0.conversations[k]);
      && r.1 == Some(ReadAck(true, ReadTime(at, now)))
      && (forall j :: 0 <= j < |db.conversations| && j != k ==> r.0.conversations[j] == db.conversations[j])
      && userId in next.unread && next.unread[userId] == 0
      && (forall u :: u != userId ==> (u in next.unread <==> u in prior.unread))
      && (forall u :: u != userId && u in prior.unread ==> next.unread[u] == prior.unread[u])
      && next == prior.(unread := next.unread, updatedAt := now)
  {
    match IndexOf(db.conversations, conversationId)
    case None => (db, None)
    case Some(k) =>
      var c := db.conversations[k];
      var c' := c.(unread := c.unread[userId := 0], updatedAt := now);
      (db.(conversations := db.conversations[k := c']), Some(ReadAck(true, ReadTime(at, now))))
  }

  /** Marking read twice at the same moment is marking read once. */
  lemma MarkReadIdempotent(db: Db, conversationId: Id, userId: Id, at: Js.Value, now: int)
    ensures var (db1, ack1) := MarkRead(db, conversationId, userId, at, now);
      MarkRead(db1, conversationId, userId, at, now) == (db1, ack1)
  {
    var (db1, ack1) := MarkRead(db, conversationId, userId, at, now);
    match IndexOf(db.conversations, conversationId)
    case None =>
    case Some(k) =>
      IndexOfSameIds(db.conversations, db1.conversations, conversationId);
      var c := db1.conversations[k];
      assert c.unread[userId := 0] == c.unread;
      assert c.(unread := c.unread[userId := 0], updatedAt := now) == c;
      assert db1.conversations[k := c] == db1.conversations;
  }

  /** `findById` depends on the ids alone. */
  lemma IndexOfSameIds(cs: seq<Conversation>, ds: seq<Conversation>, id: Id)
    requires |cs| == |ds| && forall j :: 0 <= j < |cs| ==> cs[j].id == ds[j].id
    ensures IndexOf(cs, id) == IndexOf(ds, id)
  {
    Search.FirstAlike(cs, HasId(id), ds, HasId(id));
  }

  /** Touching and marking read keep ids, participants and pets, hence well-formedness and
      the absence of duplicates. */
  lemma UpdatesKeepInvariants(db: Db, conversationId: Id, msg: Populated, userId: Id, at: Js.Value, now: int)
    requires WellFormed(db) && NoDuplicates(db.conversations)
    ensures var t := Touch(db, conversationId, msg, now);
      WellFormed(t) && NoDuplicates(t.conversations)
    ensures var m := MarkRead(db, conversationId, userId, at, now).0;
      WellFormed(m) && NoDuplicates(m.conversations)
  {
    var t := Touch(db, conversationId, msg, now);
    var m := MarkRead(db, conversationId, userId, at, now).0;
    SameShapeKeepsInvariants(db, t);
    SameShapeKeepsInvariants(db, m);
  }

  /** Two stores whose conversations agree on id, participants and pet, with the same
      messages, satisfy the invariants together. */
  lemma SameShapeKeepsInvariants(db: Db, db1: Db)
    requires WellFormed(db) && NoDuplicates(db.conversations)
    requires db1.messages == db.messages && |db1.conversations| == |db.conversations|
    requires forall j :: 0 <= j < |db.conversations| ==>
      && db1.conversations[j].id == db.conversations[j].id
      && db1.conversations[j].participants == db.conversations[j].participants
      && db1.conversations[j].petId == db.conversations[j].petId
    ensures WellFormed(db1) && NoDuplicates(db1.conversations)
  {
    var cs, ds := db.conversations, db1.conversations;
    forall i, j | 0 <= i < j < |ds| && |ds[j].participants| == 2
      ensures !Selects(ds[i], ds[j].participants[0], ds[j].participants[1], ds[j].petId)
    {
      assert |cs[j].participants| == 2;
      assert !Selects(cs[i], cs[j].participants[0], cs[j].participants[1], cs[j].petId);
    }
  }
}

=== FILE: chat_routes.dfy ===
/** The REST side of chat: list my conversations, start one, page through messages, send,
    and mark read. Each handler is one step over the store; the caller's id comes from the
    authentication middleware, request bodies and query values are dynamic values. */
module ChatRoutes {
  import opened Wrappers
  import Strings
  import Js
  import Sorting
  import opened ChatController

  const ConversationLimit: nat := 50
  const PageSize: nat := 30

  /** What a handler sends back. `ServerError` is the error passed to `next(e)`. */
  datatype Reply =
    | Fail(status: nat, message: string)
    | Conversations(items: seq<Conversation>)
    | Started(conversation: Conversation)
    | Page(messages: seq<Message>)
    | Sent(saved: Populated)
    | MarkedRead(ack: Option<ReadAck>)
    | ServerError

  /** How far persisting a sent message got: both writes, the message only, or nothing. */
  datatype Persistence = Stored | TouchFailed | CreateFailed

  function UpdatedAt(c: Conversation): int { c.updatedAt }

  function CreatedAt(m: Message): int { m.createdAt }

  /** `Conversation.find({ participants: me })`. */
  function Mine(cs: seq<Conversation>, me: Id): (r: seq<Conversation>)
    ensures forall c :: c in r ==> me in c.participants
    ensures forall c :: multiset(r)[c] == if me in c.participants then multiset(cs)[c] else 0
    decreases |cs|
  {
    if |cs| == 0 then []
    else
      assert cs == [cs[0]] + cs[1..];
      (if me in cs[0].participants then [cs[0]] else []) + Mine(cs[1..], me)
  }

  /** `GET /chat`: my conversations, most recently updated first, 50 of them or all when I
      have fewer. */
  function ListConversations(db: Db, me: Id): (r: seq<Conversation>)
    ensures |r| <= ConversationLimit
    ensures var n := |Mine(db.conversations, me)|; |r| == if n <= ConversationLimit then n else ConversationLimit
    ensures multiset(r) <= multiset(Mine(db.conversations, me))
    ensures forall c :: c in r ==> me in c.participants && c in db.conversations
    ensures Sorting.SortedDesc(r, UpdatedAt)
  {
    var all := Mine(db.conversations, me);
    Sorting.TopKeepsLargest(all, UpdatedAt, ConversationLimit);
    var r := Sorting.Take(Sorting.SortDesc(all, UpdatedAt), ConversationLimit);
    assert forall c :: c in r ==> c in multiset(all);
    r
  }

  /** The list is the newest of my conversations: it lists 50 of them, or all when there are
      fewer, and a conversation of mine that is left out was updated no later than every
      listed one. */
  lemma ListConversationsNewest(db: Db, me: Id)
    ensures var r := ListConversations(db, me);
      var all := Mine(db.conversations, me);
      && |r| == (if |all| <= ConversationLimit then |all| else ConversationLimit)
      && (forall x, y :: x in multiset(all) - multiset(r) && y in r ==> x.updatedAt <= y.updatedAt)
      && (|all| <= ConversationLimit ==> multiset(r) == multiset(all))
  {
    Sorting.TopKeepsLargest(Mine(db.conversations, me), UpdatedAt, ConversationLimit);
  }

  /** A body value used as an object id. */
  function IdOf(v: Js.Value): Id {
    Js.ToStr(v)
  }

  /** An optional pet id: absent when the body carries none. */
  function PetOf(v: Js.Value): (r: Option<Id>)
    ensures Js.IsNullish(v) <==> r.None?
  {
    if Js.IsNullish(v) then None else Some(Js.ToStr(v))
  }

  /** `POST /chat/start`. */
  function Start(db: Db, me: Id, body: Js.Value, now: int): (r: (Db, Reply))
    ensures !Js.Truthy(Js.Get(body, "partnerId")) ==> r == (db, Fail(400, "partnerId required"))
    ensures Js.Truthy(Js.Get(body, "partnerId")) ==>
      && r.1.Started?
      && Selects(r.1.conversation, me, IdOf(Js.Get(body, "partnerId")), PetOf(Js.Get(body, "petId")))
      && r.1.conversation in r.0.conversations
      && r.0.messages == db.messages
  {
    var partner := Js.Get(body, "partnerId");
    if !Js.Truthy(partner) then (db, Fail(400, "partnerId required"))
    else
      var (db1, c) := CreateOrGet(db, me, IdOf(partner), PetOf(Js.Get(body, "petId")), now);
      (db1, Started(c))
  }

  predicate Selected(m: Message, id: Id, before: Option<int>) {
    m.conversation == id && (before.None? || m.createdAt < before.value)
  }

  /** `Message.find(q)` with `q = { conversation: id }` plus `createdAt < before` when a
      cursor is given. */
  function Matching(ms: seq<Message>, id: Id, before: Option<int>): (r: seq<Message>)
    ensures forall m :: multiset(r)[m] == (if Selected(m, id, before) then multiset(ms)[m] else 0)
    decreases |ms|
  {
    if |ms| == 0 then []
    else
      assert ms == [ms[0]] + ms[1..];
      var m := ms[0];
      (if Selected(m, id, before) then [m] else [])
        + Matching(ms[1..], id, before)
  }

  /** The newest 30 matching messages, or all of them when there are fewer, oldest first. */
  function NewestPage(ms: seq<Message>, id: Id, before: Option<int>): (r: seq<Message>)
    ensures |r| <= PageSize
    ensures var n := |Matching(ms, id, before)|; |r| == if n <= PageSize then n else PageSize
    ensures multiset(r) <= multiset(Matching(ms, id, before))
    ensures forall m :: m in r ==> m.conversation == id && m in ms
    ensures forall m :: m in r && before.Some? ==> m.createdAt < before.value
    ensures Sorting.SortedAsc(r, CreatedAt)
  {
    var all := Matching(ms, id, before);
    var r := Sorting.Reverse(Sorting.Take(Sorting.SortDesc(all, CreatedAt), PageSize));
    PageOfMatches(ms, id, before, all, r);
    r
  }

  lemma PageOfMatches(ms: seq<Message>, id: Id, before: Option<int>, all: seq<Message>, r: seq<Message>)
    requires all == Matching(ms, id, before)
    requires r == Sorting.Reverse(Sorting.Take(Sorting.SortDesc(all, CreatedAt), PageSize))
    ensures |r| <= PageSize && |r| == (if |all| <= PageSize then |all| else PageSize)
    ensures multiset(r) <= multiset(all) && Sorting.SortedAsc(r, CreatedAt)
    ensures forall m :: m in r ==> Selected(m, id, before) && m in ms
  {
    Sorting.OldestFirstPage(all, CreatedAt, PageSize);
    MatchingMembers(ms, id, before, r);
  }

  /** Whatever is drawn from the matches is selected and stored. */
  lemma MatchingMembers(ms: seq<Message>, id: Id, before: Option<int>, r: seq<Message>)
    requires forall m :: m in r ==> m in multiset(Matching(ms, id, before))
    ensures forall m :: m in r ==> Selected(m, id, before) && m in ms
  {
    forall m | m in r
      ensures Selected(m, id, before) && m in ms
    {
      assert multiset(Matching(ms, id, before))[m] > 0;
    }
  }

  /** The page holds the newest matches: 30 of them, or all when there are fewer, and a
      matching message left out is no newer than any message on the page. */
  lemma NewestPageIsNewest(ms: seq<Message>, id: Id, before: Option<int>)
    ensures var r := NewestPage(ms, id, before);
      var all := Matching(ms, id, before);
      && |r| == (if |all| <= PageSize then |all| else PageSize)
      && (forall x, y :: x in multiset(all) - multiset(r) && y in r ==> x.createdAt <= y.createdAt)
      && (|all| <= PageSize ==> multiset(r) == multiset(all))
  {
    var all := Matching(ms, id, before);
    var top := Sorting.Take(Sorting.SortDesc(all, CreatedAt), PageSize);
    Sorting.OldestFirstPage(all, CreatedAt, PageSize);
    Sorting.ReverseMultiset(top);
  }

  /** `GET /chat/:id/messages?before=`. A truthy cursor is read as a date by `parseDate`;
      one that is not a date makes the store query fail. */
  function ListMessages(db: Db, id: Id, before: Js.Value, parseDate: Js.Value -> Option<int>): (r: Reply)
    ensures !Js.Truthy(before) ==> r == Page(NewestPage(db.messages, id, None))
    ensures Js.Truthy(before) && parseDate(before).Some? ==>
      r == Page(NewestPage(db.messages, id, parseDate(before)))
    ensures Js.Truthy(before) && parseDate(before).None? ==> r == ServerError
  {
    if !Js.Truthy(before) then Page(NewestPage(db.messages, id, None))
    else match parseDate(before)
      case None => ServerError
      case Some(t) => Page(NewestPage(db.messages, id, Some(t)))
  }

  /** `attachments?.length`. */
  function LengthOf(v: Js.Value): (r: Js.Value)
    ensures v.Arr? ==> r == Js.Num(|v.items|)
    ensures Js.IsNullish(v) ==> r == Js.Undefined
  {
    match v
    case Arr(items) => Js.Num(|items|)
    case Str(s) => Js.Num(Strings.JsLength(s))
    case Obj(_) => Js.Get(v, "length")
    case _ => Js.Undefined
  }

  /** The guard shared by the REST route and the socket handler: some text or some
      attachments. */
  predicate HasContent(text: Js.Value, attachments: Js.Value) {
    Js.Truthy(text) || Js.Truthy(LengthOf(attachments))
  }

  /** The stored `text`: the schema's default "" when absent, else the String cast, whose
      failure (`None`) makes `Message.create` fail; null is stored as null. */
  function TextOf(v: Js.Value): (r: Option<Option<string>>)
    ensures v.Undefined? ==> r == Some(Some(""))
    ensures v.Null? ==> r == Some(None)
    ensures v.Str? ==> r == Some(Some(v.s))
    ensures r.None? <==> v.Arr? || (v.Obj? && !Js.HasStringId(v))
    ensures v.Obj? && Js.HasStringId(v) ==> r == Some(Some(Js.Get(v, "_id").s))
  {
    if v.Undefined? then Some(Some("")) else Js.CastString(v)
  }

  /** The stored `attachments` as the schema is written, an array of strings: `None` when
      the cast fails. An absent value stores none, an array stores the String cast of each
      element and fails when one of them fails, and any other value is first wrapped into a
      one-element array. */
  function AttachmentsOf(v: Js.Value): (r: Option<seq<Attachment>>)
    ensures Js.IsNullish(v) ==> r == Some([])
    ensures r.Some? ==> forall i :: 0 <= i < |r.value| ==> r.value[i].Link?
    ensures v.Arr? ==> (r.Some? <==> forall i :: 0 <= i < |v.items| ==> Js.CastString(v.items[i]).Some?)
    ensures v.Arr? && r.Some? ==>
      |r.value| == |v.items|
      && forall i :: 0 <= i < |v.items| ==> r.value[i] == Link(Js.CastString(v.items[i]).value)
    ensures !Js.IsNullish(v) && !v.Arr? ==>
      (r.Some? <==> Js.CastString(v).Some?) && (r.Some? ==> r.value == [Link(Js.CastString(v).value)])
  {
    match v
    case Undefined => Some([])
    case Null => Some([])
    case Arr(items) => Links(items)
    case _ =>
      var r := Links([v]);
      assert r.Some? ==> r.value == [r.value[0]];
      r
  }

  function Links(items: seq<Js.Value>): (r: Option<seq<Attachment>>)
    ensures r.Some? <==> forall i :: 0 <= i < |items| ==> Js.CastString(items[i]).Some?
    ensures r.Some? ==>
      |r.value| == |items| && forall i :: 0 <= i < |items| ==> r.value[i] == Link(Js.CastString(items[i]).value)
  {
    if forall i :: 0 <= i < |items| ==> Js.CastString(items[i]).Some? then
      Some(seq(|items|, i requires 0 <= i < |items| => Link(Js.CastString(items[i]).value)))
    else None
  }

  /** As written, every array of strings is stored as those strings. */
  lemma {:induction false} TextsStored(xs: seq<string>)
    ensures AttachmentsOf(Js.Arr(seq(|xs|, i requires 0 <= i < |xs| => Js.Str(xs[i]))))
         == Some(seq(|xs|, i requires 0 <= i < |xs| => Link(Some(xs[i]))))
  {
    var items := seq(|xs|, i requires 0 <= i < |xs| => Js.Str(xs[i]));
    assert forall i :: 0 <= i < |items| ==> Js.CastString(items[i]) == Some(Some(xs[i]));
    var r := AttachmentsOf(Js.Arr(items)).value;
    assert r == seq(|xs|, i requires 0 <= i < |xs| => Link(Some(xs[i])));
  }

  /** As written, an attachment sent as an object without a string `_id`, alone or in an
      array, makes the cast fail. */
  lemma ObjectAttachmentRefused(items: seq<Js.Value>, k: nat)
    requires k < |items| && items[k].Obj? && !Js.HasStringId(items[k])
    ensures AttachmentsOf(Js.Arr(items)).None?
    ensures AttachmentsOf(items[k]).None?
  {
    assert Js.CastString(items[k]).None?;
  }

  /** A String path as stored: `Undefined` when absent, `Null`, or the cast text; `None` when
      the cast fails. */
  function StoredString(v: Js.Value): (r: Option<Js.Value>)
    ensures r.Some? <==> Js.CastString(v).Some?
    ensures Js.IsNullish(v) || v.Str? ==> r == Some(v)
    ensures r.Some? && !Js.IsNullish(v) ==> r.value == Js.Str(Js.CastString(v).value.value)
  {
    match Js.CastString(v)
    case None => None
    case Some(None) => Some(v)
    case Some(Some(t)) => Some(Js.Str(t))
  }

  /** One attachment sub-document as the schema evidently means it: an object whose `url`,
      `name` and `type` cast to String and whose `size` casts to Number. */
  function DocumentOf(o: Js.Value): (r: Option<Attachment>)
    ensures !o.Obj? ==> r.None?
    ensures o.Obj? ==>
      (r.Some? <==> StoredString(Js.Get(o, "url")).Some? && StoredString(Js.Get(o, "name")).Some?
                    && StoredString(Js.Get(o, "type")).Some? && Js.CastNumber(Js.Get(o, "size")).Some?)
    ensures r.Some? ==> r.value.Doc?
    ensures r.Some? ==> r.value.size.Undefined? || r.value.size.Null? || r.value.size.Num?
    ensures r.Some? && Js.Get(o, "url").Str? ==> r.value.url == Js.Get(o, "url")
    ensures r.Some? && Js.Get(o, "name").Str? ==> r.value.name == Js.Get(o, "name")
    ensures r.Some? && Js.Get(o, "type").Str? ==> r.value.mediaType == Js.Get(o, "type")
    ensures r.Some? && Js.Get(o, "size").Num? ==> r.value.size == Js.Get(o, "size")
  {
    if !o.Obj? then None
    else match (StoredString(Js.Get(o, "url")), StoredString(Js.Get(o, "name")),
                StoredString(Js.Get(o, "type")), Js.CastNumber(Js.Get(o, "size")))
      case (Some(url), Some(name), Some(kind), Some(size)) => Some(Doc(url, name, kind, size))
      case _ => None
  }

  /** The JSON a client sends for one attachment. */
  function DocumentJson(url: string, name: string, kind: string, size: int): Js.Value {
    Js.Obj(map["url" := Js.Str(url), "name" := Js.Str(name), "type" := Js.Str(kind), "size" := Js.Num(size)])
  }

  /** A sub-document sent with text fields and a numeric size is stored field for field. */
  lemma DocumentRoundTrip(url: string, name: string, kind: string, size: int)
    ensures DocumentOf(DocumentJson(url, name, kind, size))
         == Some(Doc(Js.Str(url), Js.Str(name), Js.Str(kind), Js.Num(size)))
  {
    var o := DocumentJson(url, name, kind, size);
    assert Js.Get(o, "url") == Js.Str(url) && Js.Get(o, "name") == Js.Str(name);
    assert Js.Get(o, "type") == Js.Str(kind) && Js.Get(o, "size") == Js.Num(size);
  }

  /** The stored `attachments` as the schema evidently means them, an array of
      sub-documents: `None` when the cast fails. An absent value stores none, a single
      object is wrapped into a one-element array, and an array stores one sub-document per
      element, every element having to be an object whose fields cast. */
  function AttachmentDocuments(v: Js.Value): (r: Option<seq<Attachment>>)
    ensures Js.IsNullish(v) ==> r == Some([])
    ensures r.Some? ==> forall i :: 0 <= i < |r.value| ==> r.value[i].Doc?
    ensures v.Arr? ==> (r.Some? <==> forall i :: 0 <= i < |v.items| ==> DocumentOf(v.items[i]).Some?)
    ensures v.Arr? && r.Some? ==>
      |r.value| == |v.items| && forall i :: 0 <= i < |v.items| ==> r.value[i] == DocumentOf(v.items[i]).value
    ensures v.Obj? ==> (r.Some? <==> DocumentOf(v).Some?) && (r.Some? ==> r.value == [DocumentOf(v).value])
    ensures !(Js.IsNullish(v) || v.Obj? || v.Arr?) ==> r.None?
  {
    match v
    case Undefined => Some([])
    case Null => Some([])
    case Obj(_) =>
      var r := Documents([v]);
      assert r.Some? ==> r.value == [r.value[0]];
      r
    case Arr(items) => Documents(items)
    case _ => None
  }

  function Documents(items: seq<Js.Value>): (r: Option<seq<Attachment>>)
    ensures r.Some? <==> forall i :: 0 <= i < |items| ==> DocumentOf(items[i]).Some?
    ensures r.Some? ==>
      |r.value| == |items| && forall i :: 0 <= i < |items| ==> r.value[i] == DocumentOf(items[i]).value
  {
    if forall i :: 0 <= i < |items| ==> DocumentOf(items[i]).Some? then
      Some(seq(|items|, i requires 0 <= i < |items| => DocumentOf(items[i]).value))
    else None
  }

  /** The body's `text` and `attachments` both cast to the message schema as written. */
  predicate Casts(body: Js.Value) {
    TextOf(Js.Get(body, "text")).Some? && AttachmentsOf(Js.Get(body, "attachments")).Some?
  }

  /** The same, with the attachments cast as sub-documents. */
  predicate CastsIntended(body: Js.Value) {
    TextOf(Js.Get(body, "text")).Some? && AttachmentDocuments(Js.Get(body, "attachments")).Some?
  }

  /** `POST /chat/:id/send`. There is no check that the conversation exists or that the
      sender takes part in it; a body that does not cast makes `Message.create` fail. The
      reply carries the message with its sender populated, and that populated message is
      what `touchConversation` receives. */
  function Send(db: Db, id: Id, me: Id, body: Js.Value, persistence: Persistence, now: int): (r: (Db, Reply))
    ensures !HasContent(Js.Get(body, "text"), Js.Get(body, "attachments")) ==>
      r == (db, Fail(400, "text or attachments required"))
    ensures HasContent(Js.Get(body, "text"), Js.Get(body, "attachments")) && !Casts(body) ==>
      r == (db, ServerError)
    ensures HasContent(Js.Get(body, "text"), Js.Get(body, "attachments")) && Casts(body) ==>
      match persistence
      case CreateFailed => r == (db, ServerError)
      case TouchFailed => r.1 == ServerError && |r.0.messages| == |db.messages| + 1
                          && r.0.conversations == db.conversations
      case Stored => r.1.Sent? && r.0.messages == db.messages + [r.1.saved.message]
                     && r.1.saved.message.conversation == id && r.1.saved.message.sender == me
                     && r.1.saved.message.text == TextOf(Js.Get(body, "text")).value
                     && r.1.saved.message.attachments == AttachmentsOf(Js.Get(body, "attachments")).value
                     && (r.1.saved.sender.SenderDoc? <==> me in db.users)
                     && r == (Touch(r.0.(conversations := db.conversations), id, r.1.saved, now), r.1)
  {
    var text := Js.Get(body, "text");
    var attachments := Js.Get(body, "attachments");
    if !HasContent(text, attachments) then (db, Fail(400, "text or attachments required"))
    else if persistence == CreateFailed then (db, ServerError)
    else match (TextOf(text), AttachmentsOf(attachments))
      case (Some(t), Some(a)) =>
        var (db1, m) := CreateMessage(db, id, me, t, a, now);
        if persistence == TouchFailed then (db1, ServerError)
        else (Touch(db1, id, m, now), Sent(m))
      case _ => (db, ServerError)
  }

  /** A stored send of a body that casts is the message's creation followed by the touch. */
  lemma SendStored(db: Db, id: Id, me: Id, body: Js.Value, now: int, t: Option<string>, a: seq<Attachment>)
    requires HasContent(Js.Get(body, "text"), Js.Get(body, "attachments"))
    requires TextOf(Js.Get(body, "text")) == Some(t) && AttachmentsOf(Js.Get(body, "attachments")) == Some(a)
    ensures var (db1, m) := CreateMessage(db, id, me, t, a, now);
      Send(db, id, me, body, Stored, now) == (Touch(db1, id, m, now), Sent(m))
  {
  }

  /** As written, a stored send into a conversation whose distinct participants are all
      ObjectId texts bumps every participant by exactly one, the sender included. */
  lemma SendBumpsSender(db: Db, id: Id, me: Id, body: Js.Value, now: int, u: Id)
    requires HasContent(Js.Get(body, "text"), Js.Get(body, "attachments")) && Casts(body)
    requires IndexOf(db.conversations, id).Some?
    requires var c := db.conversations[IndexOf(db.conversations, id).value];
      && (forall i, j :: 0 <= i < j < |c.participants| ==> c.participants[i] != c.participants[j])
      && (forall i :: 0 <= i < |c.participants| ==> Js.ObjectIdText(c.participants[i]))
    requires u in db.conversations[IndexOf(db.conversations, id).value].participants
    ensures var k := IndexOf(db.conversations, id).value;
      var (before, after) := (db.conversations[k], Send(db, id, me, body, Stored, now).0.conversations[k]);
      Unread(after.unread, u) == Unread(before.unread, u) + 1
  {
    var (db1, m) := CreateMessage(db, id, me, TextOf(Js.Get(body, "text")).value,
                                  AttachmentsOf(Js.Get(body, "attachments")).value, now);
    TouchBumpsSender(db1, id, m, now, u);
  }

  /** The send the route means: attachments cast as sub-documents, and the conversation
      touched by the sender's id rather than by the populated sender. A body without
      attachments gets the same reply as the route as written. */
  function SendIntended(db: Db, id: Id, me: Id, body: Js.Value, persistence: Persistence, now: int): (r: (Db, Reply))
    ensures !HasContent(Js.Get(body, "text"), Js.Get(body, "attachments")) ==>
      r == (db, Fail(400, "text or attachments required"))
    ensures HasContent(Js.Get(body, "text"), Js.Get(body, "attachments")) && !CastsIntended(body) ==>
      r == (db, ServerError)
    ensures HasContent(Js.Get(body, "text"), Js.Get(body, "attachments")) && CastsIntended(body) ==>
      match persistence
      case CreateFailed => r == (db, ServerError)
      case TouchFailed => r.1 == ServerError && |r.0.messages| == |db.messages| + 1
                          && r.0.conversations == db.conversations
      case Stored => r.1.Sent? && r.0.messages == db.messages + [r.1.saved.message]
                     && r.1.saved.message.conversation == id && r.1.saved.message.sender == me
                     && r.1.saved.message.text == TextOf(Js.Get(body, "text")).value
                     && r.1.saved.message.attachments == AttachmentDocuments(Js.Get(body, "attachments")).value
                     && r.0 == TouchBySender(r.0.(conversations := db.conversations), id, r.1.saved.message, now)
    ensures Js.IsNullish(Js.Get(body, "attachments")) ==> r.1 == Send(db, id, me, body, persistence, now).1
  {
    var text := Js.Get(body, "text");
    var attachments := Js.Get(body, "attachments");
    if !HasContent(text, attachments) then (db, Fail(400, "text or attachments required"))
    else if persistence == CreateFailed then (db, ServerError)
    else match (TextOf(text), AttachmentDocuments(attachments))
      case (Some(t), Some(a)) =>
        var (db1, m) := CreateMessage(db, id, me, t, a, now);
        if persistence == TouchFailed then (db1, ServerError)
        else (TouchBySender(db1, id, m.message, now), Sent(m))
      case _ => (db, ServerError)
  }

  /** The body a client sends with one photo attached. */
  const PhotoBody: Js.Value :=
    Js.Obj(map["attachments" := Js.Arr([DocumentJson("u", "photo.jpg", "image/jpeg", 1024)])])

  /** As written, sending a photo as a sub-document fails the String cast and answers 500
      with nothing stored, while the bare file name is stored. */
  lemma PhotoAttachmentRefused(db: Db, id: Id, me: Id, persistence: Persistence, now: int)
    ensures Send(db, id, me, PhotoBody, persistence, now) == (db, ServerError)
    ensures var r := Send(db, id, me, Js.Obj(map["attachments" := Js.Arr([Js.Str("a.png")])]), Stored, now);
      r.1.Sent? && r.1.saved.message.attachments == [Link(Some("a.png"))]
  {
    var photo := DocumentJson("u", "photo.jpg", "image/jpeg", 1024);
    assert Js.Get(PhotoBody, "attachments") == Js.Arr([photo]);
    assert Js.Get(PhotoBody, "text") == Js.Undefined;
    assert !Js.HasStringId(photo);
    ObjectAttachmentRefused([photo], 0);
    var named := Js.Obj(map["attachments" := Js.Arr([Js.Str("a.png")])]);
    assert Js.Get(named, "attachments") == Js.Arr([Js.Str("a.png")]);
    assert Js.Get(named, "text") == Js.Undefined;
    assert Js.CastString(Js.Str("a.png")) == Some(Some("a.png"));
    assert AttachmentsOf(Js.Arr([Js.Str("a.png")])).value[0] == Link(Some("a.png"));
  }

  /** As intended, the same photo is stored as one sub-document, field for field. */
  lemma PhotoAttachmentStored(db: Db, id: Id, me: Id, now: int)
    ensures var r := SendIntended(db, id, me, PhotoBody, Stored, now);
      && r.1.Sent? && r.0.messages == db.messages + [r.1.saved.message]
      && r.1.saved.message.attachments == [Doc(Js.Str("u"), Js.Str("photo.jpg"), Js.Str("image/jpeg"), Js.Num(1024))]
  {
    var photo := DocumentJson("u", "photo.jpg", "image/jpeg", 1024);
    assert Js.Get(PhotoBody, "attachments") == Js.Arr([photo]);
    assert Js.Get(PhotoBody, "text") == Js.Undefined;
    DocumentRoundTrip("u", "photo.jpg", "image/jpeg", 1024);
    assert AttachmentDocuments(Js.Arr([photo])).value[0] == DocumentOf(photo).value;
  }

  /** As intended, a stored send bumps every other participant of a conversation with
      distinct participants by exactly one and leaves the sender's counter alone. */
  lemma SendCountsOnce(db: Db, id: Id, me: Id, body: Js.Value, now: int, u: Id)
    requires HasContent(Js.Get(body, "text"), Js.Get(body, "attachments")) && CastsIntended(body)
    requires IndexOf(db.conversations, id).Some?
    requires var c := db.conversations[IndexOf(db.conversations, id).value];
      forall i, j :: 0 <= i < j < |c.participants| ==> c.participants[i] != c.participants[j]
    ensures var k := IndexOf(db.conversations, id).value;
      var (before, after) := (db.conversations[k], SendIntended(db, id, me, body, Stored, now).0.conversations[k]);
      && (u in before.participants && u != me ==> Unread(after.unread, u) == Unread(before.unread, u) + 1)
      && (u == me || u !in before.participants ==> Unread(after.unread, u) == Unread(before.unread, u))
  {
    var (db1, m) := CreateMessage(db, id, me, TextOf(Js.Get(body, "text")).value,
                                  AttachmentDocuments(Js.Get(body, "attachments")).value, now);
    TouchCountsOnce(db1.(conversations := db.conversations), id, m.message, now, u);
  }

  /** `POST /chat/:id/read`: whatever `markRead` returns, including nothing for a missing
      conversation, is sent back as a success. */
  function Read(db: Db, id: Id, me: Id, body: Js.Value, now: int): (r: (Db, Reply))
    ensures r.1.MarkedRead? && |r.0.conversations| == |db.conversations|
    ensures IndexOf(db.conversations, id).None? ==> r == (db, MarkedRead(None))
    ensures IndexOf(db.conversations, id).Some? ==>
      var k := IndexOf(db.conversations, id).value;
      && r.1.ack == Some(ReadAck(true, ReadTime(Js.Get(body, "at"), now)))
      && Unread(r.0.conversations[k].unread, me) == 0
  {
    var (db1, ack) := MarkRead(db, id, me, Js.Get(body, "at"), now);
    (db1, MarkedRead(ack))
  }
}

=== FILE: client_api.dfy ===
/** The HTTP client of the web front end (`petadop-frontend/src/utils/api.js`): the base URL,
    the stored token and the `Authorization` default, the request-URL normalisation, and the
    decision to refresh the access token after a 401 and retry the request once. Local storage
    is a value, and the refresh call's reply a parameter. */
module ClientApi {
  import opened Wrappers
  import Strings
  import Js
  import UserModel
  import AuthController

  /* ---------------- base URL ---------------- */

  const DefaultBase: string := "/api"

  /** `BASE`, from the optional `VITE_API_BASE_URL`: trimmed; the default when missing or
      blank; otherwise without one trailing "/". */
  function Base(raw: Option<string>): (r: string)
    ensures raw.None? || Strings.Trim(raw.value) == "" ==> r == DefaultBase
    ensures raw.Some? && Strings.Trim(raw.value) != "" ==>
      var t := Strings.Trim(raw.value);
      r == if Strings.EndsWith(t, "/") then t[..|t| - 1] else t
  {
    if raw.None? || Strings.Trim(raw.value) == "" then DefaultBase
    else
      var t := Strings.Trim(raw.value);
      if Strings.EndsWith(t, "/") then t[..|t| - 1] else t
  }

  /** A configured base is used as it is, with or without one trailing slash and with white
      space around it. */
  lemma BaseStripsOneSlash(t: string)
    requires t != "" && !Strings.IsSpace(t[0]) && !Strings.IsSpace(t[|t| - 1]) && t[|t| - 1] != '/'
    ensures Base(Some(t)) == t
    ensures Base(Some(t + "/")) == t
  {
    Strings.TrimOfTrimmed(t);
    assert !Strings.EndsWith(t, "/") by {
      assert t[|t| - 1..][0] == t[|t| - 1];
    }
    var u := t + "/";
    assert u[0] == t[0] && u[|u| - 1] == '/';
    Strings.TrimOfTrimmed(u);
    assert u[|u| - 1..] == "/";
    assert u[..|u| - 1] == t;
  }

  /** The refresh endpoint under the base. */
  function RefreshUrl(raw: Option<string>): (r: string)
    ensures Strings.StartsWith(r, Base(raw))
  {
    Base(raw) + "/auth/refresh"
  }

  /* ---------------- stored token ---------------- */

  /** Local storage and the client's default `Authorization` header. */
  datatype Client = Client(token: Option<string>, refreshToken: Option<string>, header: Option<string>)

  /** The header matches the stored token: present exactly when a non-empty token is. */
  predicate Consistent(c: Client) {
    c.header == if c.token.Some? && c.token.value != "" then Some("Bearer " + c.token.value) else None
  }

  /** `setToken`: a truthy token is stored (as text) and becomes the default header; anything
      else removes both. The refresh token is not touched. */
  function SetToken(c: Client, t: Js.Value): (r: Client)
    ensures r.refreshToken == c.refreshToken
    ensures Js.Truthy(t) ==> r.token == Some(Js.ToStr(t)) && r.header == Some("Bearer " + Js.ToStr(t))
    ensures !Js.Truthy(t) ==> r.token.None? && r.header.None?
  {
    if Js.Truthy(t) then c.(token := Some(Js.ToStr(t)), header := Some("Bearer " + Js.ToStr(t)))
    else c.(token := None, header := None)
  }

  /** Setting a string token (or clearing) leaves storage and header consistent, whatever
      they were before. */
  lemma SetTokenConsistent(c: Client, t: Js.Value)
    requires t.Str? || !Js.Truthy(t)
    ensures Consistent(SetToken(c, t))
  {
  }

  /** The start-up code: a stored non-empty token is set again, which installs its header. */
  function Boot(stored: Option<string>, refreshToken: Option<string>): (r: Client)
    ensures Consistent(r)
    ensures r.token == stored && r.refreshToken == refreshToken
  {
    var c := Client(stored, refreshToken, None);
    if stored.Some? && stored.value != "" then SetToken(c, Js.Str(stored.value)) else c
  }

  /* ---------------- outgoing requests ---------------- */

  /** The part of an axios request configuration the client touches. */
  datatype Config = Config(url: Js.Value, authorization: Option<string>, isRetry: bool)

  /** `/^https?:\/\//i`. */
  predicate IsAbsolute(s: string) {
    (|s| >= 7 && Strings.EqualsIgnoreCase(s[..7], "http://"))
    || (|s| >= 8 && Strings.EqualsIgnoreCase(s[..8], "https://"))
  }

  /** The URL part of the request interceptor: a relative string URL gets a leading "/" when
      it lacks one; absolute URLs and non-strings are left alone. */
  function NormaliseUrl(url: Js.Value): (r: Js.Value)
    ensures !url.Str? ==> r == url
    ensures url.Str? && IsAbsolute(url.s) ==> r == url
    ensures url.Str? && !IsAbsolute(url.s) ==>
      && r.Str? && Strings.StartsWith(r.s, "/")
      && (r.s == url.s <==> Strings.StartsWith(url.s, "/"))
      && (r.s == url.s || r.s == "/" + url.s)
  {
    if url.Str? && !IsAbsolute(url.s) && !Strings.StartsWith(url.s, "/") then Js.Str("/" + url.s)
    else url
  }

  /** A URL that starts with "/" is not absolute. */
  lemma SlashNotAbsolute(s: string)
    requires |s| > 0 && s[0] == '/'
    ensures !IsAbsolute(s)
  {
    if |s| >= 7 {
      assert Strings.ToLower(s[..7])[0] == '/';
    }
    if |s| >= 8 {
      assert Strings.ToLower(s[..8])[0] == '/';
    }
  }

  /** Normalising twice is normalising once. */
  lemma NormaliseUrlIdempotent(url: Js.Value)
    ensures NormaliseUrl(NormaliseUrl(url)) == NormaliseUrl(url)
  {
    var n := NormaliseUrl(url);
    if url.Str? && !IsAbsolute(url.s) {
      SlashNotAbsolute(n.s);
    }
  }

  /** A relative URL without its leading slashes. */
  function DropLeadingSlashes(s: string): (r: string)
    ensures |r| <= |s| && r == s[|s| - |r|..]
    ensures |r| > 0 ==> r[0] != '/'
    ensures forall i :: 0 <= i < |s| - |r| ==> s[i] == '/'
    decreases |s|
  {
    if |s| > 0 && s[0] == '/' then DropLeadingSlashes(s[1..]) else s
  }

  /** The base without the one or two slashes that end it (`/\/?\/$/`). */
  function DropTrailingSlashes(s: string): (r: string)
    ensures |s| - 2 <= |r| <= |s| && r == s[..|r|]
    ensures !Strings.EndsWith(s, "/") ==> r == s
  {
    if |s| > 1 && s[|s| - 1] == '/' && s[|s| - 2] == '/' then s[..|s| - 2]
    else if |s| > 0 && s[|s| - 1] == '/' then s[..|s| - 1]
    else s
  }

  predicate IsAsciiLetter(c: char) {
    'a' <= c <= 'z' || 'A' <= c <= 'Z'
  }

  /** A character allowed after the first one of a URL scheme, `[a-z\d+\-.]` with case
      ignored. */
  predicate SchemeChar(c: char) {
    IsAsciiLetter(c) || Strings.IsDigit(c) || c == '+' || c == '-' || c == '.'
  }

  /** axios's `isAbsoluteURL`, `/^([a-z][a-z\d+\-.]*:)?\/\//i`: a scheme and "://", or "//"
      alone (a protocol-relative URL). */
  predicate IsAxiosAbsolute(s: string) {
    || Strings.StartsWith(s, "//")
    || (|s| > 0 && IsAsciiLetter(s[0]) && exists k :: 1 <= k < |s| - 2 && SchemeEndsAt(s, k))
  }

  /** `s[..k]` after its first letter is scheme characters, and "://" follows. */
  predicate SchemeEndsAt(s: string, k: int)
    requires 1 <= k < |s| - 2
  {
    && s[k] == ':' && s[k + 1] == '/' && s[k + 2] == '/'
    && forall i :: 1 <= i < k ==> SchemeChar(s[i])
  }

  /** A prefix that lower-cases to "http://" or "https://" is a letter scheme and "://". */
  lemma {:induction false} SchemePrefix(s: string, w: string)
    requires w == "http://" || w == "https://"
    requires |s| >= |w| && Strings.ToLower(s[..|w|]) == w
    ensures IsAxiosAbsolute(s)
  {
    var n := |w|;
    var k := n - 3;
    forall i | 0 <= i < n
      ensures Strings.ToLowerChar(s[i]) == w[i]
    {
      assert Strings.ToLower(s[..n])[i] == Strings.ToLowerChar(s[..n][i]);
    }
    assert forall i :: 0 <= i < k ==> IsAsciiLetter(s[i]);
    assert SchemeEndsAt(s, k);
  }

  /** Every URL the interceptor leaves alone as absolute is absolute for axios too, but not
      conversely: "//host/x" is protocol-relative, so axios requests it on its own while the
      interceptor treats it as a path. */
  lemma AbsoluteForAxios(s: string, rest: string)
    ensures IsAbsolute(s) ==> IsAxiosAbsolute(s)
    ensures IsAxiosAbsolute("//" + rest) && !IsAbsolute("//" + rest)
  {
    if |s| >= 7 && Strings.EqualsIgnoreCase(s[..7], "http://") {
      Strings.ToLowerOfLower("http://");
      SchemePrefix(s, "http://");
    } else if |s| >= 8 && Strings.EqualsIgnoreCase(s[..8], "https://") {
      Strings.ToLowerOfLower("https://");
      SchemePrefix(s, "https://");
    }
    var u := "//" + rest;
    assert u[..2] == "//";
    SlashNotAbsolute(u);
  }

  /** A URL that starts with a single "/" is a path for axios. */
  lemma PathNotAxiosAbsolute(s: string)
    requires |s| >= 1 && s[0] == '/' && (|s| == 1 || s[1] != '/')
    ensures !IsAxiosAbsolute(s)
  {
  }

  /** The URL axios requests (`buildFullPath`): an absolute URL, or any URL when there is no
      base, as it is; otherwise the base and the path joined by exactly one slash, or the base
      alone for an empty path. */
  function FullUrl(base: string, url: string): (r: string)
    ensures IsAxiosAbsolute(url) || base == "" ==> r == url
    ensures !IsAxiosAbsolute(url) && base != "" && url == "" ==> r == base
    ensures !IsAxiosAbsolute(url) && base != "" && url != "" ==>
      var head := DropTrailingSlashes(base) + "/";
      Strings.StartsWith(r, head) && r[|head|..] == DropLeadingSlashes(url)
  {
    if IsAxiosAbsolute(url) || base == "" then url
    else if url == "" then base
    else DropTrailingSlashes(base) + "/" + DropLeadingSlashes(url)
  }

  /** A path with one leading slash lands directly under a base without a trailing one. */
  lemma FullUrlAppends(base: string, path: string)
    requires |path| >= 2 && path[0] == '/' && path[1] != '/'
    requires !Strings.EndsWith(base, "/")
    ensures FullUrl(base, path) == base + path
  {
    PathNotAxiosAbsolute(path);
    assert DropLeadingSlashes(path) == path[1..];
  }

  /** The request interceptor: the stored token, when there is one, is sent as a bearer
      token; the URL is normalised. */
  function Outgoing(c: Client, config: Config): (r: Config)
    ensures r.url == NormaliseUrl(config.url) && r.isRetry == config.isRetry
    ensures c.token.Some? && c.token.value != "" ==> r.authorization == Some("Bearer " + c.token.value)
    ensures !(c.token.Some? && c.token.value != "") ==> r.authorization == config.authorization
  {
    var authorization := if c.token.Some? && c.token.value != "" then Some("Bearer " + c.token.value) else config.authorization;
    Config(NormaliseUrl(config.url), authorization, config.isRetry)
  }

  /* ---------------- auth endpoints ---------------- */

  const AuthPaths: seq<string> :=
    ["/auth/login", "/auth/register", "/auth/refresh", "/auth/logout", "/auth/password/forgot", "/auth/password/reset"]

  /** `isAuthEndpointUrl`: the lower-cased URL (empty when missing) ends with one of the six
      auth paths. */
  function IsAuthEndpoint(url: Js.Value): (r: bool)
    ensures url.Undefined? || url.Null? ==> !r
  {
    var u := Strings.ToLower(if url.Undefined? then "" else Js.ToStr(url));
    exists i :: 0 <= i < |AuthPaths| && Strings.EndsWith(u, AuthPaths[i])
  }

  /** Lower-case text is its own lower case. */
  lemma AuthPathsLower(i: int)
    requires 0 <= i < |AuthPaths|
    ensures Strings.ToLower(AuthPaths[i]) == AuthPaths[i]
  {
    Strings.ToLowerOfLower(AuthPaths[i]);
  }

  /** Any of the six paths, under any base, relative or absolute and in any letter case, is
      an auth endpoint. */
  lemma {:induction false} AuthPathUnderAnyBase(base: string, path: string, i: int)
    requires 0 <= i < |AuthPaths| && Strings.ToLower(path) == AuthPaths[i]
    ensures IsAuthEndpoint(Js.Str(base + path))
  {
    var u := Strings.ToLower(base + path);
    assert u[|u| - |path|..] == Strings.ToLower(path);
    assert Strings.EndsWith(u, AuthPaths[i]);
  }

  /** In particular the refresh call's own URL is one, so its failure is never refreshed. */
  lemma RefreshUrlIsAuthEndpoint(raw: Option<string>)
    ensures IsAuthEndpoint(Js.Str(RefreshUrl(raw)))
  {
    AuthPathsLower(2);
    AuthPathUnderAnyBase(Base(raw), "/auth/refresh", 2);
  }

  /** Reading the current user is not an auth endpoint, so a 401 there is refreshed. */
  lemma MeIsNotAuthEndpoint()
    ensures !IsAuthEndpoint(Js.Str("/auth/me"))
  {
    assert |Strings.ToLower("/auth/me")| == 8;
  }

  /* ---------------- refresh after 401 ---------------- */

  /** A failed request as the response interceptor sees it: the status when there was a
      response, and the configuration when there was one. */
  datatype Failure = Failure(status: Option<int>, config: Option<Config>)

  /** What the refresh call came back with: a response body, or an error. */
  datatype RefreshReply = Issued(data: Js.Value) | RefreshFailed

  datatype Outcome = RejectOriginal | Retry(config: Config)

  /** The interceptor tries a refresh only for a 401 response to a request that is not itself
      a retry and is not an auth endpoint. */
  function ShouldRefresh(f: Failure): (r: bool)
    ensures f.config.Some? && (f.config.value.url.Undefined? || f.config.value.url.Null?) ==>
      (r <==> f.status == Some(401) && !f.config.value.isRetry)
  {
    f.status == Some(401) && f.config.Some? && !f.config.value.isRetry && !IsAuthEndpoint(f.config.value.url)
  }

  /** The refresh call itself never triggers a refresh, while a first 401 on `/auth/me`
      does. */
  lemma RefreshNeverRefreshed(raw: Option<string>, f: Failure, authorization: Option<string>)
    requires f.config.Some? && f.config.value.url == Js.Str(RefreshUrl(raw))
    ensures !ShouldRefresh(f)
    ensures ShouldRefresh(Failure(Some(401), Some(Config(Js.Str("/auth/me"), authorization, false))))
  {
    RefreshUrlIsAuthEndpoint(raw);
    MeIsNotAuthEndpoint();
  }

  /** The refresh request's body: the stored refresh token when there is a non-empty one. */
  function RefreshBody(c: Client): (r: Js.Value)
    ensures r.Obj? && ("refreshToken" in r.fields <==> c.refreshToken.Some? && c.refreshToken.value != "")
    ensures "refreshToken" in r.fields ==> r.fields["refreshToken"] == Js.Str(c.refreshToken.value)
  {
    if c.refreshToken.Some? && c.refreshToken.value != "" then Js.Obj(map["refreshToken" := Js.Str(c.refreshToken.value)])
    else Js.Obj(map[])
  }

  /** The new access token in a refresh response: `accessToken`, else `token`, else
      `tokens.accessToken`, the first that is truthy; `null` when none is. */
  function NewToken(data: Js.Value): (r: Js.Value)
    ensures var a, b, c := Js.Get(data, "accessToken"), Js.Get(data, "token"), Js.Get(Js.Get(data, "tokens"), "accessToken");
      && (Js.Truthy(r) <==> Js.Truthy(a) || Js.Truthy(b) || Js.Truthy(c))
      && (Js.Truthy(a) ==> r == a)
      && (!Js.Truthy(a) && Js.Truthy(b) ==> r == b)
      && (!Js.Truthy(a) && !Js.Truthy(b) ==> r == if Js.Truthy(c) then c else Js.Null)
  {
    Js.Or(Js.Or(Js.Or(Js.Get(data, "accessToken"), Js.Get(data, "token")), Js.Get(Js.Get(data, "tokens"), "accessToken")), Js.Null)
  }

  /** The token the pets API sends back from a refresh is the one the client takes, and the
      one its sign-in response carries is found under `tokens`. */
  lemma ServerTokensAccepted(access: string, u: UserModel.User, refresh: Option<string>)
    requires access != ""
    ensures NewToken(AuthController.ToJs(AuthController.AccessOnly(access))) == Js.Str(access)
    ensures NewToken(AuthController.ToJs(AuthController.Session(u, access, refresh))) == Js.Str(access)
  {
    var d := AuthController.ToJs(AuthController.AccessOnly(access));
    assert Js.Get(d, "accessToken") == Js.Str(access);
    SessionTokenFound(access, u, refresh);
  }

  lemma SessionTokenFound(access: string, u: UserModel.User, refresh: Option<string>)
    requires access != ""
    ensures NewToken(AuthController.ToJs(AuthController.Session(u, access, refresh))) == Js.Str(access)
  {
    var d := AuthController.ToJs(AuthController.Session(u, access, refresh));
    assert "accessToken" !in d.fields && "token" !in d.fields;
    var tokens := Js.Get(d, "tokens");
    assert tokens.Obj? && "accessToken" in tokens.fields;
    assert Js.Get(tokens, "accessToken") == Js.Str(access);
  }

  /** The response interceptor on a failed request, given what the refresh call (sent with
      RefreshBody) replies: no refresh and the original error when the failure does not
      qualify; the token cleared and the original error when the refresh fails or brings no
      token; otherwise the new token stored and the request retried, marked as a retry and
      carrying the new token. */
  function OnError(c: Client, f: Failure, refresh: Js.Value -> RefreshReply): (r: (Client, Outcome))
    ensures !ShouldRefresh(f) ==> r == (c, RejectOriginal)
    ensures ShouldRefresh(f) && r.1.RejectOriginal? ==> r.0.token.None? && r.0.header.None?
    ensures ShouldRefresh(f) ==>
      (r.1.Retry? <==> refresh(RefreshBody(c)).Issued? && Js.Truthy(NewToken(refresh(RefreshBody(c)).data)))
    ensures r.1.Retry? ==>
      var t := Js.ToStr(NewToken(refresh(RefreshBody(c)).data));
      && r.0 == SetToken(c, NewToken(refresh(RefreshBody(c)).data))
      && r.1.config.isRetry && r.1.config.url == f.config.value.url
      && r.1.config.authorization == (if t != "" then Some("Bearer " + t) else f.config.value.authorization)
    ensures r.0.refreshToken == c.refreshToken
  {
    if !ShouldRefresh(f) then (c, RejectOriginal)
    else match refresh(RefreshBody(c))
      case RefreshFailed => (SetToken(c, Js.Null), RejectOriginal)
      case Issued(data) =>
        var t := NewToken(data);
        if !Js.Truthy(t) then (SetToken(c, Js.Null), RejectOriginal)
        else
          var c' := SetToken(c, t);
          var config := f.config.value;
          var stored := c'.token.value;
          (c', Retry(config.(isRetry := true, authorization := if stored != "" then Some("Bearer " + stored) else config.authorization)))
  }

  /** A request is retried at most once: if its retry fails again, nothing is refreshed and
      the error goes to the caller. */
  lemma RetryAtMostOnce(c: Client, f: Failure, refresh: Js.Value -> RefreshReply, status: Option<int>, again: Js.Value -> RefreshReply)
    requires OnError(c, f, refresh).1.Retry?
    ensures var (c', o) := OnError(c, f, refresh);
      OnError(c', Failure(status, Some(o.config)), again) == (c', RejectOriginal)
  {
  }

  /** Errors that are not a 401, or that come from an auth endpoint, leave the session as it
      is. */
  lemma AuthEndpointFailuresKeepSession(c: Client, config: Config, status: int, refresh: Js.Value -> RefreshReply)
    requires status != 401 || IsAuthEndpoint(config.url)
    ensures OnError(c, Failure(Some(status), Some(config)), refresh) == (c, RejectOriginal)
  {
  }
}

=== FILE: cors.dfy ===
/** Cross-origin policy of the chat backend (`backhend/src/app.js`), whose allow-list the
    socket server (`backhend/src/server.js`) builds the same way, and the error mapping at the
    end of the middleware chain. The environment is a parameter. */
module Cors {
  import opened Wrappers
  import Strings
  import Js

  const DevDefaults: seq<string> := ["http://localhost:5173", "http://127.0.0.1:5173"]

  /** `.map(s => s.trim())`. */
  function TrimEach(parts: seq<string>): (r: seq<string>)
    ensures |r| == |parts|
    ensures forall i :: 0 <= i < |parts| ==> r[i] == Strings.Trim(parts[i])
  {
    seq(|parts|, i requires 0 <= i < |parts| => Strings.Trim(parts[i]))
  }

  /** `.filter(Boolean)` on strings: the non-empty ones, in order. */
  function NonEmpty(ts: seq<string>): (r: seq<string>)
    ensures forall x :: x in r <==> x in ts && x != ""
    decreases |ts|
  {
    if |ts| == 0 then []
    else
      assert forall x :: x in ts <==> x == ts[0] || x in ts[1..];
      (if ts[0] == "" then [] else [ts[0]]) + NonEmpty(ts[1..])
  }

  /** Filtering keeps the order: the kept strings of a concatenation are those of its first
      part followed by those of its second. */
  lemma {:induction false} NonEmptyAppend(a: seq<string>, b: seq<string>)
    ensures NonEmpty(a + b) == NonEmpty(a) + NonEmpty(b)
    decreases |a|
  {
    if |a| > 0 {
      assert (a + b)[0] == a[0] && (a + b)[1..] == a[1..] + b;
      NonEmptyAppend(a[1..], b);
    } else {
      assert a + b == b;
    }
  }

  /** The origins listed in `CORS_ORIGIN`, comma separated and trimmed, blanks dropped; an
      unset variable lists none. */
  function EnvList(env: Option<string>): (r: seq<string>)
    ensures forall x :: x in r ==> x != ""
  {
    NonEmpty(TrimEach(Strings.Split(env.GetOr(""), ',')))
  }

  /** An entry is a piece of the variable, trimmed and not blank; and every such piece is an
      entry. */
  lemma EnvListMembers(env: Option<string>, x: string)
    ensures x in EnvList(env) <==>
      x != "" && exists p :: p in Strings.Split(env.GetOr(""), ',') && Strings.Trim(p) == x
  {
    CleanMembers(Strings.Split(env.GetOr(""), ','), x);
  }

  /** Entries carry no comma and no surrounding white space. */
  lemma EnvListClean(env: Option<string>, x: string)
    requires x in EnvList(env)
    ensures Strings.Trim(x) == x && ',' !in x
  {
    var parts := Strings.Split(env.GetOr(""), ',');
    CleanMembers(parts, x);
    var p :| p in parts && Strings.Trim(p) == x;
    Strings.TrimIdempotent(p);
    TrimKeepsAbsent(p, ',');
  }

  lemma CleanMembers(parts: seq<string>, x: string)
    ensures x in NonEmpty(TrimEach(parts)) <==> x != "" && exists p :: p in parts && Strings.Trim(p) == x
  {
    var ts := TrimEach(parts);
    if x in ts {
      var i :| 0 <= i < |ts| && ts[i] == x;
      assert parts[i] in parts;
    }
    if exists p :: p in parts && Strings.Trim(p) == x {
      var p :| p in parts && Strings.Trim(p) == x;
      var i :| 0 <= i < |parts| && parts[i] == p;
      assert ts[i] == x;
    }
  }

  /** Trimming only removes characters. */
  lemma TrimKeepsAbsent(s: string, c: char)
    requires c !in s
    ensures c !in Strings.Trim(s)
  {
    var u := Strings.TrimStart(s);
    var t := Strings.TrimEnd(u);
    assert t == Strings.Trim(s);
    assert forall k :: 0 <= k < |u| ==> u[k] == s[|s| - |u| + k];
    assert forall k :: 0 <= k < |t| ==> t[k] == u[k];
  }

  /** A single origin, white space around it ignored, is the whole list. */
  lemma EnvListSingle(origin: string)
    requires ',' !in origin && Strings.Trim(origin) != ""
    ensures EnvList(Some(origin)) == [Strings.Trim(origin)]
  {
    SplitWithoutSeparator(origin, ',');
    NonEmptySingle(TrimEach([origin]));
  }

  lemma NonEmptySingle(ts: seq<string>)
    requires |ts| == 1 && ts[0] != ""
    ensures NonEmpty(ts) == ts
  {
    assert ts[1..] == [];
  }

  lemma SplitWithoutSeparator(s: string, sep: char)
    requires sep !in s
    ensures Strings.Split(s, sep) == [s]
  {
    var parts := Strings.Split(s, sep);
    Strings.JoinSplit(s, sep);
    if |parts| > 1 {
      JoinHasSeparator(parts, sep);
    }
  }

  lemma {:induction false} JoinHasSeparator(parts: seq<string>, sep: char)
    requires |parts| > 1
    ensures sep in Strings.Join(parts, sep)
    decreases |parts|
  {
    var j := Strings.Join(parts, sep);
    assert j == parts[0] + [sep] + Strings.Join(parts[1..], sep);
    assert j[|parts[0]|] == sep;
  }

  /** The origins the server accepts: the configured list, or the two local development
      origins when nothing usable is configured. */
  function AllowList(env: Option<string>): (r: seq<string>)
    ensures |r| > 0
    ensures |EnvList(env)| > 0 ==> r == EnvList(env)
    ensures |EnvList(env)| == 0 ==> r == DevDefaults
  {
    var l := EnvList(env);
    if |l| > 0 then l else DevDefaults
  }

  datatype Decision = Allow | Deny(message: string)

  /** The `origin` callback: requests without an origin (tools, same-origin) and listed
      origins pass, every other origin is refused with a message starting "CORS:". */
  function CheckOrigin(origin: Option<string>, allow: seq<string>): (r: Decision)
    ensures r.Allow? <==> origin.None? || origin.value == "" || origin.value in allow
    ensures r.Deny? ==> Strings.StartsWith(r.message, "CORS:")
    ensures r.Deny? ==> r.message == "CORS: Origin " + origin.value + " not allowed"
  {
    if origin.None? || origin.value == "" || origin.value in allow then Allow
    else Deny("CORS: Origin " + origin.value + " not allowed")
  }

  /** How a request leaves the middleware chain. */
  datatype Outcome = Handled | NoRoute | Failed(error: Js.Value)

  datatype Response = Passed | Status(code: nat, message: string) | DefaultError

  /** The last two middlewares: unmatched routes give 404; an error whose message is a
      string starting with "CORS:" gives 403 with that message; other errors go on to the
      framework's default handler. */
  function Finish(o: Outcome): (r: Response)
    ensures o.Handled? ==> r == Passed
    ensures o.NoRoute? ==> r == Status(404, "Route not found")
    ensures o.Failed? ==> (r.Status? <==> CorsMessage(o.error).Some?)
    ensures o.Failed? && r.Status? ==> r.code == 403 && r.message == CorsMessage(o.error).value
  {
    match o
    case Handled => Passed
    case NoRoute => Status(404, "Route not found")
    case Failed(err) =>
      match CorsMessage(err)
      case Some(m) => Status(403, m)
      case None => DefaultError
  }

  /** `err?.message` when it is a string that starts with "CORS:". */
  function CorsMessage(err: Js.Value): (r: Option<string>)
    ensures r.Some? ==> Strings.StartsWith(r.value, "CORS:")
  {
    var m := Js.Get(err, "message");
    if m.Str? && Strings.StartsWith(m.s, "CORS:") then Some(m.s) else None
  }

  /** A refused origin reaches the client as a 403 carrying the refusal message. */
  lemma RefusedOriginIsForbidden(origin: string, env: Option<string>)
    requires origin != "" && origin !in AllowList(env)
    ensures var d := CheckOrigin(Some(origin), AllowList(env));
      && d.Deny?
      && Finish(Failed(Js.Obj(map["message" := Js.Str(d.message)])))
         == Status(403, "CORS: Origin " + origin + " not allowed")
  {
  }
}

=== FILE: email.dfy ===
/** The loose e-mail shape `^\S+@\S+\.\S+$` that both the user schema and the forgot-password
    form apply: no white space anywhere, and somewhere an `@` with at least one character
    before it, followed later by a `.` with at least one character between them and at least
    one after it. */
module Email {
  import opened Wrappers
  import Strings

  /** The regular expression, stated as the existence of the two separators. Because `@` and
      `.` are themselves non-space, each `\S+` may swallow further `@`s and `.`s. */
  ghost predicate MatchesShape(s: string) {
    Strings.NoSpace(s)
    && exists i, j :: 0 < i && i + 1 < j < |s| - 1 && s[i] == '@' && s[j] == '.'
  }

  /** The first occurrence of `c` at or after `k`. */
  function FindFrom(s: string, c: char, k: nat): (r: Option<nat>)
    ensures r.Some? ==> k <= r.value < |s| && s[r.value] == c
    ensures r.Some? ==> forall m :: k <= m < r.value ==> s[m] != c
    ensures r.None? ==> forall m :: k <= m < |s| ==> s[m] != c
    decreases |s| - k
  {
    if k >= |s| then None
    else if s[k] == c then Some(k)
    else FindFrom(s, c, k + 1)
  }

  /** The last occurrence of `c` strictly before `k`. */
  function FindBefore(s: string, c: char, k: nat): (r: Option<nat>)
    requires k <= |s|
    ensures r.Some? ==> r.value < k && s[r.value] == c
    ensures r.Some? ==> forall m :: r.value < m < k ==> s[m] != c
    ensures r.None? ==> forall m :: 0 <= m < k ==> s[m] != c
    decreases k
  {
    if k == 0 then None
    else if s[k - 1] == c then Some(k - 1)
    else FindBefore(s, c, k - 1)
  }

  /** The check as a program runs it: the earliest usable `@` must come before the latest
      usable `.` with a character in between. */
  predicate LooksLikeEmail(s: string) {
    && Strings.NoSpace(s)
    && |s| >= 1
    && match FindFrom(s, '@', 1)
       case None => false
       case Some(i) =>
         match FindBefore(s, '.', |s| - 1)
         case None => false
         case Some(j) => i + 1 < j
  }

  /** The scan accepts exactly the strings the regular expression matches. */
  lemma LooksLikeEmailMatches(s: string)
    ensures LooksLikeEmail(s) <==> MatchesShape(s)
  {
    if LooksLikeEmail(s) {
      var i := FindFrom(s, '@', 1).value;
      var j := FindBefore(s, '.', |s| - 1).value;
      assert 0 < i && i + 1 < j < |s| - 1 && s[i] == '@' && s[j] == '.';
    }
    if MatchesShape(s) {
      var i, j :| 0 < i && i + 1 < j < |s| - 1 && s[i] == '@' && s[j] == '.';
      var fi := FindFrom(s, '@', 1);
      var fj := FindBefore(s, '.', |s| - 1);
      assert fi.Some? && fi.value <= i;
      assert fj.Some? && j <= fj.value;
    }
  }

  /** Lower-casing and trimming keep the shape: the characters that move are letters and
      white space, never `@` or `.`. */
  lemma LowerKeepsShape(s: string)
    ensures MatchesShape(Strings.ToLower(s)) <==> MatchesShape(s)
  {
    var l := Strings.ToLower(s);
    forall k | 0 <= k < |s|
      ensures Strings.IsSpace(l[k]) == Strings.IsSpace(s[k])
      ensures (l[k] == '@') == (s[k] == '@') && (l[k] == '.') == (s[k] == '.')
    {
      Strings.LowerSpace(s[k]);
    }
    if MatchesShape(s) {
      var i, j :| 0 < i && i + 1 < j < |s| - 1 && s[i] == '@' && s[j] == '.';
      assert l[i] == '@' && l[j] == '.';
    }
    if MatchesShape(l) {
      var i, j :| 0 < i && i + 1 < j < |l| - 1 && l[i] == '@' && l[j] == '.';
      assert s[i] == '@' && s[j] == '.';
    }
  }
}

=== FILE: forgot_password_page.dfy ===
/** The "forgot password" page (`petadop-frontend/src/pages/ForgotPassword.jsx`): the e-mail is
    normalised and checked before the request, and the same notice follows whatever the server
    answers. The store's `forgotPassword` action is a parameter, absent when the store does not
    define it. */
module ForgotPasswordPage {
  import opened Wrappers
  import Strings
  import Js
  import Email
  import PasswordReset

  const InvalidEmail: string := "Enter a valid email"
  const Notice: string := "If an account exists for that email, we\U{2019}ve sent a reset link."

  /** The page's state: the field, the notice, the error and whether a submit is in flight. */
  datatype Form = Form(email: string, status: string, err: string, submitting: bool)

  /** `email.trim().toLowerCase()`. */
  function Normalised(email: string): (r: string)
    ensures |r| <= |email|
  {
    Strings.ToLower(Strings.Trim(email))
  }

  /** `onSubmit`, given the store's action. Returns the new form and the e-mail sent, if any.
      A submit in flight ignores another; a value without the e-mail shape shows an error
      and sends nothing; a missing action throws once the form is marked as submitting;
      otherwise the normalised e-mail is sent and the notice shown, whatever the reply. */
  function Submit(f: Form, action: Option<string -> Js.Value>): (r: (Form, Option<string>))
    ensures f.submitting ==> r == (f, None)
    ensures r.1.Some? <==> !f.submitting && Email.LooksLikeEmail(Normalised(f.email)) && action.Some?
    ensures r.1.Some? ==> r.1.value == Normalised(f.email) && r.0 == Form(f.email, Notice, "", false)
    ensures !f.submitting && !Email.LooksLikeEmail(Normalised(f.email)) ==> r.0 == Form(f.email, "", InvalidEmail, false)
    ensures r.0.email == f.email
  {
    if f.submitting then (f, None)
    else
      var value := Normalised(f.email);
      if !Email.LooksLikeEmail(value) then (f.(err := InvalidEmail, status := ""), None)
      else match action
        case None => (f.(err := "", status := "", submitting := true), None)
        case Some(forgot) =>
          var _ := forgot(value);
          (f.(err := "", status := Notice, submitting := false), Some(value))
  }

  /** The page says the same thing whatever the store's action replies, so it does not tell
      whether an account exists. */
  lemma StatusUniform(f: Form, a1: string -> Js.Value, a2: string -> Js.Value)
    ensures Submit(f, Some(a1)) == Submit(f, Some(a2))
  {
  }

  /** What is sent has the e-mail shape, is lower-case and trimmed, and is the key under which
      the password controller looks the account up. */
  lemma SentIsKey(f: Form, action: Option<string -> Js.Value>)
    requires Submit(f, action).1.Some?
    ensures var v := Submit(f, action).1.value;
      && Email.MatchesShape(v)
      && Strings.ToLower(v) == v && Strings.Trim(v) == v
      && PasswordReset.EmailKey(Js.Str(v)) == v
  {
    assert Submit(f, action).1.value == Normalised(f.email);
    NormalisedIsKey(f.email);
  }

  /** The same about a normalised address of the e-mail shape, apart from the form. */
  lemma NormalisedIsKey(e: string)
    requires Email.LooksLikeEmail(Normalised(e))
    ensures var v := Normalised(e);
      && Email.MatchesShape(v)
      && Strings.ToLower(v) == v && Strings.Trim(v) == v
      && PasswordReset.EmailKey(Js.Str(v)) == v
  {
    var v := Normalised(e);
    Email.LooksLikeEmailMatches(v);
    Strings.ToLowerIdempotent(Strings.Trim(e));
    NoSpaceTrimmed(v);
    KeyOfNormal(v);
  }

  lemma NoSpaceTrimmed(v: string)
    requires Strings.NoSpace(v)
    ensures Strings.Trim(v) == v
  {
    if |v| > 0 {
      assert !Strings.IsSpace(v[0]) && !Strings.IsSpace(v[|v| - 1]);
    }
    Strings.TrimOfTrimmed(v);
  }

  lemma KeyOfNormal(v: string)
    requires Strings.ToLower(v) == v && Strings.Trim(v) == v
    ensures PasswordReset.EmailKey(Js.Str(v)) == v
  {
    assert Js.ToStr(Js.Str(v)) == v;
  }

  /** Input differing only in letter case or surrounding white space sends the same e-mail. */
  lemma CaseAndSpaceIgnored(f: Form, e: string, action: Option<string -> Js.Value>)
    requires Normalised(e) == Normalised(f.email)
    ensures Submit(f.(email := e), action).1 == Submit(f, action).1
  {
  }

  /** As written the store has no `forgotPassword`: a valid submit marks the form as
      submitting and throws, so nothing is sent, no notice appears and every later submit is
      ignored. */
  lemma StuckWithoutAction(f: Form, later: Option<string -> Js.Value>)
    requires !f.submitting && Email.LooksLikeEmail(Normalised(f.email))
    ensures var (g, sent) := Submit(f, None);
      && sent.None? && g.submitting && g.status == "" && g.err == ""
      && Submit(g, later) == (g, None)
  {
  }

  /** With the action present the same submit sends the e-mail and shows the notice. */
  lemma SubmitSendsValid(f: Form, forgot: string -> Js.Value)
    requires !f.submitting && Email.LooksLikeEmail(Normalised(f.email))
    ensures var (g, sent) := Submit(f, Some(forgot));
      sent == Some(Normalised(f.email)) && g.status == Notice && !g.submitting
  {
  }
}

=== FILE: js.dfy ===
/** The dynamic JavaScript values the source inspects (request bodies, query strings, token
    payloads, handshake fields), with the coercions it relies on: truthiness, `??`, `||`,
    `String(v)` and `Number(v)`. Numbers are integers here; `NaN` is a value of its own. */
module Js {
  import opened Wrappers
  import Strings

  datatype Value =
    | Undefined
    | Null
    | Bool(b: bool)
    | Num(n: int)
    | NaN
    | Str(s: string)
    | Arr(items: seq<Value>)
    | Obj(fields: map<string, Value>)

  /** `!!v`. */
  predicate Truthy(v: Value) {
    match v
    case Undefined => false
    case Null => false
    case NaN => false
    case Bool(b) => b
    case Num(n) => n != 0
    case Str(s) => s != ""
    case Arr(_) => true
    case Obj(_) => true
  }

  predicate IsNullish(v: Value) {
    v.Undefined? || v.Null?
  }

  /** `a ?? b`. */
  function Coalesce(a: Value, b: Value): (r: Value)
    ensures !IsNullish(a) ==> r == a
    ensures IsNullish(a) ==> r == b
  {
    if IsNullish(a) then b else a
  }

  /** `a || b`. */
  function Or(a: Value, b: Value): (r: Value)
    ensures Truthy(a) ==> r == a
    ensures !Truthy(a) ==> r == b
  {
    if Truthy(a) then a else b
  }

  /** `o?.key`: a property of an object, `undefined` for anything else or a missing key. */
  function Get(o: Value, key: string): (r: Value)
    ensures o.Obj? && key in o.fields ==> r == o.fields[key]
    ensures !(o.Obj? && key in o.fields) ==> r == Undefined
  {
    if o.Obj? && key in o.fields then o.fields[key] else Undefined
  }

  /** `String(v)`. Arrays print their elements joined by commas, with `null` and `undefined`
      elements printed empty. */
  function ToStr(v: Value): string
    decreases v
  {
    match v
    case Undefined => "undefined"
    case Null => "null"
    case NaN => "NaN"
    case Bool(b) => if b then "true" else "false"
    case Num(n) => Strings.IntToString(n)
    case Str(s) => s
    case Arr(items) => Strings.Join(ArrayTexts(v, items), ',')
    case Obj(_) => "[object Object]"
  }

  function ArrayTexts(whole: Value, items: seq<Value>): seq<string>
    requires whole.Arr? && forall i :: 0 <= i < |items| ==> items[i] in whole.items
    decreases whole, |items|
  {
    if |items| == 0 then []
    else
      assert items[0] in whole.items;
      [if IsNullish(items[0]) then "" else ToStr(items[0])] + ArrayTexts(whole, items[1..])
  }

  /** The text of a MongoDB ObjectId, which is what `String(id)` gives for one:
      24 lower-case hexadecimal digits. */
  predicate ObjectIdText(s: string) {
    |s| == 24 && forall i :: 0 <= i < |s| ==> s[i] in "0123456789abcdef"
  }

  /** A document's non-empty string `_id`. */
  predicate HasStringId(v: Value) {
    Get(v, "_id").Str? && Get(v, "_id").s != ""
  }

  /** Mongoose's cast of a value to a String path: `None` when the cast fails, else the
      value stored, itself `None` for null or undefined. A string is kept, a number or
      boolean gives its printed form, a document with a string `_id` gives that id, and an
      array or any other object cannot be cast. */
  function CastString(v: Value): (r: Option<Option<string>>)
    ensures IsNullish(v) ==> r == Some(None)
    ensures v.Str? ==> r == Some(Some(v.s))
    ensures v.Num? || v.Bool? || v.NaN? ==> r == Some(Some(ToStr(v)))
    ensures r.None? <==> v.Arr? || (v.Obj? && !HasStringId(v))
    ensures v.Obj? && HasStringId(v) ==> r == Some(Some(Get(v, "_id").s))
  {
    match v
    case Undefined => Some(None)
    case Null => Some(None)
    case Arr(_) => None
    case Obj(_) => if HasStringId(v) then Some(Some(Get(v, "_id").s)) else None
    case _ => Some(Some(ToStr(v)))
  }

  /** Mongoose's cast of a value to a Number path: `None` when the cast fails, else the value
      stored. Null and undefined stay as they are and the empty string is stored as null; a
      string or boolean is converted with `Number` and refused when that gives NaN; a number
      is kept unless it is NaN; a document is cast through its `_id`; an array or any other
      object is refused. */
  function CastNumber(v: Value): (r: Option<Value>)
    ensures r.Some? ==> r.value.Undefined? || r.value.Null? || r.value.Num?
    ensures IsNullish(v) ==> r == Some(v)
    ensures v == Str("") ==> r == Some(Null)
    ensures v.Num? ==> r == Some(v)
    ensures v.NaN? || v.Arr? ==> r.None?
    ensures v.Str? && v.s != "" ==> (r.Some? <==> StrToNumber(v.s).Num?) && (r.Some? ==> r.value == StrToNumber(v.s))
    ensures v.Obj? ==> r == (var id := Get(v, "_id"); if id.Undefined? || id.Obj? then None else CastNumber(id))
  {
    if v.Obj? then
      var id := Get(v, "_id");
      if id.Undefined? || id.Obj? then None else ScalarNumber(id)
    else ScalarNumber(v)
  }

  function ScalarNumber(v: Value): Option<Value> {
    match v
    case Undefined => Some(v)
    case Null => Some(v)
    case Str(s) => if s == "" then Some(Null) else if StrToNumber(s).Num? then Some(StrToNumber(s)) else None
    case Bool(b) => Some(Num(if b then 1 else 0))
    case Num(_) => Some(v)
    case _ => None
  }

  /** `Number(s)` for a string: surrounding white space ignored, the empty string is 0, an
      optionally signed run of decimal digits is its value, anything else is NaN. */
  function StrToNumber(s: string): (r: Value)
    ensures r.Num? || r.NaN?
    ensures Strings.Trim(s) == "" ==> r == Num(0)
  {
    var t := Strings.Trim(s);
    if t == "" then Num(0)
    else match Strings.ParseInt(t)
      case Some(i) => Num(i)
      case None => NaN
  }

  /** `Number(v)`: an array or object is first turned into its text, so `Number(["5"])` is 5,
      `Number([])` is 0 and `Number(["1", "2"])`, whose text is "1,2", is NaN. */
  function ToNumber(v: Value): (r: Value)
    ensures r.Num? || r.NaN?
    ensures v.Arr? || v.Obj? ==> r == StrToNumber(ToStr(v))
  {
    match v
    case Undefined => NaN
    case Null => Num(0)
    case NaN => NaN
    case Bool(b) => Num(if b then 1 else 0)
    case Num(n) => Num(n)
    case Str(s) => StrToNumber(s)
    case Arr(_) => StrToNumber(ToStr(v))
    case Obj(_) => StrToNumber(ToStr(v))
  }

  /** A one-element array is read as its element's text: an array holding one query value
      converts like the value itself, and an empty array converts like "". */
  lemma ArrayNumber(x: Value)
    ensures ToNumber(Arr([x])) == StrToNumber(if IsNullish(x) then "" else ToStr(x))
    ensures ToNumber(Arr([])) == Num(0)
  {
    var a := Arr([x]);
    assert ArrayTexts(a, [x]) == [if IsNullish(x) then "" else ToStr(x)] + ArrayTexts(a, []);
    assert Strings.Trim("") == "";
  }

  /** An object without its own conversion is NaN. */
  lemma ObjectNumberIsNaN(fields: map<string, Value>)
    ensures ToNumber(Obj(fields)) == NaN
  {
    var t := "[object Object]";
    assert ToStr(Obj(fields)) == t;
    assert Strings.Trim(t) == t by {
      Strings.TrimOfTrimmed(t);
    }
    assert Strings.ParseInt(t).None? by {
      assert t[0] == '[' && !Strings.IsDigit('[');
    }
    assert StrToNumber(t) == NaN;
  }

  /** The decimal text of an integer reads back as that integer. */
  lemma NumberOfString(i: int)
    ensures ToNumber(Str(ToStr(Num(i)))) == Num(i)
  {
    var t := Strings.IntToString(i);
    Strings.ParseIntToString(i);
    assert t[|t| - 1] == if i < 0 then Strings.NatToString(-i)[|t| - 2] else Strings.NatToString(i)[|t| - 1];
    Strings.TrimOfTrimmed(t);
  }
}

=== FILE: my_listings.dfy ===
/** The pager of the "My listings" page (`petadop-frontend/src/pages/MyListings.jsx`): which page
    Next and Prev ask for, the page count it shows and when each button is disabled, given the
    store's page, limit and total. */
module MyListings {
  import opened Wrappers
  import Js
  import PetsController

  /** `Math.ceil(total / limit)` for counts: a whole number, or, with a zero limit,
      `Infinity` (some listings) or `NaN` (none). */
  datatype Ceil = Finite(n: int) | Infinity | NotANumber

  /** The number of pages `Math.ceil(total / limit)` gives. */
  function LastPage(total: nat, limit: nat): (r: Ceil)
    ensures limit > 0 ==> r.Finite? && r.n >= 0 && (r.n - 1) * limit < total <= r.n * limit
    ensures limit == 0 ==> (r.Infinity? <==> total > 0) && (r.NotANumber? <==> total == 0)
  {
    if limit > 0 then Finite((total + limit - 1) / limit)
    else if total > 0 then Infinity
    else NotANumber
  }

  /** `x <= c` in JavaScript: always true below `Infinity`, never true against `NaN`. */
  predicate AtMost(x: int, c: Ceil) {
    match c
    case Finite(n) => x <= n
    case Infinity => true
    case NotANumber => false
  }

  /** `x >= c` in JavaScript. */
  predicate AtLeast(x: int, c: Ceil) {
    match c
    case Finite(n) => x >= n
    case Infinity => false
    case NotANumber => false
  }

  /** `next`: the following page, requested only when it is not past the last one. */
  function Next(page: int, total: nat, limit: nat): (r: Option<int>)
    ensures r.Some? ==> r.value == page + 1
    ensures r.Some? <==> AtMost(page + 1, LastPage(total, limit))
  {
    if AtMost(page + 1, LastPage(total, limit)) then Some(page + 1) else None
  }

  /** `prev`: the previous page, at least 1, requested only when it differs from the current. */
  function Prev(page: int): (r: Option<int>)
    ensures page > 1 ==> r == Some(page - 1)
    ensures page == 1 ==> r.None?
    ensures r.Some? ==> r.value >= 1
  {
    var p := if page - 1 > 1 then page - 1 else 1;
    if p != page then Some(p) else None
  }

  /** The page count shown: `Math.max(1, ...)`, which keeps `Infinity` and `NaN`. */
  function ShownPages(total: nat, limit: nat): (r: Ceil)
    ensures limit > 0 ==> r.Finite? && r.n >= 1
    ensures limit > 0 && total > 0 ==> r == LastPage(total, limit)
    ensures limit > 0 && total == 0 ==> r == Finite(1)
  {
    match LastPage(total, limit)
    case Finite(n) => Finite(if n > 1 then n else 1)
    case other => other
  }

  predicate PrevDisabled(page: int) {
    page <= 1
  }

  predicate NextDisabled(page: int, total: nat, limit: nat) {
    AtLeast(page, LastPage(total, limit))
  }

  /** With a positive limit and a page from 1 on, each button is enabled exactly when
      clicking it requests a page. */
  lemma ButtonsMatchClicks(page: int, total: nat, limit: nat)
    requires page >= 1 && limit > 0
    ensures Prev(page).Some? <==> !PrevDisabled(page)
    ensures Next(page, total, limit).Some? <==> !NextDisabled(page, total, limit)
  {
  }

  /** With a zero limit and no listings, Next is enabled but clicking it does nothing, and the
      page count shown is `NaN`. */
  lemma ZeroLimitNoListings(page: int)
    ensures !NextDisabled(page, 0, 0) && Next(page, 0, 0).None?
    ensures ShownPages(0, 0) == NotANumber
  {
  }

  /** Next asks for a further page exactly when the pets API reports `hasNext` for the current
      page: when some listing lies beyond it. */
  lemma NextMatchesServer(page: int, total: nat, limit: nat)
    requires page >= 1 && limit >= 1
    ensures Next(page, total, limit).Some? <==> page * limit < total
  {
    var n := (total + limit - 1) / limit;
    assert (n - 1) * limit < total <= n * limit;
    if page + 1 <= n {
      assert page * limit <= (n - 1) * limit by {
        MulMonotone(page, n - 1, limit);
      }
    } else {
      assert n * limit <= page * limit by {
        MulMonotone(n, page, limit);
      }
    }
  }

  /** So, for a page the pets API listed in full, Next is offered exactly when the listing's
      `hasNext` is set. */
  lemma NextAgreesWithMeta(query: PetsController.Doc, user: Js.Value, items: seq<PetsController.Doc>, total: nat)
    requires var p := PetsController.ListPlan(query, user); p.page >= 1 && p.limit >= 1
    requires var p := PetsController.ListPlan(query, user); |items| == PetsController.PageCount(total, p.page, p.limit)
    ensures var p := PetsController.ListPlan(query, user);
      Next(p.page, total, p.limit).Some? <==> PetsController.ListPets(query, user, items, total).0.hasNext
  {
    var p := PetsController.ListPlan(query, user);
    PetsController.HasNextMeansMore(query, user, items, total);
    NextMatchesServer(p.page, total, p.limit);
  }

  lemma MulMonotone(a: int, b: int, c: nat)
    requires a <= b
    ensures a * c <= b * c
  {
  }

  /** Paging forward then back returns to the same page. */
  lemma NextThenPrev(page: int, total: nat, limit: nat)
    requires page >= 1 && Next(page, total, limit).Some?
    ensures Prev(Next(page, total, limit).value) == Some(page)
  {
  }
}

=== FILE: password_reset.dfy ===
/** Password reset in the chat backend (`backhend/src/controllers/password.controller.js`): a
    request issues a single live token per user, mailed as a link; a reset consumes a live,
    unexpired token once. The store is a pair of sequences; the random token, the hash
    function, the clock and the environment are parameters, and the mail is appended to an
    outbox. */
module PasswordReset {
  import opened Wrappers
  import Strings
  import Js
  import Uri
  import Search

  datatype Account = Account(id: string, email: string, password: string)

  datatype ResetToken = ResetToken(user: string, token: string, expiresAt: int, used: bool)

  datatype Mail = Mail(to: string, link: string)

  datatype State = State(accounts: seq<Account>, tokens: seq<ResetToken>, outbox: seq<Mail>)

  /** `res.json({success: true})`, a 400 with its message, or an error passed to `next`. */
  datatype Response = Success | BadRequest(message: string) | Failed

  const DefaultTtlMinutes: int := 30
  const MinuteMillis: int := 60 * 1000

  /** An environment variable: unset, or set to some text. */
  function EnvText(v: Option<string>): Js.Value {
    if v.Some? then Js.Str(v.value) else Js.Undefined
  }

  /** `RESET_TTL_MIN`: `Number(PASSWORD_RESET_TTL_MIN || 30)`. */
  function TtlMinutes(env: Option<string>): (r: Js.Value)
    ensures r.Num? || r.NaN?
    ensures env.None? || env.value == "" ==> r == Js.Num(DefaultTtlMinutes)
  {
    Js.ToNumber(Js.Or(EnvText(env), Js.Num(DefaultTtlMinutes)))
  }

  /** `new Date(Date.now() + RESET_TTL_MIN * 60 * 1000)`: `None` is an invalid date, which
      the store refuses. */
  function ExpiryOf(ttl: Js.Value, now: int): (r: Option<int>)
    ensures r.Some? <==> ttl.Num?
    ensures r.Some? ==> r.value == now + ttl.n * MinuteMillis
  {
    if ttl.Num? then Some(now + ttl.n * MinuteMillis) else None
  }

  const ResetPath: string := "/reset-password?token="

  /** `buildResetUrl`: the application's base URL, by default the local development one,
      then the reset page with the percent-encoded token as its query. */
  function BuildResetUrl(appUrl: Option<string>, token: string): (r: string)
    ensures var base := if appUrl.Some? && appUrl.value != "" then appUrl.value else "http://localhost:5173";
      Strings.StartsWith(r, base + ResetPath) && r[|base + ResetPath|..] == Uri.Encode(token)
  {
    var base := Js.Or(EnvText(appUrl), Js.Str("http://localhost:5173"));
    var r := base.s + ResetPath + Uri.Encode(token);
    assert r[..|base.s + ResetPath|] == base.s + ResetPath;
    assert r[|base.s + ResetPath|..] == Uri.Encode(token);
    r
  }

  /** The query value of the link carries only unreserved characters and escapes, so it ends
      the link unambiguously, and it decodes back to the token. */
  lemma ResetUrlCarriesToken(appUrl: Option<string>, token: string)
    ensures var r := BuildResetUrl(appUrl, token);
      var base := if appUrl.Some? && appUrl.value != "" then appUrl.value else "http://localhost:5173";
      var q := r[|base + ResetPath|..];
      Uri.IsUriSafe(q) && Uri.Decode(q) == Some(token)
  {
    Uri.EncodeSafe(token);
    Uri.DecodeEncode(token);
  }

  /** The `findOne({email})` test. */
  function EmailIs(email: string): Account -> bool {
    (a: Account) => a.email == email
  }

  /** The first account with exactly this e-mail. */
  function FindByEmail(accounts: seq<Account>, email: string): (r: Option<nat>)
    ensures r.Some? ==> r.value < |accounts| && accounts[r.value].email == email
    ensures r.Some? ==> forall k :: 0 <= k < r.value ==> accounts[k].email != email
    ensures r.None? <==> forall k :: 0 <= k < |accounts| ==> accounts[k].email != email
  {
    Search.First(accounts, EmailIs(email))
  }

  /** The `findById` test. */
  function IdIs(id: string): Account -> bool {
    (a: Account) => a.id == id
  }

  /** `User.findById`. */
  function FindAccount(accounts: seq<Account>, id: string): (r: Option<nat>)
    ensures r.Some? <==> exists k :: 0 <= k < |accounts| && accounts[k].id == id
    ensures r.Some? ==> r.value < |accounts| && accounts[r.value].id == id
  {
    Search.First(accounts, IdIs(id))
  }

  /** The `findOne({token, used: false})` test. */
  function LiveWith(token: string): ResetToken -> bool {
    (t: ResetToken) => t.token == token && !t.used
  }

  /** `findOne({token, used: false})` for a string token: the first unused row with this
      token. */
  function FindLive(tokens: seq<ResetToken>, token: string): (r: Option<nat>)
    ensures r.Some? ==> r.value < |tokens| && tokens[r.value].token == token && !tokens[r.value].used
    ensures r.None? ==> forall k :: 0 <= k < |tokens| ==> tokens[k].token != token || tokens[k].used
  {
    Search.First(tokens, LiveWith(token))
  }

  /** What the store makes of the `token` value of `findOne({token, used: false})`: a test
      on the stored token, or a cast error that rejects the query. */
  datatype TokenQuery = Matching(test: string -> bool) | CastError

  /** An object with a `$`-prefixed key, which the store reads as query operators. */
  predicate HasOperator(v: Js.Value) {
    v.Obj? && exists k :: k in v.fields && |k| > 0 && k[0] == '$'
  }

  /** Equality with a cast value; null matches no row, since every row has a string token. */
  function EqualTo(c: Option<Option<string>>): (r: TokenQuery)
    ensures r.CastError? <==> c.None?
    ensures c.Some? && c.value.Some? ==> forall t :: r.test(t) <==> t == c.value.value
    ensures c.Some? && c.value.None? ==> forall t :: !r.test(t)
  {
    match c
    case None => CastError
    case Some(None) => Matching((t: string) => false)
    case Some(Some(s)) => Matching((t: string) => t == s)
  }

  /** The token value as the query casts it: a string, number or boolean is compared with
      its string form, an array is read as `$in` over its elements' casts, an object with an
      operator key means whatever `operators` makes of it (`None` for operators the store
      refuses), and any other object goes through the String cast. The token is never
      required to be a string. */
  function TokenQueryOf(v: Js.Value, operators: Js.Value -> Option<string -> bool>): (r: TokenQuery)
    ensures v.Str? ==> r.Matching? && forall t :: r.test(t) <==> t == v.s
    ensures v.Num? || v.Bool? || v.NaN? ==> r.Matching? && forall t :: r.test(t) <==> t == Js.ToStr(v)
    ensures HasOperator(v) ==> (r.CastError? <==> operators(v).None?)
    ensures HasOperator(v) && r.Matching? ==> r.test == operators(v).value
    ensures v.Obj? && !HasOperator(v) ==> (r.CastError? <==> !Js.HasStringId(v))
    ensures v.Arr? ==> (r.CastError? <==> exists i :: 0 <= i < |v.items| && Js.CastString(v.items[i]).None?)
    ensures v.Arr? && r.Matching? ==>
      forall t :: r.test(t) <==> exists i :: 0 <= i < |v.items| && Js.CastString(v.items[i]) == Some(Some(t))
  {
    match v
    case Arr(items) =>
      if exists i :: 0 <= i < |items| && Js.CastString(items[i]).None? then CastError
      else Matching((t: string) => exists i :: 0 <= i < |items| && Js.CastString(items[i]) == Some(Some(t)))
    case Obj(_) =>
      if HasOperator(v) then
        match operators(v)
        case None => CastError
        case Some(f) => Matching(f)
      else EqualTo(Js.CastString(v))
    case _ => EqualTo(Js.CastString(v))
  }

  /** The `findOne({token, used: false})` test for a cast token. */
  function LiveMatching(test: string -> bool): ResetToken -> bool {
    (t: ResetToken) => test(t.token) && !t.used
  }

  /** `findOne({token, used: false})`: the first unused row whose token the query accepts. */
  function FindMatching(tokens: seq<ResetToken>, test: string -> bool): (r: Option<nat>)
    ensures r.Some? ==> r.value < |tokens| && test(tokens[r.value].token) && !tokens[r.value].used
    ensures r.Some? ==> forall k :: 0 <= k < r.value ==> !test(tokens[k].token) || tokens[k].used
    ensures r.None? ==> forall k :: 0 <= k < |tokens| ==> !test(tokens[k].token) || tokens[k].used
  {
    Search.First(tokens, LiveMatching(test))
  }

  /** A string token finds exactly what the string lookup finds. */
  lemma StringTokenFindsLive(tokens: seq<ResetToken>, token: string, operators: Js.Value -> Option<string -> bool>)
    ensures TokenQueryOf(Js.Str(token), operators).Matching?
    ensures FindMatching(tokens, TokenQueryOf(Js.Str(token), operators).test) == FindLive(tokens, token)
  {
    var q := TokenQueryOf(Js.Str(token), operators);
    Search.FirstSame(tokens, LiveMatching(q.test), LiveWith(token));
  }

  /** `updateMany({user, used: false}, {$set: {used: true}})`. */
  function Invalidate(tokens: seq<ResetToken>, user: string): (r: seq<ResetToken>)
    ensures |r| == |tokens|
    ensures forall k :: 0 <= k < |r| ==> r[k] == if tokens[k].user == user then tokens[k].(used := true) else tokens[k]
  {
    seq(|tokens|, k requires 0 <= k < |tokens| =>
      if tokens[k].user == user then tokens[k].(used := true) else tokens[k])
  }

  /** `req.body || {}`. */
  function Body(body: Js.Value): Js.Value {
    Js.Or(body, Js.Obj(map[]))
  }

  /** A reset request body: the given token value and the new password as a string. */
  function ResetBody(token: Js.Value, password: string): (b: Js.Value)
    ensures Body(b) == b && Js.Get(b, "token") == token && Js.Get(b, "password") == Js.Str(password)
  {
    var b := Js.Obj(map["token" := token, "password" := Js.Str(password)]);
    assert "token" in b.fields && "password" in b.fields;
    b
  }

  /** `String(email).toLowerCase().trim()`. */
  function EmailKey(email: Js.Value): string {
    Strings.Trim(Strings.ToLower(Js.ToStr(email)))
  }

  /** `forgotPassword`. A missing e-mail and an unknown one answer exactly like a known one;
      for a known one every earlier token of the user is spent, a new token valid for the
      configured number of minutes is stored, and the link is mailed. */
  function ForgotPassword(st: State, body: Js.Value, ttlEnv: Option<string>, appUrl: Option<string>,
                          newToken: string, now: int): (r: (State, Response))
    ensures r.0.accounts == st.accounts
    ensures r.1 == Success || r.1 == Failed
    ensures r.1 == Failed <==>
      Js.Truthy(Js.Get(Body(body), "email"))
      && FindByEmail(st.accounts, EmailKey(Js.Get(Body(body), "email"))).Some?
      && TtlMinutes(ttlEnv).NaN?
    ensures (|| !Js.Truthy(Js.Get(Body(body), "email"))
             || FindByEmail(st.accounts, EmailKey(Js.Get(Body(body), "email"))).None?) ==> r.0 == st
  {
    var email := Js.Get(Body(body), "email");
    if !Js.Truthy(email) then (st, Success)
    else match FindByEmail(st.accounts, EmailKey(email))
      case None => (st, Success)
      case Some(i) =>
        var u := st.accounts[i];
        var spent := Invalidate(st.tokens, u.id);
        match ExpiryOf(TtlMinutes(ttlEnv), now)
        case None => (st.(tokens := spent), Failed)
        case Some(expiresAt) => (Issue(st, u, expiresAt, appUrl, newToken), Success)
  }

  /** The known-address branch once the expiry is a valid date: the user's earlier tokens
      spent, the new one stored live, and the link mailed to the account's address. */
  function Issue(st: State, u: Account, expiresAt: int, appUrl: Option<string>, newToken: string): (r: State)
    ensures r.accounts == st.accounts
    ensures |r.tokens| == |st.tokens| + 1
    ensures r.tokens[|st.tokens|] == ResetToken(u.id, newToken, expiresAt, false)
    ensures forall k :: 0 <= k < |st.tokens| ==>
      r.tokens[k] == if st.tokens[k].user == u.id then st.tokens[k].(used := true) else st.tokens[k]
    ensures r.outbox == st.outbox + [Mail(u.email, BuildResetUrl(appUrl, newToken))]
  {
    var spent := Invalidate(st.tokens, u.id);
    var r := State(st.accounts, spent + [ResetToken(u.id, newToken, expiresAt, false)],
                   st.outbox + [Mail(u.email, BuildResetUrl(appUrl, newToken))]);
    assert forall k :: 0 <= k < |spent| ==> r.tokens[k] == spent[k];
    r
  }

  /** After a request for a known address the user holds exactly one live token, the new
      one, expiring the configured number of minutes from now; other users' tokens are
      untouched, and the link to it is mailed to the account's address. */
  lemma ForgotLeavesOneLiveToken(st: State, body: Js.Value, ttlEnv: Option<string>, appUrl: Option<string>,
                                 newToken: string, now: int)
    requires Js.Truthy(Js.Get(Body(body), "email"))
    requires FindByEmail(st.accounts, EmailKey(Js.Get(Body(body), "email"))).Some?
    requires TtlMinutes(ttlEnv).Num?
    ensures var u := st.accounts[FindByEmail(st.accounts, EmailKey(Js.Get(Body(body), "email"))).value];
      var next := ForgotPassword(st, body, ttlEnv, appUrl, newToken, now).0;
      var n := |st.tokens|;
      && |next.tokens| == n + 1
      && next.tokens[n] == ResetToken(u.id, newToken, now + TtlMinutes(ttlEnv).n * MinuteMillis, false)
      && (forall k :: 0 <= k < n && next.tokens[k].user == u.id ==> next.tokens[k].used)
      && (forall k :: 0 <= k < n && st.tokens[k].user != u.id ==> next.tokens[k] == st.tokens[k])
      && next.outbox == st.outbox + [Mail(u.email, BuildResetUrl(appUrl, newToken))]
  {
    var u := st.accounts[FindByEmail(st.accounts, EmailKey(Js.Get(Body(body), "email"))).value];
    var e := ExpiryOf(TtlMinutes(ttlEnv), now);
    assert ForgotPassword(st, body, ttlEnv, appUrl, newToken, now).0 == Issue(st, u, e.value, appUrl, newToken);
  }

  /** Unless the configured lifetime is not a number, the answer never reveals whether the
      address is known. */
  lemma ForgotIsUniform(st: State, body: Js.Value, ttlEnv: Option<string>, appUrl: Option<string>,
                        newToken: string, now: int)
    requires TtlMinutes(ttlEnv).Num?
    ensures ForgotPassword(st, body, ttlEnv, appUrl, newToken, now).1 == Success
  {
  }

  /** With nothing configured a token lives thirty minutes. */
  lemma DefaultLifetime(now: int)
    ensures ExpiryOf(TtlMinutes(None), now) == Some(now + 1_800_000)
  {
  }

  const LengthMessage: string := "Password must be 8\U{2013}16 characters"

  const InvalidMessage: string := "Invalid or expired token"

  /** The lookup of `resetPassword` once token and password have passed their checks: a
      query the store cannot cast is an error passed to `next`; the row found must not be
      past its expiry (a token is still good at its expiry instant); its user must exist.
      Then the password is replaced by its hash and the row found is spent. */
  function Redeem(st: State, q: TokenQuery, pw: string, hash: string -> string, now: int): (r: (State, Response))
    ensures r.0.outbox == st.outbox && |r.0.tokens| == |st.tokens| && |r.0.accounts| == |st.accounts|
    ensures r.1 == Success || r.0 == st
    ensures r.1 == Failed <==> q.CastError?
    ensures r.1 == Success <==>
      && q.Matching?
      && var k := FindMatching(st.tokens, q.test);
      && k.Some? && now <= st.tokens[k.value].expiresAt
      && FindAccount(st.accounts, st.tokens[k.value].user).Some?
    ensures r.1 == Success ==>
      var k := FindMatching(st.tokens, q.test).value;
      var i := FindAccount(st.accounts, st.tokens[k].user).value;
      && r.0.tokens == st.tokens[k := st.tokens[k].(used := true)]
      && r.0.accounts == st.accounts[i := st.accounts[i].(password := hash(pw))]
    ensures r.1.BadRequest? ==> r.1.message == InvalidMessage || r.1.message == "Invalid token"
  {
    match q
    case CastError => (st, Failed)
    case Matching(test) =>
      match FindMatching(st.tokens, test)
      case None => (st, BadRequest(InvalidMessage))
      case Some(k) =>
        var row := st.tokens[k];
        if row.expiresAt < now then (st, BadRequest(InvalidMessage))
        else match FindAccount(st.accounts, row.user)
          case None => (st, BadRequest("Invalid token"))
          case Some(i) =>
            (st.(accounts := st.accounts[i := st.accounts[i].(password := hash(pw))],
                 tokens := st.tokens[k := row.(used := true)]),
             Success)
  }

  /** `resetPassword`. Token and password must both be present and the password must be 8
      to 16 UTF-16 units long; then the token, whatever its type, goes into the query as it
      came, and the row it finds is redeemed. */
  function ResetPassword(st: State, body: Js.Value, hash: string -> string,
                         operators: Js.Value -> Option<string -> bool>, now: int): (r: (State, Response))
    ensures r.0.outbox == st.outbox && |r.0.tokens| == |st.tokens| && |r.0.accounts| == |st.accounts|
    ensures r.1 == Success || r.0 == st
    ensures var token := Js.Get(Body(body), "token"); var password := Js.Get(Body(body), "password");
      !Js.Truthy(token) || !Js.Truthy(password) ==> r == (st, BadRequest("token and password are required"))
    ensures var token := Js.Get(Body(body), "token"); var password := Js.Get(Body(body), "password");
      (Js.Truthy(token) && Js.Truthy(password) && !(8 <= Strings.JsLength(Js.ToStr(password)) <= 16))
      ==> r == (st, BadRequest(LengthMessage))
    ensures var token := Js.Get(Body(body), "token"); var password := Js.Get(Body(body), "password");
      (Js.Truthy(token) && Js.Truthy(password) && 8 <= Strings.JsLength(Js.ToStr(password)) <= 16)
      ==> r == Redeem(st, TokenQueryOf(token, operators), Js.ToStr(password), hash, now)
  {
    var token := Js.Get(Body(body), "token");
    var password := Js.Get(Body(body), "password");
    if !Js.Truthy(token) || !Js.Truthy(password) then (st, BadRequest("token and password are required"))
    else
      var pw := Js.ToStr(password);
      if Strings.JsLength(pw) < 8 || Strings.JsLength(pw) > 16 then (st, BadRequest(LengthMessage))
      else Redeem(st, TokenQueryOf(token, operators), pw, hash, now)
  }

  /** The store refusing every operator object. */
  function NoOperators(v: Js.Value): Option<string -> bool> {
    None
  }

  /** `resetPassword` as evidently intended: a token that is not a string is refused like an
      unknown one before it reaches the query, so only the row holding that very string can
      be spent. */
  function ResetPasswordStrict(st: State, body: Js.Value, hash: string -> string, now: int): (r: (State, Response))
    ensures Js.Get(Body(body), "token").Str? ==> r == ResetPassword(st, body, hash, NoOperators, now)
    ensures r.1 == Success ==> Js.Get(Body(body), "token").Str?
    ensures r.1 != Failed
  {
    var r := ResetPassword(st, body, hash, NoOperators, now);
    if Js.Get(Body(body), "token").Str? || r.1.BadRequest? then r else (st, BadRequest(InvalidMessage))
  }

  /** No two rows share a token. */
  ghost predicate DistinctTokens(tokens: seq<ResetToken>) {
    forall i, j :: 0 <= i < j < |tokens| ==> tokens[i].token != tokens[j].token
  }

  /** As intended, a token works once: repeating a successful reset is refused. */
  lemma ResetIsSingleUse(st: State, body: Js.Value, hash: string -> string, now: int, later: int)
    requires DistinctTokens(st.tokens)
    requires ResetPasswordStrict(st, body, hash, now).1 == Success
    ensures ResetPasswordStrict(ResetPasswordStrict(st, body, hash, now).0, body, hash, later)
         == (ResetPasswordStrict(st, body, hash, now).0, BadRequest(InvalidMessage))
  {
    var key := Js.Get(Body(body), "token").s;
    StringTokenFindsLive(st.tokens, key, NoOperators);
    var k := FindLive(st.tokens, key).value;
    var next := ResetPasswordStrict(st, body, hash, now).0;
    StringTokenFindsLive(next.tokens, key, NoOperators);
    assert FindLive(next.tokens, key).None? by {
      forall j | 0 <= j < |next.tokens|
        ensures next.tokens[j].token != key || next.tokens[j].used
      {
        if j != k {
          assert next.tokens[j] == st.tokens[j];
          if j < k {
            assert st.tokens[j].token != st.tokens[k].token;
          } else {
            assert st.tokens[k].token != st.tokens[j].token;
          }
        }
      }
    }
  }

  /** As written, a token object the store reads as accepting every token, such as
      `{"$ne": null}`, spends the first live row and then, on the same request repeated, the
      next one: the token is not single-use and needs no knowledge of any row. */
  lemma OperatorTokenResets(test: string -> bool, hash: string -> string)
    requires forall t :: test(t)
    ensures var tokens := [ResetToken("u1", "t1", 100, false), ResetToken("u2", "t2", 100, false)];
      var accounts := [Account("u1", "a@b.co", "old1"), Account("u2", "c@d.co", "old2")];
      var (mid, first) := Redeem(State(accounts, tokens, []), Matching(test), "password1", hash, 0);
      var (last, second) := Redeem(mid, Matching(test), "password1", hash, 0);
      && first == Success && second == Success
      && last.accounts[0].password == hash("password1") && last.accounts[1].password == hash("password1")
  {
    var tokens := [ResetToken("u1", "t1", 100, false), ResetToken("u2", "t2", 100, false)];
    var accounts := [Account("u1", "a@b.co", "old1"), Account("u2", "c@d.co", "old2")];
    var h := hash("password1");
    assert FindMatching(tokens, test) == Some(0) by {
      Search.FirstAt(tokens, LiveMatching(test), 0);
    }
    assert FindAccount(accounts, "u1") == Some(0) by {
      Search.FirstAt(accounts, IdIs("u1"), 0);
    }
    var (mid, first) := Redeem(State(accounts, tokens, []), Matching(test), "password1", hash, 0);
    assert first == Success;
    assert mid.tokens == tokens[0 := tokens[0].(used := true)];
    assert mid.accounts == accounts[0 := accounts[0].(password := h)];
    assert FindMatching(mid.tokens, test) == Some(1) by {
      Search.FirstAt(mid.tokens, LiveMatching(test), 1);
    }
    assert FindAccount(mid.accounts, "u2") == Some(1) by {
      Search.FirstAt(mid.accounts, IdIs("u2"), 1);
    }
  }

  /** The request behind the redemption above: a body whose token is an operator object,
      such as `{"$ne": null}`, with an acceptable password passes the checks and reaches the
      store as that operator query. */
  lemma OperatorTokenQueried(st: State, op: Js.Value, password: string, hash: string -> string,
                             operators: Js.Value -> Option<string -> bool>, now: int)
    requires HasOperator(op) && operators(op).Some?
    requires password != "" && 8 <= Strings.JsLength(password) <= 16
    ensures ResetPassword(st, ResetBody(op, password), hash, operators, now)
         == Redeem(st, Matching(operators(op).value), password, hash, now)
  {
  }

  /** `{"$ne": null}` is an operator object. */
  lemma NotNullIsOperator()
    ensures HasOperator(Js.Obj(map["$ne" := Js.Null]))
  {
    assert "$ne" in Js.Obj(map["$ne" := Js.Null]).fields;
  }

  /** A request keeps tokens distinct when the new token is new. */
  lemma ForgotKeepsTokensDistinct(st: State, body: Js.Value, ttlEnv: Option<string>, appUrl: Option<string>,
                                  newToken: string, now: int)
    requires DistinctTokens(st.tokens)
    requires forall k :: 0 <= k < |st.tokens| ==> st.tokens[k].token != newToken
    ensures DistinctTokens(ForgotPassword(st, body, ttlEnv, appUrl, newToken, now).0.tokens)
  {
    ForgotTokenValues(st, body, ttlEnv, appUrl, newToken, now);
    DistinctExtended(st.tokens, ForgotPassword(st, body, ttlEnv, appUrl, newToken, now).0.tokens, newToken);
  }

  lemma DistinctExtended(before: seq<ResetToken>, after: seq<ResetToken>, newToken: string)
    requires DistinctTokens(before)
    requires forall k :: 0 <= k < |before| ==> before[k].token != newToken
    requires |before| <= |after| <= |before| + 1
    requires forall k :: 0 <= k < |before| ==> after[k].token == before[k].token
    requires |after| > |before| ==> after[|before|].token == newToken
    ensures DistinctTokens(after)
  {
    forall i, j | 0 <= i < j < |after|
      ensures after[i].token != after[j].token
    {
      assert after[i].token == before[i].token;
    }
  }

  /** A request changes no stored token's value and can only add the new one at the end. */
  lemma ForgotTokenValues(st: State, body: Js.Value, ttlEnv: Option<string>, appUrl: Option<string>,
                          newToken: string, now: int)
    ensures var t := ForgotPassword(st, body, ttlEnv, appUrl, newToken, now).0.tokens;
      && |st.tokens| <= |t| <= |st.tokens| + 1
      && (forall k :: 0 <= k < |st.tokens| ==> t[k].token == st.tokens[k].token)
      && (|t| > |st.tokens| ==> t[|st.tokens|].token == newToken)
  {
    var email := Js.Get(Body(body), "email");
    if Js.Truthy(email) && FindByEmail(st.accounts, EmailKey(email)).Some? {
      var u := st.accounts[FindByEmail(st.accounts, EmailKey(email)).value];
      var e := ExpiryOf(TtlMinutes(ttlEnv), now);
      if e.Some? {
        assert ForgotPassword(st, body, ttlEnv, appUrl, newToken, now).0 == Issue(st, u, e.value, appUrl, newToken);
      } else {
        assert ForgotPassword(st, body, ttlEnv, appUrl, newToken, now).0.tokens == Invalidate(st.tokens, u.id);
      }
    }
  }

  /** The link's token, used within its lifetime with an acceptable password, resets the
      password of the account that asked for it. */
  lemma ForgotThenReset(st: State, email: string, ttlEnv: Option<string>, appUrl: Option<string>,
                        newToken: string, issued: int, password: string, hash: string -> string,
                        operators: Js.Value -> Option<string -> bool>, now: int)
    requires email != "" && FindByEmail(st.accounts, EmailKey(Js.Str(email))).Some?
    requires TtlMinutes(ttlEnv).Num?
    requires newToken != "" && forall k :: 0 <= k < |st.tokens| ==> st.tokens[k].token != newToken
    requires password != "" && 8 <= Strings.JsLength(password) <= 16
    requires now <= issued + TtlMinutes(ttlEnv).n * MinuteMillis
    ensures var i := FindByEmail(st.accounts, EmailKey(Js.Str(email))).value;
      var mid := ForgotPassword(st, Js.Obj(map["email" := Js.Str(email)]), ttlEnv, appUrl, newToken, issued).0;
      var (last, res) := ResetPassword(mid, ResetBody(Js.Str(newToken), password), hash, operators, now);
      res == Success && FindAccount(st.accounts, st.accounts[i].id).Some?
      && last.accounts[FindAccount(st.accounts, st.accounts[i].id).value].password == hash(password)
  {
    var b1 := Js.Obj(map["email" := Js.Str(email)]);
    var i := FindByEmail(st.accounts, EmailKey(Js.Str(email))).value;
    var mid := ForgotPassword(st, b1, ttlEnv, appUrl, newToken, issued).0;
    ForgotIssues(st, email, ttlEnv, appUrl, newToken, issued);
    ResetWithLiveToken(mid, newToken, password, hash, operators, now);
  }

  /** The request for a known address leaves the new token live at the end of the table. */
  lemma ForgotIssues(st: State, email: string, ttlEnv: Option<string>, appUrl: Option<string>,
                     newToken: string, issued: int)
    requires email != "" && FindByEmail(st.accounts, EmailKey(Js.Str(email))).Some?
    requires TtlMinutes(ttlEnv).Num?
    requires forall k :: 0 <= k < |st.tokens| ==> st.tokens[k].token != newToken
    ensures var i := FindByEmail(st.accounts, EmailKey(Js.Str(email))).value;
      var mid := ForgotPassword(st, Js.Obj(map["email" := Js.Str(email)]), ttlEnv, appUrl, newToken, issued).0;
      && mid.accounts == st.accounts
      && FindLive(mid.tokens, newToken) == Some(|st.tokens|)
      && mid.tokens[|st.tokens|] == ResetToken(st.accounts[i].id, newToken, issued + TtlMinutes(ttlEnv).n * MinuteMillis, false)
  {
    var b1 := Js.Obj(map["email" := Js.Str(email)]);
    assert Body(b1) == b1 && Js.Get(b1, "email") == Js.Str(email);
    var u := st.accounts[FindByEmail(st.accounts, EmailKey(Js.Str(email))).value];
    var e := ExpiryOf(TtlMinutes(ttlEnv), issued);
    var mid := ForgotPassword(st, b1, ttlEnv, appUrl, newToken, issued).0;
    assert mid == Issue(st, u, e.value, appUrl, newToken);
    LiveAtEnd(mid.tokens, newToken);
  }

  /** A live token within its lifetime, whose account exists, resets that account. */
  lemma ResetWithLiveToken(st: State, token: string, password: string, hash: string -> string,
                           operators: Js.Value -> Option<string -> bool>, now: int)
    requires token != "" && password != "" && 8 <= Strings.JsLength(password) <= 16
    requires FindLive(st.tokens, token).Some?
    requires now <= st.tokens[FindLive(st.tokens, token).value].expiresAt
    requires FindAccount(st.accounts, st.tokens[FindLive(st.tokens, token).value].user).Some?
    ensures var i := FindAccount(st.accounts, st.tokens[FindLive(st.tokens, token).value].user).value;
      var (next, res) := ResetPassword(st, ResetBody(Js.Str(token), password), hash, operators, now);
      res == Success && next.accounts[i].password == hash(password)
  {
    StringTokenFindsLive(st.tokens, token, operators);
  }

  lemma LiveAtEnd(tokens: seq<ResetToken>, token: string)
    requires |tokens| > 0 && tokens[|tokens| - 1].token == token && !tokens[|tokens| - 1].used
    requires forall k :: 0 <= k < |tokens| - 1 ==> tokens[k].token != token
    ensures FindLive(tokens, token) == Some(|tokens| - 1)
  {
    Search.FirstAt(tokens, LiveWith(token), |tokens| - 1);
  }

  /** The expiry instant itself is inside the lifetime; one millisecond later is not. */
  lemma ExpiryBoundary(st: State, body: Js.Value, hash: string -> string, operators: Js.Value -> Option<string -> bool>)
    requires var (token, password) := (Js.Get(Body(body), "token"), Js.Get(Body(body), "password"));
      && Js.Truthy(token) && Js.Truthy(password)
      && 8 <= Strings.JsLength(Js.ToStr(password)) <= 16
      && TokenQueryOf(token, operators).Matching?
      && FindMatching(st.tokens, TokenQueryOf(token, operators).test).Some?
    ensures var row := st.tokens[FindMatching(st.tokens, TokenQueryOf(Js.Get(Body(body), "token"), operators).test).value];
      && (ResetPassword(st, body, hash, operators, row.expiresAt).1 == Success <==> FindAccount(st.accounts, row.user).Some?)
      && ResetPassword(st, body, hash, operators, row.expiresAt + 1).1 == BadRequest(InvalidMessage)
  {
  }
}

=== FILE: pet_details.dfy ===
/** The pure parts of the pet details page (`petadop-frontend/src/pages/PetDetails.jsx`): the age
    text, the photo URLs and the photo strip, the main photo, the contact links and where the
    adopt button leads. Rendering is left out; the pet is the JSON object the API returned. */
module PetDetails {
  import opened Wrappers
  import Strings
  import Js
  import Uri
  import ClientApi
  import PetsController

  /* ---------------- age ---------------- */

  /** JavaScript's `%`: the remainder takes the sign of the dividend. */
  function JsRem(a: int, d: int): (r: int)
    requires d > 0
    ensures a >= 0 ==> r == a % d
    ensures a < 0 ==> r == -((-a) % d)
    ensures -d < r < d
    ensures r != 0 ==> (r < 0 <==> a < 0)
  {
    if a >= 0 then a % d else -((-a) % d)
  }

  /** The parts `formatAge` keeps: whole years (`Math.floor(months / 12)`) as "<y> yr" and
      the remaining months (`months % 12`) as "<m> mo", each only when it is not zero. */
  function AgeParts(months: int): (r: seq<string>)
    ensures |r| <= 2
    ensures months == 0 <==> |r| == 0
  {
    var y := months / 12;
    var m := JsRem(months, 12);
    (if y != 0 then [Strings.IntToString(y) + " yr"] else []) + (if m != 0 then [Strings.IntToString(m) + " mo"] else [])
  }

  const NoAge: string := "\U{2014}"

  /** `formatAge`: a dash when the age is missing, else the parts joined by one space. */
  function FormatAge(months: Option<int>): (r: string)
    ensures months.None? ==> r == NoAge
    ensures months == Some(0) ==> r == ""
    ensures months.Some? && 0 < months.value < 12 ==> r == Strings.NatToString(months.value) + " mo"
    ensures months.Some? && months.value > 0 && months.value % 12 == 0 ==> r == Strings.NatToString(months.value / 12) + " yr"
  {
    match months
    case None => NoAge
    case Some(n) => Strings.Join(AgeParts(n), ' ')
  }

  /** What one part says in months: "<n> yr" is twelve times n, "<n> mo" is n. */
  function PartMonths(p: string): (r: Option<int>)
  {
    if |p| >= 3 && p[|p| - 3..] == " yr" then
      match Strings.ParseInt(p[..|p| - 3]) case Some(n) => Some(12 * n) case None => None
    else if |p| >= 3 && p[|p| - 3..] == " mo" then Strings.ParseInt(p[..|p| - 3])
    else None
  }

  /** The months all parts say together, when each part can be read. */
  function TotalMonths(parts: seq<string>): (r: Option<int>)
    ensures |parts| == 0 ==> r == Some(0)
  {
    if |parts| == 0 then Some(0)
    else match (PartMonths(parts[0]), TotalMonths(parts[1..]))
      case (Some(a), Some(b)) => Some(a + b)
      case _ => None
  }

  /** Reading one part back. */
  lemma ReadPart(n: int, unit: string)
    requires unit == " yr" || unit == " mo"
    ensures PartMonths(Strings.IntToString(n) + unit) == Some(if unit == " yr" then 12 * n else n)
  {
    var p := Strings.IntToString(n) + unit;
    assert p[|p| - 3..] == unit;
    assert p[..|p| - 3] == Strings.IntToString(n);
    Strings.ParseIntToString(n);
    assert " mo" != " yr" by { assert " mo"[1] != " yr"[1]; }
  }

  /** For an age that is not negative the parts add up to the age again: nothing is lost or
      counted twice, and every part shown is a non-zero amount. */
  lemma AgeRecomposes(n: nat)
    ensures TotalMonths(AgeParts(n)) == Some(n)
    ensures forall i :: 0 <= i < |AgeParts(n)| ==> PartMonths(AgeParts(n)[i]).Some? && PartMonths(AgeParts(n)[i]) != Some(0)
  {
    var y, m := n / 12, n % 12;
    assert JsRem(n, 12) == m && n == 12 * y + m;
    var py, pm := Strings.IntToString(y) + " yr", Strings.IntToString(m) + " mo";
    ReadPart(y, " yr");
    ReadPart(m, " mo");
    var parts := AgeParts(n);
    if y != 0 && m != 0 {
      assert parts == [py, pm];
      TotalOfTwo(py, pm);
    } else if y != 0 {
      assert parts == [py];
      TotalOfOne(py);
    } else if m != 0 {
      assert parts == [pm];
      TotalOfOne(pm);
    }
  }

  lemma TotalOfOne(a: string)
    requires PartMonths(a).Some?
    ensures TotalMonths([a]) == PartMonths(a)
  {
    assert [a][1..] == [];
  }

  lemma TotalOfTwo(a: string, b: string)
    requires PartMonths(a).Some? && PartMonths(b).Some?
    ensures TotalMonths([a, b]) == Some(PartMonths(a).value + PartMonths(b).value)
  {
    assert [a, b][1..] == [b];
    TotalOfOne(b);
  }

  /** A negative age is shown with the floored years and the truncated remainder, so its
      parts do not add up to it: -5 shows as "-1 yr -5 mo". */
  lemma NegativeAgeMisread()
    ensures AgeParts(-5) == [Strings.IntToString(-1) + " yr", Strings.IntToString(-5) + " mo"]
    ensures TotalMonths(AgeParts(-5)) == Some(-17)
  {
    ReadPart(-1, " yr");
    ReadPart(-5, " mo");
    assert AgeParts(-5)[1..] == [Strings.IntToString(-5) + " mo"];
  }

  /* ---------------- digits and photos ---------------- */

  /** `digitsOnly`: "" for `null` and `undefined`, else the decimal digits of `String(v)`. */
  function DigitsOf(v: Js.Value): (r: string)
    ensures Js.IsNullish(v) ==> r == ""
    ensures forall i :: 0 <= i < |r| ==> Strings.IsDigit(r[i])
  {
    if Js.IsNullish(v) then "" else Strings.DigitsOnly(Js.ToStr(v))
  }

  /** The digits are kept in order, each as often as it occurs, and nothing else is kept. */
  lemma DigitsOfKeepsDigits(v: Js.Value, c: char)
    requires !Js.IsNullish(v)
    ensures multiset(DigitsOf(v))[c] == if Strings.IsDigit(c) then multiset(Js.ToStr(v))[c] else 0
    ensures (DigitsOf(v) == Js.ToStr(v)) <==> forall i :: 0 <= i < |Js.ToStr(v)| ==> Strings.IsDigit(Js.ToStr(v)[i])
  {
    var s := Js.ToStr(v);
    assert DigitsOf(v) == Strings.DigitsOnly(s);
    Strings.DigitsOnlyCounts(s, c);
    Strings.DigitsOnlyFixpoint(s);
  }

  /** The placeholder image for a seed and a size. */
  function Placeholder(seed: string, w: int, h: int): (r: string)
    ensures Strings.StartsWith(r, "https://picsum.photos/seed/")
  {
    "https://picsum.photos/seed/" + seed + "/" + Strings.IntToString(w) + "/" + Strings.IntToString(h)
  }

  /** `safePhoto`: the source when it is truthy and not blank as text, else the placeholder. */
  function SafePhoto(src: Js.Value, seed: string, w: int, h: int): (r: Js.Value)
    ensures Js.Truthy(src) && Strings.Trim(Js.ToStr(src)) != "" ==> r == src
    ensures !(Js.Truthy(src) && Strings.Trim(Js.ToStr(src)) != "") ==> r == Js.Str(Placeholder(seed, w, h))
    ensures Js.Truthy(r)
  {
    if Js.Truthy(src) && Strings.Trim(Js.ToStr(src)) != "" then src else Js.Str(Placeholder(seed, w, h))
  }

  /** The server origin the page derives from the client's base URL: the base without a
      final "/api". */
  function Origin(base: string): (r: string)
    ensures Strings.EndsWith(base, "/api") ==> base == r + "/api"
    ensures !Strings.EndsWith(base, "/api") ==> r == base
  {
    if Strings.EndsWith(base, "/api") then base[..|base| - 4] else base
  }

  /** `buildPhotoUrl` as written: `null` for a falsy value, else the origin, "/uploads/" and
      the value. */
  function BuildPhotoUrl(base: string, p: Js.Value): (r: Js.Value)
    ensures !Js.Truthy(p) <==> r.Null?
    ensures Js.Truthy(p) ==> r == Js.Str(Origin(base) + PetsController.UploadPrefix + Js.ToStr(p))
  {
    if !Js.Truthy(p) then Js.Null else Js.Str(Origin(base) + PetsController.UploadPrefix + Js.ToStr(p))
  }

  /** The URL the pets API serves an uploaded file at: its static mount "/uploads" on the
      server's origin. */
  function ServedAt(origin: string, file: string): string {
    origin + PetsController.UploadPrefix + file
  }

  /** As written, a photo the pets API stored for an upload ("/uploads/<file>") is asked for
      at "/uploads//uploads/<file>", which is not where the file is served; an absolute URL
      given with the listing is put under "/uploads/" too. */
  lemma StoredPhotoMisplaced(base: string, file: string)
    ensures var stored := PetsController.UploadedPaths([file])[0];
      BuildPhotoUrl(base, Js.Str(stored)) == Js.Str(Origin(base) + "/uploads//uploads/" + file)
      && BuildPhotoUrl(base, Js.Str(stored)) != Js.Str(ServedAt(Origin(base), file))
  {
    var stored := PetsController.UploadedPaths([file])[0];
    var o := Origin(base);
    assert o + PetsController.UploadPrefix + stored == o + "/uploads//uploads/" + file;
    var bad := o + "/uploads//uploads/" + file;
    var good := ServedAt(o, file);
    assert |bad| != |good|;
  }

  /** The photo URL as evidently intended: a value that is already a path is put on the
      origin, an absolute URL is kept, and a bare file name goes under "/uploads/". */
  function PhotoUrl(base: string, p: Js.Value): (r: Js.Value)
    ensures !Js.Truthy(p) <==> r.Null?
    ensures r.Str? ==> r.s != ""
  {
    if !Js.Truthy(p) then Js.Null
    else
      var t := Js.ToStr(p);
      if Strings.StartsWith(t, "/") then Js.Str(Origin(base) + t)
      else if ClientApi.IsAbsolute(t) then Js.Str(t)
      else Js.Str(Origin(base) + PetsController.UploadPrefix + t)
  }

  /** With the intended URL a stored upload is asked for where it is served, an absolute URL
      is used as it is, and a bare file name is treated as before. */
  lemma PhotoUrlServesStored(base: string, file: string, url: string, name: string)
    requires ClientApi.IsAbsolute(url)
    requires name != "" && name[0] != '/' && !ClientApi.IsAbsolute(name)
    ensures PhotoUrl(base, Js.Str(PetsController.UploadedPaths([file])[0])) == Js.Str(ServedAt(Origin(base), file))
    ensures PhotoUrl(base, Js.Str(url)) == Js.Str(url)
    ensures PhotoUrl(base, Js.Str(name)) == BuildPhotoUrl(base, Js.Str(name))
  {
    var stored := PetsController.UploadedPaths([file])[0];
    assert Strings.StartsWith(stored, "/");
    assert Origin(base) + stored == ServedAt(Origin(base), file);
    assert !Strings.StartsWith(url, "/") by {
      if |url| > 0 && url[0] == '/' {
        ClientApi.SlashNotAbsolute(url);
      }
    }
  }

  /** The seed of the placeholder for photo i: the pet's `_id`, else "pet-<i>". */
  function Seed(id: Js.Value, i: nat): string {
    Js.ToStr(Js.Or(id, Js.Str("pet-" + Strings.IntToString(i))))
  }

  /** One entry of the photo strip as the page writes it, `buildPhotoUrl(p) || safePhoto(p,
      seed)`: every truthy photo value is put under "/uploads/", and a falsy one gives the
      placeholder. */
  function Shown(base: string, p: Js.Value, seed: string): (r: string)
    ensures r != ""
    ensures Js.Truthy(p) ==> Js.Str(r) == BuildPhotoUrl(base, p)
    ensures !Js.Truthy(p) ==> r == Placeholder(seed, 960, 640)
  {
    Js.ToStr(Js.Or(BuildPhotoUrl(base, p), SafePhoto(p, seed, 960, 640)))
  }

  /** One entry of the strip with the intended photo URL. */
  function ShownIntended(base: string, p: Js.Value, seed: string): (r: string)
    ensures r != ""
    ensures Js.Truthy(p) ==> Js.Str(r) == PhotoUrl(base, p)
    ensures !Js.Truthy(p) ==> r == Placeholder(seed, 960, 640)
  {
    var u := PhotoUrl(base, p);
    if u.Str? then u.s else Placeholder(seed, 960, 640)
  }

  /** The photo strip as the page builds it: the pet's photos, or one placeholder when it has
      none. */
  function Photos(base: string, photos: seq<Js.Value>, id: Js.Value): (r: seq<string>)
    ensures |r| == if |photos| == 0 then 1 else |photos|
    ensures forall i :: 0 <= i < |r| ==> r[i] != ""
    ensures |photos| == 0 ==> r == [Placeholder(Seed(id, 0), 960, 640)]
    ensures forall i :: 0 <= i < |photos| && Js.Truthy(photos[i]) ==> Js.Str(r[i]) == BuildPhotoUrl(base, photos[i])
    ensures forall i :: 0 <= i < |photos| && !Js.Truthy(photos[i]) ==> r[i] == Placeholder(Seed(id, i), 960, 640)
  {
    var list := if |photos| == 0 then [Js.Null] else photos;
    seq(|list|, i requires 0 <= i < |list| => Shown(base, list[i], Seed(id, i)))
  }

  /** The photo strip with the intended photo URL: a stored upload appears where the pets API
      serves it. */
  function PhotosIntended(base: string, photos: seq<Js.Value>, id: Js.Value): (r: seq<string>)
    ensures |r| == if |photos| == 0 then 1 else |photos|
    ensures forall i :: 0 <= i < |r| ==> r[i] != ""
    ensures |photos| == 0 ==> r == [Placeholder(Seed(id, 0), 960, 640)]
    ensures forall i :: 0 <= i < |photos| && Js.Truthy(photos[i]) ==> Js.Str(r[i]) == PhotoUrl(base, photos[i])
    ensures forall i :: 0 <= i < |photos| && !Js.Truthy(photos[i]) ==> r[i] == Placeholder(Seed(id, i), 960, 640)
  {
    var list := if |photos| == 0 then [Js.Null] else photos;
    seq(|list|, i requires 0 <= i < |list| => ShownIntended(base, list[i], Seed(id, i)))
  }

  /** For a pet whose only photo is a stored upload, the page's strip points at
      "/uploads//uploads/<file>" while the intended strip points where the file is served. */
  lemma StripOfUpload(base: string, file: string, id: Js.Value)
    ensures var photos := [Js.Str(PetsController.UploadedPaths([file])[0])];
      && PhotosIntended(base, photos, id) == [ServedAt(Origin(base), file)]
      && Photos(base, photos, id) == [Origin(base) + "/uploads//uploads/" + file]
      && Photos(base, photos, id) != PhotosIntended(base, photos, id)
  {
    StoredPhotoMisplaced(base, file);
    PhotoUrlServesStored(base, file, "https://x", "x");
  }

  /** The main photo: the selected one, the index held to the last photo, else the first. */
  function MainPhoto(photos: seq<string>, selected: nat): (r: string)
    requires |photos| > 0
    ensures r in photos
    ensures (forall i :: 0 <= i < |photos| ==> photos[i] != "") ==>
      r == photos[if selected < |photos| then selected else |photos| - 1]
  {
    var p := photos[if selected < |photos| then selected else |photos| - 1];
    if p != "" then p else photos[0]
  }

  /** On the page the main photo always exists, and is the one selected when the index is in
      range, else the last. */
  lemma MainPhotoOfPage(base: string, photos: seq<Js.Value>, id: Js.Value, selected: nat)
    ensures var strip := Photos(base, photos, id);
      && |strip| > 0
      && MainPhoto(strip, selected) == strip[if selected < |strip| then selected else |strip| - 1]
    ensures var strip := PhotosIntended(base, photos, id);
      && |strip| > 0
      && MainPhoto(strip, selected) == strip[if selected < |strip| then selected else |strip| - 1]
  {
  }

  /* ---------------- contact and adopt ---------------- */

  /** What "Message owner" does: nothing without a pet, an alert without a phone number, or
      opening a WhatsApp link. */
  datatype Contact = NoPet | NoPhone | Open(link: string)

  /** The phone: `contactPhone`, else the lister's `phone`, else `ownerPhone`, else "". */
  function RawPhone(pet: Js.Value): (r: Js.Value)
    ensures Js.Truthy(Js.Get(pet, "contactPhone")) ==> r == Js.Get(pet, "contactPhone")
    ensures !Js.Truthy(Js.Get(pet, "contactPhone")) && Js.Truthy(Js.Get(Js.Get(pet, "listedBy"), "phone")) ==>
      r == Js.Get(Js.Get(pet, "listedBy"), "phone")
    ensures !Js.Truthy(Js.Get(pet, "contactPhone")) && !Js.Truthy(Js.Get(Js.Get(pet, "listedBy"), "phone")) ==>
      r == if Js.Truthy(Js.Get(pet, "ownerPhone")) then Js.Get(pet, "ownerPhone") else Js.Str("")
  {
    Js.Or(Js.Or(Js.Or(Js.Get(pet, "contactPhone"), Js.Get(Js.Get(pet, "listedBy"), "phone")), Js.Get(pet, "ownerPhone")), Js.Str(""))
  }

  /** The greeting: the lister's `fullname`, else `ownerName`, else "there", and the pet's name. */
  function Greeting(pet: Js.Value): string {
    var owner := Js.Or(Js.Or(Js.Get(Js.Get(pet, "listedBy"), "fullname"), Js.Get(pet, "ownerName")), Js.Str("there"));
    "Hi " + Js.ToStr(owner) + ", I'm interested in adopting \"" + Js.ToStr(Js.Get(pet, "name")) + "\". Is it still available?"
  }

  const WaPrefix: string := "https://wa.me/"

  /** `handleMessageOwner`. */
  function MessageOwner(pet: Js.Value): (r: Contact)
    ensures !Js.Truthy(pet) <==> r.NoPet?
    ensures Js.Truthy(pet) ==> (r.NoPhone? <==> DigitsOf(RawPhone(pet)) == "")
    ensures r.Open? ==> r.link == WaPrefix + DigitsOf(RawPhone(pet)) + "?text=" + Uri.Encode(Greeting(pet))
  {
    if !Js.Truthy(pet) then NoPet
    else
      var phone := DigitsOf(RawPhone(pet));
      if phone == "" then NoPhone
      else Open(WaPrefix + phone + "?text=" + Uri.Encode(Greeting(pet)))
  }

  /** A WhatsApp link can be read back: after the prefix, the number runs up to the first
      "?", is all digits and not empty, and the text after "?text=" decodes to the greeting. */
  lemma MessageLinkReadsBack(pet: Js.Value)
    requires MessageOwner(pet).Open?
    ensures var link := MessageOwner(pet).link;
      var phone := DigitsOf(RawPhone(pet));
      var k := |WaPrefix| + |phone|;
      && Strings.StartsWith(link, WaPrefix)
      && phone != "" && (forall i :: |WaPrefix| <= i < k ==> Strings.IsDigit(link[i]) && link[i] != '?')
      && link[k..k + 6] == "?text="
      && Uri.Decode(link[k + 6..]) == Some(Greeting(pet))
  {
    var phone := DigitsOf(RawPhone(pet));
    LinkParts(phone, Uri.Encode(Greeting(pet)));
    Uri.DecodeEncode(Greeting(pet));
  }

  /** The pieces of a link built from a number and an encoded text. */
  lemma LinkParts(phone: string, text: string)
    requires forall i :: 0 <= i < |phone| ==> Strings.IsDigit(phone[i])
    ensures var link := WaPrefix + phone + "?text=" + text;
      var k := |WaPrefix| + |phone|;
      && Strings.StartsWith(link, WaPrefix)
      && (forall i :: |WaPrefix| <= i < k ==> Strings.IsDigit(link[i]) && link[i] != '?')
      && link[k..k + 6] == "?text="
      && link[k + 6..] == text
  {
    var link := WaPrefix + phone + "?text=" + text;
    var k := |WaPrefix| + |phone|;
    assert link[..|WaPrefix|] == WaPrefix;
    assert forall i :: |WaPrefix| <= i < k ==> link[i] == phone[i - |WaPrefix|];
    assert link[k..k + 6] == "?text=";
    assert link[k + 6..] == text;
  }

  /** The "Call" link, shown for a shelter phone when the card names a shelter or owner. */
  function CallLink(pet: Js.Value): (r: Option<string>)
    ensures r.Some? <==> Js.Truthy(Js.Or(Js.Get(pet, "shelterName"), Js.Get(pet, "ownerName"))) && Js.Truthy(Js.Get(pet, "shelterPhone"))
    ensures r.Some? ==> r.value == "tel:" + DigitsOf(Js.Get(pet, "shelterPhone"))
  {
    if Js.Truthy(Js.Or(Js.Get(pet, "shelterName"), Js.Get(pet, "ownerName"))) && Js.Truthy(Js.Get(pet, "shelterPhone"))
    then Some("tel:" + DigitsOf(Js.Get(pet, "shelterPhone")))
    else None
  }

  /** The number dialled is what follows "tel:": only digits, and every digit of the shelter
      phone's text, in order and as often as it occurs there. */
  lemma CallDialsDigits(pet: Js.Value, c: char)
    requires CallLink(pet).Some?
    ensures var link := CallLink(pet).value;
      var phone := Js.Get(pet, "shelterPhone");
      && Strings.StartsWith(link, "tel:")
      && link[4..] == DigitsOf(phone)
      && (forall i :: 4 <= i < |link| ==> Strings.IsDigit(link[i]))
      && multiset(link[4..])[c] == if Strings.IsDigit(c) then multiset(Js.ToStr(phone))[c] else 0
  {
    var link := CallLink(pet).value;
    var phone := Js.Get(pet, "shelterPhone");
    assert link[..4] == "tel:" && link[4..] == DigitsOf(phone);
    DigitsOfKeepsDigits(phone, c);
  }

  /** Where the adopt button leads. */
  datatype Navigation = Stay | GoTo(path: string)

  /** `handleAdopt`: a visitor is sent to log in and come back; a signed-in user goes to the
      owner's page when the pet names an `ownerId`, and nowhere otherwise. */
  function Adopt(user: Js.Value, id: string, pet: Js.Value): (r: Navigation)
    ensures !Js.Truthy(user) ==> r == GoTo("/login?redirect=/pets/" + id)
    ensures Js.Truthy(user) ==> (r.Stay? <==> !Js.Truthy(Js.Get(pet, "ownerId")))
    ensures Js.Truthy(user) && r.GoTo? ==> r.path == "/owners/" + Js.ToStr(Js.Get(pet, "ownerId"))
  {
    if !Js.Truthy(user) then GoTo("/login?redirect=/pets/" + id)
    else
      var owner := Js.Get(pet, "ownerId");
      if !Js.Truthy(owner) then Stay else GoTo("/owners/" + Js.ToStr(owner))
  }

  /** The pets API names a listing's owner `listedBy`; for a signed-in user the button does
      nothing on a listing without an `ownerId`, whoever listed it. */
  lemma AdoptNeedsOwnerId(user: Js.Value, id: string, doc: map<string, Js.Value>)
    requires Js.Truthy(user) && "ownerId" !in doc
    ensures Adopt(user, id, Js.Obj(doc)) == Stay
    ensures Adopt(user, id, Js.Obj(doc["listedBy" := Js.Str(id)])) == Stay
  {
    assert "ownerId" != "listedBy";
  }
}

=== FILE: pets_controller.dfy ===
/** The listing rules of the pets API (`src/controllers/pets.controller.js`): how a query
    string becomes a filter and a page, how a create or update body is normalised, and who may
    change or remove a listing. The collection is a map from id to document; what the database
    returns for a filtered page is a parameter. */
module PetsController {
  import opened Wrappers
  import Strings
  import Js
  import UserModel

  /** A stored or submitted document: its fields by name. */
  type Doc = map<string, Js.Value>

  /** The pets collection, by id. */
  type Store = map<string, Doc>

  /** `doc.key`, `undefined` when the field is missing. */
  function Field(d: Doc, key: string): Js.Value {
    if key in d then d[key] else Js.Undefined
  }

  /* ---------------- helpers ---------------- */

  /** `isAdmin`: the role is "superadmin" or "admin". */
  predicate IsAdmin(user: Js.Value) {
    Js.Get(user, "role") == Js.Str("superadmin") || Js.Get(user, "role") == Js.Str("admin")
  }

  /** Of the roles a stored user can have, only the super administrator is an administrator
      here: "admin" is accepted but no account can hold it. */
  lemma AdminRoles(r: UserModel.Role, role: string)
    ensures IsAdmin(Js.Obj(map["role" := UserModel.RoleValue(r)])) <==> r == UserModel.SuperAdmin
    ensures IsAdmin(Js.Obj(map["role" := Js.Str(role)])) <==> role == "superadmin" || role == "admin"
  {
  }

  /** `getUserId`: the caller's `_id`, else its `id`. */
  function CallerId(user: Js.Value): (r: Js.Value)
    ensures Js.Truthy(Js.Get(user, "_id")) ==> r == Js.Get(user, "_id")
    ensures !Js.Truthy(Js.Get(user, "_id")) ==> r == Js.Get(user, "id")
  {
    Js.Or(Js.Get(user, "_id"), Js.Get(user, "id"))
  }

  /** `parseBool`: booleans as they are, text by a case-insensitive comparison with "true",
      `undefined` (here `None`) for anything else. */
  function ParseBool(v: Js.Value): (r: Option<bool>)
    ensures r.Some? <==> v.Bool? || v.Str?
    ensures v.Bool? ==> r == Some(v.b)
    ensures v.Str? ==> (r == Some(true) <==> Strings.EqualsIgnoreCase(v.s, "true"))
  {
    Strings.ToLowerOfLower("true");
    match v
    case Bool(b) => Some(b)
    case Str(s) => Some(Strings.ToLower(s) == "true")
    case _ => None
  }

  /** The parsed flag as the value written back into the body. */
  function FlagValue(b: Option<bool>): (r: Js.Value)
    ensures b.Some? <==> r.Bool?
    ensures b.Some? ==> r == Js.Bool(b.value)
  {
    if b.Some? then Js.Bool(b.value) else Js.Undefined
  }

  /** Parsing is idempotent, and the texts a form sends read back as the flag they spell. */
  lemma ParseBoolStable(v: Js.Value, b: bool)
    ensures ParseBool(FlagValue(ParseBool(v))) == ParseBool(v)
    ensures ParseBool(Js.Str(if b then "true" else "false")) == Some(b)
    ensures ParseBool(Js.Str("TRUE")) == Some(true) && ParseBool(Js.Str("yes")) == Some(false)
  {
    assert Strings.ToLower("false") == "false";
    assert Strings.ToLower("TRUE") == "true";
    assert Strings.ToLower("yes") == "yes";
  }

  const UploadPrefix: string := "/uploads/"

  /** `extractUploadedPhotoPaths`: each uploaded file's public path, in upload order; no files
      (or no `files` at all) give none. */
  function UploadedPaths(files: seq<string>): (r: seq<string>)
    ensures |r| == |files|
    ensures forall i :: 0 <= i < |r| ==> Strings.StartsWith(r[i], UploadPrefix)
  {
    seq(|files|, i requires 0 <= i < |files| => UploadPrefix + files[i])
  }

  /** The file name can be read back from each path, and uploading in two batches gives the
      paths of one batch followed by the other's. */
  lemma UploadedPathsInverse(files: seq<string>, more: seq<string>)
    ensures forall i :: 0 <= i < |files| ==> UploadedPaths(files)[i][|UploadPrefix|..] == files[i]
    ensures UploadedPaths(files + more) == UploadedPaths(files) + UploadedPaths(more)
  {
  }

  /** The paths as the JSON strings stored in `photos`. */
  function PathValues(paths: seq<string>): (r: seq<Js.Value>)
    ensures |r| == |paths| && forall i :: 0 <= i < |r| ==> r[i] == Js.Str(paths[i])
  {
    seq(|paths|, i requires 0 <= i < |paths| => Js.Str(paths[i]))
  }

  /* ---------------- listing ---------------- */

  /** One condition of a Mongo filter: an equality, a case-insensitive `$regex`, or an
      `ageMonths` range with optional inclusive bounds. */
  datatype Cond = Is(v: Js.Value) | Like(pattern: string) | AgeRange(gte: Option<Js.Value>, lte: Option<Js.Value>)

  /** The fields `listPets` may filter on. */
  datatype Key = Species | OtherSpecies | Gender | Size | City | Status
               | Vaccinated | Dewormed | Sterilized | AgeMonths | ListedBy

  const AllKeys: set<Key> :=
    {Species, OtherSpecies, Gender, Size, City, Status, Vaccinated, Dewormed, Sterilized, AgeMonths, ListedBy}

  lemma AllKeysComplete()
    ensures forall k: Key :: k in AllKeys
  {
    forall k: Key ensures k in AllKeys {
      match k
      case Species => case OtherSpecies => case Gender => case Size => case City => case Status =>
      case Vaccinated => case Dewormed => case Sterilized => case AgeMonths => case ListedBy =>
    }
  }

  /** The field name of a key, which is also the query-string parameter for the plain ones. */
  function Name(k: Key): string {
    match k
    case Species => "species"
    case OtherSpecies => "otherSpecies"
    case Gender => "gender"
    case Size => "size"
    case City => "city"
    case Status => "status"
    case Vaccinated => "vaccinated"
    case Dewormed => "dewormed"
    case Sterilized => "sterilized"
    case AgeMonths => "ageMonths"
    case ListedBy => "listedBy"
  }

  predicate IsFlag(k: Key) {
    k.Vaccinated? || k.Dewormed? || k.Sterilized?
  }

  /** The final filter: the field conditions alone, or together (`$and`) with the free-text
      search for `q` (a `$text` search or a case-insensitive match on any of SearchFields). */
  datatype Query = Where(conds: map<Key, Cond>) | WhereAndSearch(conds: map<Key, Cond>, q: Js.Value)

  const SearchFields: seq<string> := ["name", "breed", "description", "city", "otherSpecies"]

  /** A truthy parameter, as an equality. */
  function Equal(v: Js.Value): Option<Cond> {
    if Js.Truthy(v) then Some(Is(v)) else None
  }

  /** A truthy parameter, as a case-insensitive match on its trimmed text. */
  function Pattern(v: Js.Value): Option<Cond> {
    if Js.Truthy(v) then Some(Like(Strings.Trim(Js.ToStr(v)))) else None
  }

  /** A parsed flag, as an equality with the boolean. */
  function Flag(v: Js.Value): Option<Cond> {
    var b := ParseBool(v);
    if b.Some? then Some(Is(Js.Bool(b.value))) else None
  }

  /** The age bounds, each when its parameter is not `undefined`. */
  function Ages(lo: Js.Value, hi: Js.Value): Option<Cond> {
    if lo.Undefined? && hi.Undefined? then None
    else Some(AgeRange(if lo.Undefined? then None else Some(Js.ToNumber(lo)),
                       if hi.Undefined? then None else Some(Js.ToNumber(hi))))
  }

  /** The condition `listPets` puts on field `k` for query string `query`, if any. */
  function Condition(query: Doc, user: Js.Value, k: Key): Option<Cond> {
    match k
    case OtherSpecies => Pattern(Js.Coalesce(Field(query, "otherSpecies"), Field(query, "speciesOther")))
    case City => Pattern(Field(query, "city"))
    case AgeMonths => Ages(Field(query, "minAge"), Field(query, "maxAge"))
    case ListedBy =>
      if Field(query, "mine") == Js.Str("1") then Equal(CallerId(user)) else None
    case _ => if IsFlag(k) then Flag(Field(query, Name(k))) else Equal(Field(query, Name(k)))
  }

  /** The field conditions of `listPets`: exactly the keys that have a condition. */
  function Filter(query: Doc, user: Js.Value): (r: map<Key, Cond>)
    ensures forall k :: k in r <==> Condition(query, user, k).Some?
    ensures forall k :: k in r ==> Some(r[k]) == Condition(query, user, k)
  {
    AllKeysComplete();
    map k | k in AllKeys && Condition(query, user, k).Some? :: Condition(query, user, k).value
  }

  /** An empty query string filters on nothing. */
  lemma EmptyQueryFiltersNothing(user: Js.Value)
    ensures Filter(map[], user) == map[]
  {
    assert forall k :: Condition(map[], user, k).None?;
  }

  /** A flag filters only when it parses, and then on the parsed value. */
  lemma FlagFilter(query: Doc, user: Js.Value, k: Key)
    requires IsFlag(k)
    ensures k in Filter(query, user) <==> ParseBool(Field(query, Name(k))).Some?
    ensures k in Filter(query, user) ==> Filter(query, user)[k] == Is(Js.Bool(ParseBool(Field(query, Name(k))).value))
  {
  }

  /** `minAge` is an inclusive lower and `maxAge` an inclusive upper bound on `ageMonths`,
      each present exactly when its parameter is; with neither there is no age condition. */
  lemma AgeFilter(query: Doc, user: Js.Value)
    ensures AgeMonths in Filter(query, user) <==> !Field(query, "minAge").Undefined? || !Field(query, "maxAge").Undefined?
    ensures AgeMonths in Filter(query, user) ==>
      var c := Filter(query, user)[AgeMonths];
      && c.AgeRange?
      && (c.gte.Some? <==> !Field(query, "minAge").Undefined?)
      && (c.lte.Some? <==> !Field(query, "maxAge").Undefined?)
      && (c.gte.Some? ==> c.gte.value == Js.ToNumber(Field(query, "minAge")))
      && (c.lte.Some? ==> c.lte.value == Js.ToNumber(Field(query, "maxAge")))
  {
  }

  /** Ages given as decimal text become those numbers as bounds. */
  lemma AgeFilterFromText(query: Doc, user: Js.Value, lo: int, hi: int)
    requires Field(query, "minAge") == Js.Str(Js.ToStr(Js.Num(lo)))
    requires Field(query, "maxAge") == Js.Str(Js.ToStr(Js.Num(hi)))
    ensures Filter(query, user)[AgeMonths] == AgeRange(Some(Js.Num(lo)), Some(Js.Num(hi)))
  {
    Js.NumberOfString(lo);
    Js.NumberOfString(hi);
    AgeFilterFromNumbers(query, user, lo, hi);
  }

  lemma AgeFilterFromNumbers(query: Doc, user: Js.Value, lo: int, hi: int)
    requires Js.ToNumber(Field(query, "minAge")) == Js.Num(lo) && !Field(query, "minAge").Undefined?
    requires Js.ToNumber(Field(query, "maxAge")) == Js.Num(hi) && !Field(query, "maxAge").Undefined?
    ensures Filter(query, user)[AgeMonths] == AgeRange(Some(Js.Num(lo)), Some(Js.Num(hi)))
  {
    assert Condition(query, user, AgeMonths).Some?;
  }

  /** `mine=1` restricts to the caller's listings, and only when the caller has an id;
      otherwise `mine` is ignored. */
  lemma MineFilter(query: Doc, user: Js.Value)
    ensures ListedBy in Filter(query, user) <==> Field(query, "mine") == Js.Str("1") && Js.Truthy(CallerId(user))
    ensures ListedBy in Filter(query, user) ==> Filter(query, user)[ListedBy] == Is(CallerId(user))
  {
  }

  /** The legacy `speciesOther` is used only when `otherSpecies` is nullish, and the pattern
      is the trimmed text. */
  lemma OtherSpeciesFilter(query: Doc, user: Js.Value, s: string)
    requires Field(query, "otherSpecies").Undefined? && Field(query, "speciesOther") == Js.Str(s)
    ensures OtherSpecies in Filter(query, user) <==> s != ""
    ensures s != "" ==> Filter(query, user)[OtherSpecies] == Like(Strings.Trim(s))
  {
  }

  /** `Number(v) || fallback`: the number when it is a non-zero number, the fallback for zero,
      `NaN` or anything that is not a number. */
  function NumberOr(v: Js.Value, fallback: int): (r: int)
    ensures fallback != 0 ==> r != 0
    ensures r == fallback || Js.ToNumber(v) == Js.Num(r)
  {
    match Js.ToNumber(v)
    case Num(n) => if n != 0 then n else fallback
    case _ => fallback
  }

  /** A page number sent as decimal text is that page; 0 and text that is not a number fall
      back to the default. */
  lemma NumberOrText(n: int, fallback: int)
    ensures NumberOr(Js.Str(Js.ToStr(Js.Num(n))), fallback) == if n != 0 then n else fallback
  {
    Js.NumberOfString(n);
  }

  /** A parameter that is missing, empty or not a number falls back. */
  lemma NumberOrMissing(fallback: int)
    ensures NumberOr(Js.Undefined, fallback) == fallback
    ensures NumberOr(Js.Str(""), fallback) == fallback
    ensures NumberOr(Js.Num(0), fallback) == fallback
  {
    assert Strings.Trim("") == "";
  }

  /** What `listPets` asks the database for. */
  datatype Plan = Plan(query: Query, sort: Js.Value, page: int, limit: int, skip: int)

  const DefaultSort: Js.Value := Js.Str("-createdAt")
  const DefaultPage: int := 1
  const DefaultLimit: int := 12

  /** `listPets` up to the database call: the filter, the text search when `q` is truthy, the
      sort (default newest first), the page (default 1), the limit (default 12) and the number
      of documents to skip. */
  function ListPlan(query: Doc, user: Js.Value): (r: Plan)
    ensures r.query.conds == Filter(query, user)
    ensures r.query.WhereAndSearch? <==> Js.Truthy(Field(query, "q"))
    ensures r.query.WhereAndSearch? ==> r.query.q == Field(query, "q")
    ensures r.sort == (if Field(query, "sort").Undefined? then DefaultSort else Field(query, "sort"))
    ensures r.page != 0 && r.limit != 0
    ensures Field(query, "page").Undefined? ==> r.page == DefaultPage
    ensures Field(query, "limit").Undefined? ==> r.limit == DefaultLimit
    ensures r.skip == (r.page - 1) * r.limit
  {
    var conds := Filter(query, user);
    var q := Field(query, "q");
    var page := NumberOr(if Field(query, "page").Undefined? then Js.Num(DefaultPage) else Field(query, "page"), DefaultPage);
    var limit := NumberOr(if Field(query, "limit").Undefined? then Js.Num(DefaultLimit) else Field(query, "limit"), DefaultLimit);
    Plan(if Js.Truthy(q) then WhereAndSearch(conds, q) else Where(conds),
         if Field(query, "sort").Undefined? then DefaultSort else Field(query, "sort"),
         page, limit, (page - 1) * limit)
  }

  /** The `meta` of a listing response. */
  datatype Meta = Meta(total: nat, page: int, limit: int, hasNext: bool)

  /** `listPets` given what the database returned for the plan: the page of documents and the
      total count of matches. */
  function ListPets(query: Doc, user: Js.Value, items: seq<Doc>, total: nat): (r: (Meta, seq<Doc>))
    ensures r.1 == items
    ensures r.0.total == total && r.0.page == ListPlan(query, user).page && r.0.limit == ListPlan(query, user).limit
    ensures r.0.hasNext <==> ListPlan(query, user).skip + |items| < total
  {
    var plan := ListPlan(query, user);
    (Meta(total, plan.page, plan.limit, plan.skip + |items| < total), items)
  }

  /** How many documents the database returns for a page: up to `limit`, after skipping. */
  function PageCount(total: nat, page: int, limit: int): (n: nat)
    requires page >= 1 && limit >= 1
    ensures n <= limit
  {
    var rest := total - (page - 1) * limit;
    if rest <= 0 then 0 else if rest < limit then rest else limit
  }

  /** When the database returns a full page (or the remainder), `hasNext` holds exactly when
      some match lies beyond the current page. */
  lemma HasNextMeansMore(query: Doc, user: Js.Value, items: seq<Doc>, total: nat)
    requires ListPlan(query, user).page >= 1 && ListPlan(query, user).limit >= 1
    requires |items| == PageCount(total, ListPlan(query, user).page, ListPlan(query, user).limit)
    ensures ListPets(query, user, items, total).0.hasNext <==>
      ListPlan(query, user).page * ListPlan(query, user).limit < total
  {
    var p := ListPlan(query, user);
    assert p.page * p.limit == p.skip + p.limit;
  }

  /* ---------------- one listing ---------------- */

  /** A controller's answer: success with status and `data`, an `httpError` with its status
      and message, or any other error passed to `next(err)` (`Next`), which the error handler
      of `src/middleware/error.js` answers; that file is not part of this model. */
  datatype Reply = Ok(status: nat, data: Js.Value) | Fail(status: nat, message: string) | Next

  const NotFound: Reply := Fail(404, "Pet not found")
  const Forbidden: Reply := Fail(403, "Not allowed")
  const OtherRequired: Reply := Fail(400, "otherSpecies is required when species is 'other'")
  const InvalidStatus: Reply := Fail(400, "Invalid status")

  /** `getPetById`. */
  function GetPet(store: Store, id: string): (r: Reply)
    ensures id in store <==> r.Ok?
    ensures r.Ok? ==> r == Ok(200, Js.Obj(store[id]))
    ensures r.Fail? ==> r == NotFound
  {
    if id in store then Ok(200, Js.Obj(store[id])) else NotFound
  }

  /** `String(pet.listedBy) === String(meId)`. */
  predicate Owns(pet: Doc, user: Js.Value) {
    Js.ToStr(Field(pet, "listedBy")) == Js.ToStr(CallerId(user))
  }

  /** The check shared by update, status change and delete: a missing listing is reported
      before the caller's right to it is looked at; then only the owner or an administrator
      may go on (`None`). */
  function Gate(store: Store, id: string, user: Js.Value): (r: Option<Reply>)
    ensures id !in store ==> r == Some(NotFound)
    ensures id in store ==> (r.None? <==> Owns(store[id], user) || IsAdmin(user))
    ensures id in store && r.Some? ==> r == Some(Forbidden)
  {
    if id !in store then Some(NotFound)
    else if !Owns(store[id], user) && !IsAdmin(user) then Some(Forbidden)
    else None
  }

  /** A listing without an owner is treated as owned by a caller without an id: both read as
      "undefined". */
  lemma UnownedMatchesAnonymous(pet: Doc, user: Js.Value)
    requires "listedBy" !in pet && !Js.Truthy(Js.Get(user, "_id")) && Js.Get(user, "id").Undefined?
    ensures Owns(pet, user)
  {
  }

  /* ---------------- create and update bodies ---------------- */

  const BoolKeys: set<string> := {"vaccinated", "dewormed", "sterilized"}

  /** One field of a body after normalisation: a flag that is not `undefined` is parsed, a
      defined `ageMonths` becomes a number, anything else stays. */
  function Normalised(k: string, v: Js.Value): (r: Js.Value)
    ensures k in BoolKeys && !v.Undefined? ==> r == FlagValue(ParseBool(v))
    ensures k == "ageMonths" && !v.Undefined? ==> r == Js.ToNumber(v)
    ensures k !in BoolKeys && k != "ageMonths" ==> r == v
    ensures v.Undefined? ==> r == v
  {
    if k in BoolKeys && !v.Undefined? then FlagValue(ParseBool(v))
    else if k == "ageMonths" && !v.Undefined? then Js.ToNumber(v)
    else v
  }

  /** The body normalisation shared by create and update: the legacy `speciesOther` becomes
      `otherSpecies` when that is nullish and is removed, and every field is normalised. */
  function NormaliseBody(body: Doc): (r: Doc)
    ensures r.Keys == body.Keys - {"speciesOther"} + {"otherSpecies"}
    ensures r["otherSpecies"] == Js.Coalesce(Field(body, "otherSpecies"), Field(body, "speciesOther"))
    ensures forall k :: k in body && k != "otherSpecies" && k != "speciesOther" ==> r[k] == Normalised(k, body[k])
  {
    var legacy := (body - {"speciesOther"})["otherSpecies" := Js.Coalesce(Field(body, "otherSpecies"), Field(body, "speciesOther"))];
    map k | k in legacy :: if k == "otherSpecies" then legacy[k] else Normalised(k, legacy[k])
  }

  /** A body in the shape normalisation produces: no legacy key, a non-null `otherSpecies`,
      flags that are booleans (or `undefined`) and an age that is a number (or `undefined`). */
  predicate Normal(body: Doc) {
    && "otherSpecies" in body && !body["otherSpecies"].Null? && "speciesOther" !in body
    && (forall k :: k in body && k in BoolKeys ==> body[k].Bool? || body[k].Undefined?)
    && ("ageMonths" in body ==> body["ageMonths"].Num? || body["ageMonths"].NaN? || body["ageMonths"].Undefined?)
  }

  /** Exactly the bodies already in normal shape are left alone. */
  lemma NormaliseFixpoint(body: Doc)
    ensures NormaliseBody(body) == body <==> Normal(body)
  {
    var n := NormaliseBody(body);
    if Normal(body) {
      forall k | k in body ensures n[k] == body[k] {
      }
    }
    if n == body {
      forall k | k in body && k in BoolKeys ensures body[k].Bool? || body[k].Undefined? {
        assert n[k] == Normalised(k, body[k]);
      }
      if "ageMonths" in body {
        assert n["ageMonths"] == Normalised("ageMonths", body["ageMonths"]);
      }
    }
  }

  /** Normalising twice is normalising once, unless both spellings of the other-species were
      nullish and a `null` was kept, which the second pass turns into `undefined`. */
  lemma NormaliseBodyIdempotent(body: Doc)
    requires !NormaliseBody(body)["otherSpecies"].Null?
    ensures NormaliseBody(NormaliseBody(body)) == NormaliseBody(body)
  {
    var n := NormaliseBody(body);
    forall k | k in n && k in BoolKeys ensures n[k].Bool? || n[k].Undefined? {
      assert n[k] == Normalised(k, body[k]);
    }
    if "ageMonths" in n {
      assert n["ageMonths"] == Normalised("ageMonths", body["ageMonths"]);
    }
    NormaliseFixpoint(n);
  }

  /** The photo values of a body: its JSON array when it has one, none otherwise. */
  function JsonPhotos(body: Doc): (r: seq<Js.Value>)
    ensures Field(body, "photos").Arr? ==> r == Field(body, "photos").items
    ensures !Field(body, "photos").Arr? ==> r == []
  {
    if Field(body, "photos").Arr? then Field(body, "photos").items else []
  }

  /** The create check: species "other" needs a truthy other-species, in either spelling. */
  predicate CreateMissesOther(body: Doc) {
    Field(body, "species") == Js.Str("other")
    && !Js.Truthy(Js.Coalesce(Field(body, "otherSpecies"), Field(body, "speciesOther")))
  }

  /** The species survives normalisation. */
  lemma SpeciesKept(body: Doc)
    ensures Field(NormaliseBody(body), "species") == Field(body, "species")
  {
    if "species" in body {
      assert "species" !in BoolKeys;
    }
  }

  /** `createPet` tests the normalised body; that is the check on the body as sent. */
  lemma CreateCheckOnNormalised(body: Doc)
    ensures var n := NormaliseBody(body);
      CreateMissesOther(body) <==> Field(n, "species") == Js.Str("other") && !Js.Truthy(Field(n, "otherSpecies"))
  {
    SpeciesKept(body);
  }

  /** The key `Pet.create` stores a new listing under. `generated` is the ObjectId Mongoose
      makes when the body has no `_id`; a client-supplied `_id` is kept when it is the text of
      an ObjectId, and any other value fails the ObjectId cast (`None`). */
  function NewKey(body: Doc, generated: string): (r: Option<string>)
    ensures Field(body, "_id").Undefined? ==> r == Some(generated)
    ensures !Field(body, "_id").Undefined? ==>
      (r.Some? <==> Field(body, "_id").Str? && Js.ObjectIdText(Field(body, "_id").s))
    ensures r.Some? && !Field(body, "_id").Undefined? ==> Field(body, "_id") == Js.Str(r.value)
  {
    match Field(body, "_id")
    case Undefined => Some(generated)
    case Str(s) => if Js.ObjectIdText(s) then Some(s) else None
    case _ => None
  }

  /** `createPet`: a body that misses the other-species is refused with 400; a body `_id` the
      ObjectId cast refuses, or a key already in the collection (MongoDB's duplicate-key
      error), is passed to `next(err)`; otherwise the listing is stored under its key with
      its JSON photos followed by the uploads, owned by the caller. */
  function CreatePet(store: Store, body: Doc, files: seq<string>, user: Js.Value, generated: string): (r: (Store, Reply))
    ensures CreateMissesOther(body) <==> r == (store, OtherRequired)
    ensures r.1.Next? <==>
      !CreateMissesOther(body) && (NewKey(body, generated).None? || NewKey(body, generated).value in store)
    ensures r.1.Next? ==> r.0 == store
    ensures r.1.Fail? ==> r.1 == OtherRequired
    ensures r.1.Ok? ==> var k := NewKey(body, generated).value;
      && k !in store && k in r.0 && r.0 == store[k := r.0[k]] && r.1 == Ok(201, Js.Obj(r.0[k]))
    ensures r.1.Ok? ==> var doc := r.0[NewKey(body, generated).value];
      && "photos" in doc && doc["photos"] == Js.Arr(JsonPhotos(body) + PathValues(UploadedPaths(files)))
      && "listedBy" in doc && doc["listedBy"] == CallerId(user)
      && "_id" in doc && doc["_id"] == Js.Str(NewKey(body, generated).value)
      && "speciesOther" !in doc
  {
    if CreateMissesOther(body) then (store, OtherRequired)
    else match NewKey(body, generated)
      case None => (store, Next)
      case Some(k) =>
        if k in store then (store, Next)
        else
          var doc := NormaliseBody(body)["photos" := Js.Arr(JsonPhotos(body) + PathValues(UploadedPaths(files)))]
                      ["listedBy" := CallerId(user)]["_id" := Js.Str(k)];
          (store[k := doc], Ok(201, Js.Obj(doc)))
  }

  /** A listing created with a client-supplied ObjectId is stored under that id, and the same
      body sent again is refused with the collection unchanged. */
  lemma ClientIdTwice(store: Store, body: Doc, files: seq<string>, user: Js.Value, g1: string, g2: string)
    requires !CreateMissesOther(body)
    requires Field(body, "_id").Str? && Js.ObjectIdText(Field(body, "_id").s)
    requires Field(body, "_id").s !in store
    ensures var first := CreatePet(store, body, files, user, g1);
      && first.1.Ok? && Field(body, "_id").s in first.0
      && CreatePet(first.0, body, files, user, g2) == (first.0, Next)
  {
  }

  /** The fields an update may write. */
  const Updatable: set<string> :=
    {"name", "species", "otherSpecies", "breed", "gender", "ageMonths", "size", "city",
     "vaccinated", "dewormed", "sterilized", "description", "photos", "status"}

  /** The owner and the id are not among them. */
  lemma OwnerNotUpdatable()
    ensures "listedBy" !in Updatable && "_id" !in Updatable
  {
  }

  /** The `updates` of `updatePetById`: the updatable fields of the prepared body that are
      not `undefined`. */
  function Updates(prepared: Doc): (r: Doc)
    ensures forall k :: k in r <==> k in Updatable && !Field(prepared, k).Undefined?
    ensures forall k :: k in r ==> k in prepared && r[k] == prepared[k]
  {
    map k | k in prepared && k in Updatable && !prepared[k].Undefined? :: prepared[k]
  }

  /** The normalised update body, with `photos` replaced by the stored photos followed by the
      uploads when there are uploads (the uploads alone when the stored field is not an
      array). */
  function Prepared(pet: Doc, body: Doc, files: seq<string>): (r: Doc)
    ensures |files| == 0 ==> r == NormaliseBody(body)
    ensures |files| > 0 ==> r == NormaliseBody(body)["photos" := Js.Arr(JsonPhotos(pet) + PathValues(UploadedPaths(files)))]
  {
    var n := NormaliseBody(body);
    if |files| == 0 then n else n["photos" := Js.Arr(JsonPhotos(pet) + PathValues(UploadedPaths(files)))]
  }

  /** The update check: species "other" needs an other-species that is not `undefined`, from
      the body or else from the stored listing. */
  predicate UpdateMissesOther(pet: Doc, body: Doc) {
    Field(body, "species") == Js.Str("other")
    && Js.Coalesce(Js.Coalesce(Field(body, "otherSpecies"), Field(body, "speciesOther")),
                   Field(pet, "otherSpecies")).Undefined?
  }

  /** `updatePetById` tests the normalised body, falling back on the stored listing; that is
      the check on the body as sent. */
  lemma UpdateCheckOnNormalised(pet: Doc, body: Doc)
    ensures var n := NormaliseBody(body);
      UpdateMissesOther(pet, body) <==>
        Field(n, "species") == Js.Str("other") && Js.Coalesce(Field(n, "otherSpecies"), Field(pet, "otherSpecies")).Undefined?
  {
    SpeciesKept(body);
  }

  /** `updatePetById`: 404, then 403, then the other-species check, then the updatable
      defined fields of the prepared body written over the stored listing; every other
      stored field stays. */
  function UpdatePet(store: Store, id: string, body: Doc, files: seq<string>, user: Js.Value): (r: (Store, Reply))
    ensures Gate(store, id, user).Some? ==> r == (store, Gate(store, id, user).value)
    ensures Gate(store, id, user).None? && UpdateMissesOther(store[id], body) ==> r == (store, OtherRequired)
    ensures r.1.Ok? <==> Gate(store, id, user).None? && !UpdateMissesOther(store[id], body)
    ensures r.1.Ok? ==> id in r.0 && r.0 == store[id := r.0[id]] && r.1 == Ok(200, Js.Obj(r.0[id]))
    ensures r.1.Ok? ==> var doc, p := r.0[id], Prepared(store[id], body, files);
      && doc.Keys == store[id].Keys + Updates(p).Keys
      && (forall k :: k in doc ==> doc[k] == if k in Updates(p) then p[k] else store[id][k])
  {
    match Gate(store, id, user)
    case Some(refusal) => (store, refusal)
    case None =>
      var pet := store[id];
      if UpdateMissesOther(pet, body) then (store, OtherRequired)
      else
        var doc := pet + Updates(Prepared(pet, body, files));
        (store[id := doc], Ok(200, Js.Obj(doc)))
  }

  /** An update can never hand a listing to someone else or change its id: neither field is
      updatable. */
  lemma UpdateKeepsOwner(store: Store, id: string, body: Doc, files: seq<string>, user: Js.Value)
    requires UpdatePet(store, id, body, files, user).1.Ok?
    ensures Field(UpdatePet(store, id, body, files, user).0[id], "listedBy") == Field(store[id], "listedBy")
    ensures Field(UpdatePet(store, id, body, files, user).0[id], "_id") == Field(store[id], "_id")
  {
    OwnerNotUpdatable();
  }

  /** Sending an update with nothing in it rewrites the listing as it was. */
  lemma EmptyUpdateChangesNothing(store: Store, id: string, user: Js.Value)
    requires Gate(store, id, user).None?
    ensures UpdatePet(store, id, map[], [], user) == (store, Ok(200, Js.Obj(store[id])))
  {
    var p := Prepared(store[id], map[], []);
    assert p.Keys == {"otherSpecies"};
    assert Updates(p) == map[];
    assert store[id] + map[] == store[id];
    assert store[id := store[id]] == store;
  }

  /** Without uploads, sending the same update twice leaves the listing as sending it once. */
  lemma UpdateIdempotent(store: Store, id: string, body: Doc, user: Js.Value)
    requires UpdatePet(store, id, body, [], user).1.Ok?
    ensures var once := UpdatePet(store, id, body, [], user).0;
      UpdatePet(once, id, body, [], user) == (once, Ok(200, Js.Obj(once[id])))
  {
    var pet := store[id];
    var once := UpdatePet(store, id, body, [], user).0;
    var u := Updates(NormaliseBody(body));
    assert once[id] == pet + u;
    UpdateKeepsOwner(store, id, body, [], user);
    assert Gate(once, id, user).None?;
    OtherSpeciesAfterUpdate(pet, body, u);
    MergeTwice(pet, u);
    assert Updates(Prepared(once[id], body, [])) == u;
    assert once[id := once[id] + u] == once;
  }

  /** After an update the stored other-species is the sent one when that is defined, else the
      old one; so a listing that passed the check still passes it. */
  lemma OtherSpeciesAfterUpdate(pet: Doc, body: Doc, u: Doc)
    requires u == Updates(NormaliseBody(body)) && !UpdateMissesOther(pet, body)
    ensures !UpdateMissesOther(pet + u, body)
  {
    var n := NormaliseBody(body);
    if !n["otherSpecies"].Undefined? {
      assert "otherSpecies" in Updatable;
    }
  }

  /** Writing the same fields twice is writing them once. */
  lemma MergeTwice(a: Doc, u: Doc)
    ensures (a + u) + u == a + u
  {
  }

  /** Species "other" with an empty other-species is refused on create but accepted on
      update: the create check asks for a truthy value, the update check only for a defined
      one. */
  lemma EmptyOtherSpeciesDiffers(store: Store, id: string, newId: string, user: Js.Value)
    requires Gate(store, id, user).None?
    ensures var body := map["species" := Js.Str("other"), "otherSpecies" := Js.Str("")];
      && CreatePet(store, body, [], user, newId).1 == OtherRequired
      && UpdatePet(store, id, body, [], user).1.Ok?
  {
    var body := map["species" := Js.Str("other"), "otherSpecies" := Js.Str("")];
    assert Field(NormaliseBody(body), "otherSpecies") == Js.Str("");
    assert Field(NormaliseBody(body), "species") == Js.Str("other");
  }

  /* ---------------- status and delete ---------------- */

  const Statuses: set<string> := {"available", "reserved", "adopted"}

  /** `updatePetStatus`: 404, then 403, then a status outside the three is refused with the
      listing unchanged; otherwise only the status changes. */
  function SetStatus(store: Store, id: string, status: Js.Value, user: Js.Value): (r: (Store, Reply))
    ensures Gate(store, id, user).Some? ==> r == (store, Gate(store, id, user).value)
    ensures Gate(store, id, user).None? ==>
      if status.Str? && status.s in Statuses then
        r == (store[id := store[id]["status" := status]],
              Ok(200, Js.Obj(map["id" := Js.Str(id), "status" := status])))
      else r == (store, InvalidStatus)
  {
    match Gate(store, id, user)
    case Some(refusal) => (store, refusal)
    case None =>
      if status.Str? && status.s in Statuses then
        (store[id := store[id]["status" := status]], Ok(200, Js.Obj(map["id" := Js.Str(id), "status" := status])))
      else (store, InvalidStatus)
  }

  /** Any of the three statuses may follow any other, and setting the same one twice is the
      same as once. */
  lemma StatusIdempotent(store: Store, id: string, status: string, user: Js.Value)
    requires Gate(store, id, user).None? && status in Statuses
    ensures var once := SetStatus(store, id, Js.Str(status), user).0;
      && Field(once[id], "status") == Js.Str(status)
      && SetStatus(once, id, Js.Str(status), user).0 == once
  {
    var once := SetStatus(store, id, Js.Str(status), user).0;
    assert Field(once[id], "listedBy") == Field(store[id], "listedBy");
    assert once[id]["status" := Js.Str(status)] == once[id];
  }

  /** `deletePetById`: 404, then 403, then the listing is gone. */
  function DeletePet(store: Store, id: string, user: Js.Value): (r: (Store, Reply))
    ensures Gate(store, id, user).Some? ==> r == (store, Gate(store, id, user).value)
    ensures Gate(store, id, user).None? ==>
      r == (store - {id}, Ok(200, Js.Obj(map["id" := Js.Str(id)])))
  {
    match Gate(store, id, user)
    case Some(refusal) => (store, refusal)
    case None => (store - {id}, Ok(200, Js.Obj(map["id" := Js.Str(id)])))
  }

  /** A deleted listing is not found again, by a read or by a second delete. */
  lemma DeleteThenGone(store: Store, id: string, user: Js.Value)
    requires Gate(store, id, user).None?
    ensures var after := DeletePet(store, id, user).0;
      GetPet(after, id) == NotFound && DeletePet(after, id, user) == (after, NotFound)
  {
  }

  /** Whoever creates a listing can read it back and may change or remove it. */
  lemma CreatorMayEdit(store: Store, body: Doc, files: seq<string>, user: Js.Value, generated: string)
    requires CreatePet(store, body, files, user, generated).1.Ok?
    ensures var after := CreatePet(store, body, files, user, generated).0;
      var k := NewKey(body, generated).value;
      GetPet(after, k) == Ok(200, Js.Obj(after[k]))
      && Gate(after, k, user).None?
  {
  }

  /** No write by a caller who is neither the owner nor an administrator touches the
      collection, whatever the request. */
  lemma WritesNeedOwnerOrAdmin(store: Store, id: string, body: Doc, files: seq<string>, status: Js.Value, user: Js.Value)
    requires id in store ==> !Owns(store[id], user) && !IsAdmin(user)
    ensures UpdatePet(store, id, body, files, user).0 == store
    ensures SetStatus(store, id, status, user).0 == store
    ensures DeletePet(store, id, user).0 == store
  {
  }
}

=== FILE: pets_routes.dfy ===
/** The route table of the pets API (`src/routes/pets.routes.js`): which requests reach which
    controller, through which middleware, and the legacy `speciesOther` middleware defined
    beside them. Authentication, uploads and validation are reduced to whether each passes. */
module PetsRoutes {
  import opened Wrappers
  import Strings
  import Js
  import PetsController

  datatype Verb = Get | Post | Patch | Delete

  /** The controllers of the pets API. */
  datatype Action = ListPets | GetPetById | CreatePet | UpdatePetById | DeletePetById | UpdatePetStatus

  /** The middleware a route runs, in order, ending with its controller. */
  datatype Step =
    | Auth                   // the bearer-token check
    | UploadPhotos           // `upload.array("photos", 5)`
    | Validator(name: string) // an express-validator chain, collecting errors
    | HandleValidation       // answers 400 when a validator collected an error
    | NormalizeOtherSpecies
    | Handler(action: Action)

  /** A segment of a route path: fixed text, or a `:name` parameter. */
  datatype Segment = Lit(text: string) | Param(name: string)

  datatype Route = Route(verb: Verb, path: seq<Segment>, chain: seq<Step>)

  /** The most photos one request may upload. */
  const MaxPhotos: nat := 5

  /** The routes in the order they are registered. */
  const Routes: seq<Route> := [
    Route(Get, [], [Validator("listPetsQuery"), HandleValidation, Handler(ListPets)]),
    Route(Get, [Param("id")], [Validator("petIdParam"), HandleValidation, Handler(GetPetById)]),
    Route(Post, [], [Auth, UploadPhotos, Validator("createPet"), HandleValidation, Handler(CreatePet)]),
    Route(Patch, [Param("id")], [Auth, UploadPhotos, Validator("petIdParam"), Validator("updatePet"), HandleValidation, Handler(UpdatePetById)]),
    Route(Delete, [Param("id")], [Auth, Validator("petIdParam"), HandleValidation, Handler(DeletePetById)]),
    Route(Patch, [Param("id"), Lit("status")], [Auth, Validator("updatePetStatus"), HandleValidation, Handler(UpdatePetStatus)])
  ]

  /** A request path, split into its non-empty segments, matches a route path when each
      fixed segment is equal up to the case of ASCII letters (Express routes ignore case by
      default) and each parameter takes one segment. */
  predicate Matches(path: seq<Segment>, segments: seq<string>) {
    |path| == |segments|
    && forall i :: 0 <= i < |path| ==>
         (path[i].Lit? ==> Strings.ToLower(segments[i]) == Strings.ToLower(path[i].text)) && segments[i] != ""
  }

  /** The index of the first registered route, from `from` on, that takes the request. */
  function FirstRoute(verb: Verb, segments: seq<string>, from: nat): (r: Option<nat>)
    requires from <= |Routes|
    ensures r.Some? ==> from <= r.value < |Routes| && Routes[r.value].verb == verb && Matches(Routes[r.value].path, segments)
    ensures r.Some? ==> forall j :: from <= j < r.value ==> !(Routes[j].verb == verb && Matches(Routes[j].path, segments))
    ensures r.None? ==> forall j :: from <= j < |Routes| ==> !(Routes[j].verb == verb && Matches(Routes[j].path, segments))
    decreases |Routes| - from
  {
    if from == |Routes| then None
    else if Routes[from].verb == verb && Matches(Routes[from].path, segments) then Some(from)
    else FirstRoute(verb, segments, from + 1)
  }

  /** The route Express picks for a request, if any. */
  function Dispatch(verb: Verb, segments: seq<string>): (r: Option<Route>)
    ensures r.Some? <==> exists j :: 0 <= j < |Routes| && Routes[j].verb == verb && Matches(Routes[j].path, segments)
    ensures r.Some? ==> r.value in Routes && r.value.verb == verb && Matches(r.value.path, segments)
  {
    match FirstRoute(verb, segments, 0)
    case Some(j) => Some(Routes[j])
    case None => None
  }

  /** What a request brings to the middleware: a valid token or not, how many photos, and
      whether the validators find nothing wrong. */
  datatype Request = Request(authenticated: bool, photos: nat, valid: bool)

  /** Whether one step lets the request through. */
  predicate Passes(s: Step, req: Request) {
    match s
    case Auth => req.authenticated
    case UploadPhotos => req.photos <= MaxPhotos
    case HandleValidation => req.valid
    case _ => true
  }

  /** Running a chain: the first step that stops the request answers it (`None`); otherwise
      the chain's controller runs. */
  function Run(chain: seq<Step>, req: Request): (r: Option<Action>)
    ensures r.Some? ==> exists i :: 0 <= i < |chain| && chain[i] == Handler(r.value)
    ensures r.Some? ==> forall i :: 0 <= i < |chain| ==> Passes(chain[i], req) || exists j :: 0 <= j < i && chain[j].Handler?
  {
    if |chain| == 0 then None
    else if chain[0].Handler? then Some(chain[0].action)
    else if !Passes(chain[0], req) then None
    else
      var r := Run(chain[1..], req);
      if r.Some? then
        assert forall i :: 1 <= i < |chain| ==> chain[i] == chain[1..][i - 1];
        r
      else r
  }

  /** The controller a request reaches, if any. */
  function Reach(verb: Verb, segments: seq<string>, req: Request): (r: Option<Action>)
    ensures r.Some? ==> Dispatch(verb, segments).Some?
  {
    match Dispatch(verb, segments)
    case Some(route) => Run(route.chain, req)
    case None => None
  }

  /** Listing and reading are public; every route that writes starts with authentication. */
  lemma {:induction false} PublicReadsAuthenticatedWrites()
    ensures forall i :: 0 <= i < |Routes| ==> (Routes[i].verb == Get <==> Auth !in Routes[i].chain)
    ensures forall i :: 0 <= i < |Routes| && Routes[i].verb != Get ==> Routes[i].chain[0] == Auth
  {
  }

  /** No request without a valid token reaches a controller that writes, whatever its path. */
  lemma {:induction false} WritesNeedToken(verb: Verb, segments: seq<string>, req: Request)
    requires verb != Get && !req.authenticated
    ensures Reach(verb, segments, req).None?
  {
    match FirstRoute(verb, segments, 0)
    case None =>
    case Some(j) =>
      assert Routes[j].chain[0] == Auth;
  }

  /** `/:id/status` goes to the status controller and `/:id` to the general update: the
      parameter takes one segment only. */
  lemma StatusPathDispatch(id: string)
    requires id != ""
    ensures Dispatch(Patch, [id, "status"]) == Some(Routes[5])
    ensures Dispatch(Patch, [id]) == Some(Routes[3])
    ensures Dispatch(Get, [id, "status"]).None?
  {
    assert Matches(Routes[5].path, [id, "status"]);
    assert Matches(Routes[3].path, [id]);
  }

  /** The fixed segment ignores case: `/:id/STATUS` reaches the status controller too, and
      no other route takes a two-segment PATCH. */
  lemma StatusAnyCase(id: string, word: string)
    requires id != "" && Strings.ToLower(word) == "status"
    ensures Dispatch(Patch, [id, word]) == Some(Routes[5])
  {
    assert Matches(Routes[5].path, [id, word]);
  }

  /** More than five photos stop a create at the upload step, even with a valid token. */
  lemma TooManyPhotos(photos: nat)
    requires photos > MaxPhotos
    ensures Reach(Post, [], Request(true, photos, true)).None?
  {
    var c := Routes[2].chain;
    assert Dispatch(Post, []) == Some(Routes[2]);
    assert c[1..][0] == UploadPhotos;
    assert Run(c[1..], Request(true, photos, true)).None?;
  }

  /** A create with a valid token, at most five photos and a valid body reaches the
      controller. */
  lemma CreateReached(photos: nat)
    requires photos <= MaxPhotos
    ensures Reach(Post, [], Request(true, photos, true)) == Some(CreatePet)
  {
    var c := Routes[2].chain;
    var req := Request(true, photos, true);
    assert Dispatch(Post, []) == Some(Routes[2]);
    assert c[4..] == [Handler(CreatePet)];
    assert Run(c[3..], req) == Run(c[4..], req);
    assert Run(c[2..], req) == Run(c[3..], req);
    assert Run(c[1..], req) == Run(c[2..], req);
  }

  /** `normalizeOtherSpecies`: on an object body with a truthy `speciesOther` and a falsy
      `otherSpecies`, the value moves to `otherSpecies`; any other body is left alone. */
  function NormalizeOtherSpeciesBody(body: Js.Value): (r: Js.Value)
    ensures !body.Obj? ==> r == body
    ensures body.Obj? && !Moves(body.fields) ==> r == body
    ensures body.Obj? && Moves(body.fields) ==>
      && r.Obj? && "speciesOther" !in r.fields && "speciesOther" in body.fields && "otherSpecies" in r.fields
      && r.fields["otherSpecies"] == body.fields["speciesOther"]
      && r.fields.Keys == body.fields.Keys - {"speciesOther"} + {"otherSpecies"}
      && forall k :: k in body.fields && k != "speciesOther" && k != "otherSpecies" ==> r.fields[k] == body.fields[k]
  {
    if body.Obj? && Moves(body.fields) then
      Js.Obj((body.fields - {"speciesOther"})["otherSpecies" := body.fields["speciesOther"]])
    else body
  }

  /** The middleware's condition. */
  predicate Moves(fields: map<string, Js.Value>) {
    Js.Truthy(PetsController.Field(fields, "speciesOther")) && !Js.Truthy(PetsController.Field(fields, "otherSpecies"))
  }

  /** Applying the middleware twice is applying it once. */
  lemma NormalizeOtherSpeciesIdempotent(body: Js.Value)
    ensures NormalizeOtherSpeciesBody(NormalizeOtherSpeciesBody(body)) == NormalizeOtherSpeciesBody(body)
  {
  }

  /** The middleware is registered on no route, so no request passes through it. */
  lemma OtherSpeciesMiddlewareUnmounted()
    ensures forall i :: 0 <= i < |Routes| ==> NormalizeOtherSpecies !in Routes[i].chain
  {
  }

  /** Had it been mounted, it would change nothing the controllers do with a body whose
      `otherSpecies` is nullish or truthy, since they already fall back on `speciesOther`. */
  lemma MiddlewareRedundant(fields: map<string, Js.Value>)
    requires var o := PetsController.Field(fields, "otherSpecies"); Js.IsNullish(o) || Js.Truthy(o)
    ensures PetsController.NormaliseBody(NormalizeOtherSpeciesBody(Js.Obj(fields)).fields)
         == PetsController.NormaliseBody(fields)
  {
    var moved := NormalizeOtherSpeciesBody(Js.Obj(fields)).fields;
    if Moves(fields) {
      var a, b := PetsController.NormaliseBody(moved), PetsController.NormaliseBody(fields);
      assert a.Keys == b.Keys;
      forall k | k in a ensures a[k] == b[k] {
        if k != "otherSpecies" {
          assert k in fields && k != "speciesOther";
        }
      }
    }
  }

  /** With an empty but present `otherSpecies` it would matter: the middleware fills it in,
      while the controllers keep the empty text. */
  lemma MiddlewareMattersForEmpty(s: string)
    requires s != ""
    ensures var fields := map["otherSpecies" := Js.Str(""), "speciesOther" := Js.Str(s)];
      && PetsController.NormaliseBody(NormalizeOtherSpeciesBody(Js.Obj(fields)).fields)["otherSpecies"] == Js.Str(s)
      && PetsController.NormaliseBody(fields)["otherSpecies"] == Js.Str("")
  {
    var fields := map["otherSpecies" := Js.Str(""), "speciesOther" := Js.Str(s)];
    assert Moves(fields);
  }
}

=== FILE: reset_password_page.dfy ===
/** The "set a new password" page (`petadop-frontend/src/pages/ResetPassword.jsx`): the token from
    the link, the checks a submit runs in order, the request it sends and what the page shows
    afterwards. The store's `resetPassword` action is a parameter, absent when the store does
    not define it. */
module ResetPasswordPage {
  import opened Wrappers
  import Strings
  import Js
  import PasswordReset

  const MissingToken: string := "Reset token missing. Use the link from your email."
  const LengthError: string := "Password must be 8\U{2013}16 characters"
  const Mismatch: string := "Passwords do not match"
  const DefaultError: string := "Reset failed. Request a new link."

  /** The page's state: the link's token, the two fields, the error shown, the success flag
      and whether a submit is in flight. */
  datatype Form = Form(token: string, password: string, confirm: string, err: string, ok: bool, submitting: bool)

  /** The page as it opens: the `token` query parameter, or "" without one. */
  function Open(tokenParam: Option<string>): (f: Form)
    ensures f.token == tokenParam.GetOr("") && f.password == "" && f.confirm == ""
    ensures f.err == "" && !f.ok && !f.submitting
  {
    Form(tokenParam.GetOr(""), "", "", "", false, false)
  }

  /** The checks a submit runs, in order: a token, then a password of 8 to 16 UTF-16 units,
      then a matching confirmation. The first that fails gives the error. */
  function Check(token: string, password: string, confirm: string): (r: Option<string>)
    ensures token == "" ==> r == Some(MissingToken)
    ensures token != "" && !(8 <= Strings.JsLength(password) <= 16) ==> r == Some(LengthError)
    ensures token != "" && 8 <= Strings.JsLength(password) <= 16 && password != confirm ==> r == Some(Mismatch)
    ensures r.None? <==> token != "" && 8 <= Strings.JsLength(password) <= 16 && password == confirm
  {
    if token == "" then Some(MissingToken)
    else if Strings.JsLength(password) < 8 || Strings.JsLength(password) > 16 then Some(LengthError)
    else if password != confirm then Some(Mismatch)
    else None
  }

  /** `submit`, given the store's action, which maps the token and password to its result.
      Returns the new form and the request sent, if any. A submit in flight ignores another;
      a failed check shows its error and sends nothing; a missing action throws once the form
      is marked as submitting; otherwise the result's `ok` shows success, else its `error`
      or the default text is shown. */
  function Submit(f: Form, action: Option<(string, string) -> Js.Value>): (r: (Form, Option<(string, string)>))
    ensures f.submitting ==> r == (f, None)
    ensures r.1.Some? <==> !f.submitting && Check(f.token, f.password, f.confirm).None? && action.Some?
    ensures r.1.Some? ==> r.1.value == (f.token, f.password) && !r.0.submitting
    ensures !f.submitting && Check(f.token, f.password, f.confirm).Some? ==>
      r.0 == f.(err := Check(f.token, f.password, f.confirm).value)
    ensures r.0.token == f.token && r.0.password == f.password && r.0.confirm == f.confirm
  {
    if f.submitting then (f, None)
    else match Check(f.token, f.password, f.confirm)
      case Some(e) => (f.(err := e), None)
      case None =>
        match action
        case None => (f.(err := "", submitting := true), None)
        case Some(reset) =>
          var res := reset(f.token, f.password);
          if Js.Truthy(Js.Get(res, "ok")) then (f.(err := "", ok := true, submitting := false), Some((f.token, f.password)))
          else (f.(err := Js.ToStr(Js.Or(Js.Get(res, "error"), Js.Str(DefaultError))), submitting := false), Some((f.token, f.password)))
  }

  /** After a reply the page is ready again and shows success, or else the reply's error or
      the default text, which is not empty unless the error is an array. */
  lemma ReplyShown(f: Form, reset: (string, string) -> Js.Value)
    requires !f.submitting && Check(f.token, f.password, f.confirm).None?
    ensures var (g, _) := Submit(f, Some(reset));
      var res := reset(f.token, f.password);
      && !g.submitting
      && (Js.Truthy(Js.Get(res, "ok")) ==> g.ok && g.err == "")
      && (!Js.Truthy(Js.Get(res, "ok")) ==> g.ok == f.ok)
      && (!Js.Truthy(Js.Get(res, "ok")) && !Js.Get(res, "error").Arr? ==> g.err != "")
  {
    var res := reset(f.token, f.password);
    if !Js.Truthy(Js.Get(res, "ok")) {
      var e := Js.Or(Js.Get(res, "error"), Js.Str(DefaultError));
      if !Js.Get(res, "error").Arr? {
        TruthyText(e);
      }
    }
  }

  /** A truthy value other than an array has non-empty text (`String([])` is ""). */
  lemma TruthyText(v: Js.Value)
    requires Js.Truthy(v) && !v.Arr?
    ensures Js.ToStr(v) != ""
  {
    match v
    case Str(s) =>
    case Bool(b) => assert b;
    case Num(n) => assert |Strings.IntToString(n)| > 0;
    case _ =>
  }

  /** A request the page sends always passes the server's presence and length checks, so
      the server either resets the password or refuses the token. */
  lemma SentPassesServerChecks(f: Form, action: Option<(string, string) -> Js.Value>,
                               st: PasswordReset.State, hash: string -> string,
                               operators: Js.Value -> Option<string -> bool>, now: int)
    requires Submit(f, action).1.Some?
    ensures var (token, password) := Submit(f, action).1.value;
      var res := PasswordReset.ResetPassword(st, PasswordReset.ResetBody(Js.Str(token), password), hash, operators, now).1;
      res == PasswordReset.Success || res == PasswordReset.BadRequest("Invalid or expired token")
      || res == PasswordReset.BadRequest("Invalid token")
  {
    var (token, password) := Submit(f, action).1.value;
    assert Strings.JsLength(password) >= 8;
    assert password != "";
  }

  /** As written the store has no `resetPassword`: a submit that passes the checks marks the
      form as submitting and then throws, so no request is sent and every later submit is
      ignored, whatever the store offers by then. */
  lemma StuckWithoutAction(f: Form, later: Option<(string, string) -> Js.Value>)
    requires !f.submitting && Check(f.token, f.password, f.confirm).None?
    ensures var (g, sent) := Submit(f, None);
      && sent.None? && g.submitting && g.err == "" && g.ok == f.ok
      && Submit(g, later) == (g, None)
  {
  }

  /** With the action present the same submit sends the token and password once and leaves
      the page ready for another try. */
  lemma SubmitSendsValid(f: Form, reset: (string, string) -> Js.Value)
    requires !f.submitting && Check(f.token, f.password, f.confirm).None?
    ensures var (g, sent) := Submit(f, Some(reset));
      sent == Some((f.token, f.password)) && !g.submitting
  {
  }
}

=== FILE: search.dfy ===
/** Linear search: the position of the first element of a sequence a test accepts. This is how
    the model reads MongoDB's `findOne` and `findById` over a collection kept in insertion
    order. */
module Search {
  import opened Wrappers

  /** The first position whose element passes `p`, or `None` when none does. */
  function First<T>(s: seq<T>, p: T -> bool): (r: Option<nat>)
    ensures r.Some? ==> r.value < |s| && p(s[r.value])
    ensures r.Some? ==> forall k :: 0 <= k < r.value ==> !p(s[k])
    ensures r.None? ==> forall k :: 0 <= k < |s| ==> !p(s[k])
    decreases |s|
  {
    if |s| == 0 then None
    else if p(s[0]) then Some(0)
    else match First(s[1..], p)
      case None => None
      case Some(k) => Some(k + 1)
  }

  /** The contract pins the answer down: an accepted position with no accepted one before it
      is the answer. */
  lemma FirstAt<T>(s: seq<T>, p: T -> bool, k: nat)
    requires k < |s| && p(s[k])
    requires forall j :: 0 <= j < k ==> !p(s[j])
    ensures First(s, p) == Some(k)
  {
  }

  /** Appending an accepted element to a sequence with none finds the new one. */
  lemma FirstAppend<T>(s: seq<T>, x: T, p: T -> bool)
    requires First(s, p).None? && p(x)
    ensures First(s + [x], p) == Some(|s|)
  {
    var t := s + [x];
    assert t[|s|] == x;
    forall j | 0 <= j < |s|
      ensures !p(t[j])
    {
      assert t[j] == s[j];
    }
    FirstAt(t, p, |s|);
  }

  /** Two tests that agree on every element find the same position. */
  lemma FirstSame<T>(s: seq<T>, p: T -> bool, q: T -> bool)
    requires forall k :: 0 <= k < |s| ==> p(s[k]) == q(s[k])
    ensures First(s, p) == First(s, q)
  {
    var r := First(s, p);
    if r.Some? {
      FirstAt(s, q, r.value);
    }
  }

  /** Two sequences whose elements the tests judge alike, position by position, find the same
      position. */
  lemma FirstAlike<T, U>(s: seq<T>, p: T -> bool, t: seq<U>, q: U -> bool)
    requires |s| == |t|
    requires forall k :: 0 <= k < |s| ==> p(s[k]) == q(t[k])
    ensures First(s, p) == First(t, q)
  {
    var r := First(s, p);
    if r.Some? {
      FirstAt(t, q, r.value);
    }
  }
}

=== FILE: session.dfy ===
/** The session store of the web front end (`petadop-frontend/src/store/auth.js`): the signed-in
    user, loading the current user from a stored token, login and registration, refreshing the
    access token, and logout. The client's storage and header are those of `ClientApi`; the API
    is a parameter that maps a request to its reply. */
module Session {
  import opened Wrappers
  import Strings
  import Js
  import ClientApi
  import AuthController
  import UserModel

  /** The store's state, with the client's local storage and default header. */
  datatype State = State(client: ClientApi.Client, user: Js.Value, isAuthed: bool, loadingMe: bool)

  /** The state a page starts from. */
  function Initial(c: ClientApi.Client): (s: State)
    ensures s.client == c && s.user.Null? && !s.isAuthed && !s.loadingMe
  {
    State(c, Js.Null, false, false)
  }

  /* ---------------- requests ---------------- */

  /** The paths the store asks for, relative to the client's base URL. */
  datatype Paths = Paths(me: string, login: string, register: string, refresh: string, logout: string)

  /** The paths as the store writes them: each already starts with "/api". */
  const AsWritten: Paths :=
    Paths("/api/users/me", "/api/auth/login", "/api/auth/register", "/api/auth/refresh", "/api/auth/logout")

  /** The paths relative to the base, as the client's own conventions ask for. */
  const Intended: Paths :=
    Paths("/users/me", "/auth/login", "/auth/register", "/auth/refresh", "/auth/logout")

  /** A request as it leaves the client: the full URL, the `Authorization` header and the body
      (`Undefined` for a GET). */
  datatype Request = Request(url: string, authorization: Option<string>, body: Js.Value)

  /** What a request comes back with: the response body, or an error carrying the response
      body (`Undefined` without a response) and the error's message. */
  datatype Reply = Answered(data: Js.Value) | Rejected(data: Js.Value, message: Js.Value)

  /** Where the store runs: the client's base URL, the paths it asks for, and the API, which
      includes the client's refresh-and-retry on a 401 (`ClientApi.OnError`). `renewed` is the
      access token that refresh stored with `setToken` before the request was retried, when
      the request was refreshed at all. */
  datatype Env = Env(base: string, paths: Paths, send: Request -> Reply, renewed: Request -> Option<Js.Value>)

  /** The request for a path: the interceptor's URL normalisation, axios's join with the base,
      and the stored token as the bearer header (else the default header). */
  function Send(c: ClientApi.Client, env: Env, path: string, body: Js.Value): (r: Request)
    ensures c.token.Some? && c.token.value != "" ==> r.authorization == Some("Bearer " + c.token.value)
    ensures r.body == body
  {
    var config := ClientApi.Outgoing(c, ClientApi.Config(Js.Str(path), c.header, false));
    Request(ClientApi.FullUrl(env.base, ClientApi.NormaliseUrl(Js.Str(path)).s), config.authorization, body)
  }

  /** The outcome a call reports: `{ ok: true, user }` or `{ ok: false, error }`; a refresh
      reports no user, which is `Undefined` here. */
  datatype Result = Succeeded(user: Js.Value) | Failed(error: Js.Value)

  /** The message of a failed call: the response's `message`, else its `error`, else the
      error's own message, else the call's fallback, the first that is truthy. */
  function ErrorText(data: Js.Value, message: Js.Value, fallback: string): (r: Js.Value)
    ensures Js.Truthy(r)
    ensures Js.Truthy(Js.Get(data, "message")) ==> r == Js.Get(data, "message")
    ensures !Js.Truthy(Js.Get(data, "message")) && Js.Truthy(Js.Get(data, "error")) ==> r == Js.Get(data, "error")
    ensures !Js.Truthy(Js.Get(data, "message")) && !Js.Truthy(Js.Get(data, "error")) ==>
      r == if Js.Truthy(message) then message else Js.Str(fallback)
    requires fallback != ""
  {
    Js.Or(Js.Or(Js.Or(Js.Get(data, "message"), Js.Get(data, "error")), message), Js.Str(fallback))
  }

  /** The pets API's own error bodies reach the caller with their message. */
  lemma ServerMessageShown(m: string, message: Js.Value, fallback: string)
    requires m != "" && fallback != ""
    ensures ErrorText(AuthController.ToJs(AuthController.Message(false, m)), message, fallback) == Js.Str(m)
  {
  }

  /* ---------------- operations ---------------- */

  /** Forgetting the session: token and header removed, no user. */
  function Cleared(s: State): (r: State)
    ensures r.client.token.None? && r.client.header.None? && r.client.refreshToken == s.client.refreshToken
    ensures r.user.Null? && !r.isAuthed && r.loadingMe == s.loadingMe
  {
    State(ClientApi.SetToken(s.client, Js.Null), Js.Null, false, s.loadingMe)
  }

  /** `loadMe`: without a stored token nothing happens; otherwise the token is set again and
      the current user is asked for, sent with it. The user is the response's `user`, else the
      whole response; a failure forgets the session. Loading ends either way. When the client
      silently refreshed the request, storage holds the renewed token afterwards. */
  function LoadMe(s: State, env: Env): (r: State)
    ensures s.client.token.None? || s.client.token.value == "" ==> r == s
    ensures s.client.token.Some? && s.client.token.value != "" ==>
      var tok := s.client.token.value;
      var c := ClientApi.SetToken(s.client, Js.Str(tok));
      var req := Send(c, env, env.paths.me, Js.Undefined);
      && req.authorization == Some("Bearer " + tok)
      && !r.loadingMe
      && (r.isAuthed <==> Js.Truthy(r.user))
      && (env.send(req).Answered? && env.renewed(req).None? ==> r.client == c && r.client.token == Some(tok))
      && (env.send(req).Answered? && env.renewed(req).Some? ==> r.client == ClientApi.SetToken(c, env.renewed(req).value))
      && (env.send(req).Answered? && !Js.IsNullish(Js.Get(env.send(req).data, "user")) ==>
            r.user == Js.Get(env.send(req).data, "user"))
      && (env.send(req).Answered? && Js.IsNullish(Js.Get(env.send(req).data, "user")) ==>
            r.user == Js.Coalesce(env.send(req).data, Js.Null))
      && (env.send(req).Rejected? ==> r == Cleared(s).(loadingMe := false))
  {
    var token := s.client.token;
    if token.None? || token.value == "" then s
    else
      var c := ClientApi.SetToken(s.client, Js.Str(token.value));
      var req := Send(c, env, env.paths.me, Js.Undefined);
      match env.send(req)
      case Answered(data) =>
        var user := Js.Coalesce(Js.Coalesce(Js.Get(data, "user"), data), Js.Null);
        var stored := if env.renewed(req).Some? then ClientApi.SetToken(c, env.renewed(req).value) else c;
        State(stored, user, Js.Truthy(user), false)
      case Rejected(_, _) =>
        State(ClientApi.SetToken(c, Js.Null), Js.Null, false, false)
  }

  /** The request `loadMe` sends for a state with a stored token. */
  function MeRequest(s: State, env: Env): (r: Request)
    requires s.client.token.Some?
    ensures r.body == Js.Undefined
    ensures s.client.token.value != "" ==> r.authorization == Some("Bearer " + s.client.token.value)
  {
    Send(ClientApi.SetToken(s.client, Js.Str(s.client.token.value)), env, env.paths.me, Js.Undefined)
  }

  /** Loading twice against the same API is loading once, unless the first load was silently
      refreshed: the second then goes out with the renewed token. */
  lemma LoadMeIdempotent(s: State, env: Env)
    requires s.client.token.Some? ==> env.renewed(MeRequest(s, env)).None?
    ensures LoadMe(LoadMe(s, env), env) == LoadMe(s, env)
  {
    var token := s.client.token;
    if token.Some? && token.value != "" {
      var c := ClientApi.SetToken(s.client, Js.Str(token.value));
      assert ClientApi.SetToken(c, Js.Str(token.value)) == c;
    }
  }

  /** A load that the client refreshed on a 401 and then answered keeps the renewed token:
      storage and header carry it, and the refresh token stays. */
  lemma LoadMeKeepsRenewedToken(s: State, env: Env, t: string)
    requires s.client.token.Some? && s.client.token.value != "" && t != ""
    requires env.send(MeRequest(s, env)).Answered? && env.renewed(MeRequest(s, env)) == Some(Js.Str(t))
    ensures LoadMe(s, env).client.token == Some(t)
    ensures LoadMe(s, env).client.header == Some("Bearer " + t)
    ensures LoadMe(s, env).client.refreshToken == s.client.refreshToken
    ensures ClientApi.Consistent(LoadMe(s, env).client)
  {
  }

  /** The login body: the trimmed identifier as `email` when it contains "@", else as
      `username`, with the password as given. */
  function LoginBody(identifier: string, password: Js.Value): (r: Js.Value)
    ensures r.Obj? && r.fields.Keys == {if '@' in identifier then "email" else "username", "password"}
    ensures r.fields["password"] == password
    ensures '@' in identifier <==> "email" in r.fields
    ensures '@' !in identifier <==> "username" in r.fields
  {
    var field := if '@' in identifier then "email" else "username";
    assert "username"[0] != "password"[0] && |"email"| != |"password"| && |"email"| != |"username"|;
    Js.Obj(map[field := Js.Str(Strings.Trim(identifier)), "password" := password])
  }

  /** The identifier is sent trimmed, under whichever field was chosen. */
  lemma LoginBodyTrims(identifier: string, password: Js.Value)
    ensures var r := LoginBody(identifier, password);
      Js.Get(r, if '@' in identifier then "email" else "username") == Js.Str(Strings.Trim(identifier))
  {
  }

  /** Login and registration after the request is sent: a failure reports its message and
      changes nothing; otherwise a truthy token in the response is stored, and the user is the
      response's `user` when that is truthy, else whatever loading the current user gives. */
  function SignIn(s: State, env: Env, path: string, body: Js.Value, fallback: string): (r: (State, Result))
    requires fallback != ""
    ensures var reply := env.send(Send(s.client, env, path, body));
      && (reply.Rejected? ==> r == (s, Failed(ErrorText(reply.data, reply.message, fallback))))
      && (reply.Answered? ==> r.1.Succeeded? && r.1.user == Js.Coalesce(Js.Get(reply.data, "user"), Js.Null))
    ensures var reply := env.send(Send(s.client, env, path, body));
      reply.Answered? ==>
        var token := ClientApi.NewToken(reply.data);
        var c := if Js.Truthy(token) then ClientApi.SetToken(s.client, token) else s.client;
        var user := Js.Get(reply.data, "user");
        && (Js.Truthy(user) ==> r.0 == s.(client := c, user := user, isAuthed := true))
        && (!Js.Truthy(user) ==> r.0 == LoadMe(s.(client := c), env))
  {
    match env.send(Send(s.client, env, path, body))
    case Rejected(data, message) => (s, Failed(ErrorText(data, message, fallback)))
    case Answered(data) =>
      var token := ClientApi.NewToken(data);
      var c := if Js.Truthy(token) then ClientApi.SetToken(s.client, token) else s.client;
      var user := Js.Coalesce(Js.Get(data, "user"), Js.Null);
      if Js.Truthy(user) then (s.(client := c, user := user, isAuthed := true), Succeeded(user))
      else (LoadMe(s.(client := c), env), Succeeded(user))
  }

  /** `login({ identifier, password })`. */
  function Login(s: State, env: Env, identifier: string, password: Js.Value): (r: (State, Result))
    ensures r == SignIn(s, env, env.paths.login, LoginBody(identifier, password), "Login failed")
    ensures env.send(Send(s.client, env, env.paths.login, LoginBody(identifier, password))).Rejected? ==> r.0 == s
  {
    SignIn(s, env, env.paths.login, LoginBody(identifier, password), "Login failed")
  }

  /** `register(payload)`: the payload is sent as it is. */
  function Register(s: State, env: Env, payload: Js.Value): (r: (State, Result))
    ensures r == SignIn(s, env, env.paths.register, payload, "Registration failed")
    ensures env.send(Send(s.client, env, env.paths.register, payload)).Rejected? ==> r.0 == s
  {
    SignIn(s, env, env.paths.register, payload, "Registration failed")
  }

  /** `refresh`: an empty body is posted; a token in the response is stored and the session
      counts as signed in, the user kept; a response without one changes nothing; a failure
      forgets the session. */
  function RefreshSession(s: State, env: Env): (r: (State, Result))
    ensures var reply := env.send(Send(s.client, env, env.paths.refresh, Js.Obj(map[])));
      && (reply.Rejected? ==> r == (Cleared(s), Failed(Js.Str("Refresh failed"))))
      && (reply.Answered? && Js.Truthy(ClientApi.NewToken(reply.data)) ==>
            r.1.Succeeded? && r.0.isAuthed && r.0.user == s.user
            && r.0.client == ClientApi.SetToken(s.client, ClientApi.NewToken(reply.data)))
      && (reply.Answered? && !Js.Truthy(ClientApi.NewToken(reply.data)) ==>
            r == (s, Failed(Js.Str("No token in refresh response"))))
  {
    match env.send(Send(s.client, env, env.paths.refresh, Js.Obj(map[])))
    case Rejected(_, _) => (Cleared(s), Failed(Js.Str("Refresh failed")))
    case Answered(data) =>
      var token := ClientApi.NewToken(data);
      if Js.Truthy(token) then (s.(client := ClientApi.SetToken(s.client, token), isAuthed := true), Succeeded(Js.Undefined))
      else (s, Failed(Js.Str("No token in refresh response")))
  }

  /** `logout`: the logout request's outcome is ignored and the session is forgotten. */
  function Logout(s: State): (r: State)
    ensures r.client.token.None? && r.client.header.None? && r.user.Null? && !r.isAuthed
    ensures ClientApi.Consistent(r.client)
  {
    Cleared(s)
  }

  /* ---------------- invariants ---------------- */

  /** A session with a token whose header matches it keeps that match through every
      operation, provided the tokens the API hands out are text. */
  ghost predicate TextTokens(env: Env) {
    && (forall req :: env.send(req).Answered? ==> var t := ClientApi.NewToken(env.send(req).data); t.Str? || !Js.Truthy(t))
    && (forall req :: env.renewed(req).Some? ==> env.renewed(req).value.Str? || !Js.Truthy(env.renewed(req).value))
  }

  lemma LoadMeConsistent(s: State, env: Env)
    requires ClientApi.Consistent(s.client) && TextTokens(env)
    ensures ClientApi.Consistent(LoadMe(s, env).client)
  {
    var token := s.client.token;
    if token.Some? && token.value != "" {
      var c := ClientApi.SetToken(s.client, Js.Str(token.value));
      ClientApi.SetTokenConsistent(s.client, Js.Str(token.value));
      ClientApi.SetTokenConsistent(c, Js.Null);
      var req := Send(c, env, env.paths.me, Js.Undefined);
      if env.renewed(req).Some? {
        ClientApi.SetTokenConsistent(c, env.renewed(req).value);
      }
    }
  }

  lemma SignInConsistent(s: State, env: Env, path: string, body: Js.Value, fallback: string)
    requires fallback != "" && ClientApi.Consistent(s.client) && TextTokens(env)
    ensures ClientApi.Consistent(SignIn(s, env, path, body, fallback).0.client)
  {
    var req := Send(s.client, env, path, body);
    match env.send(req)
    case Rejected(_, _) =>
    case Answered(data) =>
      var token := ClientApi.NewToken(data);
      var c := if Js.Truthy(token) then ClientApi.SetToken(s.client, token) else s.client;
      if Js.Truthy(token) {
        ClientApi.SetTokenConsistent(s.client, token);
      }
      LoadMeConsistent(s.(client := c), env);
  }

  lemma RefreshSessionConsistent(s: State, env: Env)
    requires ClientApi.Consistent(s.client) && TextTokens(env)
    ensures ClientApi.Consistent(RefreshSession(s, env).0.client)
  {
    var req := Send(s.client, env, env.paths.refresh, Js.Obj(map[]));
    match env.send(req)
    case Rejected(_, _) =>
      ClientApi.SetTokenConsistent(s.client, Js.Null);
    case Answered(data) =>
      ClientApi.SetTokenConsistent(s.client, ClientApi.NewToken(data));
  }

  /** The actions the store offers; the password pages also ask it for `forgotPassword` and
      `resetPassword`, which it does not define. */
  const Actions: set<string> := {"loadMe", "login", "register", "refresh", "logout"}

  lemma NoPasswordActions()
    ensures "forgotPassword" !in Actions && "resetPassword" !in Actions
  {
    assert |"forgotPassword"| == 14 && |"resetPassword"| == 13;
  }

  /* ---------------- against the pets API ---------------- */

  /** The routers the pets API mounts under "/api" (`app.use("/api", routes)` and the index
      router's `/auth`, `/adoptions`, `/users` and `/pets`). */
  const Mounted: set<string> := {"auth", "adoptions", "users", "pets"}

  /** The text up to the first "/". */
  function FirstSegment(s: string): (r: string)
    ensures Strings.StartsWith(s, r) && '/' !in r
    ensures |r| < |s| ==> s[|r|] == '/'
  {
    if |s| == 0 || s[0] == '/' then "" else [s[0]] + FirstSegment(s[1..])
  }

  /** The router of the pets API that a same-origin URL reaches, if any: the segment after
      "/api/" when it is mounted, both compared up to the case of ASCII letters as Express
      paths are by default; every other URL gets the 404 "Route not found". */
  function Router(url: string): (r: Option<string>)
    ensures r.Some? ==> r.value in Mounted && Strings.StartsWith(Strings.ToLower(url), "/api/" + r.value)
  {
    if |url| >= 5 && Strings.ToLower(url[..5]) == "/api/" then
      var seg := FirstSegment(url[5..]);
      if Strings.ToLower(seg) in Mounted then
        assert Strings.ToLower(url)[..5 + |seg|] == "/api/" + Strings.ToLower(seg);
        Some(Strings.ToLower(seg))
      else None
    else None
  }

  /** The prefix and the router name are found in any case: "/API/AUTH/login" reaches the
      auth router. */
  lemma RouterIgnoresCase()
    ensures Router("/API/AUTH/login") == Some("auth")
  {
    var url := "/API/AUTH/login";
    assert url[..5] == "/API/";
    assert url[5..] == "AUTH" + "/login";
    FirstSegmentOf("AUTH", "/login");
    assert Strings.ToLower("AUTH") == "auth";
  }

  /** Each path as written is the intended one with "/api" in front. */
  lemma AsWrittenPrefixed()
    ensures AsWritten.me == "/api" + Intended.me
    ensures AsWritten.login == "/api" + Intended.login
    ensures AsWritten.register == "/api" + Intended.register
    ensures AsWritten.refresh == "/api" + Intended.refresh
    ensures AsWritten.logout == "/api" + Intended.logout
  {
    SessionPathsPrefixed();
    LogoutPrefixed();
  }

  lemma SessionPathsPrefixed()
    ensures AsWritten.me == "/api" + Intended.me
    ensures AsWritten.login == "/api" + Intended.login
    ensures AsWritten.register == "/api" + Intended.register
  {
  }

  lemma LogoutPrefixed()
    ensures AsWritten.refresh == "/api" + Intended.refresh
    ensures AsWritten.logout == "/api" + Intended.logout
  {
  }

  /** As written, under the default base, every request of the store goes to
      "/api/api/...", which no router of the pets API takes. */
  lemma DoubledPrefix()
    ensures ClientApi.FullUrl(ClientApi.DefaultBase, AsWritten.login) == "/api/api" + Intended.login
    ensures Router(ClientApi.FullUrl(ClientApi.DefaultBase, AsWritten.me)).None?
    ensures Router(ClientApi.FullUrl(ClientApi.DefaultBase, AsWritten.login)).None?
    ensures Router(ClientApi.FullUrl(ClientApi.DefaultBase, AsWritten.register)).None?
    ensures Router(ClientApi.FullUrl(ClientApi.DefaultBase, AsWritten.refresh)).None?
    ensures Router(ClientApi.FullUrl(ClientApi.DefaultBase, AsWritten.logout)).None?
  {
    AsWrittenPrefixed();
    ApiUnderDefault(Intended.me);
    ApiUnderDefault(Intended.login);
    ApiUnderDefault(Intended.register);
    ApiUnderDefault(Intended.refresh);
    ApiUnderDefault(Intended.logout);
  }

  /** Under the default base, "/api" + p is requested at "/api/api" + p. */
  lemma ApiUnderDefault(p: string)
    requires |p| >= 1 && p[0] == '/'
    ensures ClientApi.FullUrl(ClientApi.DefaultBase, "/api" + p) == "/api/api" + p
    ensures Router("/api/api" + p).None?
  {
    ApiJoined(p);
    ApiNotRouted(p);
  }

  lemma ApiJoined(p: string)
    requires |p| >= 1 && p[0] == '/'
    ensures ClientApi.FullUrl(ClientApi.DefaultBase, "/api" + p) == "/api/api" + p
  {
    var path := "/api" + p;
    assert path[1] == 'a';
    assert !Strings.EndsWith(ClientApi.DefaultBase, "/");
    ClientApi.FullUrlAppends(ClientApi.DefaultBase, path);
    assert ClientApi.DefaultBase + path == "/api/api" + p;
  }

  lemma ApiNotRouted(p: string)
    requires |p| >= 1 && p[0] == '/'
    ensures Router("/api/api" + p).None?
  {
    var url := "/api/api" + p;
    assert url[..5] == "/api/";
    assert url[5..] == "api" + p;
    FirstSegmentOf("api", p);
    Strings.ToLowerOfLower("api");
    assert "api" !in Mounted;
  }

  /** The first segment of a word followed by a path is the word. */
  lemma {:induction false} FirstSegmentOf(w: string, p: string)
    requires '/' !in w && |p| >= 1 && p[0] == '/'
    ensures FirstSegment(w + p) == w
  {
    if |w| > 0 {
      assert (w + p)[1..] == w[1..] + p;
      FirstSegmentOf(w[1..], p);
    } else {
      assert w + p == p;
    }
  }

  /** With the intended paths every request lands at its router under any base that does
      not end in "/"; under the default base, "/users/me" reaches the users router and the
      four session calls the auth router. */
  lemma IntendedPathsRouted(base: string)
    requires !Strings.EndsWith(base, "/")
    ensures ClientApi.FullUrl(base, Intended.login) == base + "/auth/login"
    ensures ClientApi.FullUrl(base, Intended.me) == base + "/users/me"
    ensures Router(ClientApi.FullUrl(ClientApi.DefaultBase, Intended.me)) == Some("users")
    ensures Router(ClientApi.FullUrl(ClientApi.DefaultBase, Intended.login)) == Some("auth")
    ensures Router(ClientApi.FullUrl(ClientApi.DefaultBase, Intended.register)) == Some("auth")
    ensures Router(ClientApi.FullUrl(ClientApi.DefaultBase, Intended.refresh)) == Some("auth")
    ensures Router(ClientApi.FullUrl(ClientApi.DefaultBase, Intended.logout)) == Some("auth")
  {
    IntendedJoined(base);
    IntendedRoutedUnderDefault();
  }

  lemma IntendedJoined(base: string)
    requires !Strings.EndsWith(base, "/")
    ensures ClientApi.FullUrl(base, Intended.login) == base + "/auth/login"
    ensures ClientApi.FullUrl(base, Intended.me) == base + "/users/me"
  {
    ClientApi.FullUrlAppends(base, "/auth/login");
    ClientApi.FullUrlAppends(base, "/users/me");
  }

  lemma IntendedRoutedUnderDefault()
    ensures Router(ClientApi.FullUrl(ClientApi.DefaultBase, Intended.me)) == Some("users")
    ensures Router(ClientApi.FullUrl(ClientApi.DefaultBase, Intended.login)) == Some("auth")
    ensures Router(ClientApi.FullUrl(ClientApi.DefaultBase, Intended.register)) == Some("auth")
    ensures Router(ClientApi.FullUrl(ClientApi.DefaultBase, Intended.refresh)) == Some("auth")
    ensures Router(ClientApi.FullUrl(ClientApi.DefaultBase, Intended.logout)) == Some("auth")
  {
    IntendedSplit();
    assert "users" in Mounted && "auth" in Mounted;
    RoutedUnderDefault("users", "/me");
    RoutedUnderDefault("auth", "/login");
    RoutedUnderDefault("auth", "/register");
    RoutedUnderDefault("auth", "/refresh");
    RoutedUnderDefault("auth", "/logout");
  }

  /** Each intended path is a router's name between slashes, then the route. */
  lemma IntendedSplit()
    ensures Intended.me == "/" + "users" + "/me"
    ensures Intended.login == "/" + "auth" + "/login"
    ensures Intended.register == "/" + "auth" + "/register"
    ensures Intended.refresh == "/" + "auth" + "/refresh"
    ensures Intended.logout == "/" + "auth" + "/logout"
  {
  }

  /** Under the default base, "/" + router + p reaches that router. */
  lemma RoutedUnderDefault(router: string, p: string)
    requires router in Mounted && |p| >= 2 && p[0] == '/' && p[1] != '/'
    ensures ClientApi.FullUrl(ClientApi.DefaultBase, "/" + router + p) == "/api/" + router + p
    ensures Router("/api/" + router + p) == Some(router)
  {
    MountedWord(router);
    JoinUnderDefault(router, p);
    RouterOfWord(router, p);
  }

  lemma MountedWord(w: string)
    requires w in Mounted
    ensures |w| >= 1 && '/' !in w && Strings.ToLower(w) == w
  {
    Strings.ToLowerOfLower(w);
  }

  lemma JoinUnderDefault(w: string, p: string)
    requires |w| >= 1 && '/' !in w && |p| >= 1 && p[0] == '/'
    ensures ClientApi.FullUrl(ClientApi.DefaultBase, "/" + w + p) == "/api/" + w + p
  {
    var path := "/" + w + p;
    assert path[1] == w[0];
    assert !Strings.EndsWith(ClientApi.DefaultBase, "/");
    ClientApi.FullUrlAppends(ClientApi.DefaultBase, path);
    assert ClientApi.DefaultBase + path == "/api/" + w + p;
  }

  lemma RouterOfWord(w: string, p: string)
    requires w in Mounted && '/' !in w && |p| >= 1 && p[0] == '/'
    ensures Router("/api/" + w + p) == Some(w)
  {
    MountedWord(w);
    var url := "/api/" + w + p;
    assert url[..5] == "/api/";
    assert url[5..] == w + p;
    FirstSegmentOf(w, p);
  }

  /** A login by user name sends no `email`, and the pets API's login reads only the e-mail,
      so it looks up the empty e-mail and answers 401 "Invalid credentials" whenever no stored
      user has an empty e-mail. */
  lemma UsernameLoginRefused(users: seq<UserModel.User>, identifier: string, password: Js.Value,
                             compare: (Js.Value, string) -> Option<bool>, t: AuthController.Tokens, useCookie: bool)
    requires '@' !in identifier
    requires forall k :: 0 <= k < |users| ==> users[k].email != ""
    ensures AuthController.Login(users, LoginBody(identifier, password), compare, t, useCookie)
         == AuthController.Failure(401, AuthController.BadCredentials)
  {
    var body := LoginBody(identifier, password);
    assert !Js.IsNullish(body) && Js.Get(body, "email") == Js.Undefined;
    MissingEmailIsEmpty();
    assert AuthController.FindByEmail(users, "").None?;
  }

  lemma MissingEmailIsEmpty()
    ensures AuthController.EmailField(Js.Undefined) == Some("")
  {
    assert Strings.Trim("") == "";
    assert Strings.ToLower("") == "";
  }

  /** The pets API answers a sign-in with `{ success, data, tokens }`, which has no `user`: the
      store keeps the access token from `tokens` and then loads the current user. */
  lemma ServerSignInLoadsMe(s: State, env: Env, path: string, body: Js.Value, fallback: string,
                            u: UserModel.User, access: string, refresh: Option<string>)
    requires fallback != "" && access != ""
    requires env.send(Send(s.client, env, path, body))
          == Answered(AuthController.ToJs(AuthController.Session(u, access, refresh)))
    ensures SignIn(s, env, path, body, fallback)
         == (LoadMe(s.(client := ClientApi.SetToken(s.client, Js.Str(access))), env), Succeeded(Js.Null))
  {
    var data := AuthController.ToJs(AuthController.Session(u, access, refresh));
    ClientApi.ServerTokensAccepted(access, u, refresh);
    NoUserField(u, access, refresh);
    AnsweredWithoutUser(s, env, path, body, fallback, data, access);
  }

  lemma NoUserField(u: UserModel.User, access: string, refresh: Option<string>)
    ensures Js.Get(AuthController.ToJs(AuthController.Session(u, access, refresh)), "user") == Js.Undefined
  {
    var data := AuthController.ToJs(AuthController.Session(u, access, refresh));
    assert data.fields.Keys == {"success", "data", "tokens"};
  }

  lemma AnsweredWithoutUser(s: State, env: Env, path: string, body: Js.Value, fallback: string,
                            data: Js.Value, access: string)
    requires fallback != "" && access != ""
    requires env.send(Send(s.client, env, path, body)) == Answered(data)
    requires Js.Get(data, "user") == Js.Undefined && ClientApi.NewToken(data) == Js.Str(access)
    ensures SignIn(s, env, path, body, fallback)
         == (LoadMe(s.(client := ClientApi.SetToken(s.client, Js.Str(access))), env), Succeeded(Js.Null))
  {
  }

  /** The store's refresh posts an empty body; unless the browser sends the refresh cookie the
      pets API answers 401 "Refresh token required", and the store forgets the session. */
  lemma RefreshWithoutCookieSignsOut(s: State, env: Env, users: seq<UserModel.User>, t: AuthController.Tokens,
                                     useCookie: bool, message: Js.Value)
    requires var reply := AuthController.Refresh(users, Js.Obj(map[]), Js.Obj(map[]), t, useCookie);
      env.send(Send(s.client, env, env.paths.refresh, Js.Obj(map[]))) == Rejected(AuthController.ToJs(reply.body), message)
    ensures AuthController.Refresh(users, Js.Obj(map[]), Js.Obj(map[]), t, useCookie)
         == AuthController.Failure(401, "Refresh token required")
    ensures RefreshSession(s, env) == (Cleared(s), Failed(Js.Str("Refresh failed")))
  {
  }
}

=== FILE: socket_auth.dfy ===
/** Admission to the chat socket (`backhend/src/server.js`): the access token is taken from
    the handshake's `auth.token`, else its `Authorization` header, else its `accessToken`
    cookie, a leading `Bearer ` scheme dropped; the token verifier is a parameter. */
module SocketAuth {
  import opened Wrappers
  import Strings
  import Js
  import Uri

  /* ---------------- the bearer scheme ---------------- */

  /** `/^Bearer\s+/i` matches at the start: the six letters in any case, then white space. */
  predicate HasBearer(s: string) {
    |s| >= 7 && Strings.EqualsIgnoreCase(s[..6], "Bearer") && Strings.IsSpace(s[6])
  }

  /** `stripBearer`: a string loses a leading `Bearer` and the white space after it; any other
      value, and a string without the scheme, passes unchanged. */
  function StripBearer(v: Js.Value): (r: Js.Value)
    ensures !v.Str? ==> r == v
    ensures v.Str? && !HasBearer(v.s) ==> r == v
    ensures v.Str? ==> r.Str? && Strings.EndsWith(v.s, r.s)
    ensures v.Str? && HasBearer(v.s) ==> |r.s| <= |v.s| - 7 && (r.s == "" || !Strings.IsSpace(r.s[0]))
  {
    if v.Str? && HasBearer(v.s) then
      var t := Strings.TrimStart(v.s[6..]);
      assert v.s[|v.s| - |t|..] == v.s[6..][|v.s[6..]| - |t|..];
      Js.Str(t)
    else v
  }

  /** The scheme in any spelling, any non-empty run of white space, then a token that does
      not itself start with white space: exactly the token comes out. */
  lemma StripBearerOf(scheme: string, gap: string, token: string)
    requires |scheme| == 6 && Strings.EqualsIgnoreCase(scheme, "Bearer")
    requires |gap| > 0 && Strings.AllSpace(gap)
    requires token == "" || !Strings.IsSpace(token[0])
    ensures StripBearer(Js.Str(scheme + gap + token)) == Js.Str(token)
  {
    var s := scheme + gap + token;
    assert s[..6] == scheme;
    assert s[6] == gap[0];
    assert s[6..] == gap + token;
    TrimStartSpaces(gap, token);
  }

  lemma {:induction false} TrimStartSpaces(gap: string, rest: string)
    requires Strings.AllSpace(gap)
    requires rest == "" || !Strings.IsSpace(rest[0])
    ensures Strings.TrimStart(gap + rest) == rest
    decreases |gap|
  {
    if |gap| > 0 {
      assert (gap + rest)[1..] == gap[1..] + rest;
      TrimStartSpaces(gap[1..], rest);
    } else {
      assert gap + rest == rest;
    }
  }

  /* ---------------- the access-token cookie ---------------- */

  const CookieKey: string := "accessToken="

  /** The length of the run of non-`;` characters starting at `q`. */
  function ValueRun(s: string, q: nat): (n: nat)
    requires q <= |s|
    ensures q + n <= |s|
    ensures forall k :: q <= k < q + n ==> s[k] != ';'
    ensures q + n == |s| || s[q + n] == ';'
    decreases |s| - q
  {
    if q == |s| || s[q] == ';' then 0 else 1 + ValueRun(s, q + 1)
  }

  /** The length of the run of white space starting at `q`. */
  function SpaceRun(s: string, q: nat): (n: nat)
    requires q <= |s|
    ensures q + n <= |s|
    ensures forall k :: q <= k < q + n ==> Strings.IsSpace(s[k])
    ensures q + n == |s| || !Strings.IsSpace(s[q + n])
    decreases |s| - q
  {
    if q == |s| || !Strings.IsSpace(s[q]) then 0 else 1 + SpaceRun(s, q + 1)
  }

  /** `accessToken=([^;]+)` at position `q`: the captured value. */
  function CaptureAt(s: string, q: nat): (r: Option<string>)
    requires q <= |s|
    ensures r.Some? ==> q + |CookieKey| <= |s| && s[q..q + |CookieKey|] == CookieKey
    ensures r.Some? ==> r.value != [] && ';' !in r.value
    ensures r.Some? ==> var e := q + |CookieKey| + |r.value|;
      e <= |s| && r.value == s[q + |CookieKey|..e] && (e == |s| || s[e] == ';')
  {
    var v := q + |CookieKey|;
    if v <= |s| && s[q..v] == CookieKey && ValueRun(s, v) > 0 then
      Some(s[v..v + ValueRun(s, v)])
    else None
  }

  /** The pattern tried at start position `p`: first the `^` branch, then `;\s*`. */
  function MatchAt(s: string, p: nat): (r: Option<string>)
    requires p <= |s|
  {
    if p == 0 && CaptureAt(s, 0).Some? then CaptureAt(s, 0)
    else if p < |s| && s[p] == ';' then CaptureAt(s, p + 1 + SpaceRun(s, p + 1))
    else None
  }

  /** `raw.match(...)` without the global flag: the capture of the leftmost start position
      where the pattern matches. */
  function FirstMatch(s: string, p: nat): (r: Option<string>)
    requires p <= |s|
    decreases |s| - p
  {
    match MatchAt(s, p)
    case Some(v) => Some(v)
    case None => if p == |s| then None else FirstMatch(s, p + 1)
  }

  /** Where the cookie name may begin: at the very start, or after a `;` and white space. */
  ghost predicate Anchored(s: string, q: nat)
    requires q <= |s|
  {
    q == 0 || exists p :: 0 <= p < q && s[p] == ';' && Strings.AllSpace(s[p + 1..q])
  }

  /** The scan finds a value exactly when some anchored position holds `accessToken=` and a
      non-empty value, and what it finds is the value at such a position. */
  lemma FirstMatchSpec(s: string)
    ensures FirstMatch(s, 0).Some? <==> exists q :: 0 <= q <= |s| && Anchored(s, q) && CaptureAt(s, q).Some?
    ensures FirstMatch(s, 0).Some? ==>
      exists q :: 0 <= q <= |s| && Anchored(s, q) && CaptureAt(s, q) == FirstMatch(s, 0)
  {
    if FirstMatch(s, 0).Some? {
      var p := FirstMatchFrom(s, 0);
      var q := MatchAtAnchored(s, p);
      assert 0 <= q <= |s| && Anchored(s, q) && CaptureAt(s, q) == FirstMatch(s, 0);
    }
    if exists q :: 0 <= q <= |s| && Anchored(s, q) && CaptureAt(s, q).Some? {
      var q :| 0 <= q <= |s| && Anchored(s, q) && CaptureAt(s, q).Some?;
      var p := AnchoredMatchAt(s, q);
      FirstMatchReaches(s, 0, p);
    }
  }

  /** A match found from `p0` is the match at some later position. */
  lemma {:induction false} FirstMatchFrom(s: string, p0: nat) returns (p: nat)
    requires p0 <= |s| && FirstMatch(s, p0).Some?
    ensures p0 <= p <= |s| && MatchAt(s, p) == FirstMatch(s, p0)
    decreases |s| - p0
  {
    if MatchAt(s, p0).Some? {
      p := p0;
    } else {
      p := FirstMatchFrom(s, p0 + 1);
    }
  }

  /** A position where the pattern matches is never skipped by the scan. */
  lemma {:induction false} FirstMatchReaches(s: string, p0: nat, p: nat)
    requires p0 <= p <= |s| && MatchAt(s, p).Some?
    ensures FirstMatch(s, p0).Some?
    decreases p - p0
  {
    if p0 < p && MatchAt(s, p0).None? {
      FirstMatchReaches(s, p0 + 1, p);
    }
  }

  /** What the pattern captures at a start position is the value at an anchored position. */
  lemma MatchAtAnchored(s: string, p: nat) returns (q: nat)
    requires p <= |s| && MatchAt(s, p).Some?
    ensures q <= |s| && Anchored(s, q) && CaptureAt(s, q) == MatchAt(s, p)
  {
    if p == 0 && CaptureAt(s, 0).Some? {
      q := 0;
    } else {
      q := p + 1 + SpaceRun(s, p + 1);
      assert Strings.AllSpace(s[p + 1..q]);
    }
  }

  /** An anchored value is captured by the pattern started at the anchor. */
  lemma AnchoredMatchAt(s: string, q: nat) returns (p: nat)
    requires q <= |s| && Anchored(s, q) && CaptureAt(s, q).Some?
    ensures p <= |s| && MatchAt(s, p).Some?
  {
    if q == 0 {
      p := 0;
    } else {
      p :| 0 <= p < q && s[p] == ';' && Strings.AllSpace(s[p + 1..q]);
      assert s[q] == 'a' by {
        assert s[q..q + |CookieKey|][0] == 'a';
      }
      SpaceRunStops(s, p + 1, q);
      MatchAfterSemicolon(s, p);
    }
  }

  /** After a `;` the pattern's second branch is tried at the end of the white space. */
  lemma MatchAfterSemicolon(s: string, p: nat)
    requires p < |s| && s[p] == ';'
    ensures CaptureAt(s, p + 1 + SpaceRun(s, p + 1)).Some? ==> MatchAt(s, p).Some?
  {
  }

  /** A run of white space ended by a non-space character is measured exactly. */
  lemma SpaceRunStops(s: string, a: nat, q: nat)
    requires a <= q < |s| && Strings.AllSpace(s[a..q]) && !Strings.IsSpace(s[q])
    ensures SpaceRun(s, a) == q - a
  {
  }

  /** `readCookieToken` on the cookie header's text: the captured value, URI-decoded when it
      decodes and kept raw when it does not. */
  function CookieToken(raw: string): (r: Option<string>)
    ensures r.Some? <==> FirstMatch(raw, 0).Some?
    ensures r.Some? && Uri.Decode(FirstMatch(raw, 0).value).None? ==> r.value == FirstMatch(raw, 0).value
  {
    match FirstMatch(raw, 0)
    case None => None
    case Some(v) => Some(match Uri.Decode(v) case Some(d) => d case None => v)
  }

  /** A cookie set to the URI-encoding of a non-empty token yields that token. */
  lemma CookieRoundTrip(token: string)
    requires token != ""
    ensures CookieToken(CookieKey + Uri.Encode(token)) == Some(token)
  {
    var e := Uri.Encode(token);
    Uri.EncodeSafe(token);
    Uri.DecodeEncode(token);
    assert ';' !in e by {
      forall k | 0 <= k < |e|
        ensures e[k] != ';'
      {
        assert Uri.IsUnreserved(e[k]) || e[k] == '%';
      }
    }
    SoleCookie(e);
  }

  /** A header that is just `accessToken=` and a value without `;` yields the value. */
  lemma SoleCookie(e: string)
    requires e != "" && ';' !in e
    ensures FirstMatch(CookieKey + e, 0) == Some(e)
  {
    var s := CookieKey + e;
    assert s[..|CookieKey|] == CookieKey;
    assert forall k :: |CookieKey| <= k < |s| ==> s[k] == e[k - |CookieKey|];
    RunToEnd(s, |CookieKey|);
    assert s[|CookieKey|..|CookieKey| + |e|] == e;
    assert CaptureAt(s, 0) == Some(e);
  }

  lemma {:induction false} RunToEnd(s: string, q: nat)
    requires q <= |s| && forall k :: q <= k < |s| ==> s[k] != ';'
    ensures ValueRun(s, q) == |s| - q
    decreases |s| - q
  {
    if q < |s| {
      RunToEnd(s, q + 1);
    }
  }

  /** `readCookieToken(headers)`: `None` when `headers.cookie` is truthy but not a string, so
      that `.match` throws; otherwise the token or `null`. */
  function ReadCookieToken(headers: Js.Value): (r: Option<Js.Value>)
    ensures var c := Js.Get(headers, "cookie");
      r.None? <==> Js.Truthy(c) && !c.Str?
    ensures r.Some? ==> r.value.Null? || r.value.Str?
    ensures var c := Js.Get(headers, "cookie");
      c.Str? && c.s != "" ==> r == Some(match CookieToken(c.s) case Some(t) => Js.Str(t) case None => Js.Null)
    ensures !Js.Truthy(Js.Get(headers, "cookie")) ==> r == Some(Js.Null)
  {
    var raw := Js.Or(Js.Get(headers, "cookie"), Js.Str(""));
    if !raw.Str? then None
    else match CookieToken(raw.s)
      case None => Some(Js.Null)
      case Some(t) => Some(Js.Str(t))
  }

  /* ---------------- the handshake ---------------- */

  /** `socket.user`. */
  datatype SocketUser = SocketUser(id: string, username: Js.Value, email: Js.Value)

  datatype Admission = Admitted(user: SocketUser) | Refused(reason: string)

  /** The three candidate tokens in the order they are tried, or `None` when reading the
      cookie throws. */
  function Candidates(handshake: Js.Value): (r: Option<seq<Js.Value>>)
    ensures r.Some? ==> |r.value| == 3
    ensures r.Some? <==> ReadCookieToken(Js.Get(handshake, "headers")).Some?
  {
    var headers := Js.Get(handshake, "headers");
    match ReadCookieToken(headers)
    case None => None
    case Some(cookie) =>
      Some([StripBearer(Js.Get(Js.Get(handshake, "auth"), "token")),
            StripBearer(Js.Get(headers, "authorization")),
            cookie])
  }

  /** `authToken || headerToken || cookieToken`: the first truthy candidate, else the last. */
  function Presented(handshake: Js.Value): (r: Option<Js.Value>)
    ensures r.Some? <==> Candidates(handshake).Some?
    ensures r.Some? ==> var cs := Candidates(handshake).value;
      && (Js.Truthy(r.value) <==> exists i :: 0 <= i < 3 && Js.Truthy(cs[i]))
      && (Js.Truthy(r.value) ==>
            exists i :: 0 <= i < 3 && r.value == cs[i] && (forall j :: 0 <= j < i ==> !Js.Truthy(cs[j])))
  {
    match Candidates(handshake)
    case None => None
    case Some(cs) =>
      var t := Js.Or(Js.Or(cs[0], cs[1]), cs[2]);
      assert Js.Truthy(t) ==>
        || (Js.Truthy(cs[0]) && t == cs[0])
        || (!Js.Truthy(cs[0]) && Js.Truthy(cs[1]) && t == cs[1])
        || (!Js.Truthy(cs[0]) && !Js.Truthy(cs[1]) && t == cs[2]);
      Some(t)
  }

  /** The `io.use` middleware: no token refuses with "No token provided"; a token the
      verifier rejects, or a cookie header that cannot be read, refuses with "Unauthorized";
      otherwise the user is the payload's `_id` as a string, with its name and e-mail. */
  function Authenticate(handshake: Js.Value, verify: Js.Value -> Option<Js.Value>): (r: Admission)
    ensures r.Refused? ==> r.reason == "No token provided" || r.reason == "Unauthorized"
    ensures (r.Refused? && r.reason == "No token provided") <==>
      Presented(handshake).Some? && !Js.Truthy(Presented(handshake).value)
    ensures r.Admitted? <==>
      Presented(handshake).Some? && Js.Truthy(Presented(handshake).value)
      && verify(Presented(handshake).value).Some?
    ensures r.Admitted? ==> var payload := verify(Presented(handshake).value).value;
      r.user == SocketUser(Js.ToStr(Js.Get(payload, "_id")), Js.Get(payload, "username"),
                           Js.Get(payload, "email"))
  {
    match Presented(handshake)
    case None => Refused("Unauthorized")
    case Some(token) =>
      if !Js.Truthy(token) then Refused("No token provided")
      else Verdict(verify(token))
  }

  /** The outcome of verification: a rejected token is "Unauthorized"; an accepted one
      admits the user its payload names. */
  function Verdict(payload: Option<Js.Value>): (r: Admission)
    ensures r.Admitted? <==> payload.Some?
    ensures r.Refused? ==> r.reason == "Unauthorized"
    ensures r.Admitted? ==> r.user.id == Js.ToStr(Js.Get(payload.value, "_id"))
  {
    match payload
    case None => Refused("Unauthorized")
    case Some(p) => Admitted(SocketUser(Js.ToStr(Js.Get(p, "_id")), Js.Get(p, "username"), Js.Get(p, "email")))
  }

  /** Once a non-empty string token is presented, the verifier alone decides. */
  lemma AuthenticatePresented(h: Js.Value, token: string, verify: Js.Value -> Option<Js.Value>)
    requires token != "" && Presented(h) == Some(Js.Str(token))
    ensures Authenticate(h, verify) == Verdict(verify(Js.Str(token)))
  {
  }

  /** A handshake carrying only `Authorization: Bearer <token>` is checked with the bare
      token. */
  lemma HeaderTokenVerified(token: string, verify: Js.Value -> Option<Js.Value>)
    requires token != "" && !Strings.IsSpace(token[0])
    ensures var h := Js.Obj(map["headers" := Js.Obj(map["authorization" := Js.Str("Bearer " + token)])]);
      Authenticate(h, verify) == Verdict(verify(Js.Str(token)))
  {
    HeaderOnly(token);
    AuthenticatePresented(Js.Obj(map["headers" := Js.Obj(map["authorization" := Js.Str("Bearer " + token)])]),
                          token, verify);
  }

  lemma HeaderOnly(token: string)
    requires token != "" && !Strings.IsSpace(token[0])
    ensures var h := Js.Obj(map["headers" := Js.Obj(map["authorization" := Js.Str("Bearer " + token)])]);
      Presented(h) == Some(Js.Str(token))
  {
    var headers := Js.Obj(map["authorization" := Js.Str("Bearer " + token)]);
    var h := Js.Obj(map["headers" := headers]);
    assert Js.Get(h, "headers") == headers;
    assert Js.Get(h, "auth") == Js.Undefined;
    assert Js.Get(headers, "authorization") == Js.Str("Bearer " + token);
    assert Js.Get(headers, "cookie") == Js.Undefined;
    HeaderPresented(h, headers, token);
  }

  lemma HeaderPresented(h: Js.Value, headers: Js.Value, token: string)
    requires token != "" && !Strings.IsSpace(token[0])
    requires Js.Get(h, "headers") == headers && Js.Get(h, "auth") == Js.Undefined
    requires Js.Get(headers, "authorization") == Js.Str("Bearer " + token)
    requires Js.Get(headers, "cookie") == Js.Undefined
    ensures Presented(h) == Some(Js.Str(token))
  {
    HeaderCandidates(h, headers, token);
    PresentedOf(h, Js.Undefined, Js.Str(token), Js.Null);
  }

  /** A handshake whose only credential is an `Authorization: Bearer` header has the
      header's token as its one truthy candidate. */
  lemma HeaderCandidates(h: Js.Value, headers: Js.Value, token: string)
    requires token != "" && !Strings.IsSpace(token[0])
    requires Js.Get(h, "headers") == headers && Js.Get(h, "auth") == Js.Undefined
    requires Js.Get(headers, "authorization") == Js.Str("Bearer " + token)
    requires Js.Get(headers, "cookie") == Js.Undefined
    ensures Candidates(h) == Some([Js.Undefined, Js.Str(token), Js.Null])
  {
    NoCookie(headers);
    BearerSpace(token);
    assert Js.Get(Js.Get(h, "auth"), "token") == Js.Undefined;
  }

  lemma PresentedOf(h: Js.Value, a: Js.Value, b: Js.Value, c: Js.Value)
    requires Candidates(h) == Some([a, b, c])
    ensures Presented(h) == Some(Js.Or(Js.Or(a, b), c))
  {
  }

  lemma NoCookie(headers: Js.Value)
    requires Js.Get(headers, "cookie") == Js.Undefined
    ensures ReadCookieToken(headers) == Some(Js.Null)
  {
    assert FirstMatch("", 0) == None;
  }

  lemma BearerSpace(token: string)
    requires token == "" || !Strings.IsSpace(token[0])
    ensures StripBearer(Js.Str("Bearer " + token)) == Js.Str(token)
  {
    StripBearerOf("Bearer", " ", token);
    assert "Bearer" + " " + token == "Bearer " + token;
  }

  /** A handshake carrying only the `accessToken` cookie, URI-encoded, is checked with the
      decoded token. */
  lemma CookieTokenVerified(token: string, verify: Js.Value -> Option<Js.Value>)
    requires token != ""
    ensures var h := Js.Obj(map["headers" := Js.Obj(map["cookie" := Js.Str(CookieKey + Uri.Encode(token))])]);
      Authenticate(h, verify) == Verdict(verify(Js.Str(token)))
  {
    var cookie := CookieKey + Uri.Encode(token);
    CookieHeader(Js.Obj(map["cookie" := Js.Str(cookie)]), token);
    CookieOnly(cookie, token);
    AuthenticatePresented(Js.Obj(map["headers" := Js.Obj(map["cookie" := Js.Str(cookie)])]), token, verify);
  }

  lemma CookieOnly(cookie: string, token: string)
    requires token != ""
    requires ReadCookieToken(Js.Obj(map["cookie" := Js.Str(cookie)])) == Some(Js.Str(token))
    ensures var h := Js.Obj(map["headers" := Js.Obj(map["cookie" := Js.Str(cookie)])]);
      Presented(h) == Some(Js.Str(token))
  {
    var headers := Js.Obj(map["cookie" := Js.Str(cookie)]);
    var h := Js.Obj(map["headers" := headers]);
    assert Candidates(h) == Some([Js.Undefined, Js.Undefined, Js.Str(token)]) by {
      assert Js.Get(h, "headers") == headers;
      assert Js.Get(headers, "authorization") == Js.Undefined;
    }
    PresentedOf(h, Js.Undefined, Js.Undefined, Js.Str(token));
  }

  lemma CookieHeader(headers: Js.Value, token: string)
    requires token != "" && Js.Get(headers, "cookie") == Js.Str(CookieKey + Uri.Encode(token))
    ensures ReadCookieToken(headers) == Some(Js.Str(token))
  {
    CookieRoundTrip(token);
  }

  /** A verified payload without `_id` is admitted as the user "undefined", which the
      connection handler then treats as a real id. */
  lemma MissingIdAdmitted(handshake: Js.Value, verify: Js.Value -> Option<Js.Value>)
    requires Presented(handshake).Some? && Js.Truthy(Presented(handshake).value)
    requires var p := verify(Presented(handshake).value); p.Some? && p.value == Js.Obj(map[])
    ensures Authenticate(handshake, verify).Admitted?
    ensures Authenticate(handshake, verify).user.id == "undefined"
  {
  }
}

=== FILE: socket_events.dfy ===
/** The chat events of the socket server (`backhend/src/server.js`): rooms, presence, typing,
    live messages and read receipts. A connection is the user's id and the set of rooms it has
    joined; what a handler sends is returned as a list of emissions. Whether the message store
    succeeds, whether `markRead` is bound, date parsing and the clock are parameters. */
module SocketEvents {
  import opened Wrappers
  import Strings
  import Js
  import opened ChatController
  import ChatRoutes
  import SocketAuth

  /** A connected socket. */
  datatype Session = Session(user: Id, rooms: set<string>)

  /** `socket.to(room)` reaches the room except the sender; `io.to(room)` the whole room. */
  datatype Target = Others(room: string) | Everyone(room: string) | Sender | Ack

  datatype Payload =
    | Presence(conversationId: Js.Value, userId: Id, online: bool)
    | TypingState(conversationId: Js.Value, userId: Id, isTyping: bool)
    | Saved(message: Populated)
    | SendFailed
    | ErrorNotice(text: string)
    | ReadNotice(conversationId: Js.Value, userId: Id, at: int)

  datatype Emission = Emission(target: Target, event: string, payload: Payload)

  /** What dispatching an event leads to: the handler's result, or a throw that no handler
      catches, which ends the server process. */
  datatype Outcome<T> = Handled(value: T) | Crashed

  /** `roomOf`. */
  function RoomOf(conversationId: Js.Value): (r: string)
    ensures Strings.StartsWith(r, "conv:")
  {
    "conv:" + Js.ToStr(conversationId)
  }

  function PersonalRoom(user: Id): (r: string)
    ensures Strings.StartsWith(r, "user:")
  {
    "user:" + user
  }

  /** A conversation room is never a personal room, and distinct string ids have distinct
      rooms. */
  lemma RoomsSeparate(conversationId: Js.Value, user: Id, a: string, b: string)
    ensures RoomOf(conversationId) != PersonalRoom(user)
    ensures RoomOf(Js.Str(a)) == RoomOf(Js.Str(b)) ==> a == b
  {
    assert RoomOf(conversationId)[0] == 'c' && PersonalRoom(user)[0] == 'u';
    if RoomOf(Js.Str(a)) == RoomOf(Js.Str(b)) {
      assert a == RoomOf(Js.Str(a))[5..] && b == RoomOf(Js.Str(b))[5..];
    }
  }

  /** The `connection` handler: a user whose id is empty is disconnected; anyone else starts
      in their personal room and nowhere else. */
  function Connect(user: SocketAuth.SocketUser): (r: Option<Session>)
    ensures r.Some? <==> user.id != ""
    ensures r.Some? ==> r.value.user == user.id && r.value.rooms == {PersonalRoom(user.id)}
  {
    if user.id == "" then None else Some(Session(user.id, {PersonalRoom(user.id)}))
  }

  /** Any admitted socket stays connected: the id is `String(payload._id)`, which is never
      empty unless `_id` itself is an empty string. */
  lemma AdmittedConnects(payload: Js.Value)
    requires !(Js.Get(payload, "_id").Str? && Js.Get(payload, "_id").s == "")
    requires !(Js.Get(payload, "_id").Arr? && Js.ToStr(Js.Get(payload, "_id")) == "")
    ensures Connect(SocketAuth.SocketUser(Js.ToStr(Js.Get(payload, "_id")), Js.Null, Js.Null)).Some?
  {
  }

  /** The body of the `chat:join` handler: with a conversation id, the socket enters its
      room and the others in the room are told the user is online. */
  function JoinRoom(s: Session, payload: Js.Value): (r: (Session, seq<Emission>))
    ensures r.0.user == s.user && s.rooms <= r.0.rooms
    ensures var cid := Js.Get(payload, "conversationId");
      if !Js.Truthy(cid) then r == (s, [])
      else r.0.rooms == s.rooms + {RoomOf(cid)}
           && r.1 == [Emission(Others(RoomOf(cid)), "chat:presence", Presence(cid, s.user, true))]
  {
    var cid := Js.Get(payload, "conversationId");
    if !Js.Truthy(cid) then (s, [])
    else
      var room := RoomOf(cid);
      (s.(rooms := s.rooms + {room}),
       [Emission(Others(room), "chat:presence", Presence(cid, s.user, true))])
  }

  /** `chat:join` as dispatched: the handler destructures its argument in its parameter list,
      outside any `try`, so a null or missing payload throws, the rejected promise is never
      handled, and the process ends. */
  function OnJoin(s: Session, payload: Js.Value): (r: Outcome<(Session, seq<Emission>)>)
    ensures r.Crashed? <==> Js.IsNullish(payload)
    ensures r.Handled? ==> r.value == JoinRoom(s, payload)
  {
    if Js.IsNullish(payload) then Crashed else Handled(JoinRoom(s, payload))
  }

  /** The body of the `chat:leave` handler: with a conversation id, the socket leaves its
      room. */
  function LeaveRoom(s: Session, payload: Js.Value): (r: Session)
    ensures r.user == s.user && r.rooms <= s.rooms
    ensures var cid := Js.Get(payload, "conversationId");
      Js.Truthy(cid) ==> r.rooms == s.rooms - {RoomOf(cid)}
    ensures !Js.Truthy(Js.Get(payload, "conversationId")) ==> r == s
  {
    var cid := Js.Get(payload, "conversationId");
    if !Js.Truthy(cid) then s
    else s.(rooms := s.rooms - {RoomOf(cid)})
  }

  /** `chat:leave` as dispatched: a null or missing payload throws synchronously inside the
      event dispatch, an uncaught exception that ends the process. */
  function OnLeave(s: Session, payload: Js.Value): (r: Outcome<Session>)
    ensures r.Crashed? <==> Js.IsNullish(payload)
    ensures r.Handled? ==> r.value == LeaveRoom(s, payload)
  {
    if Js.IsNullish(payload) then Crashed else Handled(LeaveRoom(s, payload))
  }

  /** Joining a room the socket was not in and leaving it again restores the socket. */
  lemma JoinThenLeave(s: Session, payload: Js.Value)
    requires Js.Truthy(Js.Get(payload, "conversationId"))
    requires RoomOf(Js.Get(payload, "conversationId")) !in s.rooms
    ensures LeaveRoom(JoinRoom(s, payload).0, payload) == s
    ensures OnLeave(OnJoin(s, payload).value.0, payload) == Handled(s)
  {
    var room := RoomOf(Js.Get(payload, "conversationId"));
    assert s.rooms + {room} - {room} == s.rooms;
  }

  /** Joining twice is joining once, though the others are told twice. */
  lemma JoinTwice(s: Session, payload: Js.Value)
    ensures JoinRoom(JoinRoom(s, payload).0, payload).0 == JoinRoom(s, payload).0
  {
  }

  /** The personal room is never left through `chat:leave`. */
  lemma PersonalRoomKept(s: Session, payload: Js.Value)
    requires PersonalRoom(s.user) in s.rooms
    ensures PersonalRoom(s.user) in LeaveRoom(s, payload).rooms
  {
    RoomsSeparate(Js.Get(payload, "conversationId"), s.user, "", "");
  }

  /** The body of the `chat:typing` handler: the others in the room learn whether the user is
      typing, `isTyping` read for its truthiness. */
  function Typing(s: Session, payload: Js.Value): (r: seq<Emission>)
    ensures |r| <= 1
    ensures |r| == 1 <==> Js.Truthy(Js.Get(payload, "conversationId"))
    ensures |r| == 1 ==> var cid := Js.Get(payload, "conversationId");
      r[0] == Emission(Others(RoomOf(cid)), "chat:typing",
                       TypingState(cid, s.user, Js.Truthy(Js.Get(payload, "isTyping"))))
  {
    var cid := Js.Get(payload, "conversationId");
    if !Js.Truthy(cid) then []
    else [Emission(Others(RoomOf(cid)), "chat:typing",
                   TypingState(cid, s.user, Js.Truthy(Js.Get(payload, "isTyping"))))]
  }

  /** `chat:typing` as dispatched: a null or missing payload throws synchronously and ends
      the process. */
  function OnTyping(s: Session, payload: Js.Value): (r: Outcome<seq<Emission>>)
    ensures r.Crashed? <==> Js.IsNullish(payload)
    ensures r.Handled? ==> r.value == Typing(s, payload)
  {
    if Js.IsNullish(payload) then Crashed else Handled(Typing(s, payload))
  }

  /** A typing notice goes only to the room that joining the same conversation enters, and
      never to anybody's personal room. */
  lemma TypingReachesJoinedRoom(s: Session, payload: Js.Value, user: Id)
    requires |Typing(s, payload)| == 1
    ensures var cid := Js.Get(payload, "conversationId");
      var target := Typing(s, payload)[0].target;
      && target.Others?
      && target.room in JoinRoom(s, Js.Obj(map["conversationId" := cid])).0.rooms
      && target.room != PersonalRoom(user)
  {
    var cid := Js.Get(payload, "conversationId");
    assert Js.Get(Js.Obj(map["conversationId" := cid]), "conversationId") == cid;
    RoomsSeparate(cid, user, "", "");
  }

  /** `text?.trim?.()`: a string is trimmed; a value without a `trim` method gives
      `undefined`; an object whose `trim` is present but not a function throws (`None`). */
  function TrimmedText(text: Js.Value): (r: Option<Js.Value>)
    ensures text.Str? ==> r == Some(Js.Str(Strings.Trim(text.s)))
    ensures r.Some? && !text.Str? ==> r.value == Js.Undefined
    ensures r.None? <==> text.Obj? && !Js.IsNullish(Js.Get(text, "trim"))
  {
    match text
    case Str(t) => Some(Js.Str(Strings.Trim(t)))
    case Obj(_) => if Js.IsNullish(Js.Get(text, "trim")) then Some(Js.Undefined) else None
    case _ => Some(Js.Undefined)
  }

  /** The failure branch of `chat:message`: the acknowledgement, when the client asked for
      one, carries `send_failed`, and the sender alone gets `chat:error`. */
  function Failure(hasAck: bool): (r: seq<Emission>)
    ensures |r| == (if hasAck then 2 else 1)
    ensures r[|r| - 1] == Emission(Sender, "chat:error", ErrorNotice("Failed to send message"))
    ensures hasAck ==> r[0] == Emission(Ack, "ack", SendFailed)
  {
    (if hasAck then [Emission(Ack, "ack", SendFailed)] else [])
      + [Emission(Sender, "chat:error", ErrorNotice("Failed to send message"))]
  }

  /** `payload || {}`. */
  function Body(payload: Js.Value): Js.Value {
    Js.Or(payload, Js.Obj(map[]))
  }

  /** The guard of `chat:message`: a conversation id and some text or attachments, the text
      judged before it is trimmed. */
  function Accepted(payload: Js.Value): (r: bool)
    ensures Js.IsNullish(payload) ==> !r
  {
    var b := Body(payload);
    Js.Truthy(Js.Get(b, "conversationId"))
    && ChatRoutes.HasContent(Js.Get(b, "text"), Js.Get(b, "attachments"))
  }

  /** The handler body after the guard: store the message with its text trimmed, bump the
      conversation with the populated message, send that message to the whole room and
      acknowledge it; any failure on the way, a body the schema cannot cast included, takes
      the failure branch, keeping a message that was stored before the conversation update
      failed. */
  function Deliver(db: Db, s: Session, b: Js.Value, hasAck: bool, persistence: ChatRoutes.Persistence, now: int): (r: (Db, seq<Emission>))
    ensures r.0.conversations == db.conversations || persistence.Stored?
    ensures !persistence.Stored? ==> r.1 == Failure(hasAck)
    ensures persistence.CreateFailed? || TrimmedText(Js.Get(b, "text")).None? ==> r.0 == db
    ensures TrimmedText(Js.Get(b, "text")).None? || ChatRoutes.AttachmentsOf(Js.Get(b, "attachments")).None? ==>
      r == (db, Failure(hasAck))
    ensures persistence.Stored? && TrimmedText(Js.Get(b, "text")).Some? &&
            ChatRoutes.AttachmentsOf(Js.Get(b, "attachments")).Some? ==>
      && |r.0.messages| == |db.messages| + 1
      && r.0.messages[..|db.messages|] == db.messages
      && var m := r.0.messages[|db.messages|];
      && m.sender == s.user && m.conversation == ChatRoutes.IdOf(Js.Get(b, "conversationId"))
      && m.text == ChatRoutes.TextOf(TrimmedText(Js.Get(b, "text")).value).value
      && m.attachments == ChatRoutes.AttachmentsOf(Js.Get(b, "attachments")).value
      && |r.1| == (if hasAck then 2 else 1)
      && r.1[0].target == Everyone(RoomOf(Js.Get(b, "conversationId"))) && r.1[0].event == "chat:message"
      && r.1[0].payload.Saved? && r.1[0].payload.message.message == m
      && (hasAck ==> r.1[1] == Emission(Ack, "ack", r.1[0].payload))
  {
    var cid := Js.Get(b, "conversationId");
    match TrimmedText(Js.Get(b, "text"))
    case None => (db, Failure(hasAck))
    case Some(text) =>
      if persistence.CreateFailed? then (db, Failure(hasAck))
      else match (ChatRoutes.TextOf(text), ChatRoutes.AttachmentsOf(Js.Get(b, "attachments")))
        case (Some(t), Some(a)) =>
          var (db1, m) := CreateMessage(db, ChatRoutes.IdOf(cid), s.user, t, a, now);
          if persistence.TouchFailed? then (db1, Failure(hasAck))
          else
            assert db1.messages[..|db.messages|] == db.messages;
            (Touch(db1, ChatRoutes.IdOf(cid), m, now),
             [Emission(Everyone(RoomOf(cid)), "chat:message", Saved(m))]
               + (if hasAck then [Emission(Ack, "ack", Saved(m))] else []))
        case _ => (db, Failure(hasAck))
  }

  /** `chat:message` as the handler is written: a payload that fails the guard is ignored,
      anything else is delivered. */
  function OnMessage(db: Db, s: Session, payload: Js.Value, hasAck: bool, persistence: ChatRoutes.Persistence, now: int): (r: (Db, seq<Emission>))
    ensures !Accepted(payload) ==> r == (db, [])
    ensures Accepted(payload) ==> r == Deliver(db, s, Body(payload), hasAck, persistence, now)
  {
    if !Accepted(payload) then (db, [])
    else Deliver(db, s, Body(payload), hasAck, persistence, now)
  }

  /** The message store is not imported by the server, so `createMessage` is an unbound name
      and every accepted message ends in the failure branch with nothing stored. */
  lemma MessageNeverStored(db: Db, s: Session, payload: Js.Value, hasAck: bool, now: int)
    ensures var (db1, out) := OnMessage(db, s, payload, hasAck, ChatRoutes.CreateFailed, now);
      && db1 == db
      && (out == [] <==> !Accepted(payload))
      && (Accepted(payload) ==> out == Failure(hasAck))
  {
  }

  /** Once the store is bound, a message of white space alone passes the guard and is stored
      with empty text and no attachments. */
  lemma BlankMessageStored(db: Db, s: Session, now: int)
    ensures var payload := Js.Obj(map["conversationId" := Js.Str("c1"), "text" := Js.Str(" ")]);
      var db1 := OnMessage(db, s, payload, false, ChatRoutes.Stored, now).0;
      && Accepted(payload)
      && |db1.messages| == |db.messages| + 1
      && db1.messages[|db.messages|].text == Some("")
      && db1.messages[|db.messages|].attachments == []
  {
    var payload := Js.Obj(map["conversationId" := Js.Str("c1"), "text" := Js.Str(" ")]);
    BlankPayload(payload);
    var b := Body(payload);
    var r := Deliver(db, s, b, false, ChatRoutes.Stored, now);
    assert OnMessage(db, s, payload, false, ChatRoutes.Stored, now) == r;
    assert ChatRoutes.AttachmentsOf(Js.Get(b, "attachments")) == Some([]);
    assert ChatRoutes.TextOf(Js.Str("")) == Some(Some(""));
  }

  lemma BlankPayload(payload: Js.Value)
    requires payload == Js.Obj(map["conversationId" := Js.Str("c1"), "text" := Js.Str(" ")])
    ensures Accepted(payload) && Body(payload) == payload
    ensures Js.Get(payload, "attachments") == Js.Undefined
    ensures TrimmedText(Js.Get(payload, "text")) == Some(Js.Str(""))
  {
    assert Js.Get(payload, "text") == Js.Str(" ");
    assert Js.Get(payload, "conversationId") == Js.Str("c1");
    assert Strings.AllSpace(" ");
  }

  /** The guard judged on the trimmed text, as the route for sending over HTTP judges the
      text it stores. */
  predicate AcceptedTrimmed(payload: Js.Value) {
    var b := Body(payload);
    && Js.Truthy(Js.Get(b, "conversationId"))
    && match TrimmedText(Js.Get(b, "text"))
       case None => true
       case Some(t) => ChatRoutes.HasContent(t, Js.Get(b, "attachments"))
  }

  /** `chat:message` with the guard applied to the trimmed text. */
  function OnMessageTrimmed(db: Db, s: Session, payload: Js.Value, hasAck: bool, persistence: ChatRoutes.Persistence, now: int): (r: (Db, seq<Emission>))
    ensures !AcceptedTrimmed(payload) ==> r == (db, [])
    ensures AcceptedTrimmed(payload) ==> r == Deliver(db, s, Body(payload), hasAck, persistence, now)
    ensures |r.0.messages| > |db.messages| ==>
      var m := r.0.messages[|db.messages|];
      m.text.Some? && (m.text.value != "" || Js.Truthy(ChatRoutes.LengthOf(Js.Get(Body(payload), "attachments"))))
  {
    if !AcceptedTrimmed(payload) then (db, [])
    else Deliver(db, s, Body(payload), hasAck, persistence, now)
  }

  /** Every message the trimmed guard lets through to the store has text or attachments, and
      the trimmed guard refuses nothing the written one accepts except text that is blank or
      not a string at all. */
  lemma TrimmedGuardNarrows(payload: Js.Value)
    ensures AcceptedTrimmed(payload) ==> Accepted(payload)
    ensures Accepted(payload) && !AcceptedTrimmed(payload) ==>
      var t := Js.Get(Body(payload), "text");
      Js.Truthy(t) && (t.Str? ==> Strings.Trim(t.s) == "")
  {
    var b := Body(payload);
    var t := Js.Get(b, "text");
    if t.Str? && Strings.Trim(t.s) != "" {
      assert t.s != "";
    }
  }

  /** With the store bound and text already trimmed, the socket stores exactly what
      `POST /chat/:id/send` stores for the same body. */
  lemma SocketMatchesRoute(db: Db, s: Session, payload: Js.Value, now: int)
    requires Accepted(payload) && payload.Obj?
    requires var t := Js.Get(payload, "text"); t.Str? && Strings.Trim(t.s) == t.s
    ensures OnMessage(db, s, payload, false, ChatRoutes.Stored, now).0
         == ChatRoutes.Send(db, ChatRoutes.IdOf(Js.Get(payload, "conversationId")), s.user, payload,
                            ChatRoutes.Stored, now).0
  {
    assert Body(payload) == payload;
    var (cid, t) := (Js.Get(payload, "conversationId"), Js.Get(payload, "text"));
    assert TrimmedText(t) == Some(t);
    assert ChatRoutes.TextOf(t) == Some(Some(t.s));
    match ChatRoutes.AttachmentsOf(Js.Get(payload, "attachments"))
    case None =>
    case Some(a) =>
      DeliverStored(db, s, payload, now, a);
      ChatRoutes.SendStored(db, ChatRoutes.IdOf(cid), s.user, payload, now, Some(t.s), a);
  }

  /** A stored delivery of a string text and attachments that cast is the message's creation
      followed by the touch. */
  lemma DeliverStored(db: Db, s: Session, b: Js.Value, now: int, a: seq<Attachment>)
    requires Js.Get(b, "text").Str?
    requires ChatRoutes.AttachmentsOf(Js.Get(b, "attachments")) == Some(a)
    ensures var text := Strings.Trim(Js.Get(b, "text").s);
      var cid := ChatRoutes.IdOf(Js.Get(b, "conversationId"));
      var (db1, m) := CreateMessage(db, cid, s.user, Some(text), a, now);
      Deliver(db, s, b, false, ChatRoutes.Stored, now).0 == Touch(db1, cid, m, now)
  {
    var text := Strings.Trim(Js.Get(b, "text").s);
    var cid := ChatRoutes.IdOf(Js.Get(b, "conversationId"));
    assert TrimmedText(Js.Get(b, "text")) == Some(Js.Str(text));
    assert ChatRoutes.TextOf(Js.Str(text)) == Some(Some(text));
    var (db1, m) := CreateMessage(db, cid, s.user, Some(text), a, now);
    assert Deliver(db, s, b, false, ChatRoutes.Stored, now).0 == Touch(db1, cid, m, now);
  }

  /** The body of the `chat:read` handler: the time read is `at` when given, otherwise now; when `markRead` is bound
      the user's counter is cleared; the others in the room then learn the time, unless it is
      not a valid date, in which case formatting it throws and nothing is sent. */
  function ReadReceipt(db: Db, s: Session, payload: Js.Value, markReadBound: bool,
                  parseDate: Js.Value -> Option<int>, now: int): (r: (Db, seq<Emission>))
    ensures !markReadBound ==> r.0 == db
    ensures |r.1| <= 1
    ensures var cid := Js.Get(payload, "conversationId");
      !Js.Truthy(cid) ==> r == (db, [])
    ensures var (cid, at) := (Js.Get(payload, "conversationId"), Js.Get(payload, "at"));
      Js.Truthy(cid) ==>
        && (|r.1| == 1 <==> !Js.Truthy(at) || parseDate(at).Some?)
        && (|r.1| == 1 ==> r.1[0] == Emission(Others(RoomOf(cid)), "chat:read",
              ReadNotice(cid, s.user, if Js.Truthy(at) then parseDate(at).value else now)))
    ensures var cid := Js.Get(payload, "conversationId");
      markReadBound && Js.Truthy(cid)
      && IndexOf(db.conversations, ChatRoutes.IdOf(cid)).Some? ==>
        var k := IndexOf(db.conversations, ChatRoutes.IdOf(cid)).value;
        k < |r.0.conversations| && Unread(r.0.conversations[k].unread, s.user) == 0
  {
    var cid := Js.Get(payload, "conversationId");
    var at := Js.Get(payload, "at");
    if !Js.Truthy(cid) then (db, [])
    else
      var readAt := if Js.Truthy(at) then parseDate(at) else Some(now);
      var stamp := if readAt.Some? then Js.Num(readAt.value) else Js.NaN;
      var db1 := if markReadBound then MarkRead(db, ChatRoutes.IdOf(cid), s.user, stamp, now).0 else db;
      match readAt
      case None => (db1, [])
      case Some(t) => (db1, [Emission(Others(RoomOf(cid)), "chat:read", ReadNotice(cid, s.user, t))])
  }

  /** `chat:read` as dispatched: the parameter is destructured before the handler's `try`,
      so a null or missing payload rejects a promise nobody handles and ends the process. */
  function OnRead(db: Db, s: Session, payload: Js.Value, markReadBound: bool,
                  parseDate: Js.Value -> Option<int>, now: int): (r: Outcome<(Db, seq<Emission>)>)
    ensures r.Crashed? <==> Js.IsNullish(payload)
    ensures r.Handled? ==> r.value == ReadReceipt(db, s, payload, markReadBound, parseDate, now)
  {
    if Js.IsNullish(payload) then Crashed
    else Handled(ReadReceipt(db, s, payload, markReadBound, parseDate, now))
  }

  /** As written, any of the four destructuring handlers given a null or missing payload
      ends the process. */
  lemma EmptyEventCrashes(db: Db, s: Session, payload: Js.Value, parseDate: Js.Value -> Option<int>, now: int)
    requires Js.IsNullish(payload)
    ensures OnJoin(s, payload) == Crashed && OnLeave(s, payload) == Crashed
    ensures OnTyping(s, payload) == Crashed
    ensures OnRead(db, s, payload, true, parseDate, now) == Crashed
  {
  }

  /** The handler bodies, reached through `payload || {}` as `chat:message` does, ignore a
      null or missing payload and change nothing. */
  lemma GuardedIgnoresEmpty(db: Db, s: Session, payload: Js.Value, markReadBound: bool,
                            parseDate: Js.Value -> Option<int>, now: int)
    requires Js.IsNullish(payload)
    ensures JoinRoom(s, Body(payload)) == (s, []) && LeaveRoom(s, Body(payload)) == s
    ensures Typing(s, Body(payload)) == []
    ensures ReadReceipt(db, s, Body(payload), markReadBound, parseDate, now) == (db, [])
  {
    assert Js.Get(Body(payload), "conversationId") == Js.Undefined;
  }

  /** `markRead` is not imported either, so a read receipt reaches the others but no counter
      is ever cleared. */
  lemma ReadNeverPersisted(db: Db, s: Session, payload: Js.Value, parseDate: Js.Value -> Option<int>, now: int)
    ensures ReadReceipt(db, s, payload, false, parseDate, now).0 == db
    ensures ReadReceipt(db, s, payload, false, parseDate, now).1 == ReadReceipt(db, s, payload, true, parseDate, now).1
  {
  }
}

=== FILE: sorting.dfy ===
/** The `sort({field: -1}).limit(n)` pipeline the chat routes ask the store for, and the
    `reverse()` applied to a page of messages. The key is the timestamp being sorted on. */
module Sorting {

  ghost predicate SortedDesc<T>(s: seq<T>, key: T -> int) {
    forall i, j :: 0 <= i < j < |s| ==> key(s[i]) >= key(s[j])
  }

  ghost predicate SortedAsc<T>(s: seq<T>, key: T -> int) {
    forall i, j :: 0 <= i < j < |s| ==> key(s[i]) <= key(s[j])
  }

  /** Places `x` in front of the first element whose key is not larger. */
  function Insert<T(==)>(x: T, s: seq<T>, key: T -> int): (r: seq<T>)
    requires SortedDesc(s, key)
    ensures SortedDesc(r, key)
    ensures multiset(r) == multiset(s) + multiset{x}
    ensures |r| == |s| + 1
    decreases |s|
  {
    if |s| == 0 then [x]
    else if key(x) >= key(s[0]) then [x] + s
    else
      var t := Insert(x, s[1..], key);
      assert s == [s[0]] + s[1..];
      HeadBoundsRest(s, x, t, key);
      [s[0]] + t
  }

  /** What `Insert` places after the head of `s` has keys no larger than the head's. */
  lemma HeadBoundsRest<T>(s: seq<T>, x: T, t: seq<T>, key: T -> int)
    requires SortedDesc(s, key) && |s| > 0 && key(x) < key(s[0])
    requires multiset(t) == multiset(s[1..]) + multiset{x}
    ensures forall k :: 0 <= k < |t| ==> key(s[0]) >= key(t[k])
  {
    forall k | 0 <= k < |t|
      ensures key(s[0]) >= key(t[k])
    {
      assert t[k] in multiset(t);
      if t[k] != x {
        assert t[k] in multiset(s[1..]);
        var m :| 0 <= m < |s[1..]| && s[1..][m] == t[k];
        assert s[m + 1] == t[k];
      }
    }
  }

  /** The elements of `s`, largest key first. */
  function SortDesc<T(==)>(s: seq<T>, key: T -> int): (r: seq<T>)
    ensures SortedDesc(r, key)
    ensures multiset(r) == multiset(s)
    ensures |r| == |s|
    decreases |s|
  {
    if |s| == 0 then []
    else
      assert s == [s[0]] + s[1..];
      Insert(s[0], SortDesc(s[1..], key), key)
  }

  /** `limit(n)`: the first `n` elements, or all of them when there are fewer. */
  function Take<T>(s: seq<T>, n: nat): (r: seq<T>)
    ensures |r| <= n && |r| <= |s|
    ensures |r| == if |s| <= n then |s| else n
    ensures |s| <= n ==> r == s
    ensures r == s[..|r|]
  {
    if |s| <= n then s else s[..n]
  }

  /** The `n` largest keys: sorted, `n` long or all of `s` when it is shorter, drawn from
      `s`, and no element of `s` that was left out has a larger key than one that was kept. */
  lemma TopKeepsLargest<T>(s: seq<T>, key: T -> int, n: nat)
    ensures var r := Take(SortDesc(s, key), n);
      && SortedDesc(r, key) && |r| <= n
      && |r| == (if |s| <= n then |s| else n)
      && multiset(r) <= multiset(s)
      && (|s| <= n ==> multiset(r) == multiset(s))
      && forall x, y :: x in multiset(s) - multiset(r) && y in r ==> key(x) <= key(y)
  {
    var sorted := SortDesc(s, key);
    var r := Take(sorted, n);
    var rest := sorted[|r|..];
    assert sorted == r + rest;
    assert multiset(s) - multiset(r) == multiset(rest);
    PrefixSorted(sorted, |r|, key);
    SplitOrdered(sorted, |r|, key);
  }

  lemma PrefixSorted<T>(s: seq<T>, k: nat, key: T -> int)
    requires SortedDesc(s, key) && k <= |s|
    ensures SortedDesc(s[..k], key)
  {
    forall i, j | 0 <= i < j < k
      ensures key(s[..k][i]) >= key(s[..k][j])
    {
      assert s[..k][i] == s[i] && s[..k][j] == s[j];
    }
  }

  /** In a descending sequence nothing after position `k` has a larger key than anything
      before it. */
  lemma SplitOrdered<T>(s: seq<T>, k: nat, key: T -> int)
    requires SortedDesc(s, key) && k <= |s|
    ensures forall x, y :: x in multiset(s[k..]) && y in s[..k] ==> key(x) <= key(y)
  {
    forall x, y | x in multiset(s[k..]) && y in s[..k]
      ensures key(x) <= key(y)
    {
      assert x in s[k..];
      var i :| 0 <= i < |s[k..]| && s[k..][i] == x;
      var j :| 0 <= j < k && s[..k][j] == y;
      assert s[k + i] == x && s[j] == y;
    }
  }

  function Reverse<T>(s: seq<T>): (r: seq<T>)
    ensures |r| == |s|
    ensures forall i :: 0 <= i < |s| ==> r[i] == s[|s| - 1 - i]
    decreases |s|
  {
    if |s| == 0 then [] else Reverse(s[1..]) + [s[0]]
  }

  /** `reverse()` turns a newest-first page into an oldest-first one with the same contents. */
  lemma ReverseAscending<T>(s: seq<T>, key: T -> int)
    requires SortedDesc(s, key)
    ensures SortedAsc(Reverse(s), key)
    ensures multiset(Reverse(s)) == multiset(s)
  {
    var r := Reverse(s);
    forall i, j | 0 <= i < j < |r|
      ensures key(r[i]) <= key(r[j])
    {
      assert r[i] == s[|s| - 1 - i] && r[j] == s[|s| - 1 - j];
    }
    ReverseMultiset(s);
  }

  /** A newest-first page turned oldest-first: sorted ascending, `n` long or all of `s` when
      it is shorter, drawn from `s`, and holding the `n` largest keys: nothing left out has a
      larger key than anything on the page. */
  lemma OldestFirstPage<T>(s: seq<T>, key: T -> int, n: nat)
    ensures var r := Reverse(Take(SortDesc(s, key), n));
      && |r| <= n && |r| == (if |s| <= n then |s| else n) && SortedAsc(r, key)
      && multiset(r) <= multiset(s)
      && (forall x :: x in r ==> x in multiset(s))
      && forall x, y :: x in multiset(s) - multiset(r) && y in r ==> key(x) <= key(y)
  {
    var top := Take(SortDesc(s, key), n);
    TopKeepsLargest(s, key, n);
    ReverseAscending(top, key);
    forall x | x in Reverse(top)
      ensures x in multiset(s) && x in top
    {
      assert x in multiset(Reverse(top));
      assert x in multiset(top);
    }
  }

  lemma {:induction false} ReverseMultiset<T>(s: seq<T>)
    ensures multiset(Reverse(s)) == multiset(s)
    decreases |s|
  {
    if |s| > 0 {
      ReverseMultiset(s[1..]);
      assert s == [s[0]] + s[1..];
    }
  }
}

=== FILE: strings.dfy ===
/** String helpers with the meaning JavaScript gives them: whitespace as matched by `\s` and
    removed by `String.prototype.trim`, ASCII case folding, `split` on one character, decimal
    digits as matched by `\d`, and integer <-> decimal text. */
module Strings {
  import opened Wrappers

  /** White space and line terminators: the characters `\s` matches and `trim` removes. */
  predicate IsSpace(c: char) {
    || c == ' ' || c == '\t' || c == '\n' || c == '\r' || c == '\U{000B}' || c == '\U{000C}'
    || c == '\U{00A0}' || c == '\U{1680}' || ('\U{2000}' <= c <= '\U{200A}')
    || c == '\U{2028}' || c == '\U{2029}' || c == '\U{202F}' || c == '\U{205F}' || c == '\U{3000}'
    || c == '\U{FEFF}'
  }

  predicate NoSpace(s: string) {
    forall i :: 0 <= i < |s| ==> !IsSpace(s[i])
  }

  predicate AllSpace(s: string) {
    forall i :: 0 <= i < |s| ==> IsSpace(s[i])
  }

  /** `\d`: the ten ASCII decimal digits and nothing else. */
  predicate IsDigit(c: char) {
    '0' <= c <= '9'
  }

  /* ---------------- trimming ---------------- */

  function TrimStart(s: string): (r: string)
    ensures |r| <= |s| && r == s[|s| - |r|..]
    ensures AllSpace(s[..|s| - |r|])
    ensures |r| > 0 ==> !IsSpace(r[0])
    decreases |s|
  {
    if |s| > 0 && IsSpace(s[0]) then TrimStart(s[1..]) else s
  }

  function TrimEnd(s: string): (r: string)
    ensures |r| <= |s| && r == s[..|r|]
    ensures AllSpace(s[|r|..])
    ensures |r| > 0 ==> !IsSpace(r[|r| - 1])
    decreases |s|
  {
    if |s| > 0 && IsSpace(s[|s| - 1]) then TrimEnd(s[..|s| - 1]) else s
  }

  /** `s.trim()`: the longest slice of `s` that neither starts nor ends with white space. */
  function Trim(s: string): (r: string)
    ensures |r| <= |s|
    ensures |r| > 0 ==> !IsSpace(r[0]) && !IsSpace(r[|r| - 1])
    ensures r == [] <==> AllSpace(s)
  {
    var t := TrimStart(s);
    var r := TrimEnd(t);
    assert |r| > 0 ==> r[0] == t[0];
    TrimStartAllSpace(s);
    TrimEndEmpty(t);
    r
  }

  lemma TrimStartAllSpace(s: string)
    ensures TrimStart(s) == [] <==> AllSpace(s)
  {
    var t := TrimStart(s);
    if |t| > 0 {
      assert t[0] == s[|s| - |t|];
    } else {
      assert s[..|s|] == s;
    }
  }

  lemma TrimEndEmpty(t: string)
    requires |t| > 0 ==> !IsSpace(t[0])
    ensures TrimEnd(t) == [] <==> t == []
  {
  }

  /** Trimming twice is trimming once. */
  lemma TrimIdempotent(s: string)
    ensures Trim(Trim(s)) == Trim(s)
  {
    var r := Trim(s);
    if |r| > 0 {
      assert TrimStart(r) == r;
      assert TrimEnd(r) == r;
    }
  }

  /** A string with no white space at either end is its own trim. */
  lemma TrimOfTrimmed(s: string)
    requires |s| > 0 ==> !IsSpace(s[0]) && !IsSpace(s[|s| - 1])
    ensures Trim(s) == s
  {
    assert TrimStart(s) == s;
    assert TrimEnd(s) == s;
  }

  /* ---------------- case ---------------- */

  function ToLowerChar(c: char): (r: char)
    ensures 'A' <= c <= 'Z' ==> r as int == c as int + 32
    ensures !('A' <= c <= 'Z') ==> r == c
  {
    if 'A' <= c <= 'Z' then (c as int + 32) as char else c
  }

  /** `s.toLowerCase()` restricted to ASCII letters. */
  function ToLower(s: string): (r: string)
    ensures |r| == |s|
    ensures forall i :: 0 <= i < |s| ==> r[i] == ToLowerChar(s[i])
  {
    seq(|s|, i requires 0 <= i < |s| => ToLowerChar(s[i]))
  }

  lemma ToLowerIdempotent(s: string)
    ensures ToLower(ToLower(s)) == ToLower(s)
  {
  }

  /** Text without upper-case letters is already lower-case. */
  lemma ToLowerOfLower(s: string)
    requires forall i :: 0 <= i < |s| ==> !('A' <= s[i] <= 'Z')
    ensures ToLower(s) == s
  {
  }

  /** Lower-casing leaves white space alone, so it commutes with trimming. */
  lemma ToLowerTrimCommute(s: string)
    ensures ToLower(Trim(s)) == Trim(ToLower(s))
  {
    LowerTrimStart(s);
    LowerTrimEnd(TrimStart(s));
  }

  /** Lower-casing maps white space to itself and nothing else to white space. */
  lemma LowerSpace(c: char)
    ensures IsSpace(ToLowerChar(c)) == IsSpace(c)
  {
  }

  lemma {:induction false} LowerTrimStart(s: string)
    ensures ToLower(TrimStart(s)) == TrimStart(ToLower(s))
    decreases |s|
  {
    if |s| > 0 {
      var l := ToLower(s);
      assert l[1..] == ToLower(s[1..]);
      LowerSpace(s[0]);
      if IsSpace(s[0]) {
        LowerTrimStart(s[1..]);
        assert TrimStart(l) == TrimStart(l[1..]);
      } else {
        assert TrimStart(l) == l;
      }
    }
  }

  lemma {:induction false} LowerTrimEnd(s: string)
    ensures ToLower(TrimEnd(s)) == TrimEnd(ToLower(s))
    decreases |s|
  {
    if |s| > 0 {
      var l := ToLower(s);
      assert l[..|s| - 1] == ToLower(s[..|s| - 1]);
      LowerSpace(s[|s| - 1]);
      if IsSpace(s[|s| - 1]) {
        LowerTrimEnd(s[..|s| - 1]);
        assert TrimEnd(l) == TrimEnd(l[..|s| - 1]);
      } else {
        assert TrimEnd(l) == l;
      }
    }
  }

  predicate EqualsIgnoreCase(a: string, b: string) {
    ToLower(a) == ToLower(b)
  }

  /* ---------------- prefixes and suffixes ---------------- */

  predicate StartsWith(s: string, p: string) {
    |p| <= |s| && s[..|p|] == p
  }

  predicate EndsWith(s: string, p: string) {
    |p| <= |s| && s[|s| - |p|..] == p
  }

  /* ---------------- lengths ---------------- */

  /** `s.length` in JavaScript counts UTF-16 code units: a character outside the Basic
      Multilingual Plane counts twice. */
  function JsLength(s: string): (n: nat)
    ensures |s| <= n <= 2 * |s|
  {
    if |s| == 0 then 0 else (if s[0] as int >= 0x10000 then 2 else 1) + JsLength(s[1..])
  }

  /* ---------------- digits ---------------- */

  /** `String(v).replace(/\D/g, "")`: the decimal digits of `s`, in order. */
  function DigitsOnly(s: string): (r: string)
    ensures forall i :: 0 <= i < |r| ==> IsDigit(r[i])
    ensures |r| <= |s|
  {
    if |s| == 0 then "" else (if IsDigit(s[0]) then [s[0]] else "") + DigitsOnly(s[1..])
  }

  /** Keeping the digits distributes over concatenation, which is what "in order" means. */
  lemma {:induction false} DigitsOnlyConcat(a: string, b: string)
    ensures DigitsOnly(a + b) == DigitsOnly(a) + DigitsOnly(b)
    decreases |a|
  {
    if |a| == 0 {
      assert a + b == b;
    } else {
      assert (a + b)[1..] == a[1..] + b;
      DigitsOnlyConcat(a[1..], b);
    }
  }

  /** A string is left unchanged exactly when it is all digits. */
  lemma {:induction false} DigitsOnlyFixpoint(s: string)
    ensures DigitsOnly(s) == s <==> forall i :: 0 <= i < |s| ==> IsDigit(s[i])
    decreases |s|
  {
    if |s| > 0 {
      DigitsOnlyFixpoint(s[1..]);
      if !IsDigit(s[0]) {
        assert |DigitsOnly(s)| <= |s[1..]|;
      } else if DigitsOnly(s) == s {
        assert DigitsOnly(s[1..]) == s[1..];
      }
    }
  }

  /** Each digit occurs as often in the result as in the input; no other character occurs. */
  lemma {:induction false} DigitsOnlyCounts(s: string, c: char)
    ensures multiset(DigitsOnly(s))[c] == if IsDigit(c) then multiset(s)[c] else 0
    decreases |s|
  {
    if |s| > 0 {
      DigitsOnlyCounts(s[1..], c);
      assert s == [s[0]] + s[1..];
    }
  }

  function DigitChar(d: nat): (c: char)
    requires d < 10
    ensures IsDigit(c) && c as int - '0' as int == d
  {
    "0123456789"[d]
  }

  function DigitValue(c: char): (d: nat)
    requires IsDigit(c)
    ensures d < 10 && DigitChar(d) == c
  {
    c as int - '0' as int
  }

  /** Decimal text of a natural number, without leading zeros. */
  function NatToString(n: nat): (r: string)
    ensures |r| > 0
    ensures forall i :: 0 <= i < |r| ==> IsDigit(r[i])
    ensures r[0] == '0' ==> n == 0
    decreases n
  {
    if n < 10 then [DigitChar(n)] else NatToString(n / 10) + [DigitChar(n % 10)]
  }

  /** `String(i)` for an integer. */
  function IntToString(i: int): (r: string)
    ensures |r| > 0
  {
    if i < 0 then "-" + NatToString(-i) else NatToString(i)
  }

  /** The value of a non-empty run of decimal digits (leading zeros allowed). */
  function ParseNat(s: string): (r: Option<nat>)
    ensures r.Some? <==> |s| > 0 && forall i :: 0 <= i < |s| ==> IsDigit(s[i])
    decreases |s|
  {
    if |s| == 0 || !IsDigit(s[|s| - 1]) then None
    else if |s| == 1 then Some(DigitValue(s[0]))
    else match ParseNat(s[..|s| - 1])
      case None => None
      case Some(p) => Some(p * 10 + DigitValue(s[|s| - 1]))
  }

  lemma {:induction false} ParseNatToString(n: nat)
    ensures ParseNat(NatToString(n)) == Some(n)
    decreases n
  {
    if n >= 10 {
      var s := NatToString(n);
      assert s[..|s| - 1] == NatToString(n / 10);
      ParseNatToString(n / 10);
    }
  }

  /** Distinct numbers have distinct decimal texts. */
  lemma NatToStringInjective(a: nat, b: nat)
    requires NatToString(a) == NatToString(b)
    ensures a == b
  {
    ParseNatToString(a);
    ParseNatToString(b);
  }

  /** An optional sign followed by decimal digits, the integer subset of `Number(text)`. */
  function ParseInt(s: string): (r: Option<int>)
  {
    if |s| > 0 && s[0] == '-' then
      match ParseNat(s[1..]) case Some(n) => Some(0 - n) case None => None
    else if |s| > 0 && s[0] == '+' then
      match ParseNat(s[1..]) case Some(n) => Some(n as int) case None => None
    else
      match ParseNat(s) case Some(n) => Some(n as int) case None => None
  }

  lemma ParseIntToString(i: int)
    ensures ParseInt(IntToString(i)) == Some(i)
  {
    if i < 0 {
      var t := NatToString(-i);
      assert IntToString(i) == "-" + t;
      assert ("-" + t)[1..] == t;
      ParseNatToString(-i);
    } else {
      var t := NatToString(i);
      ParseNatToString(i);
      assert t[0] != '-' && t[0] != '+';
    }
  }

  /* ---------------- split and join ---------------- */

  /** `s.split(sep)` for a one-character separator: the pieces between separators, one more
      piece than there are separators, none of them containing the separator. */
  function Split(s: string, sep: char): (r: seq<string>)
    ensures |r| >= 1
    ensures forall i :: 0 <= i < |r| ==> sep !in r[i]
    decreases |s|
  {
    if |s| == 0 then [""]
    else
      var rest := Split(s[1..], sep);
      if s[0] == sep then [""] + rest else [[s[0]] + rest[0]] + rest[1..]
  }

  /** `parts.join(sep)`. */
  function Join(parts: seq<string>, sep: char): string
    decreases |parts|
  {
    if |parts| == 0 then ""
    else if |parts| == 1 then parts[0]
    else parts[0] + [sep] + Join(parts[1..], sep)
  }

  /** Joining the pieces back with the separator gives the original string. */
  lemma {:induction false} JoinSplit(s: string, sep: char)
    ensures Join(Split(s, sep), sep) == s
    decreases |s|
  {
    if |s| > 0 {
      var rest := Split(s[1..], sep);
      JoinSplit(s[1..], sep);
      if s[0] == sep {
        assert Split(s, sep) == [""] + rest;
      } else if |rest| == 1 {
        assert Join(Split(s, sep), sep) == [s[0]] + rest[0];
      } else {
        assert Split(s, sep)[1..] == rest[1..];
        assert Join(rest, sep) == rest[0] + [sep] + Join(rest[1..], sep);
      }
    }
  }
}

=== FILE: uri.dfy ===
/** `encodeURIComponent` and `decodeURIComponent` as ECMAScript defines them: every character
    outside the unreserved set of section 2.3 of RFC 3986 (plus `!~*'()`) is written as the
    percent-encoded octets (section 2.1 of RFC 3986) of its UTF-8 encoding, and decoding
    rejects malformed escapes and octet sequences that are not valid UTF-8. */
module Uri {
  import opened Wrappers

  /** The characters `encodeURIComponent` copies unchanged. */
  predicate IsUnreserved(c: char) {
    || ('A' <= c <= 'Z') || ('a' <= c <= 'z') || ('0' <= c <= '9')
    || c == '-' || c == '_' || c == '.' || c == '!' || c == '~' || c == '*' || c == '\''
    || c == '(' || c == ')'
  }

  /** Every character of an encoded string is unreserved or a `%`. */
  predicate IsUriSafe(s: string) {
    forall i :: 0 <= i < |s| ==> IsUnreserved(s[i]) || s[i] == '%'
  }

  predicate IsByte(b: int) {
    0 <= b < 256
  }

  function HexDigit(d: nat): (c: char)
    requires d < 16
    ensures IsUnreserved(c)
  {
    if d < 10 then ('0' as int + d) as char else ('A' as int + d - 10) as char
  }

  function HexValue(c: char): (r: Option<nat>)
    ensures r.Some? ==> r.value < 16
  {
    if '0' <= c <= '9' then Some(c as int - '0' as int)
    else if 'A' <= c <= 'F' then Some(c as int - 'A' as int + 10)
    else if 'a' <= c <= 'f' then Some(c as int - 'a' as int + 10)
    else None
  }

  lemma HexRoundTrip(d: nat)
    requires d < 16
    ensures HexValue(HexDigit(d)) == Some(d)
  {
  }

  /** The quotient of `n` by `d`, by repeated subtraction. */
  function Quot(n: nat, d: nat): (q: nat)
    requires d > 0
    ensures d * q <= n < d * q + d
    decreases n
  {
    if n < d then 0 else 1 + Quot(n - d, d)
  }

  /** `%XX` with upper-case hexadecimal digits. */
  function EscapeByte(b: int): (r: string)
    requires IsByte(b)
    ensures |r| == 3 && r[0] == '%'
  {
    ['%', HexDigit(Quot(b, 16)), HexDigit(b - 16 * Quot(b, 16))]
  }

  function EscapeBytes(bs: seq<int>): (r: string)
    requires forall i :: 0 <= i < |bs| ==> IsByte(bs[i])
    ensures |r| == 3 * |bs|
    ensures |bs| > 0 ==> r[0] == '%'
  {
    if |bs| == 0 then "" else EscapeByte(bs[0]) + EscapeBytes(bs[1..])
  }

  /* ---------------- UTF-8 ---------------- */

  /** The UTF-8 octets of one character: its code point cut into six-bit groups. */
  function Utf8(c: char): (bs: seq<int>)
    ensures 1 <= |bs| <= 4
    ensures forall i :: 0 <= i < |bs| ==> IsByte(bs[i])
  {
    var n := c as int;
    var q1 := Quot(n, 64);
    var q2 := Quot(q1, 64);
    var q3 := Quot(q2, 64);
    if n < 0x80 then [n]
    else if n < 0x800 then [0xC0 + q1, 0x80 + (n - 64 * q1)]
    else if n < 0x10000 then [0xE0 + q2, 0x80 + (q1 - 64 * q2), 0x80 + (n - 64 * q1)]
    else [0xF0 + q3, 0x80 + (q2 - 64 * q3), 0x80 + (q1 - 64 * q2), 0x80 + (n - 64 * q1)]
  }

  /* ---------------- encoding ---------------- */

  function EncodeChar(c: char): (r: string)
    ensures |r| > 0
    ensures IsUnreserved(c) ==> r == [c]
    ensures !IsUnreserved(c) ==> r[0] == '%'
  {
    if IsUnreserved(c) then [c] else EscapeBytes(Utf8(c))
  }

  /** `encodeURIComponent(s)`. */
  function Encode(s: string): (r: string)
    ensures |r| >= |s|
  {
    if |s| == 0 then "" else EncodeChar(s[0]) + Encode(s[1..])
  }

  /** A string of unreserved characters (a hexadecimal token, say) is its own encoding. */
  lemma {:induction false} EncodeUnreserved(s: string)
    requires forall i :: 0 <= i < |s| ==> IsUnreserved(s[i])
    ensures Encode(s) == s
    decreases |s|
  {
    if |s| > 0 {
      EncodeUnreserved(s[1..]);
    }
  }

  lemma {:induction false} EscapeBytesSafe(bs: seq<int>)
    requires forall i :: 0 <= i < |bs| ==> IsByte(bs[i])
    ensures IsUriSafe(EscapeBytes(bs))
    decreases |bs|
  {
    if |bs| > 0 {
      var h := EscapeByte(bs[0]);
      EscapeBytesSafe(bs[1..]);
      assert IsUriSafe(h) by {
        assert h[1] == HexDigit(Quot(bs[0], 16)) && h[2] == HexDigit(bs[0] - 16 * Quot(bs[0], 16));
      }
    }
  }

  /** `encodeURIComponent` output holds only unreserved characters and `%`. */
  lemma {:induction false} EncodeSafe(s: string)
    ensures IsUriSafe(Encode(s))
    decreases |s|
  {
    if |s| > 0 {
      EncodeSafe(s[1..]);
      if !IsUnreserved(s[0]) {
        EscapeBytesSafe(Utf8(s[0]));
      }
    }
  }

  /* ---------------- decoding ---------------- */

  /** The octet written as `%XX` at position `i` of `s`, if that is what stands there. */
  function ByteAt(s: string, i: nat): (r: Option<int>)
    ensures r.Some? ==> IsByte(r.value) && i + 3 <= |s| && s[i] == '%'
  {
    if i + 3 <= |s| && s[i] == '%' then
      match HexValue(s[i + 1])
      case None => None
      case Some(h) =>
        match HexValue(s[i + 2])
        case None => None
        case Some(l) => Some(16 * h + l)
    else None
  }

  /** The six payload bits of a continuation octet `10xxxxxx` written at position `i`. */
  function ContinuationAt(s: string, i: nat): (r: Option<int>)
    ensures r.Some? ==> 0 <= r.value < 64 && i + 3 <= |s|
  {
    match ByteAt(s, i)
    case None => None
    case Some(b) => if 0x80 <= b < 0xC0 then Some(b - 0x80) else None
  }

  predicate IsScalar(cp: int) {
    (0 <= cp < 0xD800) || (0xE000 <= cp <= 0x10FFFF)
  }

  /** Decodes the escape group at the start of `s`: the escaped octets of one UTF-8 encoded
      character. Returns the character and how many characters of `s` it spans. Overlong
      forms, surrogates and code points above U+10FFFF are rejected. */
  function DecodeGroup(s: string): (r: Option<(char, nat)>)
    ensures r.Some? ==> 3 <= r.value.1 <= |s|
  {
    match ByteAt(s, 0)
    case None => None
    case Some(b) =>
      if b < 0x80 then Some((b as char, 3))
      else if 0xC0 <= b < 0xE0 then
        match ContinuationAt(s, 3)
        case None => None
        case Some(c1) =>
          var cp := (b - 0xC0) * 64 + c1;
          if cp < 0x80 then None else Some((cp as char, 6))
      else if 0xE0 <= b < 0xF0 then
        match ContinuationAt(s, 3)
        case None => None
        case Some(c1) =>
          match ContinuationAt(s, 6)
          case None => None
          case Some(c2) =>
            var cp := (b - 0xE0) * 4096 + c1 * 64 + c2;
            if cp < 0x800 || !IsScalar(cp) then None else Some((cp as char, 9))
      else if 0xF0 <= b < 0xF8 then
        match ContinuationAt(s, 3)
        case None => None
        case Some(c1) =>
          match ContinuationAt(s, 6)
          case None => None
          case Some(c2) =>
            match ContinuationAt(s, 9)
            case None => None
            case Some(c3) =>
              var cp := (b - 0xF0) * 262144 + c1 * 4096 + c2 * 64 + c3;
              if cp < 0x10000 || !IsScalar(cp) then None else Some((cp as char, 12))
      else None
  }

  /** `decodeURIComponent(s)`; None where it throws a URIError. */
  function Decode(s: string): (r: Option<string>)
    decreases |s|
  {
    if |s| == 0 then Some("")
    else if s[0] != '%' then
      match Decode(s[1..])
      case None => None
      case Some(t) => Some([s[0]] + t)
    else
      match DecodeGroup(s)
      case None => None
      case Some((c, k)) =>
        match Decode(s[k..])
        case None => None
        case Some(t) => Some([c] + t)
  }

  /** A string without `%` decodes to itself. */
  lemma {:induction false} DecodePlain(s: string)
    requires '%' !in s
    ensures Decode(s) == Some(s)
    decreases |s|
  {
    if |s| > 0 {
      assert s[0] != '%';
      assert '%' !in s[1..];
      DecodePlain(s[1..]);
      DecodeHeadPlain(s);
      assert [s[0]] + s[1..] == s;
    }
  }

  /* ---------------- round trip ---------------- */

  lemma ByteAtEscape(x: string, i: nat, b: int)
    requires IsByte(b) && i + 3 <= |x| && x[i..i + 3] == EscapeByte(b)
    ensures ByteAt(x, i) == Some(b)
  {
    var h := Quot(b, 16);
    assert x[i] == '%' && x[i + 1] == HexDigit(h) && x[i + 2] == HexDigit(b - 16 * h);
    HexRoundTrip(h);
    HexRoundTrip(b - 16 * h);
  }

  lemma EscapeTwo(b0: int, b1: int)
    requires IsByte(b0) && IsByte(b1)
    ensures EscapeBytes([b0, b1]) == EscapeByte(b0) + EscapeByte(b1)
  {
    assert [b0, b1][1..] == [b1];
  }

  lemma EscapeThree(b0: int, b1: int, b2: int)
    requires IsByte(b0) && IsByte(b1) && IsByte(b2)
    ensures EscapeBytes([b0, b1, b2]) == EscapeByte(b0) + EscapeByte(b1) + EscapeByte(b2)
  {
    assert [b0, b1, b2][1..] == [b1, b2];
    EscapeTwo(b1, b2);
  }

  /** The escape group written for a reserved character decodes back to it. */
  lemma GroupOfEncoded(c: char, rest: string)
    requires !IsUnreserved(c)
    ensures DecodeGroup(EncodeChar(c) + rest) == Some((c, |EncodeChar(c)|))
  {
    var n := c as int;
    if n < 0x80 {
      GroupOne(c, rest);
    } else if n < 0x800 {
      GroupTwo(c, rest);
    } else if n < 0x10000 {
      GroupThree(c, rest);
    } else {
      GroupFour(c, rest);
    }
  }

  lemma GroupOne(c: char, rest: string)
    requires !IsUnreserved(c) && c as int < 0x80
    ensures DecodeGroup(EncodeChar(c) + rest) == Some((c, 3))
  {
    var x := EncodeChar(c) + rest;
    assert EncodeChar(c) == EscapeBytes([c as int]) == EscapeByte(c as int);
    assert x[0..3] == EscapeByte(c as int);
    ByteAtEscape(x, 0, c as int);
  }

  lemma GroupTwo(c: char, rest: string)
    requires 0x80 <= c as int < 0x800
    ensures DecodeGroup(EncodeChar(c) + rest) == Some((c, 6))
  {
    var b0, b1 := EncodeTwo(c);
    GroupTwoBytes(EncodeChar(c), rest, b0, b1, c as int);
  }

  lemma GroupTwoBytes(e: string, rest: string, b0: int, b1: int, n: int)
    requires 0xC0 <= b0 < 0xE0 && 0x80 <= b1 < 0xC0
    requires e == EscapeByte(b0) + EscapeByte(b1)
    requires (b0 - 0xC0) * 64 + (b1 - 0x80) == n
    requires 0x80 <= n && IsScalar(n)
    ensures DecodeGroup(e + rest) == Some((n as char, 6))
  {
    var y1 := EscapeByte(b1) + rest;
    var x := EscapeByte(b0) + y1;
    assert e + rest == x;
    ByteAtHead(b0, y1);
    ByteAtHead(b1, rest);
    ByteAtShift(EscapeByte(b0), rest, 0);
    assert ByteAt(x, 0) == Some(b0) && ByteAt(x, 3) == Some(b1);
    DecodeTwoBytes(e + rest, b0, b1, n);
  }

  /** The two octets `encodeURIComponent` writes for a character from U+0080 to U+07FF. */
  lemma EncodeTwo(c: char) returns (b0: int, b1: int)
    requires 0x80 <= c as int < 0x800
    ensures 0xC0 <= b0 < 0xE0 && 0x80 <= b1 < 0xC0
    ensures (b0 - 0xC0) * 64 + (b1 - 0x80) == c as int
    ensures EncodeChar(c) == EscapeByte(b0) + EscapeByte(b1)
  {
    var n := c as int;
    var bs := Utf8(c);
    b0, b1 := bs[0], bs[1];
    EscapeTwo(b0, b1);
  }

  lemma DecodeTwoBytes(x: string, b0: int, b1: int, n: int)
    requires ByteAt(x, 0) == Some(b0) && ByteAt(x, 3) == Some(b1)
    requires 0xC0 <= b0 < 0xE0 && 0x80 <= b1 < 0xC0
    requires (b0 - 0xC0) * 64 + (b1 - 0x80) == n
    requires 0x80 <= n && IsScalar(n)
    ensures DecodeGroup(x) == Some((n as char, 6))
  {
    assert ContinuationAt(x, 3) == Some(b1 - 0x80);
  }

  lemma GroupThree(c: char, rest: string)
    requires 0x800 <= c as int < 0x10000
    ensures DecodeGroup(EncodeChar(c) + rest) == Some((c, 9))
  {
    var b0, b1, b2 := EncodeThree(c);
    GroupThreeBytes(EncodeChar(c), rest, b0, b1, b2, c as int);
  }

  lemma GroupThreeBytes(e: string, rest: string, b0: int, b1: int, b2: int, n: int)
    requires 0xE0 <= b0 < 0xF0 && 0x80 <= b1 < 0xC0 && 0x80 <= b2 < 0xC0
    requires e == EscapeByte(b0) + EscapeByte(b1) + EscapeByte(b2)
    requires (b0 - 0xE0) * 4096 + (b1 - 0x80) * 64 + (b2 - 0x80) == n
    requires 0x800 <= n && IsScalar(n)
    ensures DecodeGroup(e + rest) == Some((n as char, 9))
  {
    var y2 := EscapeByte(b2) + rest;
    var y1 := EscapeByte(b1) + y2;
    var x := EscapeByte(b0) + y1;
    assert e + rest == x;
    ByteAtHead(b0, y1);
    ByteAtHead(b1, y2);
    ByteAtHead(b2, rest);
    ByteAtShift(EscapeByte(b0), y1, 0);
    ByteAtShift(EscapeByte(b1), y2, 0);
    ByteAtShift(EscapeByte(b0), y1, 3);
    assert ByteAt(x, 0) == Some(b0) && ByteAt(x, 3) == Some(b1) && ByteAt(x, 6) == Some(b2);
    DecodeThreeBytes(e + rest, b0, b1, b2, n);
  }

  /** The three octets written for a character from U+0800 to U+FFFF. */
  lemma EncodeThree(c: char) returns (b0: int, b1: int, b2: int)
    requires 0x800 <= c as int < 0x10000
    ensures 0xE0 <= b0 < 0xF0 && 0x80 <= b1 < 0xC0 && 0x80 <= b2 < 0xC0
    ensures (b0 - 0xE0) * 4096 + (b1 - 0x80) * 64 + (b2 - 0x80) == c as int
    ensures EncodeChar(c) == EscapeByte(b0) + EscapeByte(b1) + EscapeByte(b2)
  {
    var n := c as int;
    var bs := Utf8(c);
    b0, b1, b2 := bs[0], bs[1], bs[2];
    EscapeThree(b0, b1, b2);
  }

  lemma ByteAtHead(b: int, y: string)
    requires IsByte(b)
    ensures ByteAt(EscapeByte(b) + y, 0) == Some(b)
  {
    var x := EscapeByte(b) + y;
    assert x[0..3] == EscapeByte(b);
    ByteAtEscape(x, 0, b);
  }

  lemma ByteAtShift(e: string, y: string, i: nat)
    requires |e| == 3
    ensures ByteAt(e + y, i + 3) == ByteAt(y, i)
  {
    var x := e + y;
    if i + 3 <= |y| {
      assert x[i + 3] == y[i] && x[i + 4] == y[i + 1] && x[i + 5] == y[i + 2];
    }
  }

  lemma DecodeThreeBytes(x: string, b0: int, b1: int, b2: int, n: int)
    requires ByteAt(x, 0) == Some(b0) && ByteAt(x, 3) == Some(b1) && ByteAt(x, 6) == Some(b2)
    requires 0xE0 <= b0 < 0xF0 && 0x80 <= b1 < 0xC0 && 0x80 <= b2 < 0xC0
    requires (b0 - 0xE0) * 4096 + (b1 - 0x80) * 64 + (b2 - 0x80) == n
    requires 0x800 <= n && IsScalar(n)
    ensures DecodeGroup(x) == Some((n as char, 9))
  {
    assert ContinuationAt(x, 3) == Some(b1 - 0x80);
    assert ContinuationAt(x, 6) == Some(b2 - 0x80);
  }

  lemma GroupFour(c: char, rest: string)
    requires 0x10000 <= c as int
    ensures DecodeGroup(EncodeChar(c) + rest) == Some((c, 12))
  {
    var b0, b1, b2, b3 := EncodeFour(c);
    GroupFourBytes(EncodeChar(c), rest, b0, b1, b2, b3, c as int);
  }

  lemma GroupFourBytes(e: string, rest: string, b0: int, b1: int, b2: int, b3: int, n: int)
    requires 0xF0 <= b0 < 0xF8 && 0x80 <= b1 < 0xC0 && 0x80 <= b2 < 0xC0 && 0x80 <= b3 < 0xC0
    requires e == EscapeBytes([b0, b1, b2, b3])
    requires (b0 - 0xF0) * 262144 + (b1 - 0x80) * 4096 + (b2 - 0x80) * 64 + (b3 - 0x80) == n
    requires 0x10000 <= n && IsScalar(n)
    ensures DecodeGroup(e + rest) == Some((n as char, 12))
  {
    var bs := [b0, b1, b2, b3];
    EscapesRead(bs, rest, 0);
    EscapesRead(bs, rest, 1);
    EscapesRead(bs, rest, 2);
    EscapesRead(bs, rest, 3);
    DecodeFourBytes(e + rest, b0, b1, b2, b3, n);
  }

  /** The `j`-th escape of a run is read back, three characters per octet, as the `j`-th
      octet. */
  lemma {:induction false} EscapesRead(bs: seq<int>, rest: string, j: nat)
    requires forall i :: 0 <= i < |bs| ==> IsByte(bs[i])
    requires j < |bs|
    ensures ByteAt(EscapeBytes(bs) + rest, 3 * j) == Some(bs[j])
    decreases j
  {
    var y := EscapeBytes(bs[1..]) + rest;
    assert EscapeBytes(bs) + rest == EscapeByte(bs[0]) + y;
    if j == 0 {
      ByteAtHead(bs[0], y);
    } else {
      EscapesRead(bs[1..], rest, j - 1);
      ByteAtShift(EscapeByte(bs[0]), y, 3 * (j - 1));
    }
  }

  lemma EncodeFour(c: char) returns (b0: int, b1: int, b2: int, b3: int)
    requires 0x10000 <= c as int
    ensures 0xF0 <= b0 < 0xF8 && 0x80 <= b1 < 0xC0 && 0x80 <= b2 < 0xC0 && 0x80 <= b3 < 0xC0
    ensures (b0 - 0xF0) * 262144 + (b1 - 0x80) * 4096 + (b2 - 0x80) * 64 + (b3 - 0x80) == c as int
    ensures EncodeChar(c) == EscapeBytes([b0, b1, b2, b3])
  {
    var bs := Utf8(c);
    b0, b1, b2, b3 := bs[0], bs[1], bs[2], bs[3];
    assert bs == [b0, b1, b2, b3];
  }

  lemma DecodeFourBytes(x: string, b0: int, b1: int, b2: int, b3: int, n: int)
    requires ByteAt(x, 0) == Some(b0) && ByteAt(x, 3) == Some(b1)
    requires ByteAt(x, 6) == Some(b2) && ByteAt(x, 9) == Some(b3)
    requires 0xF0 <= b0 < 0xF8 && 0x80 <= b1 < 0xC0 && 0x80 <= b2 < 0xC0 && 0x80 <= b3 < 0xC0
    requires (b0 - 0xF0) * 262144 + (b1 - 0x80) * 4096 + (b2 - 0x80) * 64 + (b3 - 0x80) == n
    requires 0x10000 <= n && IsScalar(n)
    ensures DecodeGroup(x) == Some((n as char, 12))
  {
    assert ContinuationAt(x, 3) == Some(b1 - 0x80);
    assert ContinuationAt(x, 6) == Some(b2 - 0x80);
    assert ContinuationAt(x, 9) == Some(b3 - 0x80);
  }

  lemma DecodeHeadPlain(x: string)
    requires |x| > 0 && x[0] != '%' && Decode(x[1..]).Some?
    ensures Decode(x) == Some([x[0]] + Decode(x[1..]).value)
  {
  }

  lemma DecodeHeadGroup(x: string, c: char, k: nat)
    requires |x| > 0 && x[0] == '%' && DecodeGroup(x) == Some((c, k))
    requires Decode(x[k..]).Some?
    ensures Decode(x) == Some([c] + Decode(x[k..]).value)
  {
  }

  /** `decodeURIComponent(encodeURIComponent(s)) == s`. */
  lemma {:induction false} DecodeEncode(s: string)
    ensures Decode(Encode(s)) == Some(s)
    decreases |s|
  {
    if |s| > 0 {
      var e := EncodeChar(s[0]);
      var rest := Encode(s[1..]);
      var x := e + rest;
      assert Encode(s) == x;
      DecodeEncode(s[1..]);
      DecodeEncodedHead(s[0], rest);
      assert [s[0]] + s[1..] == s;
    }
  }

  /** One encoded character in front of decodable text decodes to that character in front. */
  lemma DecodeEncodedHead(c: char, rest: string)
    requires Decode(rest).Some?
    ensures Decode(EncodeChar(c) + rest) == Some([c] + Decode(rest).value)
  {
    var e := EncodeChar(c);
    var x := e + rest;
    if IsUnreserved(c) {
      assert x[1..] == rest;
      DecodeHeadPlain(x);
    } else {
      GroupOfEncoded(c, rest);
      assert x[|e|..] == rest;
      DecodeHeadGroup(x, c, |e|);
    }
  }
}

=== FILE: user_model.dfy ===
/** The user schema of the pets API (`src/models/User.js`): how a draft is cast, normalised
    and validated, the password hashing hook, the JSON view and the token payloads. Hashing is
    a parameter. */
module UserModel {
  import opened Wrappers
  import Strings
  import Js
  import Email

  /** The `role` enum; `Unset` is an explicit `null`, which the enum validator lets through. */
  datatype Role = Member | SuperAdmin | Unset

  function RoleValue(r: Role): Js.Value {
    match r
    case Member => Js.Str("user")
    case SuperAdmin => Js.Str("superadmin")
    case Unset => Js.Null
  }

  /** `type: String, enum: ["user", "superadmin"], default: "user"`: a missing role takes the
      default, anything else is first cast to String and the enum then judges the text;
      null passes, as the enum validator lets it through. */
  function ParseRole(v: Js.Value): (r: Option<Role>)
    ensures v.Undefined? ==> r == Some(Member)
    ensures v.Null? ==> r == Some(Unset)
    ensures !Js.IsNullish(v) ==>
      (r.Some? <==> Js.CastString(v).Some? && Js.CastString(v).value.Some?
                    && Js.CastString(v).value.value in {"user", "superadmin"})
    ensures r.Some? && !Js.IsNullish(v) ==> RoleValue(r.value) == Js.Str(Js.CastString(v).value.value)
    ensures v.Str? ==> (r.Some? <==> v.s == "user" || v.s == "superadmin")
    ensures v.Obj? && Js.HasStringId(v) ==> (r.Some? <==> Js.Get(v, "_id").s in {"user", "superadmin"})
  {
    if v.Undefined? then Some(Member)
    else match Js.CastString(v)
      case Some(Some(s)) => if s == "user" then Some(Member) else if s == "superadmin" then Some(SuperAdmin) else None
      case Some(None) => Some(Unset)
      case None => None
  }

  /** A role document with the string `_id` "user" is stored as the role "user". */
  lemma RoleDocument()
    ensures ParseRole(Js.Obj(map["_id" := Js.Str("user")])) == Some(Member)
  {
    assert Js.Get(Js.Obj(map["_id" := Js.Str("user")]), "_id") == Js.Str("user");
  }

  /** A value cast to a `String` path: absent, text, or a value that cannot be cast. */
  datatype Cast = Absent | Text(s: string) | Bad

  /** Mongoose's `String` cast: a document with a string `_id` is stored as that id, and
      only an array or any other object is refused. */
  function CastText(v: Js.Value): (r: Cast)
    ensures Js.IsNullish(v) <==> r.Absent?
    ensures v.Str? ==> r == Text(v.s)
    ensures v.Obj? && Js.HasStringId(v) ==> r == Text(Js.Get(v, "_id").s)
    ensures r.Bad? <==> v.Arr? || (v.Obj? && !Js.HasStringId(v))
  {
    match Js.CastString(v)
    case None => Bad
    case Some(None) => Absent
    case Some(Some(s)) => Text(s)
  }

  /** The `trim` setter, with `lowercase` before it for the e-mail. */
  function Normalise(c: Cast, lower: bool): (r: Cast)
    ensures c.Text? <==> r.Text?
    ensures r.Text? ==> r.s == Strings.Trim(if lower then Strings.ToLower(c.s) else c.s)
    ensures !c.Text? ==> r == c
  {
    if c.Text? then Text(Strings.Trim(if lower then Strings.ToLower(c.s) else c.s)) else c
  }

  /** `required: true` on a string: present and not empty. */
  predicate Present(c: Cast) {
    c.Text? && c.s != ""
  }

  datatype Draft = Draft(username: Js.Value, fullname: Js.Value, avatar: Js.Value,
                         email: Js.Value, password: Js.Value, role: Js.Value)

  /** `required` on a trimmed string: present and not empty once trimmed. */
  predicate TextValid(v: Js.Value) {
    Present(Normalise(CastText(v), false))
  }

  /** `lowercase`, `trim`, then `required` and `match: /^\S+@\S+\.\S+$/`. */
  predicate EmailValid(v: Js.Value) {
    var c := Normalise(CastText(v), true);
    c.Text? && Present(c) && Email.LooksLikeEmail(c.s)
  }

  /** The e-mail check is the schema's regular expression applied to the lower-cased,
      trimmed text. */
  lemma EmailValidMatches(v: Js.Value)
    ensures EmailValid(v) <==> var c := CastText(v);
      c.Text? && Email.MatchesShape(Strings.ToLower(Strings.Trim(c.s)))
  {
    var c := Normalise(CastText(v), true);
    if c.Text? {
      Strings.ToLowerTrimCommute(CastText(v).s);
      Email.LooksLikeEmailMatches(c.s);
    }
  }

  /** `required`, `minlength: 8`, `maxlength: 16`, on the untrimmed text, counted in UTF-16
      code units. */
  predicate PasswordValid(v: Js.Value) {
    var c := CastText(v);
    c.Text? && c.s != "" && 8 <= Strings.JsLength(c.s) <= 16
  }

  /** A character of the Basic Multilingual Plane is one UTF-16 code unit. */
  predicate Bmp(s: string) {
    forall i :: 0 <= i < |s| ==> s[i] as int < 0x10000
  }

  lemma {:induction false} BmpLength(s: string)
    requires Bmp(s)
    ensures Strings.JsLength(s) == |s|
  {
    if |s| > 0 {
      assert Bmp(s[1..]) by {
        forall i | 0 <= i < |s| - 1 ensures s[1..][i] as int < 0x10000 {
          assert s[1..][i] == s[i + 1];
        }
      }
      BmpLength(s[1..]);
    }
  }

  /** For text without astral characters the password bounds are 8 to 16 characters; a
      password of eight emoji is already sixteen code units long. */
  lemma PasswordBounds(s: string)
    ensures Bmp(s) ==> (PasswordValid(Js.Str(s)) <==> 8 <= |s| <= 16)
    ensures PasswordValid(Js.Str(s)) ==> 4 <= |s| <= 16
  {
    if Bmp(s) {
      BmpLength(s);
    }
  }

  /** A document-like value with a string `_id` passes as that id: registering with the
      password `{"_id": "password12"}` stores the hash of "password12". */
  lemma ObjectIdPassword()
    ensures var v := Js.Obj(map["_id" := Js.Str("password12")]);
      CastText(v) == Text("password12") && PasswordValid(v)
  {
    var v := Js.Obj(map["_id" := Js.Str("password12")]);
    assert Js.Get(v, "_id") == Js.Str("password12");
    PasswordBounds("password12");
  }

  /** Whether the draft passes every validator of the schema; when it does not, saving
      rejects it with a validation error. */
  predicate Valid(d: Draft) {
    && TextValid(d.username) && TextValid(d.fullname) && TextValid(d.avatar)
    && EmailValid(d.email) && PasswordValid(d.password) && ParseRole(d.role).Some?
  }

  /** A stored user; `password` holds the hash. */
  datatype User = User(id: string, username: string, fullname: string, avatar: string,
                       email: string, password: string, role: Role)

  /** Creating a user: a draft that fails a validator is refused; a valid one is stored with
      its normalised fields, its role (the default when none is given), and its password
      hashed by the save hook, since a new password is a modified one. */
  function Create(d: Draft, id: string, hash: string -> string): (r: Option<User>)
    ensures r.Some? <==> Valid(d)
    ensures r.Some? ==> r.value.id == id && r.value.password == hash(CastText(d.password).s)
    ensures r.Some? ==> Some(r.value.role) == ParseRole(d.role)
  {
    if !Valid(d) then None
    else
      Some(User(id, NormalText(d.username), NormalText(d.fullname), NormalText(d.avatar),
                NormalEmail(d.email), PreSaveHash(CastText(d.password).s, hash),
                ParseRole(d.role).value))
  }

  /** A created user's e-mail is the lower-cased, trimmed input and has the e-mail shape; its
      name is the trimmed input, non-empty and free of surrounding white space. */
  lemma CreateNormalises(d: Draft, id: string, hash: string -> string)
    requires Valid(d)
    ensures var u := Create(d, id, hash).value;
      && Email.MatchesShape(u.email)
      && u.email == Strings.ToLower(Strings.Trim(CastText(d.email).s))
      && u.username == Strings.Trim(CastText(d.username).s)
      && u.username != "" && Strings.Trim(u.username) == u.username
  {
    Email.LooksLikeEmailMatches(Create(d, id, hash).value.email);
    Strings.TrimIdempotent(CastText(d.username).s);
  }

  /** A name that is already trimmed is stored as given. */
  lemma CreateKeepsName(d: Draft, id: string, hash: string -> string, n: string)
    requires Valid(d) && d.username == Js.Str(n) && Strings.Trim(n) == n
    ensures Create(d, id, hash).value.username == n
  {
  }

  /** An e-mail that is already trimmed and lower-case is stored as given. */
  lemma CreateKeepsEmail(d: Draft, id: string, hash: string -> string, e: string)
    requires Valid(d) && d.email == Js.Str(e) && Strings.ToLower(Strings.Trim(e)) == e
    ensures Create(d, id, hash).value.email == e
  {
  }

  /** The stored form of a valid `trim` field. */
  function NormalText(v: Js.Value): (t: string)
    requires TextValid(v)
    ensures t != "" && t == Strings.Trim(CastText(v).s)
  {
    Normalise(CastText(v), false).s
  }

  /** The stored form of a valid e-mail. */
  function NormalEmail(v: Js.Value): (e: string)
    requires EmailValid(v)
    ensures Email.LooksLikeEmail(e)
    ensures e == Strings.ToLower(Strings.Trim(CastText(v).s))
  {
    Strings.ToLowerTrimCommute(CastText(v).s);
    Normalise(CastText(v), true).s
  }

  function PreSaveHash(password: string, hash: string -> string): string {
    hash(password)
  }

  /** The `pre("save")` hook: the password is rehashed only when it was modified. */
  function Save(u: User, passwordModified: bool, hash: string -> string): (r: User)
    ensures !passwordModified ==> r == u
    ensures passwordModified ==> r == u.(password := hash(u.password))
  {
    if passwordModified then u.(password := hash(u.password)) else u
  }

  /** A document as the database returns it, the hidden password included only when asked
      for with `select("+password")`. */
  function Document(u: User, withPassword: bool): (r: map<string, Js.Value>)
    ensures "_id" in r && r["_id"] == Js.Str(u.id)
    ensures "password" in r <==> withPassword
  {
    var fields := map["_id" := Js.Str(u.id), "username" := Js.Str(u.username),
                      "fullname" := Js.Str(u.fullname), "avatar" := Js.Str(u.avatar),
                      "email" := Js.Str(u.email), "role" := RoleValue(u.role)];
    if withPassword then fields["password" := Js.Str(u.password)] else fields
  }

  /** The `toJSON` transform: `id` takes the value of `_id`, and `_id` and `password` go. */
  function ToJson(doc: map<string, Js.Value>): (r: map<string, Js.Value>)
    ensures "_id" !in r && "password" !in r
    ensures "id" in r && r["id"] == (if "_id" in doc then doc["_id"] else Js.Undefined)
    ensures r.Keys == doc.Keys - {"_id", "password"} + {"id"}
    ensures forall k :: k in doc && k != "_id" && k != "password" && k != "id" ==> r[k] == doc[k]
  {
    (doc - {"_id", "password"})["id" := if "_id" in doc then doc["_id"] else Js.Undefined]
  }

  /** The JSON view of a user never shows the password, whether or not it was selected, and
      shows the id under `id`. */
  lemma JsonHidesPassword(u: User, withPassword: bool)
    ensures var j := ToJson(Document(u, withPassword));
      "password" !in j && "_id" !in j && j["id"] == Js.Str(u.id) && j["email"] == Js.Str(u.email)
      && j == ToJson(Document(u, !withPassword))
  {
    var d1 := Document(u, withPassword);
    var d2 := Document(u, !withPassword);
    assert d1 - {"_id", "password"} == d2 - {"_id", "password"};
  }

  /** The claims of an access token. */
  function AccessPayload(u: User): (r: Js.Value)
    ensures r.Obj? && r.fields.Keys == {"_id", "email", "username", "fullname", "role"}
    ensures Js.Get(r, "_id") == Js.Str(u.id)
  {
    Js.Obj(map["_id" := Js.Str(u.id), "email" := Js.Str(u.email), "username" := Js.Str(u.username),
               "fullname" := Js.Str(u.fullname), "role" := RoleValue(u.role)])
  }

  /** The claims of a refresh token: the id and nothing else. */
  function RefreshPayload(u: User): (r: Js.Value)
    ensures r.Obj? && r.fields.Keys == {"_id"}
    ensures Js.Get(r, "_id") == Js.Str(u.id)
  {
    Js.Obj(map["_id" := Js.Str(u.id)])
  }

  /** Across a sequence of saves only the password changes, and it ends up hashed once per
      save that marked it modified: a hash stored by one save survives any number of later
      saves that leave the password alone, while a second modified save hashes the hash. */
  lemma SaveKeepsHash(u: User, hash: string -> string, later: nat)
    ensures SaveAll(Save(u, true, hash), seq(later, _ => false), hash) == u.(password := hash(u.password))
    ensures Save(Save(u, true, hash), true, hash).password == hash(hash(u.password))
    ensures Save(Save(u, true, hash), true, hash).(password := u.password) == u
  {
    assert Modified(seq(later, _ => false)) == 0 by {
      NoneModified(seq(later, _ => false));
    }
  }

  /** How many of a sequence of saves marked the password modified. */
  function Modified(marks: seq<bool>): nat {
    if marks == [] then 0 else (if marks[0] then 1 else 0) + Modified(marks[1..])
  }

  lemma {:induction false} NoneModified(marks: seq<bool>)
    requires forall i :: 0 <= i < |marks| ==> !marks[i]
    ensures Modified(marks) == 0
  {
    if marks != [] {
      NoneModified(marks[1..]);
    }
  }

  /** `hash` applied `k` times. */
  function Rehash(hash: string -> string, k: nat, p: string): string {
    if k == 0 then p else Rehash(hash, k - 1, hash(p))
  }

  /** A sequence of saves, each marking the password modified or not: every field but the
      password is kept, and the password is hashed once for every save that modified it. */
  function SaveAll(u: User, marks: seq<bool>, hash: string -> string): (r: User)
    ensures r.(password := u.password) == u
    ensures r.password == Rehash(hash, Modified(marks), u.password)
    ensures Modified(marks) == 0 ==> r == u
    decreases |marks|
  {
    if marks == [] then u else SaveAll(Save(u, marks[0], hash), marks[1..], hash)
  }
}

=== FILE: wrappers.dfy ===
/** Optional values, used wherever the source returns `null`/`undefined` or a lookup can miss. */
module Wrappers {

  datatype Option<+T> = None | Some(value: T) {

    /** Returns the value in Some, or `default` when None. */
    function GetOr(default: T): T {
      match this
      case Some(v) => v
      case None => default
    }
  }
}
